=== FILE: README.md ===
# A verified model of the colour-scheme renderer

The tool renders Jinja templates once per colour scheme, and once per swatch for templates whose name carries the `SWATCH` marker. A scheme is a TOML file holding a palette of named swatches and an assignment of roles to swatches or to other roles. The tool keeps a ledger of every file it wrote, so later runs re-render incrementally without overwriting files the user edited. The repository holds several generations of the tool side by side:

- the current one under `basel/src`;
- an earlier one under `src`;
- the configuration crate under `crates/theythemer`.

This project models the deterministic core of all three in Dafny and proves what the code promises about it.

| module | what it models |
|---|---|
| `Strategy` | the write decision: the file's ledger status and the write mode give the action |
| `Cli` | the flags, their exclusions, the write mode and the log level |
| `Extensions` | the case-insensitive extension test |
| `Ledger` | the ledger (manifest) of written files in its three generations, and the newer index |
| `Names`, `Unicode` | name validation and the ASCII-fallback filter |
| `Swatches`, `Collisions`, `Color` | swatches, palettes and the palette collision checks |
| `Variants`, `BaselRoles`, `SrcRoles`, `BaselSlots` | the role and slot vocabularies |
| `Resolution`, `BaselScheme`, `BaselLoad`, `SlotScheme`, `SlotLoad` | the generic resolver and the role and slot loaders |
| `LegacyScheme` | the oldest, memoising resolver |
| `ColorObjects`, `Context` | colour objects and the template context |
| `Render` | output paths and the render loop |
| `Directives`, `TemplateSource`, `Templates` | template directives and the template loaders |
| `Upstream`, `Placeholders`, `Hosts`, `Config` | upstream links, forge hosts and the configuration |
| `Strings`, `IndexMaps`, `Toml`, `Sorting`, `Wrappers` | the standard-library and crate behaviour the rest relies on |

Some core files repeat code that is modelled once. Their behaviour is the same as the cited original.

- `src/templates/providers.rs` is `basel/src/templates/hosts.rs` with the placeholders `{host}` and `{ref}` in place of `{domain}` and `{rev}`. `Hosts` covers both through its `Dialect`.
- `basel/src/schemes/swatches.rs` and `src/schemes/swatches.rs` repeat `Swatch::parse` and name-only swatch identity from `basel/src/swatches.rs`.
- `basel/src/schemes/load.rs` (lines 25-240) holds the same loading logic as `basel/src/schemes.rs` (lines 96-265). The rows below cite the latter.
- `basel/src/schemes/roles.rs` is not part of this model. The loader uses the role table of `basel/src/roles.rs` in its place.
- The `crate::slots` and `crate::upstream` modules used by `src/schemes.rs` are not part of this model:
  - the slot vocabulary is taken from `basel/src/slots.rs`;
  - base-URL extraction is a parameter.

The marker constants of the current tool are not defined in its `basel/src/lib.rs`. Their values come from the earlier tool:

- `.jinja` and `_`, from `src/templates.rs:17-18`;
- `SWATCH`, from `src/render.rs:75`.

Code that lies outside the tool is not re-implemented. It enters as function parameters or as values it produced:

- Unicode normalisation, transliteration and case mapping;
- SHA-256;
- the TOML and JSON codecs;
- the Jinja engine;
- globs, URLs and regular expressions;
- git;
- the file system.

Where a lemma needs a fact about such code, the fact is stated as a hypothesis. One example is `Unicode.Lawful`: NFC is idempotent, and ASCII text passes through normalisation, transliteration and case mapping unchanged.

## Model

| member | source | states |
|---|---|---|
| Strategy.ShouldWrite | basel/src/output/strategy.rs:20-27 | a decision writes the file exactly when it is a creation, re-creation, update or overwrite; a skip or a conflict writes nothing |
| Strategy.LogActionDistinct | basel/src/output/strategy.rs:29-40 | no two decisions are logged with the same verb |
| Strategy.Decide | basel/src/output/strategy.rs:54-98 | each of the six decisions holds exactly under one condition stated without the arms' order: untracked creates, a vanished file is re-created, a user edit is overwritten under Force and is a conflict under Smart, changed inputs of an unedited file update it outside Skip mode, everything else on disk is skipped |
| Strategy.NotTrackedCreates | basel/src/output/strategy.rs:58-59 | an untracked path is created in every mode |
| Strategy.MissingFileRecreated | basel/src/output/strategy.rs:60-65 | a tracked file that is gone is re-created whatever the flags and the mode |
| Strategy.UserEditOutcomes | basel/src/output/strategy.rs:66-89 | an edited file on disk is overwritten under Force, a conflict under Smart and skipped under Skip |
| Strategy.UnchangedSkipped | basel/src/output/strategy.rs:80-89 | an unedited file whose template and scheme did not change is skipped in every mode |
| Strategy.SkipModeOnlyFillsGaps | basel/src/output/strategy.rs:54-98 | Skip mode only creates or re-creates, and it writes exactly the files that are not on disk |
| Strategy.EditsClobberedOnlyByForce | basel/src/output/strategy.rs:66-79 | a user's edit is written over exactly in Force mode, and Force never reports a conflict |
| Strategy.ChangedInputsUpdate | basel/src/output/strategy.rs:90-96 | an unedited file with a changed template or scheme is updated under Smart and Force |
| Cli.WriteMode | basel/src/cli.rs:44-53 | Force exactly when `--force` or `--clean` is given; Skip exactly when only `--keep` of the three is given, Smart otherwise |
| Cli.KeepIsSkip | basel/src/cli.rs:17-53 | on a command line the parser accepts (`--clean` and `--force` conflict with `--keep`), the mode is Skip exactly when `--keep` is given and Smart exactly when none of the three is |
| Cli.KeepNeverRewrites | basel/src/cli.rs:26-53 | with `--keep`, no tracked file is overwritten or updated, edited or not |
| Cli.EditsNeedForce | basel/src/cli.rs:44-53 | a user's edit is overwritten only when `--force` or `--clean` was given |
| Cli.LogLevel | basel/src/cli.rs:56-69 | `--quiet` shows errors only; otherwise warnings and one more level per `-v`, up to everything from three on |
| Cli.LogLevelMonotone | basel/src/cli.rs:56-69 | more `-v` never shows less, and `--quiet` never shows more than without it |
| Cli.CleanStep | basel/src/cli.rs:78-88 | the output directory is removed exactly with `--clean`, when it exists, outside a dry run; a dry run only reports it |
| Cli.Run | basel/src/cli.rs:71-96 | a dry run never removes the directory, and a real clean is always followed by rendering in Force mode |
| Cli.CleanRecreates | basel/src/cli.rs:78-93 | after a real clean every tracked output is re-created and every untracked one created |
| Extensions.Extension | basel/src/extensions.rs:10-13 | the extension is the dot-free, slash-free text after the last `.` of the file name, whose stem before that dot is not empty |
| Extensions.ExtensionOfName | basel/src/extensions.rs:10-13 | a file name `stem.ext` with a non-empty stem and a dot-free `ext` has exactly `ext` as its extension |
| Extensions.CaseInsensitive | basel/src/extensions.rs:10-13 | the extension test gives the same answer for two extensions equal up to ASCII case |
| Extensions.TomlByName | basel/src/extensions.rs:15-17 | every file named `stem.toml`, in any ASCII case, is recognised as TOML |
| Color.Display | basel/src/swatches.rs:81-85 | a colour is shown as seven characters: `#` and six lower-case hex digits |
| Color.DisplayRoundTrip | basel/src/swatches.rs:110-126 | the serialized text has no upper-case letter and parses back to the same colour, so distinct colours never serialize alike |
| Collisions.Distinct | basel/src/swatches.rs:426-433 | the keys of the grouping map: each key once, exactly the keys met, in first-seen order |
| Collisions.GroupBy | basel/src/swatches.rs:426-433 | the `entry(key).or_default().push(name)` loop leaves the distinct keys in first-seen order, each holding exactly the names filed under it in input order |
| Collisions.FirstLarge | basel/src/swatches.rs:435-442 | the scan finds nothing exactly when every group is a singleton, and otherwise the first group, in key order, with two or more names |
| Collisions.FirstCollision | basel/src/swatches.rs:425-445 | a collision is reported exactly when two swatches share the derived key; it names that key with all its names, and every key met before it is unique |
| Collisions.FirstCollisionIsFirstRepeat | basel/src/swatches.rs:425-445 | the reported key is the first repeated key in first-seen order: it occurs at a position before which every key occurs nowhere else |
| Collisions.MembersLength | basel/src/swatches.rs:426-433 | a key holds names exactly when it occurs, two names when it occurs twice, and at most one when no key repeats |
| Collisions.InjectiveIffSmallGroups | basel/src/swatches.rs:435-442 | no key repeats exactly when every group holds at most one name |
| Collisions.DistinctOrder | basel/src/swatches.rs:426-433 | a key met first earlier comes earlier in the grouping map's order |
| Collisions.DistinctOfInjective | basel/src/swatches.rs:426-433 | a key list without repeats is its own list of distinct keys, so the grouping map keeps every key in place |
| Ledger.FilenameFrom | basel/src/render/manifest.rs:28-34 | the file name holds no `/`, is the whole path when the path has none, and otherwise ends the path after a `/` |
| Ledger.ParentsFrom | basel/src/render/manifest.rs:36-42 | the parents exist exactly when the path holds a `/`, and then the path is the parents, `/`, and the file name |
| Ledger.ParentsOrDot | basel/src/manifest.rs:26-28 | a path without `/` has `.` as its directory; otherwise the path is that directory, `/`, and the file name |
| Ledger.ManifestPathParts | basel/src/manifest.rs:19-28 | the ledger file `.basel/manifest.json` splits into the directory `.basel` and the file name `manifest.json` used in the error messages |
| Ledger.Hash | basel/src/manifest.rs:245-250 | a hash is `sha256:` followed by the digest of the content |
| Ledger.HashInjective | basel/src/manifest.rs:245-250 | two contents hash alike exactly when their digests agree |
| Ledger.New | basel/src/manifest.rs:145-150 | a new ledger is empty and carries the given version |
| Ledger.Serialize | basel/src/manifest.rs:98-112 | the stored array holds the entries' records in ledger order, one per entry, with the ledger's version |
| Ledger.Deserialize | basel/src/manifest.rs:114-142 | reading the array back always gives a well-formed ledger keyed by each record's own path, whose paths are the records' distinct paths in first-seen order; with distinct paths it holds one entry per record |
| Ledger.SerializeRoundTrip | basel/src/manifest.rs:98-142 | writing a well-formed ledger and reading it back gives the same ledger, order included |
| Ledger.LaterDuplicatesWin | basel/src/manifest.rs:127-137 | when the array names a path twice, the ledger keeps the last record for it; a path absent from the array is absent from the ledger |
| Ledger.LoadOrCreate | basel/src/manifest.rs:152-168 | a missing file gives an empty ledger of the current version; an unreadable file is a reading error; undecodable text is a parsing error; decodable text is deserialized |
| Ledger.Get | basel/src/manifest.rs:182-184 | a path is found exactly when the ledger tracks it |
| Ledger.Insert | basel/src/manifest.rs:186-188 | inserting reports whether the path was already tracked, keeps the version and keeps the ledger well-formed |
| Ledger.InsertThenGet | basel/src/manifest.rs:186-188 | after inserting a record its path finds that record and every other path finds what it found before |
| Ledger.Remove | basel/src/manifest.rs:190-192 | removing reports whether the path was tracked, changes nothing when it was not, drops exactly one entry when it was, and keeps the ledger well-formed |
| Ledger.RemoveThenGet | basel/src/manifest.rs:190-192 | after removing a path it is untracked and every other path finds what it found before |
| Ledger.Orphans | basel/src/manifest.rs:195-201 | the orphans are exactly the tracked paths not rendered this run |
| Ledger.OrphansAppend | basel/src/manifest.rs:195-201 | the orphan filter keeps the ledger's order: filtering a concatenation concatenates the filtered parts |
| Ledger.FindOrphans | basel/src/manifest.rs:195-201 | a path is an orphan exactly when the ledger tracks it and it was not rendered |
| Ledger.MakeEntry | basel/src/manifest.rs:228-242 | the record names the path, template and scheme and holds the hashes of the written content, the template source and the scheme's JSON; it fails exactly when the scheme cannot be serialized |
| Ledger.CheckFile | basel/src/manifest.rs:203-226 | an untracked path is NotTracked; for a tracked one the file exists unless absent, it is user-modified exactly when it is readable and its hash differs from the recorded one, and the template and scheme changed exactly when their hashes differ |
| Ledger.UntouchedOutputIsSkipped | basel/src/manifest.rs:203-242 | right after recording a written file, checking the same content and inputs finds nothing changed, and the decision is to skip it in every mode |
| Ledger.EditDetected | basel/src/manifest.rs:203-242 | with a collision-free digest, any edit to a recorded file is reported as a user modification |
| Ledger.LedgerFile | src/manifest.rs:120-122 | the ledger file lives directly in `.theymer` under its own file name |
| Ledger.CheckStatus | src/manifest.rs:125-148 | a present but unreadable output is an error; a missing output is unmodified; a readable one is modified exactly when its hash differs; the dependency test's error or answer is passed through |
| Ledger.DependencyChanged | basel/src/render/index.rs:21-24 | a changed template answers true without hashing the scheme; otherwise the answer is whether the scheme's hash changed, and an unserializable scheme is an error |
| Ledger.IndexCheck | basel/src/render/index.rs:11-25 | the index check reports NotTracked for an untracked path, and otherwise existence, modification and the combined dependency change as the two earlier functions define them |
| Ledger.IndexAgreesWithCheckFile | basel/src/render/index.rs:11-25 | on a readable or missing file, the index check agrees with the ledger's check, the two change flags folded into one |
| Ledger.UntouchedIndexEntryIsClean | basel/src/render/index.rs:11-41 | right after creating an index entry, checking the same content and inputs reports the file present, unmodified and with no dependency change |
| Names.ReservedStem | basel/src/swatches.rs:129-134 | the part compared against the device names is a prefix of the name, and is the whole name when the name has no `.` |
| Names.ReservedRulesAgree | basel/src/swatches.rs:129-134 | for a name without `.`, the whole-name rule of `names.rs` and the before-the-first-dot rule of `swatches.rs` reserve the same names |
| Names.NormalizeAndValidate | basel/src/names.rs:49-92 | a name is accepted exactly when its NFC form is non-empty, all letters, digits, `-` or `_`, at most 255 bytes and not a reserved device name; the result is that NFC form; each failure names the first check that fails, with the caller's context and the original name |
| Names.NormalizeRulesAgree | basel/src/swatches.rs:140-178 | the swatch validator and the name validator give the same result on every input, because a name that passes the character check holds no `.` |
| Names.ValidateSetAscii | basel/src/names.rs:94-106 | a user-set fallback name is accepted exactly when it is all ASCII, and is otherwise refused as non-ASCII |
| Names.ParseDisplay | basel/src/names.rs:216-240 | parsing a display name succeeds exactly when the name validator accepts it, and keeps the NFC form |
| Names.ParseAscii | basel/src/names.rs:270-279 | parsing an ASCII name succeeds exactly when the name is valid and its NFC form is all ASCII; a valid non-ASCII name is refused as non-ASCII |
| Names.ParseDisplayStable | basel/src/names.rs:232-246 | parsing the displayed text of a parsed name gives the same name back |
| Names.SepFor | basel/src/names.rs:157-180 | every character that is not an ASCII letter or digit is mapped to a separator, and `-` and `_` map to themselves |
| Names.Filter | basel/src/names.rs:149-182 | the filtered text uses only ASCII letters, digits, `-` and `_`, never has two separators in a row, is no longer than its input, keeps a leading letter or digit, and is non-empty whenever the input is and no separator came just before |
| Names.TrimStartSeps | basel/src/names.rs:184 | trimming the front removes exactly the leading run of `-` and `_`: the result is a suffix of the input that does not start with a separator |
| Names.TrimEndSeps | basel/src/names.rs:184 | trimming the back removes exactly the trailing run of `-` and `_`: the result is a prefix of the input that does not end with a separator |
| Names.TrimSeps | basel/src/names.rs:184 | the trimmed text neither starts nor ends with a separator, and trimming keeps the text clean |
| Names.Sanitize | basel/src/names.rs:149-184 | the fallback text uses only filename-safe characters, has no separator runs, and no separator at either end |
| Names.FilterFixesClean | basel/src/names.rs:149-182 | already clean text passes through the filter unchanged |
| Names.TrimSepsFixesTrimmed | basel/src/names.rs:184 | text without separators at its ends is left unchanged by trimming |
| Names.SanitizeIdempotent | basel/src/names.rs:149-184 | sanitising twice is the same as sanitising once |
| Names.ValidateAutoAscii | basel/src/names.rs:108-144 | a generated fallback passes exactly when it is at most 255 bytes, not reserved and does not end with `.`; a failure carries the display name and the fallback |
| Names.SanitizedNeverEndsWithDot | basel/src/names.rs:132-141 | a sanitised fallback never ends with `.`, so that check cannot fire on generated fallbacks |
| Names.ToAscii | basel/src/names.rs:146-199 | a fallback is produced exactly when the transliterated, sanitised text is non-empty, at most 255 characters and not reserved; it is then that text, all ASCII; an empty result is refused as having no valid characters |
| Names.CleanIsAscii | basel/src/names.rs:149-182 | filtered text is ASCII, so its byte length is its character count |
| Names.ToAsciiParsesAsAscii | basel/src/names.rs:220-279 | a generated fallback is accepted unchanged by the ASCII-name parser |
| Names.ToAsciiIdempotent | basel/src/names.rs:146-199 | generating the fallback of a fallback gives the same fallback back |
| Names.ParseValidated | src/schemes/names.rs:252-305 | parsing a domain-tagged name succeeds exactly when the name validator accepts it and, for the ASCII kind, the NFC form is all ASCII; the value is the NFC form tagged with the domain and kind |
| Names.ValidatedRoundTrip | src/schemes/names.rs:273-293 | deserialising the serialised string of a validated name gives the same value back |
| Names.ValidatedToAscii | src/schemes/names.rs:241-250 | a Unicode name has a fallback exactly when the generator succeeds on it, and the fallback is ASCII-kind in the same domain |
| Names.ValidatedToAsciiParses | src/schemes/names.rs:241-250 | the fallback of a Unicode name is accepted unchanged by the ASCII-kind parser |
| Swatches.ParseColor | basel/src/swatches.rs:101-107 | a colour text is accepted exactly when the hex parser accepts it, giving that colour; otherwise the error carries the text |
| Swatches.NameResult | basel/src/swatches.rs:180-187 | a name result passes through unchanged on success and its error is wrapped as a name error |
| Swatches.ParseSwatch | basel/src/swatches.rs:345-387 | an invalid key fails with the name error; a value that is neither string nor table, or a table without a string `hex`, fails with the matching structure error; a parsed swatch is named by the key's NFC form, has the colour its hex text parses to, and has the explicit `ascii` (when valid) or else the generated fallback as its ASCII name |
| Swatches.ParsedAsciiIsValid | basel/src/swatches.rs:366-370 | whichever way it was obtained, a parsed swatch's ASCII name is a valid name and all ASCII |
| Swatches.Lookup | basel/src/swatches.rs:405-423 | looking a palette up by display name finds nothing exactly when no swatch has that name, and otherwise finds a swatch of the palette with that name |
| Swatches.Insert | basel/src/swatches.rs:405-417 | inserting a swatch whose name is already present leaves the palette unchanged; otherwise it is appended |
| Swatches.ParseEntries | basel/src/schemes.rs:225-230 | the palette's names are pairwise distinct and are the table keys' NFC forms with repeats dropped, in first-occurrence order |
| Swatches.FirstKeyWins | basel/src/schemes.rs:225-230 | for each name, the palette holds the swatch parsed from the first key with that name |
| Swatches.CheckAsciiCollisions | basel/src/swatches.rs:425-445 | the check passes exactly when no two swatches share an ASCII name; a failure reports the first repeated ASCII name in palette order (every swatch before its first holder has an ASCII name no other swatch has) with all its (more than one) display names, in palette order |
| Swatches.CheckCaseCollisions | basel/src/swatches.rs:447-469 | the check passes exactly when no two swatch names lower-case to the same text; a failure reports every name of the first lower-cased group in palette order (every swatch before its first member lower-cases uniquely), more than one name |
| Swatches.ParsePalette | basel/src/schemes.rs:216-236 | a non-table value is refused; a parsed palette is the distinct NFC keys in order, with pairwise distinct display names, ASCII names and lower-cased names; a case collision is only reported once the ASCII check has passed |
| Swatches.SwatchName | basel/src/schemes/swatches.rs:112-153 | whichever branch parses the value, the swatch's display name is the NFC form of its key |
| Swatches.LookupNew | src/schemes/swatches.rs:174-192 | a swatch inserted under a name the palette lacks is the one a lookup by that name then finds |
| Placeholders.Fill | basel/src/output/upstream.rs:150-153 | filling a placeholder turns exactly the holes with that name into the value and leaves every other piece as it was |
| Placeholders.ReplaceFills | basel/src/output/upstream.rs:150-153 | `str::replace` of `{name}` on a pattern's text is the text of the pattern with those holes filled, as long as no literal text or value holds a `{`; the filled pattern keeps that shape |
| Upstream.StylePieces | basel/src/output/upstream.rs:111-116 | every link layout is well formed: its literal text holds no `{` |
| Upstream.Pattern | basel/src/output/upstream.rs:112-115 | each of the four pattern strings is `{base}`, its forge's separator, `{branch}`, `/` and `{file}` |
| Upstream.PatternTexts | basel/src/output/upstream.rs:112-115 | the four pattern constants differ only in the separator between `{base}` and `{branch}/{file}` |
| Upstream.InferUrlPattern | basel/src/output/upstream.rs:111-132 | the inferred pattern is the layout of the forge the host names |
| Upstream.GitLabSubdomain | basel/src/output/upstream.rs:117-124 | every subdomain of `gitlab.com` gets the GitLab layout |
| Upstream.SelfHostedStyles | basel/src/output/upstream.rs:122-130 | an unknown host with `gitea` in its name and nothing GitLab-like gets the Gitea layout, any other unknown host the GitHub one |
| Upstream.LinkPath | basel/src/output/upstream.rs:141 | the path in a link holds no backslash, and gains no `{` |
| Upstream.BuildUrl | basel/src/output/upstream.rs:135-156 | the link is the override pattern, or else the host's layout, with the remote URL, the override branch or else the default branch, and the link path substituted in that order |
| Upstream.SubstituteFills | basel/src/output/upstream.rs:150-153 | the three chained replacements fill the `base`, `branch` and `file` holes of any well-formed pattern with their values |
| Upstream.BuildUrlInferred | basel/src/output/upstream.rs:135-156 | without a pattern override the link is the remote URL, the host's separator, the branch, `/` and the link path |
| Upstream.ExtractWith | basel/src/output/upstream.rs:159-168 | nothing is recovered exactly when no separator occurs; otherwise the result is the text before the first occurrence of the first separator in list order that occurs |
| Upstream.ExtractBaseUrl | basel/src/output/upstream.rs:159-168 | the recovered base is a prefix of the link, and none is recovered exactly when no separator occurs |
| Upstream.ExtractAfterBuild | basel/src/output/upstream.rs:159-168 | from a GitHub, Gitea or Bitbucket link the base comes back, but from a GitLab link the base followed by `/-` comes back |
| Upstream.GitLabSeparatorIsDead | basel/src/output/upstream.rs:160 | the `/-/blob/` separator never decides the result: dropping it from the list changes nothing |
| Upstream.GitLabBaseKeepsDash | basel/src/output/upstream.rs:159-168 | the link `r/-/blob/m/f` gives back `r/-`, not the base `r` |
| Upstream.ExtractBaseUrlOrdered | basel/src/output/upstream.rs:159-168 | with the GitLab separator tried first, the recovered base is a prefix of the link, and none is recovered exactly when no separator occurs |
| Upstream.ExtractOrderedAfterBuild | basel/src/output/upstream.rs:159-168 | with the GitLab separator tried first, a link of every layout gives back its base |
| Upstream.BuildSpecial | basel/src/render.rs:180-214 | no repository gives no links; otherwise the file link is the built link and the repository link, recovered by `extract_base_url` in the source's separator order, is a prefix of it when present |
| Upstream.RepoLinkIsRemote | basel/src/render.rs:204-214 | without overrides, a rendered file's repository link is the remote URL itself on GitHub, Gitea and Bitbucket layouts, and the remote URL followed by `/-` on a GitLab layout |
| Upstream.BuildSpecialOrdered | basel/src/render.rs:180-214 | the links of a render with the corrected separator order: the same file link, and a repository link that is a prefix of it |
| Upstream.RepoLinkIsRemoteOrdered | basel/src/render.rs:204-214 | with the corrected order, the repository link is the remote URL itself for every layout |
| Hosts.ResolveHost | basel/src/templates/hosts.rs:45-67 | a host resolves exactly when its domain compiles as a glob and both layouts are present, keeping its domain, layouts and branch; otherwise the glob error comes first, then the missing `blob_path`, then the missing `raw_path` |
| Hosts.LeqTotal | basel/src/templates/hosts.rs:85-90 | specificities compare as a total order: any two are comparable, and two that compare both ways are equal |
| Hosts.LeqTransitive | src/templates/providers.rs:85-90 | the specificity order is transitive |
| Hosts.CountLiterals | basel/src/templates/hosts.rs:176-179 | the literal count is at most the pattern length, and equals it exactly when the pattern holds no glob syntax |
| Hosts.Specificity | basel/src/templates/hosts.rs:164-185 | a pattern's label count is its dots plus one; an exact domain scores `usize::MAX` literals and no wildcards, any other pattern at most its length in literals and at least one wildcard |
| Hosts.MoreLabelsOutrank | src/templates/providers.rs:164-185 | a pattern with more labels is strictly more specific, whatever else the patterns hold |
| Hosts.ExactOutranksGlob | basel/src/templates/hosts.rs:164-185 | with as many labels, an exact domain is strictly more specific than any pattern with wildcards |
| Hosts.InsertDesc | basel/src/templates/hosts.rs:85-90 | inserting into a sequence sorted most specific first keeps it sorted, adds exactly the element, and puts it after the elements of equal specificity |
| Hosts.SortDesc | basel/src/templates/hosts.rs:85-90 | the stable sort orders most specific first, is a permutation, and keeps elements of equal specificity in their original order |
| Hosts.ResolveAll | basel/src/templates/hosts.rs:80-83 | every host resolves, in order, exactly when each does; otherwise the error is that of the first host that fails |
| Hosts.Resolve | basel/src/templates/hosts.rs:79-93 | the table fails exactly when some host fails, with the first failure's error; otherwise it is the resolved hosts, most specific first, as a permutation that keeps hosts of equal specificity in configured order |
| Hosts.DefaultsResolve | crates/theythemer/src/config.rs:136-163 | the four default hosts all resolve whenever their domains compile as globs |
| Hosts.ExactBeforeGlob | src/templates/providers.rs:79-93 | in a resolved table, an exact domain comes before every wildcard pattern with as many labels |
| Hosts.FirstWhere | basel/src/templates/hosts.rs:187-195 | the position found is the first whose element satisfies the test, and none is found exactly when no element does |
| Hosts.FindMatching | basel/src/templates/hosts.rs:187-195 | a domain listed verbatim picks its first verbatim entry anywhere in the table; otherwise the first entry whose glob matches is picked, and none exactly when no glob matches |
| Hosts.ExactEntryWins | src/templates/providers.rs:187-195 | a verbatim entry is picked even when a pattern earlier in the table also matches |
| Hosts.Lookup | basel/src/templates/hosts.rs:234-241 | a placeholder has a value exactly when it is one of the named placeholders |
| Hosts.FillAll | basel/src/templates/hosts.rs:234-241 | filling from the name list turns each named hole into its value and leaves every other piece as it was |
| Hosts.FillAllFills | basel/src/templates/hosts.rs:234-241 | when every hole of a layout is named, filling leaves no hole |
| Hosts.ApplyFills | basel/src/templates/hosts.rs:234-241 | on a well-formed layout with brace-free values, the chained replacements are the layout with its holes filled |
| Hosts.LinkFills | basel/src/templates/hosts.rs:145-147 | a link is `https://` and the layout with every one of its five placeholders filled, leaving no hole |
| Hosts.BuildBlob | basel/src/templates/hosts.rs:116-148 | a blob link is built exactly when the URL has a host, the host a table entry, and the URL an owner and repository; the error follows the same order; the link is the chosen entry's blob layout filled with domain, owner, repository, revision and path |
| Hosts.ResolveBlob | basel/src/templates/hosts.rs:95-114 | a raw link is built exactly when the URL parses, has a host, the host a table entry, and the path the blob shape; the link is the entry's raw layout filled with the captured pieces |
| Hosts.ExtractRepoUrl | basel/src/templates/hosts.rs:150-162 | a repository link is produced exactly when the URL parses, its path has the blob shape and it has a host, and it is `https://<host>/<owner>/<repo>`; an unparsable URL and a path without the blob shape are reported as such, and a URL without a host reaches the panicking `expect` |
| Hosts.RepoUrlPrefixesBlob | basel/src/templates/hosts.rs:150-162 | the repository link recovered from a blob link `https://domain/owner/repo...` is `https://domain/owner/repo`, a prefix of that blob link |
| Hosts.DefaultBlobTexts | crates/theythemer/src/config.rs:136-163 | every default blob layout is `{domain}/{owner}/{repo}`, its forge's separator, `{rev}/{file}` |
| Hosts.BlobLayoutLink | basel/src/templates/hosts.rs:138-147 | such a layout gives the link `https://domain/owner/repo`, the separator, `rev/file` |
| Hosts.DomainPicksItself | basel/src/templates/hosts.rs:187-195 | in a resolved table with distinct domains, each listed domain picks its own entry |
| Hosts.ChosenBlobLink | basel/src/templates/hosts.rs:116-148 | a URL on a listed domain of such a table gets that entry's blob layout, filled in |
| Hosts.DefaultTableBlobLink | basel/src/templates/hosts.rs:116-148 | with the default table, a URL on a default host gets `https://domain/owner/repo`, that forge's separator, `rev/path` |
| Config.DefaultHosts | crates/theythemer/src/config.rs:136-163 | there are four default hosts, each with both layouts and no branch |
| Config.DefaultDomainsDistinct | crates/theythemer/src/config.rs:136-163 | the four default hosts name four different domains |
| Config.MergeWith | crates/theythemer/src/config.rs:95-105 | a merged host keeps the overriding host's domain and every field the overriding host sets, and has each optional field exactly when either host has it |
| Config.MergeAssociative | crates/theythemer/src/config.rs:95-105 | merging is associative, so layering overrides one after another is merging the overrides first |
| Config.MergeSelf | crates/theythemer/src/config.rs:95-105 | a host merged with itself is unchanged |
| Config.Layer | crates/theythemer/src/config.rs:171-179 | a domain has a host after the user's entries exactly when it had one before or some entry names it |
| Config.NewDomains | crates/theythemer/src/config.rs:171-179 | the domains added to the table are exactly the user's domains that were not known, each once |
| Config.MergeStep | crates/theythemer/src/config.rs:171-179 | one user host keeps the table well formed and keyed by domain, and adds its domain at the end only when it was not there |
| Config.MergeInto | crates/theythemer/src/config.rs:171-179 | layering the user's hosts keeps the table well formed and keyed by domain, its keys being the old keys followed by the new domains in first-appearance order |
| Config.MergeIntoGet | crates/theythemer/src/config.rs:171-179 | each domain of the merged table holds its starting host with every user entry for that domain layered over it, in order |
| Config.DefaultTable | crates/theythemer/src/config.rs:166-169 | the defaults become a table keyed by domain, in their listed order |
| Config.MergedValues | crates/theythemer/src/config.rs:165-182 | the merged hosts are the table's keys in order, each once, each host being its domain's layers |
| Config.MergedPositions | crates/theythemer/src/config.rs:165-182 | merging into a table built from a host list keeps those domains first in their places, then the new domains in first-appearance order, every domain once |
| Config.MergedHosts | crates/theythemer/src/config.rs:165-182 | the default domains come first in their places, then the user's new domains in first-appearance order, every domain once, and each host is its default (if any) with every user entry for that domain layered over it in order |
| Config.LayerOfCopies | crates/theythemer/src/config.rs:171-179 | layering copies of a host over that host leaves it unchanged |
| Config.NoNewDomains | crates/theythemer/src/config.rs:171-179 | users whose domains are all known add no domain |
| Config.MergeOwnHosts | crates/theythemer/src/config.rs:165-182 | merging a table's own hosts into it again changes nothing |
| Config.DefaultsAreAFixedPoint | crates/theythemer/src/config.rs:165-182 | listing exactly the default hosts in the configuration gives the default hosts |
| Config.Parse | crates/theythemer/src/config.rs:193-199 | blank text is the default configuration; other text is accepted exactly when it decodes, giving the decoded configuration |
| Config.Join | crates/theythemer/src/config.rs:211-212 | a relative path joined onto an absolute root is absolute and ends with the relative path |
| Config.ExpandAndResolve | crates/theythemer/src/config.rs:201-215 | a path fails exactly when expansion fails; an absolute expansion is kept; a relative one is placed under the root; under an absolute root the result is absolute |
| Config.ResolveIdempotent | crates/theythemer/src/config.rs:201-215 | resolving a resolved path again gives it back when expansion leaves it alone |
| Config.Load | crates/theythemer/src/config.rs:107-134 | loading succeeds exactly when the text parses and each of the three directories expands; the directories are those three resolved paths, absolute under an absolute root; the strip directives are kept and the hosts layered over the defaults; a failure is the parse error, or else the error of the first directory, in the order schemes, templates, render, that fails |
| Config.BlankFileLoadsDefaults | crates/theythemer/src/config.rs:52-83 | an empty file gives the `#:tombi` strip directive, the three default directories under the root and exactly the default hosts |
| Directives.MapTrimAt | basel/src/directives.rs:188-194 | each trimmed piece is its original piece with the outer whitespace removed |
| Directives.JoinTrimmedIdempotent | basel/src/directives.rs:188-194 | splitting on `=`, trimming the pieces and joining them with a blank-padded `=` gives text that the same step leaves unchanged |
| Directives.TrimmedPieces | basel/src/directives.rs:188-194 | the trimmed pieces of a split on `=` hold no `=` and no outer whitespace |
| Directives.NormalizeIdempotent | basel/src/directives.rs:188-194 | normalising a normalised directive changes nothing |
| Directives.JoinTrimmedChars | basel/src/templates/directives.rs:208-215 | every character of the rebuilt directive comes from the directive or from the separator |
| Directives.CanonicalizeIdempotent | basel/src/templates/directives.rs:208-215 | canonicalising a canonical directive changes nothing, given that lower-casing produces only characters it leaves alone and fixes `=` and space |
| Directives.EquivIdempotent | basel/src/templates/directives.rs:208-215 | the stored form of a directive is a fixed point of its dialect's equivalence |
| Directives.MatchFromSound | basel/src/templates/directives.rs:84-94 | when the ordered search succeeds, the parts occur in the line in order and without overlap |
| Directives.MatchFromFinds | basel/src/templates/directives.rs:84-94 | whenever the parts can be placed in order without overlap, the ordered search succeeds |
| Directives.MatchFromComplete | basel/src/templates/directives.rs:84-94 | the ordered search succeeds exactly when the parts can be placed in order without overlap |
| Directives.EmbedsAllOccur | basel/src/templates/directives.rs:84-94 | parts placed in order each occur in the line |
| Directives.InOrderMeansEmbedded | basel/src/templates/directives.rs:84-94 | an ordered pattern matches a line exactly when its parts can be placed in it in order without overlap |
| Directives.InOrderImpliesAnyOrder | basel/src/directives.rs:88-92 | every line the ordered matcher strips, the unordered matcher strips too |
| Directives.BaselPair | basel/src/directives.rs:105-110 | a `#basel:` text yields a pair exactly when it holds `=`; the pair is the trimmed text before and after its first `=`, each trimmed |
| Directives.BaselPairShape | basel/src/directives.rs:105-110 | a directive's key holds no `=`, and key and value carry no outer whitespace |
| Directives.BaselPrefixIsComment | basel/src/directives.rs:101-105 | a line starting with `#basel:` is a comment, so it is never classified as content by the first test |
| Directives.Classify | basel/src/directives.rs:94-122 | a trimmed line fails exactly when it starts with `#basel:` and has no `=`, reporting the text after the prefix; a `#basel:` line yields its key and value; a strip-pattern comment is kept as an output directive; everything else, including blank text and `##` comments, is content |
| Directives.FirstNonBlank | basel/src/directives.rs:125 | the position found is the first non-blank line at or after the start, and there is none exactly when all those lines are blank |
| Directives.LastNonBlank | basel/src/directives.rs:129-132 | the position found is the last non-blank line, and there is none exactly when every line is blank |
| Directives.TrimBounds | basel/src/directives.rs:124-139 | the kept range starts and ends on non-blank lines, everything outside it is blank, and it is empty only when every line is blank |
| Directives.TrimEnds | basel/src/directives.rs:124-139 | a template of blank lines only has empty text |
| Directives.TrimBoundsIdempotent | basel/src/directives.rs:124-139 | trimming the kept lines keeps all of them |
| Directives.TrimEndsIdempotent | basel/src/directives.rs:124-139 | trimming trimmed lines gives the same text |
| Directives.Keep | basel/src/directives.rs:150-163 | the kept lines are exactly the lines that pass the test, no more |
| Directives.ClassifyAll | basel/src/directives.rs:150-152 | every line classified, in order, exactly when each line classifies; otherwise the error of the first failing line |
| Directives.Tally | basel/src/directives.rs:150-163 | the output directives are each stored once, in their dialect's form, and are exactly those of the lines classified as output directives; the recorded pairs are exactly those of the `#basel:` lines |
| Directives.TallyLastWins | basel/src/directives.rs:154-156 | a later `#basel:` line with the same key overrides an earlier one |
| Directives.StyleFold | basel/src/directives.rs:46-74 | the colour style is names exactly when the last `render_swatch_names` value is `true` (or, with none, when it already was); likewise for text and `render_as_ascii` |
| Directives.ParseStyle | basel/src/directives.rs:46-74 | a template renders names exactly when its last `render_swatch_names` value is `true`, and ASCII exactly when its last `render_as_ascii` value is `true` |
| Directives.FromTemplate | basel/src/directives.rs:141-186 | reading a template succeeds exactly when every line classifies, with the first failure otherwise; the output directives are stored once each, in stable dialect form, exactly from the lines classified as such; the text is the content lines, in order, with blank lines trimmed at both ends |
| Directives.StoredFormIsStable | basel/src/templates/directives.rs:168-170 | under a lawful dialect every stored output directive is already in its dialect's form |
| Directives.OutputLineOfTemplate | basel/src/directives.rs:157-159 | every output-directive line of a template is stored, in its trimmed text's dialect form |
| Directives.NoDirectivesKeepsText | basel/src/directives.rs:141-176 | a template without directive lines keeps the default style, has no output directives, and loses only its blank first and last lines |
| Directives.TallyAllContent | basel/src/directives.rs:160-162 | content lines add nothing to either accumulator |
| Directives.LastSwatchNamesLineDecides | basel/src/directives.rs:46-74 | the last `render_swatch_names` line of a template decides its colour style: names exactly when its value is `true` |
| Directives.HeaderLines | basel/src/directives.rs:196-210 | the header lines are sorted without repeats, and are the output directives plus the tombi line that turns formatting off, added exactly for a TOML output without an equivalent line |
| Directives.MakeHeader | basel/src/directives.rs:196-217 | the header is empty exactly when there are no output directives and the output is not TOML; otherwise it ends with a blank line |
| Directives.HeaderOrderIndependent | basel/src/directives.rs:196-217 | the header depends only on the set of output directives, not on the order the set is held in |
| Directives.SameHeaderLines | basel/src/directives.rs:196-210 | two holdings of the same set of directives give the same header lines |
| Directives.SameEquivalents | basel/src/directives.rs:200-205 | whether some directive is equivalent to a line depends only on the set of directives |
| Directives.TomlHeaderDisablesFormatting | basel/src/templates/directives.rs:217-249 | every TOML output's header holds a line equivalent to the tombi line that turns formatting off |
| Templates.Items | basel/src/templates.rs:47 | only a non-iterable value yields no items; a sequence yields its own items, a string one item per character |
| Templates.AnyNamed | basel/src/templates.rs:48-54 | the loop finds a match exactly when some item is the string being tested |
| Templates.SetTest | basel/src/templates.rs:34-63 | a non-string argument is an invalid-operation error, a missing `_set` an undefined error, and otherwise the test holds exactly when iterating `_set` meets the argument |
| Templates.SetTestIsMembership | src/templates.rs:82-112 | over the `_set` list the context builders store, the test is plain membership among the names |
| Templates.ScalarSetIsFalse | basel/src/templates.rs:45-57 | a `_set` that cannot be iterated makes the test false rather than an error |
| Templates.TemplateName | basel/src/templates.rs:75-84 | a template name never holds a backslash |
| Templates.PortableNameUnchanged | basel/src/templates.rs:75-84 | a relative path already written with `/` is its own template name |
| Templates.LoadAll | basel/src/templates.rs:65-113 | after a successful walk the engine and the directives map hold the same names, and these are exactly the names of the selected files; a failed walk reports the error of a selected file, its processing error or its compile error |
| Templates.InsertKeys | basel/src/templates.rs:105-108 | storing a name in both maps keeps their key lists equal and adds exactly that name |
| Templates.WithDirectives | basel/src/templates.rs:135-149 | the pairing succeeds exactly when every engine template has directives, keeps the engine's order, and otherwise reports an internal bug naming a template that has none |
| Templates.LoadedTemplatesHaveDirectives | basel/src/templates.rs:105-108 | after a successful load the internal-bug error of the pairing cannot arise |
| Templates.ProcessWith | basel/src/templates.rs:91-103 | a template fails exactly when its directives fail to parse, and the error names the template and its path |
| Templates.Load | basel/src/templates.rs:65-133 | after a successful load the templates are exactly the Jinja files' names, each with its directives; a failed load stops at a Jinja file whose directives do not parse, reported against its name and path, or whose filtered source does not compile |
| Templates.DirectiveErrorAborts | basel/src/templates.rs:91-103 | the first file whose directives fail aborts the whole load with that file's error |
| TemplateSource.LinePair | src/template.rs:26-38 | a line gives a pair exactly when its trimmed text starts with `#basel:` and an `=` follows |
| TemplateSource.SomesMember | src/template.rs:28-35 | a pair is collected exactly when some line gives it |
| TemplateSource.SomesLastWins | src/template.rs:28-35 | the last line that sets a key decides its value |
| TemplateSource.SomesUnsetKey | src/template.rs:28-35 | a key no line sets stays absent |
| TemplateSource.ParseDirectives | src/template.rs:26-38 | the map holds each key once, with the value of the last line that sets it |
| TemplateSource.ParseLastWins | src/template.rs:26-38 | a later `#basel:` line for the same key overrides an earlier one |
| TemplateSource.ParseUnsetKey | src/template.rs:26-38 | a key no `#basel:` line sets is absent from the map |
| TemplateSource.AgreesWithClassify | src/template.rs:26-38 | where the later, stricter reader accepts a `#basel` pair this reader reads the same pair, and where it rejects a line this reader ignores it |
| TemplateSource.NoPairsNoDirectives | src/template.rs:26-38 | a template without a `#basel:` pair has an empty directives map |
| TemplateSource.PairLinesAreDropped | src/template.rs:56-77 | every line that contributes a directive is removed from the source |
| TemplateSource.FilterDirectives | src/template.rs:68-77 | a source without directive lines only has its line endings normalised |
| TemplateSource.FilteredLines | src/template.rs:68-77 | the filtered lines are exactly the kept lines of the source |
| TemplateSource.TrimTopBottom | src/template.rs:79-101 | empty text stays empty, text with a non-blank line is cut to its first and last non-blank lines, and all-blank text is only re-joined |
| TemplateSource.ProcessSource | src/template.rs:121-127 | reading a file cannot fail; it yields the parsed directives and the filtered, trimmed source |
| TemplateSource.Load | src/template.rs:103-132 | a walk root whose name starts with `.` is itself hidden and loads nothing; otherwise the walk is loaded, and after a successful load every template name has directives; the only possible error is a compile error |
| TemplateSource.LoadAllCompilingOnly | src/template.rs:103-132 | no step of this walk but compilation can fail |
| TemplateSource.WithDirectives | src/template.rs:40-54 | every engine template is paired in order with its recorded directives, or with an empty map when none were recorded |
| TemplateSource.LoadedAgreesWithStrictLookup | src/template.rs:40-54 | after a load the lenient pairing gives the same result as the strict one of the later loader |
| Render.StripSuffix | basel/src/render.rs:46-48 | the suffix is stripped exactly when the text ends with it, and putting it back gives the text |
| Render.RelativePath | basel/src/render.rs:46-48 | a name ending in `.jinja` loses exactly that suffix, and any other name is kept whole |
| Render.Normal | basel/src/render.rs:50-61 | the path components are pieces of the path, never empty and never `.` |
| Render.Components | basel/src/render.rs:50-61 | no path component is empty, `.`, or holds a `/` |
| Render.FileName | basel/src/render.rs:50-57 | a file name exists exactly when the path has a last component other than `..`, and it holds no `/` |
| Render.ParentDirs | basel/src/render.rs:59-61 | the parent directories followed by the last component give back the path's components |
| Render.Substitute | basel/src/render.rs:63-70 | a file name without markers is unchanged, and substitution brings in no `/` that the name, scheme and swatch lack |
| Render.ResolvePath | basel/src/render.rs:40-76 | the path fails exactly when the template name has no file component, and otherwise lies under the render directory and the scheme, keeps the template's directories, and ends in the substituted file name |
| Render.ShouldRender | basel/src/render.rs:260-264 | a template is rendered exactly when neither its name nor the text after any `/` starts with `_` |
| Render.AnySkippedCons | basel/src/render.rs:260-264 | a list of segments has a skipped one exactly when its head is skipped or its tail has one |
| Render.SlashSkipAtFirst | basel/src/render.rs:260-264 | a `_` after some `/` is either right after the first `/` or after a later one |
| Render.SegmentStarts | basel/src/render.rs:260-264 | some `/`-separated segment starts with `_` exactly when the name does or the text after some `/` does |
| Render.SwatchUnits | basel/src/render.rs:281-293 | one unit per swatch of the scheme, in palette order, each carrying its swatch |
| Render.UnitsOf | basel/src/render.rs:274-307 | a swatch-iterating template runs once per swatch of every scheme and any other template once per scheme, the latter at the scheme's own position; the units are exactly those pairs |
| Render.UnitsOfOne | basel/src/render.rs:281-304 | for one scheme the units are its swatches in palette order, or its single swatch-less unit |
| Render.UnitsOfAppend | basel/src/render.rs:276-307 | units run scheme by scheme: the units of two scheme lists one after the other are the concatenation of their units |
| Render.Plan | basel/src/render.rs:271-311 | the units are exactly the pairs of each rendered template, where skip-prefixed templates are left out only when skipping is on |
| Render.PlanOne | basel/src/render.rs:271-311 | a single template's plan is its units in their order, or nothing when it is skipped |
| Render.PlanAppend | basel/src/render.rs:271-311 | rendering runs template by template: two lists of templates planned one after the other give the concatenation of their plans |
| Render.RenderAll | basel/src/render.rs:266-314 | rendering succeeds exactly when every planned unit does; on success the outputs are the units' results in plan order, and a failure is the error of the first planned unit, in plan order, that fails |
| Render.RenderFile | basel/src/render.rs:78-98 | output is produced exactly when `_set` is present and the engine returns text, and it is the header followed by that text; a missing `_set` and an undefined value are internal bugs, any other engine error a render error for the template and scheme |
| Render.ParseBool | src/render.rs:37-50 | only the text `true` is true; `false` and any invalid value are false |
| Render.ParseRenderConfig | src/render.rs:52-70 | the last `render_swatch_names` directive decides the setting, every other key is ignored, and without one the default stays |
| ColorObjects.Render | basel/src/swatches.rs:543-582 | the hex style prints the hex code; the name style prints the Unicode or the ASCII name of the swatch, for a swatch object its own, for a slot object its swatch's |
| ColorObjects.GetValue | basel/src/swatches.rs:584-636 | a string key is answered exactly when the object lists it among its attributes, `hex` gives the hex code, and a non-string key gives nothing |
| ColorObjects.ChannelValue | basel/src/swatches.rs:602-607 | exactly the six channel keys `r`, `g`, `b`, `rf`, `gf`, `bf` are answered |
| ColorObjects.EnumerateMatchesGetValue | basel/src/render/objects.rs:107-181 | an object answers a key exactly when it lists that key among its attributes |
| ColorObjects.RenderIsStyleAttribute | basel/src/render/objects.rs:68-158 | printing an object gives the same text as looking up the attribute its style names |
| ColorObjects.Serialized | basel/src/render/objects.rs:9-26 | `from_serialize` of a colour object is a plain map of its variant's fields (`hex`, `name`, `ascii`, `rgb`, list for a swatch; `hex`, `swatch`, `swatch_ascii`, `rgb` for a role), `rgb` as a number triple and `style` skipped |
| ColorObjects.SerializedIgnoresStyle | basel/src/render/objects.rs:9-26 | the serialised map is the same whatever the render style, since `style` is skipped |
| ColorObjects.SerializedKeysAgainstObject | basel/src/render/objects.rs:9-26 | the serialised map has no channel key; every key it has other than `rgb` is one the object itself answers, and `rgb` is one the object does not answer |
| ColorObjects.GetSimpleValue | src/schemes.rs:149-162 | a string key is answered exactly when it is `hex`, `name` or one of the six channels, `hex` gives the hex code, and a non-string key gives nothing |
| ColorObjects.SimpleObjectAttributes | src/schemes.rs:137-166 | the object answers exactly the eight listed keys, and prints as its `name` or `hex` attribute |
| Resolution.ParsedKeys | basel/src/schemes.rs:120-145 | one parsed name per assigned key, in the order of the keys |
| Resolution.NamesOf | basel/src/schemes.rs:153-154 | one displayed name per name, in order |
| Resolution.Resolve | basel/src/schemes.rs:147-183 | a success is a colour the palette holds; an undefined-swatch error names a name assigned a swatch the palette lacks; a missing error names an unassigned base name; a circular error is the visited chain followed by a path that returns to a name already on it |
| Resolution.CircularChainStep | basel/src/schemes.rs:177-181 | following one reference keeps the shape of a circular-reference chain |
| Resolution.CircularMeansCycle | basel/src/schemes.rs:152-157 | from a fresh visited set, a circular-reference error is a genuine cycle: a reference path from the name that returns to a name already on it |
| Resolution.ResolvedByPath | basel/src/schemes.rs:147-183 | a name resolves to a colour whenever a path of distinct unvisited names leads from it to a name assigned a swatch that the palette holds |
| Resolution.PathOfResolved | basel/src/schemes.rs:147-183 | every successful resolution follows such a path and yields that swatch's colour |
| Resolution.Unassigned | basel/src/schemes.rs:189-193 | the reported names are exactly the base names the scheme leaves unassigned, in table order |
| Resolution.ResolveEach | basel/src/schemes.rs:202-212 | every name resolves from a fresh visited set, in order, and the first failure aborts with that name's error |
| Resolution.ResolveAll | basel/src/schemes.rs:185-215 | all missing base names are reported together before anything is resolved; otherwise every name is resolved in order, or the first failure is reported |
| Resolution.PrecheckExcludesMissing | basel/src/schemes.rs:178-181 | once every base name is assigned, no resolution reports a missing name, so that branch cannot fire |
| Resolution.ResolveAllNeverMissing | basel/src/schemes.rs:185-215 | once the pre-check passes, no resolution failure is a missing name |
| BaselScheme.ValidateMetaField | basel/src/schemes.rs:50-66 | a field passes exactly when it is absent or at most 1000 bytes long, and the error names the field and its length |
| BaselScheme.ValidateFields | basel/src/schemes.rs:579-584 | the fields pass exactly when each does, and otherwise the error is the first failing field's |
| BaselScheme.ValidateMeta | basel/src/schemes.rs:579-584 | the meta passes exactly when each of the six fields is absent or within 1000 bytes, and a failure reports a length over the limit |
| BaselScheme.MetaField | basel/src/schemes.rs:567-577 | a meta key passes exactly when it is absent or a string, and a failure is a deserialising error for `meta` |
| BaselScheme.ParseMeta | basel/src/schemes.rs:567-577 | a `meta` value parses exactly when it is a table whose six known keys are each absent or a string; the meta then holds those six strings; any failure is a deserialising error for `meta` |
| BaselScheme.ParseRole | basel/src/schemes.rs:98-118 | a pair parses exactly when its key names a role and its value is a string holding a valid role value, and each of the three failures has its own error |
| BaselScheme.ParsePairs | basel/src/schemes.rs:120-145 | the pairs parse exactly when each does; the map holds each role once, in order of first appearance; and a failure is the first failing pair's error |
| BaselScheme.ParsePairsLastWins | basel/src/schemes.rs:120-145 | a role named more than once takes the value of its last occurrence |
| BaselScheme.ParseRoles | basel/src/schemes.rs:120-145 | a `roles` value that is not a table is a structure error, and otherwise its pairs, with nested tables flattened to dotted keys, are parsed in order |
| BaselScheme.LookupIsSwatch | basel/src/schemes.rs:159-174 | a value the palette lookup yields is one of the palette's swatches |
| BaselScheme.ResolveRole | basel/src/schemes.rs:147-183 | a resolved role is a swatch of the palette; an undefined-swatch error names a swatch that is not in the palette and a role assigned it; every failure is an undefined swatch or a role error |
| BaselScheme.ResolveRoles | basel/src/schemes.rs:185-215 | unassigned base roles are reported together, in table order and comma-separated; after that check a failure is a dangling swatch or a circular chain, never a missing role; a success resolves every role of the table, in table order |
| BaselScheme.ResolveRolesOutcome | basel/src/schemes.rs:185-215 | once every base role is assigned, the roles resolve exactly when each role of the table resolves on its own, and otherwise the error is that of the first role, in table order, whose resolution fails |
| BaselScheme.ResolvedFromPalette | basel/src/schemes.rs:185-215 | every resolved role is a swatch of the scheme's palette |
| BaselScheme.NameResult | basel/src/schemes.rs:238-250 | a name error is passed through as the scheme's name error and a value unchanged |
| BaselScheme.SchemeNames | basel/src/schemes.rs:238-250 | an explicit `scheme` wins over the normalised file stem and an explicit `scheme_ascii` over the generated ASCII name; a generated ASCII name is non-empty ASCII |
| BaselScheme.IntoScheme | basel/src/schemes.rs:252-266 | roles are resolved before the names are settled, so a resolution error wins; a loaded scheme keeps the raw meta, palette and roles |
| BaselScheme.NameSection | basel/src/schemes.rs:531-565 | an absent name section is no name; a present one must be a string whose normalised form is a valid name, ASCII for `scheme_ascii`, and any failure is a deserialising error for that section |
| BaselScheme.MetaSection | basel/src/schemes.rs:567-577 | an absent `meta` is the empty meta; a present one is parsed |
| BaselScheme.PaletteSection | basel/src/schemes.rs:586-592 | a missing `palette` is a deserialising error, and a parsed palette has distinct names and distinct ASCII names |
| BaselScheme.RolesSection | basel/src/schemes.rs:594-600 | a missing `roles` is a deserialising error, and a present one is parsed into a map without duplicate roles |
| BaselScheme.LoadRaw | basel/src/schemes.rs:518-608 | a read scheme has valid explicit names, meta fields within their limit, a collision-free palette and no duplicate roles, and both required sections were present |
| BaselScheme.LoadTable | basel/src/schemes.rs:518-611 | a loaded scheme resolves every role of the table, has a valid name, and without `scheme` takes the normalised file stem as its name |
| BaselScheme.LoadAll | basel/src/schemes.rs:613-637 | after a successful walk every `.toml` file has a scheme under its file stem, and every scheme's name is valid |
| BaselScheme.LoadAllStep | basel/src/schemes.rs:632-633 | inserting a scheme keeps the map without duplicates, adds its stem, keeps every earlier stem and keeps every name valid |
| Variants.ExtractBase | basel/src/roles.rs:227-233 | a name without `_` is its own base; otherwise the base is the text before the last `_` |
| Variants.IsBaseIffNoSeparator | basel/src/roles.rs:235-237 | a name is a base name exactly when it holds no `_` |
| Variants.VariantBase | basel/src/roles.rs:227-233 | for `b_s` with no `_` in `s`, the base is `b` |
| Variants.Plain | basel/src/roles.rs:235-237 | a name without `_` is a base name |
| Variants.Variant | basel/src/roles.rs:176-192 | `b_s` with no `_` in `b` or `s` is a variant whose base `b` is a base name |
| Variants.BasesPresentFromEntries | basel/src/roles.rs:176-192 | checking each table entry for a present base establishes that every variant's base is in the table |
| Variants.BasesPresentAppend | basel/src/roles.rs:14-137 | two tables in which every variant's base is present keep that property when concatenated |
| Variants.Bases | basel/src/roles.rs:239-241 | the filtered names are exactly the table's base names |
| Variants.BasesAppend | basel/src/roles.rs:239-241 | filtering commutes with concatenation, so the base roles keep the table's order |
| BaselRoles.TableBasesPresent | basel/src/roles.rs:176-192 | every variant in the role table has its base in the table, and that base is a base role, so the `unreachable!` in `classify` cannot fire |
| BaselRoles.Parse | basel/src/roles.rs:204-215 | a name parses exactly when it is a table entry, to itself, and otherwise is an undefined-role error naming it |
| BaselRoles.Classify | basel/src/roles.rs:176-192 | a role is a base role exactly when it has no `_`; a variant falls back to the name before its last `_`, which is a base role |
| BaselRoles.BaseRolesAreBases | basel/src/roles.rs:239-241 | `base()` yields exactly the table's roles without `_` |
| BaselRoles.IterParses | basel/src/roles.rs:223-225 | every role `iter()` yields parses back to itself |
| BaselRoles.ParseValue | basel/src/roles.rs:285-297 | a `$` value is a swatch reference, accepted exactly when its normalised name is valid; any other value must be a role name; each failure is an undefined-role error with its own message |
| BaselLoad.ParseName | basel/src/roles.rs:204-215 | a role key is accepted exactly when it is a table entry, as itself |
| BaselLoad.ParseValue | basel/src/roles.rs:285-297 | the loader's reading of a role value succeeds and fails exactly as `RoleValue::parse` does |
| BaselLoad.RolesCoherent | basel/src/roles.rs:176-241 | the role table lists every role, only base roles lack a fallback, and a parsed role displays as its key |
| BaselLoad.NoFallbackIsBase | basel/src/roles.rs:176-192 | a role without a fallback is among `base()` |
| BaselLoad.RolesVocabulary | basel/src/roles.rs:176-241 | a key names a role exactly when it is a table entry, and a role has no fallback exactly when it is a base role |
| BaselLoad.Load | basel/src/schemes.rs:518-611 | a loaded scheme resolves every role of the table in table order, has a valid name, and without `scheme` is named after its file stem |
| BaselLoad.LoadAll | basel/src/schemes/load.rs:344-366 | every `.toml` file of the walk has a scheme under its file stem |
| SlotScheme.ParseSlot | src/schemes.rs:190-208 | a pair parses exactly when its key names a slot and its value is a string holding a valid slot value, and each of the three failures has its own error |
| SlotScheme.ParsePairs | src/schemes.rs:210-235 | the pairs parse exactly when each does; the map holds each slot once, in order of first appearance; and a failure is the first failing pair's error |
| SlotScheme.ParsePairsLastWins | src/schemes.rs:210-235 | a slot named more than once takes the value of its last occurrence |
| SlotScheme.ParseSlots | src/schemes.rs:210-235 | a `slots` value that is not a table is a structure error, and otherwise its pairs, with nested tables flattened to dotted keys, are parsed in order |
| SlotScheme.LookupSwatch | src/schemes.rs:250-258 | a lookup finds nothing exactly when the palette lacks the name, and otherwise yields the name with its colour as hex |
| SlotScheme.LookupIsEntry | src/schemes.rs:250-258 | a value the lookup yields names a palette entry and shows that entry's colour |
| SlotScheme.ResolveSlot | src/schemes.rs:237-265 | a resolved slot names a palette entry and carries its colour; an undefined swatch is one some slot is assigned and the palette lacks; every failure is an undefined swatch or a slot error |
| SlotScheme.ResolveAll | src/schemes.rs:267-296 | unassigned base slots are reported together, in table order and comma-separated; after that check a failure is a dangling swatch or a circular chain, never a missing slot; a success resolves every slot of the table, in table order |
| SlotScheme.ResolveAllOutcome | src/schemes.rs:267-296 | once every base slot is assigned, the slots resolve exactly when each slot of the table resolves on its own, and otherwise the error is that of the first slot, in table order, whose resolution fails |
| SlotScheme.ResolvedFromPalette | src/schemes.rs:267-296 | every resolved slot names a palette entry and shows that entry's colour |
| SlotScheme.IntoScheme | src/schemes.rs:298-308 | a scheme is built exactly when resolution succeeds, under the given name, keeping the raw meta, palette and slots |
| SlotScheme.MetaField | src/schemes.rs:496-506 | an absent meta key is no value, a string is its value, and any other value is a deserialising error for `meta` |
| SlotScheme.MetaSection | src/schemes.rs:496-506 | an absent `meta` is the empty meta; a `meta` that is not a table is a deserialising error; a table parses exactly when its `author`, `license` and `blurb` are each absent or a string, and the meta then holds those three strings; any failure is a deserialising error for `meta` |
| SlotScheme.ParseEntry | src/schemes.rs:507-520 | a palette entry parses exactly when its value is colour text the parser accepts, and a failure is a deserialising error for `palette` |
| SlotScheme.PaletteSection | src/schemes.rs:507-525 | a missing `palette` is a deserialising error; a parsed palette holds each key of the table once and no empty name, and an empty name is an internal bug |
| SlotScheme.SlotsSection | src/schemes.rs:526-531 | a missing `slots` is a deserialising error, and a present one is parsed |
| SlotScheme.LoadRaw | src/schemes.rs:486-536 | a read scheme has a palette without duplicates or empty names and a slot map without duplicates, and both required sections were present; a missing palette is reported before the slots are read |
| SlotScheme.Load | src/schemes.rs:486-539 | a scheme loads exactly when it is read and resolved, under the given name, with every slot of the table resolved |
| SlotScheme.LoadAll | src/schemes.rs:541-562 | every `.toml` file of the walk has a scheme under its file stem, and each scheme is named after its stem |
| SlotScheme.LoadAllStep | src/schemes.rs:557-558 | inserting a scheme keeps the map without duplicates, adds its stem, keeps every earlier stem and keeps each scheme named after its stem |
| BaselSlots.SlotsAreRoles | basel/src/slots.rs:38-161 | the slot table lists the same names, in the same order, as the role table |
| BaselSlots.TableBasesPresent | basel/src/slots.rs:176-184 | every variant slot's derived base is in the table and is a base slot |
| BaselSlots.Parse | basel/src/slots.rs:167-173 | a name parses exactly when it is a table entry, to itself, and otherwise is an undefined-slot error naming it |
| BaselSlots.Classify | basel/src/slots.rs:176-184 | a slot is a base slot exactly when it has no `_`; a variant's base is the name before its last `_` |
| BaselSlots.ClassifiedBaseIsSlot | basel/src/slots.rs:176-184 | the base `classify` derives without checking the table is in fact a base slot of the table |
| BaselSlots.BaseSlotsAreBases | basel/src/slots.rs:221-226 | `base()` yields exactly the table's slots without `_` |
| BaselSlots.IterParses | basel/src/slots.rs:305-310 | every slot `iter()` yields parses back to itself |
| BaselSlots.ParseValue | basel/src/slots.rs:278-287 | a `$` value is a swatch reference whatever follows, even nothing; any other value must be a slot name, or is an undefined-slot error |
| SlotLoad.ParseName | basel/src/slots.rs:167-173 | a slot key is accepted exactly when it is a table entry, as itself |
| SlotLoad.ParseValue | basel/src/slots.rs:278-287 | the loader's reading of a slot value succeeds and fails exactly as `SlotValue::parse` does |
| SlotLoad.Fallback | basel/src/slots.rs:176-184 | a slot has no fallback exactly when it is a base slot, and a variant falls back to its derived base |
| SlotLoad.SlotsCoherent | basel/src/slots.rs:160-226 | the slot table lists every slot, only base slots lack a fallback, and a parsed slot displays as its key |
| SlotLoad.NoFallbackIsBase | basel/src/slots.rs:176-184 | a slot without a fallback is among `base()` |
| SlotLoad.Load | src/schemes.rs:486-539 | a loaded scheme resolves every slot of the table in table order, under the given name |
| SlotLoad.LoadAll | src/schemes.rs:541-562 | every `.toml` file of the walk has a scheme under its file stem |
| SrcRoles.Qualify | src/schemes/roles.rs:55-68 | a group block `g { k, ... }` stands for the names `g.k`, one per key, in the block's order |
| SrcRoles.QualifiedPlain | src/schemes/roles.rs:427-429 | a group name and a key without `_` give a base role |
| SrcRoles.QualifiedVariant | src/schemes/roles.rs:419-425 | prefixing a group does not move the cut: the base of `g.k` is `g.` followed by the base of `k` |
| SrcRoles.QualifyBasesPresent | src/schemes/roles.rs:344-358 | a block whose keys have their bases in the block keeps that property once its names are qualified |
| SrcRoles.RootBasesPresent | src/schemes/roles.rs:117-152 | every plain variant role has its base among the plain roles |
| SrcRoles.DebugGroupBasesPresent | src/schemes/roles.rs:153-157 | every `debug` variant has its base in the `debug` block |
| SrcRoles.ModeGroupBasesPresent | src/schemes/roles.rs:159-168 | every `mode` variant has its base in the `mode` block |
| SrcRoles.SyntaxGroupBasesPresent | src/schemes/roles.rs:170-223 | every `syntax` variant has its base in the `syntax` block |
| SrcRoles.DiffGroupBasesPresent | src/schemes/roles.rs:225-232 | every `diff` variant has its base in the `diff` block |
| SrcRoles.MarkupGroupBasesPresent | src/schemes/roles.rs:234-255 | every `markup` variant has its base in the `markup` block |
| SrcRoles.AnsiGroupBasesPresent | src/schemes/roles.rs:257-281 | every `ansi` variant has its base in the `ansi` block |
| SrcRoles.TableBasesPresent | src/schemes/roles.rs:117-282 | every variant in the expanded table has its base in the table, and that base is a base role, so the `unreachable!` in `classify` cannot fire |
| SrcRoles.Parse | src/schemes/roles.rs:371-383 | a name parses exactly when it is a table entry, to itself, and otherwise is an undefined error naming it |
| SrcRoles.FirstGroup | src/schemes/roles.rs:97-108 | the group is the first declared group whose name and `.` start the role, and the root group when none does |
| SrcRoles.GroupNames | src/schemes/roles.rs:97-108 | the declared groups are distinct and hold neither `.` nor `_` |
| SrcRoles.DotAfterPrefix | src/schemes/roles.rs:101-102 | a group prefix `g.` of a name puts a `.` right after `g` |
| SrcRoles.DotPrefixUnique | src/schemes/roles.rs:97-108 | two dot-free group names that both prefix a role with a `.` are the same group, so the match arms cannot overlap |
| SrcRoles.QualifiedGroup | src/schemes/roles.rs:97-108 | a name declared in block `g` reports group `g`, whatever its key |
| SrcRoles.UndottedIsRoot | src/schemes/roles.rs:97-108 | a name without `.` is a root name |
| SrcRoles.QualifyGroups | src/schemes/roles.rs:97-108 | every name of a block reports that block as its group |
| SrcRoles.Classify | src/schemes/roles.rs:344-358 | a role is a base role exactly when it has no `_`; a variant's base is a base role, and the variant is that base, a `_` and a suffix without `_` |
| SrcRoles.ClassifyAgreesWithExtractBase | src/schemes/roles.rs:308-315 | a role falls back to what `extract_base` cuts off, and a variant's base classifies as a base role |
| SrcRoles.BaseRolesAreBases | src/schemes/roles.rs:397-399 | `base()` yields exactly the table's roles without `_` |
| SrcRoles.IterParses | src/schemes/roles.rs:448-453 | every role `iter()` yields parses back to itself |
| SrcRoles.ParseValue | src/schemes/roles.rs:324-337 | a `$` value is a swatch reference, accepted exactly when its normalised name is a valid swatch name; any other value must be a role name; each failure is an undefined error with its own message |
| LegacyScheme.InAll | src/scheme.rs:142-205 | `Slot::iter()` lists every slot of the enumeration |
| LegacyScheme.Find | src/scheme.rs:142-205 | the slot found carries the name asked for, and when none is found no slot does |
| LegacyScheme.FromStr | src/scheme.rs:156-205 | a name parses exactly to a slot whose snake-case name it is, and fails only when no slot has that name |
| LegacyScheme.NameRoundTrip | src/scheme.rs:156-205 | every slot parses back from the name it displays as |
| LegacyScheme.NameInjective | src/scheme.rs:156-205 | two slots with the same snake-case name are the same slot |
| LegacyScheme.Fallback | src/scheme.rs:158-205 | following a slot's fallback strictly lowers its distance to a slot without one, and only slots at distance zero have none |
| LegacyScheme.FallbackPropIsName | src/scheme.rs:158-205 | a slot declares a `fallback` property exactly when it has a fallback slot, and the property's text is that slot's name |
| LegacyScheme.FallbackParses | src/scheme.rs:96-105 | every declared `fallback` text parses as a slot, so `Slot::from_str(s).unwrap()` never panics |
| LegacyScheme.FallbackAcyclic | src/scheme.rs:158-205 | following fallbacks one or more times never returns to the starting slot |
| LegacyScheme.DepthAlongFallbacks | src/scheme.rs:158-205 | every slot reached by one or more fallback steps is strictly closer to a slot without a fallback |
| LegacyScheme.DeserializeValue | src/scheme.rs:215-233 | `"none"` wins over everything, then literal colour text, then a `$` palette reference, then a slot name; a value matching none of these is an error carrying the text |
| LegacyScheme.ResolveSlot | src/scheme.rs:83-111 | a cached slot returns its cached text and leaves the state alone; a slot already being visited fails as circular and leaves the state alone; a successful step caches the slot with the returned text and leaves `visiting` as it was; a failed one leaves the slot marked as visiting; either way the cache only grows, and only with slots that were not being visited |
| LegacyScheme.Settle | src/scheme.rs:106-110 | after `color_from` succeeds the slot leaves `visiting` and is cached with the text returned |
| LegacyScheme.ColorFrom | src/scheme.rs:113-132 | `none` is `MissingRequired` for the slot, a literal colour is its lower-case text, a palette reference is the palette colour's text or `UndefinedPaletteColor`, and none of these touches the state |
| LegacyScheme.ResolveEach | src/scheme.rs:50-57 | the one cache is shared by all slots and only grows; each slot kept is one asked for, and its colour is the parse of the text cached for it |
| LegacyScheme.Kept | src/scheme.rs:50-57 | a resolved slot contributes an entry exactly when its resolution succeeds and the text parses as a colour, and that entry is the slot with the parsed colour |
| LegacyScheme.ResolveEachAppend | src/scheme.rs:46-57 | the slots are resolved one after another with one shared state: resolving two lists in turn, the second starting from the state the first left, gives the run of their concatenation |
| LegacyScheme.ResolveEachAt | src/scheme.rs:46-57 | in a run that does not panic, the slot at each position is kept exactly when its resolution, in the state the earlier slots left, succeeds and parses; the kept entries are the earlier slots', then its own, then the later slots', so only failing slots are dropped and the order is the iteration order |
| LegacyScheme.Resolve | src/scheme.rs:45-63 | a scheme that does not panic keeps its name and holds at most one entry per declared slot |
| IndexMaps.IndexOf | basel/src/manifest.rs:182-184 | the position found holds the key and no earlier entry does; nothing is found exactly when the key is absent |
| IndexMaps.Get | basel/src/manifest.rs:182-184 | a key is found exactly when the map holds it, and the value found is stored with it |
| IndexMaps.GetAt | basel/src/manifest.rs:182-184 | in a map without repeated keys, each entry is what looking up its key finds |
| IndexMaps.Insert | basel/src/manifest.rs:186-188 | insertion returns the value held before; a present key keeps its position, a new key is appended, and no repeated key appears |
| IndexMaps.InsertGet | basel/src/manifest.rs:186-188 | after insertion the key finds the new value and every other key finds what it found before |
| IndexMaps.InsertNew | basel/src/schemes.rs:116 | inserting a new key appends its entry at the end |
| IndexMaps.SwapRemove | basel/src/manifest.rs:190-192 | removal returns the value held before, changes nothing for an absent key, and otherwise drops exactly one entry |
| IndexMaps.SwapRemoveGet | basel/src/manifest.rs:190-192 | after removal the key is gone, no key repeats, and every other key finds what it found before |
| IndexMaps.SwapRemoveFrom | basel/src/manifest.rs:190-192 | the removed key's place is taken by the last entry and the other entries stay where they were |
| IndexMaps.SwapRemoveOther | basel/src/manifest.rs:190-192 | removing one key leaves every other key's value alone |
| IndexMaps.Collect | basel/src/schemes.rs:98-118 | repeated insertion from empty gives a map without repeated keys, whose keys are the pairs' keys in first-seen order and whose entries are among the pairs |
| IndexMaps.LastValue | basel/src/schemes.rs:116 | the value kept for a key is stored with it in some pair, and there is none exactly when no pair has that key |
| IndexMaps.LastValueAt | basel/src/schemes.rs:116 | the last pair with a key decides the value kept for it |
| IndexMaps.CollectGet | basel/src/schemes.rs:98-118 | looking a key up in the collected map gives the value of the last pair with that key |
| IndexMaps.CollectValid | basel/src/manifest.rs:114-142 | collecting the entries of a map without repeated keys gives the same map back |
| IndexMaps.AsMap | basel/src/schemes.rs:185-215 | the map read as a finite map has the same keys, each with the value a lookup finds |
| Sorting.LessIrreflexive | basel/src/directives.rs:208-209 | no string sorts before itself |
| Sorting.LessAsymmetric | basel/src/directives.rs:208-209 | two strings never sort before each other |
| Sorting.LessTransitive | basel/src/directives.rs:208-209 | the string order is transitive |
| Sorting.LessTotal | basel/src/directives.rs:208-209 | of two different strings one sorts before the other |
| Sorting.Insert | basel/src/directives.rs:208-209 | inserting a new string into a strictly sorted sequence keeps it strictly sorted and adds exactly that string |
| Sorting.Sort | basel/src/directives.rs:208-209 | sorting distinct strings gives a strictly increasing sequence of the same strings |
| Sorting.SortedUnique | basel/src/directives.rs:208-209 | two strictly sorted sequences of the same strings are equal |
| Sorting.SortOrderIndependent | basel/src/directives.rs:197-209 | the sorted header does not depend on the order in which the directives were collected |
| Toml.Get | basel/src/schemes.rs:126-131 | a key is found exactly when the table holds it, and the value found is stored under it |
| Toml.GetStr | basel/src/schemes.rs:111-114 | a string is found exactly when the key holds a string value, and it is that string |
| Toml.Nest | basel/src/schemes.rs:135-138 | each entry of a nested table appears once, under the key `outer.inner`, in the nested table's order |
| Toml.Flatten | basel/src/schemes.rs:133-142 | every non-table entry and every entry of a nested table under its dotted key appear, and nothing else |
| Placeholders.ReplaceSkips | basel/src/output/upstream.rs:150-153 | text without the placeholder's first character passes through `replace` unchanged |
| Placeholders.ReplaceAtFront | basel/src/output/upstream.rs:150-153 | a placeholder at the front is replaced and scanning resumes right after it |
| Placeholders.OtherHoleDiffers | basel/src/output/upstream.rs:150-153 | a hole with another brace-free name never starts with the placeholder |
| Placeholders.ReplaceKeepsFirst | basel/src/output/upstream.rs:150-153 | a first character that does not start a match is kept and scanning resumes at the next one |
| Placeholders.ReplaceSkipsOtherHole | basel/src/output/upstream.rs:150-153 | a hole with another name passes through `replace` unchanged |
| Strings.Find | basel/src/templates/directives.rs:84-94 | the position found is the first occurrence of the pattern, and nothing is found exactly when the text does not contain it |
| Strings.ReplaceRemoves | basel/src/output/upstream.rs:141 | after every `\` is replaced by `/`, no `\` is left in the path |
| Strings.SplitOnce | basel/src/directives.rs:106 | the text splits around its first `=`, the key holds none, and there is no split exactly when the text holds no `=` |
| Strings.RSplitOnce | basel/src/render/manifest.rs:29 | the text splits around its last `/`, the tail holds none, and there is no split exactly when the text holds no `/` |
| Strings.RSplitOnceAt | basel/src/render/manifest.rs:29-37 | splitting `a/b` with a slash-free `b` at its last `/` gives back `a` and `b` |
| Strings.Split | basel/src/directives.rs:188-194 | the pieces hold no separator and join back to the text |
| Strings.SplitAfter | basel/src/directives.rs:188-194 | the first separator ends the first piece |
| Strings.Trim | basel/src/directives.rs:99 | the result is empty exactly when the text is all whitespace |
| Strings.TrimPadded | basel/src/directives.rs:99 | trimming removes exactly the whitespace padding around text that starts and ends with non-whitespace |
| Strings.TrimChars | basel/src/directives.rs:99 | trimming keeps every non-whitespace character and adds none |
| Strings.Lines | basel/src/directives.rs:151 | no line holds a line feed, and only empty text has no lines |
| Strings.ByteLen | basel/src/schemes.rs:50-52 | the length in bytes lies between the number of characters and four times that, and equals it for ASCII text |
| Wrappers.Traverse | basel/src/schemes.rs:133-142 | the loop succeeds exactly when every item does, with each item's value in order; otherwise it fails with the error of the first item that fails |
| Context.MetaContext | basel/src/schemes.rs:283-317 | Unicode text keeps the scheme's meta; ASCII text makes each field equal to its ASCII counterpart, prefers the author's ASCII text, and keeps a field exactly when either form was given |
| Context.AsciiMetaIsAscii | src/render/context.rs:54-100 | with ASCII text, every meta field a template sees is ASCII, given that transliteration yields ASCII and the author's ASCII fields are ASCII |
| Context.FindSwatch | basel/src/schemes.rs:363-374 | the palette lookup finds a palette swatch with the requested name, and finds none exactly when no swatch has that name |
| Context.MapSwatchesToRoles | src/render/context.rs:102-107 | the swatch-to-roles map holds one entry per distinct palette name, in palette order, with no repeated key |
| Context.MapSwatchesToRolesGet | basel/src/schemes.rs:319-333 | every palette swatch, and no other name, gets a list holding exactly the roles resolved to it, in resolution order |
| Context.AttachAllGet | src/render/context.rs:109-113 | the push loop extends each list the map already holds by exactly the roles filed under that swatch, in order, and creates no list |
| Context.RolesOfMember | basel/src/schemes.rs:326-330 | a role appears in a swatch's list exactly when it resolved to that swatch |
| Context.RoleListedUnderOwnSwatch | src/render/context.rs:102-116 | for a palette swatch the map has a list, and a role is in it exactly when the role resolved to that swatch |
| Context.PaletteMaps | basel/src/schemes.rs:335-361 | the palette value has one entry per palette swatch, in palette order; each entry is the plain serialised map of exactly `hex`, `name`, `ascii`, `rgb` and the list key, holding that swatch's hex, names, channel triple and role list |
| Context.PaletteListsRoles | src/render/context.rs:118-144 | the palette entry at each position is a map of exactly the five serialised fields of that swatch, and its list field holds exactly the roles resolved to it |
| Context.InsertGrouped | basel/src/schemes.rs:376-386 | a missing group is created; the key is set in its group; every other group, and every other key of the same group, keeps its value |
| Context.InsertRole | basel/src/schemes.rs:388-424 | placing a role succeeds exactly when its swatch is in the palette and its name has at most two dot-separated parts; a missing swatch is reported before a bad shape; a one-part name sets that context key, a two-part name sets the key in its group, and nothing else changes |
| Context.InsertRolesOutcome | basel/src/schemes.rs:499-501 | the role loop succeeds exactly when every resolved role can be placed, and otherwise reports the error of the first role that cannot |
| Context.InsertRolesPlacesKey | src/render/context.rs:176-212 | with distinct role names, after the whole loop a one-part role's object is found under its own name, carrying its swatch's channels |
| Context.InsertRolesPlacesGrouped | src/render/context.rs:164-174 | with distinct role names, after the whole loop a `group.key` role's object is found under its key in its group's map |
| Context.InsertRolesKeepsKey | src/render/context.rs:28-37 | a context key that no role is named after is neither added nor changed by the role loop |
| Context.InsertRolesKeepsGroup | basel/src/schemes.rs:376-386 | a group name that is no two-part role's group is neither added nor changed by the role loop |
| Context.InsertRolesAdds | basel/src/schemes.rs:396-414 | every key the role loop adds is a one-part role's name, and every group it adds is the first part of a two-part role's name |
| Context.CurrentSwatch | basel/src/schemes.rs:426-458 | with no current swatch the context is unchanged; with one, the step fails exactly when the name is not in the palette, and otherwise adds only the `swatch` key |
| Context.SpecialFields | basel/src/schemes.rs:465-479 | both upstream links are always present, holding the known link or the empty string |
| Context.Finish | basel/src/schemes.rs:503-514 | after the roles, the build fails only for a current swatch outside the palette; on success `_set` lists the author's roles, `special` holds the links, and `swatch` is present when a swatch was requested |
| Context.FinishKey | src/render/context.rs:39-49 | below the names set after the roles, a group map replaces a role under the same name, and every other key of the role loop survives unchanged |
| Context.ToContext | basel/src/schemes.rs:481-515 | a finished context always holds `_set` with the author's own roles in order, `special` with both links, and `swatch` when one was requested |
| Context.ToContextOutcome | src/render/context.rs:12-52 | the context is built exactly when every role can be placed and the current swatch, if any, is in the palette; otherwise the error names the first role that cannot be placed, or else the missing swatch |
| Context.ContextRole | basel/src/schemes.rs:408-411 | with distinct role names, a one-part role is found in the finished context under its own name, unless a group or a name set later shares it |
| Context.ContextGroupedRole | basel/src/schemes.rs:412-414 | with distinct role names, a `group.key` role is found in the finished context under its key in its group's map, unless a name set later shares the group's name |
| Context.ContextSwatch | src/render/context.rs:214-246 | when rendering for a swatch, `swatch` holds that swatch's object, with its hex and channels, listing exactly the roles resolved to it |
| Context.ContextBaseKey | src/render/context.rs:60-100 | the scheme's names, meta and palette survive to the finished context unless a role or group is named like them |
| Context.ContextPalette | basel/src/schemes.rs:496-497 | unless a role or group is named `palette`, the finished context's palette has one plain map per swatch, in order, with exactly the five serialised fields, listing exactly the roles resolved to it |
| Context.ContextKeys | basel/src/schemes.rs:488-515 | every name in the finished context is a base name, a one-part role, a group, the current swatch, `special` or `_set` |
| Context.OptionalSpecialFields | src/schemes.rs:436-448 | the slot-based builder records the file link only when a URL is given, and the repository link exactly when a base can be recovered from that URL |
| Context.SpecialFieldsAgree | src/schemes.rs:450-484 | the slot-based and role-based builders agree on every link the former records, and each link the former omits is empty in the latter |
| Context.ContextSetTest | basel/src/schemes.rs:460-463 | a built context always passes the renderer's `_set` guard, and the `set` test over it holds exactly for the roles the author assigned, not for roles filled in by resolution |

## Left out

- File system, directory walking, process exit and logging output: the model takes file contents, existence flags and directory listings as inputs. Creating parent directories and removing the render directory appear only as the plan `Cli` computes.
- Output formatters (`basel/src/format.rs`, `basel/src/output/formatting.rs`, `src/output/format.rs`): foreign wrappers run after writing. They are not part of this model.
- Git discovery and caching (`GitCache`, `GitInfo`): repository data arrives as a `GitInfo` value. Neither the run-wide cache of `basel/src/render.rs` nor the per-template cache of `src/render.rs` is modelled.
- Glob compilation and matching, `Url::parse`, and the blob-path regular expression in `basel/src/templates/hosts.rs` and `src/templates/providers.rs`: these are function parameters. A URL without a host reaches an `expect` in `extract_components`; it is modelled as the error `HostExpected` rather than as a panic.
- SHA-256, the JSON and TOML codecs, `shellexpand`, and the Jinja engine (compilation, rendering, value conversion): these are function parameters. A template's compilation is a predicate, and the engine's outcome is a `Render.Rendered` value.
- Unicode services (NFC, `deunicode`, case mapping, `is_alphanumeric`): these are fields of `Unicode.Services`. Facts about them are hypotheses (`Unicode.Lawful`), not proofs. Lower-casing is modelled one character at a time, so the context-dependent final-sigma rule of `str::to_lowercase` is not modelled.
- A scheme file that cannot be read and one whose TOML does not parse both arrive as a walk entry without a root table (`Toml.FileEntry.root` is `None`). The model reports both as `SlotScheme.Error.ReadingFile` (and `BaselScheme.LoadError.Unreadable`), where the source reports a parse failure as `ParsingRaw`.
- Float channels `rf`, `gf` and `bf` of colour objects: the attribute is present, but its value is not modelled (no floating point).
- Templates.Load: the loader of `src/templates.rs:114-158` is modelled by the same member, with the directive parsers and the `ParsingDirective` error of `basel/src/templates.rs:65-113`. The later loader calls its own `Directives::from_template`, which is not part of this model, and passes that parser's error through unchanged, so the directive error it reports is not modelled.
- `src/config.rs` is not part of this model. The configuration modelled is `crates/theythemer/src/config.rs`.
- `Config.Join`: `Path::join` is modelled for a relative right-hand side only. Absolute paths are kept before joining, as the code does.
- Upstream.ExtractAfterBuild: the base is recovered only for links whose base, branch and file hold no separator text (`Upstream.Unambiguous`). The contract does not cover other links.
- Hosts.ApplyFills: chained `str::replace` equals hole-filling only for layouts and values without `{`. Other inputs are outside the contract.
- Literal non-membership facts (a name from the test lists, such as `"accent_undefined"`, is not in the role table) are not proved one by one. `BaselRoles.Parse` states the general equivalence instead.
- The `Scheme` serialisation shape (basel/src/schemes.rs:267-280, the form that is hashed) is not modelled. Its hash is a parameter of the ledger.
- The slot-based context builder of `src/schemes.rs` (`to_context`, `insert_slot`, the `SCHEME` and `SWATCH` keys): only its upstream-link fields are modelled (`Context.OptionalSpecialFields`). Its role placement repeats `insert_role` with the single-kind colour object.
- Context.ToContext: a role under a name that a group, `swatch`, `special` or `_set` takes later is overwritten in the source. The lemmas `Context.ContextRole` and `Context.ContextGroupedRole` state placement only for names no later step takes.
- LegacyScheme.Resolve: states the shape of the result, not that sharing one visiting set across slots gives the same scheme as resolving each slot alone. A failing slot stays in `visiting`, so later slots that depend on it report `Circular` instead of their own error. Failing slots are dropped either way, so the kept entries do not differ, but this is not proved.
- Strings.Lines: states that no line holds `\n` and that only empty text has no lines. The `\r` handling is in its body, but no contract restates it.
- The warnings logged when a swatch template does not use the `SWATCH` marker inside its source: logging is not modelled, and rendering goes on as modelled.

## Findings

| source | as written | input that shows it | evidently intended | confidence | as-written member | corrected member |
|---|---|---|---|---|---|---|
| basel/src/output/upstream.rs:159-168 | `extract_base_url` tries `/blob/` before `/-/blob/`. Every GitLab link contains `/blob/`, so the GitLab separator never decides the result, and the recovered base keeps a trailing `/-` | the link `r/-/blob/m/f` gives `r/-` | try `/-/blob/` first, so that a GitLab link gives back its base `r` | not executed | Upstream.ExtractAfterBuild, Upstream.GitLabSeparatorIsDead, Upstream.GitLabBaseKeepsDash, Upstream.BuildSpecial, Upstream.RepoLinkIsRemote | Upstream.ExtractBaseUrlOrdered, Upstream.ExtractOrderedAfterBuild, Upstream.BuildSpecialOrdered, Upstream.RepoLinkIsRemoteOrdered |

`Upstream.BuildSpecial`, the links a render gets, follows the source as written, so a GitLab remote's repository link ends in `/-` (`Upstream.RepoLinkIsRemote`); `Upstream.BuildSpecialOrdered` is the same step with the corrected order.

=== FILE: baselload.dfy ===
/** The role loader instantiated with the tool's role table: role names are the
    table's entries, a `$name` value refers to a swatch, and a variant falls back to
    its base role. */
module BaselLoad {
  import opened Wrappers
  import Unicode
  import Names
  import Toml
  import Swatches
  import IndexMaps
  import Resolution
  import BaselRoles
  import BaselScheme

  type RoleName = BaselRoles.RoleName

  /** `RoleName::from_str`, with its error dropped (the loader reports its own). */
  function ParseName(s: string): (r: Option<RoleName>)
    ensures r.Some? <==> s in BaselRoles.ROLES
    ensures r.Some? ==> r.value == s
  {
    match BaselRoles.Parse(s)
    case Ok(n) => Some(n)
    case Err(_) => None
  }

  /** A parsed role value as the loader's reference. */
  function RefOf(v: BaselRoles.RoleValue): BaselScheme.Value<RoleName> {
    match v
    case Swatch(n) => Resolution.SwatchRef(n)
    case Role(r) => Resolution.NameRef(r)
  }

  /** `RoleValue::parse`, as a reference. */
  function ParseValue(u: Unicode.Services, s: string): (r: Result<BaselScheme.Value<RoleName>, BaselRoles.Error>)
    ensures r.Ok? <==> BaselRoles.ParseValue(u, s).Ok?
    ensures r.Ok? ==> r.value == RefOf(BaselRoles.ParseValue(u, s).value)
    ensures r.Err? ==> r.error == BaselRoles.ParseValue(u, s).error
  {
    match BaselRoles.ParseValue(u, s)
    case Ok(v) => Ok(RefOf(v))
    case Err(e) => Err(e)
  }

  /** `classify`: a base role has no fallback; a variant falls back to its base. */
  function Fallback(r: RoleName): Option<RoleName> {
    match BaselRoles.Classify(r)
    case Base(_) => None
    case Optional(_, b) => Some(b)
  }

  function Display(r: RoleName): string {
    r
  }

  /** The role vocabulary: `iter()`, `base()`, the two parsers and `classify`. */
  function Roles(u: Unicode.Services): BaselScheme.Vocabulary<RoleName> {
    Resolution.Vocabulary(BaselRoles.Iter(), BaselRoles.BaseRoles(), ParseName,
                           (s: string) => ParseValue(u, s), Fallback, Display)
  }

  /** The role table meets what the loader relies on. */
  lemma RolesCoherent(u: Unicode.Services)
    ensures Resolution.Coherent(Roles(u))
  {
    var voc := Roles(u);
    assert Resolution.Complete(voc.table);
    NoFallbackIsBase(u);
    assert forall s :: voc.parseName(s).Some? ==> voc.nameOf(voc.parseName(s).value) == s;
  }

  /** Only base roles lack a fallback. */
  lemma NoFallbackIsBase(u: Unicode.Services)
    ensures forall x :: x in Roles(u).table && Roles(u).fallback(x).None? ==> x in Roles(u).bases
  {
    BaselRoles.BaseRolesAreBases();
  }

  /** A role key is accepted exactly when it is a table entry, and a variant's
      fallback is the base that `extract_base` names. */
  lemma RolesVocabulary(u: Unicode.Services, key: string, r: RoleName)
    ensures Roles(u).parseName(key).Some? <==> key in BaselRoles.ROLES
    ensures Roles(u).fallback(r).None? <==> r in BaselRoles.BaseRoles()
  {
    BaselRoles.BaseRolesAreBases();
  }

  /** `load` with the role table: on success every role of the table is resolved,
      in table order, and the scheme's display name is valid. */
  function Load(u: Unicode.Services, parseHex: Swatches.HexParser, stem: string, path: string,
                root: seq<(string, Toml.Value)>): (r: Result<BaselScheme.Scheme<RoleName>, BaselScheme.Error>)
    ensures r.Ok? ==> IndexMaps.Keys(r.value.resolvedRoles) == BaselRoles.Iter()
    ensures r.Ok? ==> Names.ValidName(u, Names.WholeName, r.value.name)
    ensures r.Ok? && Toml.Get(root, "scheme").None? ==> r.value.name == u.nfc(stem)
  {
    RolesCoherent(u);
    BaselScheme.LoadTable(u, Roles(u), parseHex, stem, path, root)
  }

  /** `load_all` with the role table. */
  function LoadAll(u: Unicode.Services, parseHex: Swatches.HexParser, walk: seq<Toml.FileEntry>)
    : (r: Result<IndexMaps.Entries<string, BaselScheme.Scheme<RoleName>>, BaselScheme.LoadError>)
    ensures r.Ok? ==> IndexMaps.Valid(r.value)
    ensures r.Ok? ==> forall i :: 0 <= i < |walk| && walk[i].isToml ==>
                        walk[i].stem.Some? && walk[i].stem.value in IndexMaps.Keys(r.value)
  {
    RolesCoherent(u);
    BaselScheme.LoadAll(u, Roles(u), parseHex, walk)
  }
}

=== FILE: baselroles.dfy ===
/** The role vocabulary of the current tool: a fixed table of role names, variants
    named `base_suffix` that fall back to their base, and the parser for the values a
    scheme assigns to roles (`$swatch` or another role's name). */
module BaselRoles {
  import opened Wrappers
  import opened Variants
  import Unicode
  import Names

  // The `ROLES` table, written as consecutive slices in declaration order.

  /** Entries `bg` to `select_alt`. */
  const GENERAL_1: seq<string> := [
    "bg", "bg_alt", "fg", "fg_alt", "toolbar", "toolbar_popup", "toolbar_alt", "select",
    "select_2nd", "select_alt"
  ]

  /** Entries `accent` to `focus`. */
  const GENERAL_2: seq<string> := [
    "accent", "accent_2nd", "accent_separator", "accent_popup", "accent_linenum",
    "inactive", "focus"
  ]

  /** Entries `guide` to `hint`. */
  const GENERAL_3: seq<string> := [
    "guide", "guide_inlay", "guide_linenum", "guide_ruler", "guide_whitespace", "match",
    "error", "warning", "info", "hint"
  ]

  /** Entries `debug.active` to `debug.frameline`. */
  const DEBUG: seq<string> := [
    "debug.active", "debug.breakpoint", "debug.frameline"
  ]

  /** Entries `mode.normal` to `mode.select_2nd`. */
  const MODE: seq<string> := [
    "mode.normal", "mode.normal_2nd", "mode.insert", "mode.insert_2nd", "mode.select",
    "mode.select_2nd"
  ]

  /** Entries `syntax.variable` to `syntax.variable_member`. */
  const SYNTAX_1: seq<string> := [
    "syntax.variable", "syntax.variable_builtin", "syntax.variable_parameter",
    "syntax.variable_member"
  ]

  /** Entries `syntax.keyword` to `syntax.keyword_storage`. */
  const SYNTAX_2: seq<string> := [
    "syntax.keyword", "syntax.keyword_operator", "syntax.keyword_function",
    "syntax.keyword_conditional", "syntax.keyword_repeat", "syntax.keyword_import",
    "syntax.keyword_return", "syntax.keyword_exception", "syntax.keyword_directive",
    "syntax.keyword_storage"
  ]

  /** Entries `syntax.type` to `syntax.function_macro`. */
  const SYNTAX_3: seq<string> := [
    "syntax.type", "syntax.type_builtin", "syntax.type_variant", "syntax.function",
    "syntax.function_builtin", "syntax.function_method", "syntax.function_macro"
  ]

  /** Entries `syntax.constant` to `syntax.namespace`. */
  const SYNTAX_4: seq<string> := [
    "syntax.constant", "syntax.constant_builtin", "syntax.constant_boolean",
    "syntax.constant_number", "syntax.constant_character", "syntax.label",
    "syntax.constructor", "syntax.string", "syntax.attribute", "syntax.namespace"
  ]

  /** Entries `syntax.tag` to `syntax.operator`. */
  const SYNTAX_5: seq<string> := [
    "syntax.tag", "syntax.tag_builtin", "syntax.comment", "syntax.comment_doc",
    "syntax.operator"
  ]

  /** Entries `syntax.punctuation` to `syntax.punctuation_rainbow6`. */
  const SYNTAX_6: seq<string> := [
    "syntax.punctuation", "syntax.punctuation_rainbow1", "syntax.punctuation_rainbow2",
    "syntax.punctuation_rainbow3", "syntax.punctuation_rainbow4",
    "syntax.punctuation_rainbow5", "syntax.punctuation_rainbow6"
  ]

  /** Entries `syntax.special` to `syntax.special_punctuation`. */
  const SYNTAX_7: seq<string> := [
    "syntax.special", "syntax.special_function", "syntax.special_character",
    "syntax.special_string", "syntax.special_punctuation"
  ]

  /** Entries `diff.plus` to `diff.delta_conflict`. */
  const DIFF: seq<string> := [
    "diff.plus", "diff.minus", "diff.delta", "diff.delta_moved", "diff.delta_conflict"
  ]

  /** Entries `markup.heading` to `markup.list_unchecked`. */
  const MARKUP_1: seq<string> := [
    "markup.heading", "markup.heading_2nd", "markup.heading_3rd", "markup.heading_4th",
    "markup.heading_5th", "markup.heading_6th", "markup.list", "markup.list_numbered",
    "markup.list_checked", "markup.list_unchecked"
  ]

  /** Entries `markup.link` to `markup.raw`. */
  const MARKUP_2: seq<string> := [
    "markup.link", "markup.link_text", "markup.bold", "markup.italic",
    "markup.strikethrough", "markup.quote", "markup.raw"
  ]

  /** Entries `ansi.black` to `ansi.blue_bright`. */
  const ANSI_1: seq<string> := [
    "ansi.black", "ansi.black_bright", "ansi.red", "ansi.red_bright", "ansi.green",
    "ansi.green_bright", "ansi.yellow", "ansi.yellow_bright", "ansi.blue",
    "ansi.blue_bright"
  ]

  /** Entries `ansi.magenta` to `ansi.white_bright`. */
  const ANSI_2: seq<string> := [
    "ansi.magenta", "ansi.magenta_bright", "ansi.cyan", "ansi.cyan_bright", "ansi.white",
    "ansi.white_bright"
  ]

  /** Every role name, in declaration order. */
  const ROLES: seq<string> :=
    GENERAL_1 + GENERAL_2 + GENERAL_3 + DEBUG + MODE + SYNTAX_1 + SYNTAX_2 + SYNTAX_3
    + SYNTAX_4 + SYNTAX_5 + SYNTAX_6 + SYNTAX_7 + DIFF + MARKUP_1 + MARKUP_2 + ANSI_1
    + ANSI_2

  /** A name that occurs in the table. */
  type RoleName = r: string | r in ROLES witness "bg"

  datatype Error =
    | UndefinedRole(name: string)
    | CircularReference(chain: seq<string>)
    | MissingRequired(message: string)

  /** `RoleKind`: a base role, or a variant together with the base it falls back to. */
  datatype RoleKind = Base(name: RoleName) | Optional(name: RoleName, base: RoleName)


  /** Entries 0 to 4 of `GENERAL_1`. */
  lemma General1BasesPresentFront()
    ensures forall i | 0 <= i < 5 :: BaseAt(GENERAL_1, i)
  {
    forall i | 0 <= i < 5 ensures BaseAt(GENERAL_1, i) {
      if i == 0 { Plain(GENERAL_1[0]); }
      else if i == 1 { Variant(GENERAL_1[1], GENERAL_1[0], "alt"); }
      else if i == 2 { Plain(GENERAL_1[2]); }
      else if i == 3 { Variant(GENERAL_1[3], GENERAL_1[2], "alt"); }
      else if i == 4 { Plain(GENERAL_1[4]); }
    }
  }

  /** Entries 5 to 9 of `GENERAL_1`. */
  lemma General1BasesPresentBack()
    ensures forall i | 5 <= i < |GENERAL_1| :: BaseAt(GENERAL_1, i)
  {
    forall i | 5 <= i < |GENERAL_1| ensures BaseAt(GENERAL_1, i) {
      if i == 5 { Variant(GENERAL_1[5], GENERAL_1[4], "popup"); }
      else if i == 6 { Variant(GENERAL_1[6], GENERAL_1[4], "alt"); }
      else if i == 7 { Plain(GENERAL_1[7]); }
      else if i == 8 { Variant(GENERAL_1[8], GENERAL_1[7], "2nd"); }
      else if i == 9 { Variant(GENERAL_1[9], GENERAL_1[7], "alt"); }
    }
  }

  /** Every variant in `GENERAL_1` has its base in `GENERAL_1`. */
  lemma General1BasesPresent()
    ensures forall i | 0 <= i < |GENERAL_1| :: BaseAt(GENERAL_1, i)
  {
    General1BasesPresentFront();
    General1BasesPresentBack();
  }

  /** Entries 0 to 2 of `GENERAL_2`. */
  lemma General2BasesPresentFront()
    ensures forall i | 0 <= i < 3 :: BaseAt(GENERAL_2, i)
  {
    forall i | 0 <= i < 3 ensures BaseAt(GENERAL_2, i) {
      if i == 0 { Plain(GENERAL_2[0]); }
      else if i == 1 { Variant(GENERAL_2[1], GENERAL_2[0], "2nd"); }
      else if i == 2 { Variant(GENERAL_2[2], GENERAL_2[0], "separator"); }
    }
  }

  /** Entries 3 to 6 of `GENERAL_2`. */
  lemma General2BasesPresentBack()
    ensures forall i | 3 <= i < |GENERAL_2| :: BaseAt(GENERAL_2, i)
  {
    forall i | 3 <= i < |GENERAL_2| ensures BaseAt(GENERAL_2, i) {
      if i == 3 { Variant(GENERAL_2[3], GENERAL_2[0], "popup"); }
      else if i == 4 { Variant(GENERAL_2[4], GENERAL_2[0], "linenum"); }
      else if i == 5 { Plain(GENERAL_2[5]); }
      else if i == 6 { Plain(GENERAL_2[6]); }
    }
  }

  /** Every variant in `GENERAL_2` has its base in `GENERAL_2`. */
  lemma General2BasesPresent()
    ensures forall i | 0 <= i < |GENERAL_2| :: BaseAt(GENERAL_2, i)
  {
    General2BasesPresentFront();
    General2BasesPresentBack();
  }

  /** Entries 0 to 4 of `GENERAL_3`. */
  lemma General3BasesPresentFront()
    ensures forall i | 0 <= i < 5 :: BaseAt(GENERAL_3, i)
  {
    forall i | 0 <= i < 5 ensures BaseAt(GENERAL_3, i) {
      if i == 0 { Plain(GENERAL_3[0]); }
      else if i == 1 { Variant(GENERAL_3[1], GENERAL_3[0], "inlay"); }
      else if i == 2 { Variant(GENERAL_3[2], GENERAL_3[0], "linenum"); }
      else if i == 3 { Variant(GENERAL_3[3], GENERAL_3[0], "ruler"); }
      else if i == 4 { Variant(GENERAL_3[4], GENERAL_3[0], "whitespace"); }
    }
  }

  /** Entries 5 to 9 of `GENERAL_3`. */
  lemma General3BasesPresentBack()
    ensures forall i | 5 <= i < |GENERAL_3| :: BaseAt(GENERAL_3, i)
  {
    forall i | 5 <= i < |GENERAL_3| ensures BaseAt(GENERAL_3, i) {
      if i == 5 { Plain(GENERAL_3[5]); }
      else if i == 6 { Plain(GENERAL_3[6]); }
      else if i == 7 { Plain(GENERAL_3[7]); }
      else if i == 8 { Plain(GENERAL_3[8]); }
      else if i == 9 { Plain(GENERAL_3[9]); }
    }
  }

  /** Every variant in `GENERAL_3` has its base in `GENERAL_3`. */
  lemma General3BasesPresent()
    ensures forall i | 0 <= i < |GENERAL_3| :: BaseAt(GENERAL_3, i)
  {
    General3BasesPresentFront();
    General3BasesPresentBack();
  }

  /** Every variant in `DEBUG` has its base in `DEBUG`. */
  lemma DebugBasesPresent()
    ensures forall i | 0 <= i < |DEBUG| :: BaseAt(DEBUG, i)
  {
    forall i | 0 <= i < |DEBUG| ensures BaseAt(DEBUG, i) {
      if i == 0 { Plain(DEBUG[0]); }
      else if i == 1 { Plain(DEBUG[1]); }
      else if i == 2 { Plain(DEBUG[2]); }
    }
  }

  /** Every variant in `MODE` has its base in `MODE`. */
  lemma ModeBasesPresent()
    ensures forall i | 0 <= i < |MODE| :: BaseAt(MODE, i)
  {
    forall i | 0 <= i < |MODE| ensures BaseAt(MODE, i) {
      if i == 0 { Plain(MODE[0]); }
      else if i == 1 { Variant(MODE[1], MODE[0], "2nd"); }
      else if i == 2 { Plain(MODE[2]); }
      else if i == 3 { Variant(MODE[3], MODE[2], "2nd"); }
      else if i == 4 { Plain(MODE[4]); }
      else if i == 5 { Variant(MODE[5], MODE[4], "2nd"); }
    }
  }

  /** Every variant in `SYNTAX_1` has its base in `SYNTAX_1`. */
  lemma Syntax1BasesPresent()
    ensures forall i | 0 <= i < |SYNTAX_1| :: BaseAt(SYNTAX_1, i)
  {
    forall i | 0 <= i < |SYNTAX_1| ensures BaseAt(SYNTAX_1, i) {
      if i == 0 { Plain(SYNTAX_1[0]); }
      else if i == 1 { Variant(SYNTAX_1[1], SYNTAX_1[0], "builtin"); }
      else if i == 2 { Variant(SYNTAX_1[2], SYNTAX_1[0], "parameter"); }
      else if i == 3 { Variant(SYNTAX_1[3], SYNTAX_1[0], "member"); }
    }
  }

  /** Entries 0 to 4 of `SYNTAX_2`. */
  lemma Syntax2BasesPresentFront()
    ensures forall i | 0 <= i < 5 :: BaseAt(SYNTAX_2, i)
  {
    forall i | 0 <= i < 5 ensures BaseAt(SYNTAX_2, i) {
      if i == 0 { Plain(SYNTAX_2[0]); }
      else if i == 1 { Variant(SYNTAX_2[1], SYNTAX_2[0], "operator"); }
      else if i == 2 { Variant(SYNTAX_2[2], SYNTAX_2[0], "function"); }
      else if i == 3 { Variant(SYNTAX_2[3], SYNTAX_2[0], "conditional"); }
      else if i == 4 { Variant(SYNTAX_2[4], SYNTAX_2[0], "repeat"); }
    }
  }

  /** Entries 5 to 9 of `SYNTAX_2`. */
  lemma Syntax2BasesPresentBack()
    ensures forall i | 5 <= i < |SYNTAX_2| :: BaseAt(SYNTAX_2, i)
  {
    forall i | 5 <= i < |SYNTAX_2| ensures BaseAt(SYNTAX_2, i) {
      if i == 5 { Variant(SYNTAX_2[5], SYNTAX_2[0], "import"); }
      else if i == 6 { Variant(SYNTAX_2[6], SYNTAX_2[0], "return"); }
      else if i == 7 { Variant(SYNTAX_2[7], SYNTAX_2[0], "exception"); }
      else if i == 8 { Variant(SYNTAX_2[8], SYNTAX_2[0], "directive"); }
      else if i == 9 { Variant(SYNTAX_2[9], SYNTAX_2[0], "storage"); }
    }
  }

  /** Every variant in `SYNTAX_2` has its base in `SYNTAX_2`. */
  lemma Syntax2BasesPresent()
    ensures forall i | 0 <= i < |SYNTAX_2| :: BaseAt(SYNTAX_2, i)
  {
    Syntax2BasesPresentFront();
    Syntax2BasesPresentBack();
  }

  /** Entries 0 to 2 of `SYNTAX_3`. */
  lemma Syntax3BasesPresentFront()
    ensures forall i | 0 <= i < 3 :: BaseAt(SYNTAX_3, i)
  {
    forall i | 0 <= i < 3 ensures BaseAt(SYNTAX_3, i) {
      if i == 0 { Plain(SYNTAX_3[0]); }
      else if i == 1 { Variant(SYNTAX_3[1], SYNTAX_3[0], "builtin"); }
      else if i == 2 { Variant(SYNTAX_3[2], SYNTAX_3[0], "variant"); }
    }
  }

  /** Entries 3 to 6 of `SYNTAX_3`. */
  lemma Syntax3BasesPresentBack()
    ensures forall i | 3 <= i < |SYNTAX_3| :: BaseAt(SYNTAX_3, i)
  {
    forall i | 3 <= i < |SYNTAX_3| ensures BaseAt(SYNTAX_3, i) {
      if i == 3 { Plain(SYNTAX_3[3]); }
      else if i == 4 { Variant(SYNTAX_3[4], SYNTAX_3[3], "builtin"); }
      else if i == 5 { Variant(SYNTAX_3[5], SYNTAX_3[3], "method"); }
      else if i == 6 { Variant(SYNTAX_3[6], SYNTAX_3[3], "macro"); }
    }
  }

  /** Every variant in `SYNTAX_3` has its base in `SYNTAX_3`. */
  lemma Syntax3BasesPresent()
    ensures forall i | 0 <= i < |SYNTAX_3| :: BaseAt(SYNTAX_3, i)
  {
    Syntax3BasesPresentFront();
    Syntax3BasesPresentBack();
  }

  /** Entries 0 to 4 of `SYNTAX_4`. */
  lemma Syntax4BasesPresentFront()
    ensures forall i | 0 <= i < 5 :: BaseAt(SYNTAX_4, i)
  {
    forall i | 0 <= i < 5 ensures BaseAt(SYNTAX_4, i) {
      if i == 0 { Plain(SYNTAX_4[0]); }
      else if i == 1 { Variant(SYNTAX_4[1], SYNTAX_4[0], "builtin"); }
      else if i == 2 { Variant(SYNTAX_4[2], SYNTAX_4[0], "boolean"); }
      else if i == 3 { Variant(SYNTAX_4[3], SYNTAX_4[0], "number"); }
      else if i == 4 { Variant(SYNTAX_4[4], SYNTAX_4[0], "character"); }
    }
  }

  /** Entries 5 to 9 of `SYNTAX_4`. */
  lemma Syntax4BasesPresentBack()
    ensures forall i | 5 <= i < |SYNTAX_4| :: BaseAt(SYNTAX_4, i)
  {
    forall i | 5 <= i < |SYNTAX_4| ensures BaseAt(SYNTAX_4, i) {
      if i == 5 { Plain(SYNTAX_4[5]); }
      else if i == 6 { Plain(SYNTAX_4[6]); }
      else if i == 7 { Plain(SYNTAX_4[7]); }
      else if i == 8 { Plain(SYNTAX_4[8]); }
      else if i == 9 { Plain(SYNTAX_4[9]); }
    }
  }

  /** Every variant in `SYNTAX_4` has its base in `SYNTAX_4`. */
  lemma Syntax4BasesPresent()
    ensures forall i | 0 <= i < |SYNTAX_4| :: BaseAt(SYNTAX_4, i)
  {
    Syntax4BasesPresentFront();
    Syntax4BasesPresentBack();
  }

  /** Every variant in `SYNTAX_5` has its base in `SYNTAX_5`. */
  lemma Syntax5BasesPresent()
    ensures forall i | 0 <= i < |SYNTAX_5| :: BaseAt(SYNTAX_5, i)
  {
    forall i | 0 <= i < |SYNTAX_5| ensures BaseAt(SYNTAX_5, i) {
      if i == 0 { Plain(SYNTAX_5[0]); }
      else if i == 1 { Variant(SYNTAX_5[1], SYNTAX_5[0], "builtin"); }
      else if i == 2 { Plain(SYNTAX_5[2]); }
      else if i == 3 { Variant(SYNTAX_5[3], SYNTAX_5[2], "doc"); }
      else if i == 4 { Plain(SYNTAX_5[4]); }
    }
  }

  /** Entries 0 to 2 of `SYNTAX_6`. */
  lemma Syntax6BasesPresentFront()
    ensures forall i | 0 <= i < 3 :: BaseAt(SYNTAX_6, i)
  {
    forall i | 0 <= i < 3 ensures BaseAt(SYNTAX_6, i) {
      if i == 0 { Plain(SYNTAX_6[0]); }
      else if i == 1 { Variant(SYNTAX_6[1], SYNTAX_6[0], "rainbow1"); }
      else if i == 2 { Variant(SYNTAX_6[2], SYNTAX_6[0], "rainbow2"); }
    }
  }

  /** Entries 3 to 6 of `SYNTAX_6`. */
  lemma Syntax6BasesPresentBack()
    ensures forall i | 3 <= i < |SYNTAX_6| :: BaseAt(SYNTAX_6, i)
  {
    forall i | 3 <= i < |SYNTAX_6| ensures BaseAt(SYNTAX_6, i) {
      if i == 3 { Variant(SYNTAX_6[3], SYNTAX_6[0], "rainbow3"); }
      else if i == 4 { Variant(SYNTAX_6[4], SYNTAX_6[0], "rainbow4"); }
      else if i == 5 { Variant(SYNTAX_6[5], SYNTAX_6[0], "rainbow5"); }
      else if i == 6 { Variant(SYNTAX_6[6], SYNTAX_6[0], "rainbow6"); }
    }
  }

  /** Every variant in `SYNTAX_6` has its base in `SYNTAX_6`. */
  lemma Syntax6BasesPresent()
    ensures forall i | 0 <= i < |SYNTAX_6| :: BaseAt(SYNTAX_6, i)
  {
    Syntax6BasesPresentFront();
    Syntax6BasesPresentBack();
  }

  /** Every variant in `SYNTAX_7` has its base in `SYNTAX_7`. */
  lemma Syntax7BasesPresent()
    ensures forall i | 0 <= i < |SYNTAX_7| :: BaseAt(SYNTAX_7, i)
  {
    forall i | 0 <= i < |SYNTAX_7| ensures BaseAt(SYNTAX_7, i) {
      if i == 0 { Plain(SYNTAX_7[0]); }
      else if i == 1 { Variant(SYNTAX_7[1], SYNTAX_7[0], "function"); }
      else if i == 2 { Variant(SYNTAX_7[2], SYNTAX_7[0], "character"); }
      else if i == 3 { Variant(SYNTAX_7[3], SYNTAX_7[0], "string"); }
      else if i == 4 { Variant(SYNTAX_7[4], SYNTAX_7[0], "punctuation"); }
    }
  }

  /** Every variant in `DIFF` has its base in `DIFF`. */
  lemma DiffBasesPresent()
    ensures forall i | 0 <= i < |DIFF| :: BaseAt(DIFF, i)
  {
    forall i | 0 <= i < |DIFF| ensures BaseAt(DIFF, i) {
      if i == 0 { Plain(DIFF[0]); }
      else if i == 1 { Plain(DIFF[1]); }
      else if i == 2 { Plain(DIFF[2]); }
      else if i == 3 { Variant(DIFF[3], DIFF[2], "moved"); }
      else if i == 4 { Variant(DIFF[4], DIFF[2], "conflict"); }
    }
  }

  /** Entries 0 to 4 of `MARKUP_1`. */
  lemma Markup1BasesPresentFront()
    ensures forall i | 0 <= i < 5 :: BaseAt(MARKUP_1, i)
  {
    forall i | 0 <= i < 5 ensures BaseAt(MARKUP_1, i) {
      if i == 0 { Plain(MARKUP_1[0]); }
      else if i == 1 { Variant(MARKUP_1[1], MARKUP_1[0], "2nd"); }
      else if i == 2 { Variant(MARKUP_1[2], MARKUP_1[0], "3rd"); }
      else if i == 3 { Variant(MARKUP_1[3], MARKUP_1[0], "4th"); }
      else if i == 4 { Variant(MARKUP_1[4], MARKUP_1[0], "5th"); }
    }
  }

  /** Entries 5 to 9 of `MARKUP_1`. */
  lemma Markup1BasesPresentBack()
    ensures forall i | 5 <= i < |MARKUP_1| :: BaseAt(MARKUP_1, i)
  {
    forall i | 5 <= i < |MARKUP_1| ensures BaseAt(MARKUP_1, i) {
      if i == 5 { Variant(MARKUP_1[5], MARKUP_1[0], "6th"); }
      else if i == 6 { Plain(MARKUP_1[6]); }
      else if i == 7 { Variant(MARKUP_1[7], MARKUP_1[6], "numbered"); }
      else if i == 8 { Variant(MARKUP_1[8], MARKUP_1[6], "checked"); }
      else if i == 9 { Variant(MARKUP_1[9], MARKUP_1[6], "unchecked"); }
    }
  }

  /** Every variant in `MARKUP_1` has its base in `MARKUP_1`. */
  lemma Markup1BasesPresent()
    ensures forall i | 0 <= i < |MARKUP_1| :: BaseAt(MARKUP_1, i)
  {
    Markup1BasesPresentFront();
    Markup1BasesPresentBack();
  }

  /** Entries 0 to 2 of `MARKUP_2`. */
  lemma Markup2BasesPresentFront()
    ensures forall i | 0 <= i < 3 :: BaseAt(MARKUP_2, i)
  {
    forall i | 0 <= i < 3 ensures BaseAt(MARKUP_2, i) {
      if i == 0 { Plain(MARKUP_2[0]); }
      else if i == 1 { Variant(MARKUP_2[1], MARKUP_2[0], "text"); }
      else if i == 2 { Plain(MARKUP_2[2]); }
    }
  }

  /** Entries 3 to 6 of `MARKUP_2`. */
  lemma Markup2BasesPresentBack()
    ensures forall i | 3 <= i < |MARKUP_2| :: BaseAt(MARKUP_2, i)
  {
    forall i | 3 <= i < |MARKUP_2| ensures BaseAt(MARKUP_2, i) {
      if i == 3 { Plain(MARKUP_2[3]); }
      else if i == 4 { Plain(MARKUP_2[4]); }
      else if i == 5 { Plain(MARKUP_2[5]); }
      else if i == 6 { Plain(MARKUP_2[6]); }
    }
  }

  /** Every variant in `MARKUP_2` has its base in `MARKUP_2`. */
  lemma Markup2BasesPresent()
    ensures forall i | 0 <= i < |MARKUP_2| :: BaseAt(MARKUP_2, i)
  {
    Markup2BasesPresentFront();
    Markup2BasesPresentBack();
  }

  /** Entries 0 to 4 of `ANSI_1`. */
  lemma Ansi1BasesPresentFront()
    ensures forall i | 0 <= i < 5 :: BaseAt(ANSI_1, i)
  {
    forall i | 0 <= i < 5 ensures BaseAt(ANSI_1, i) {
      if i == 0 { Plain(ANSI_1[0]); }
      else if i == 1 { Variant(ANSI_1[1], ANSI_1[0], "bright"); }
      else if i == 2 { Plain(ANSI_1[2]); }
      else if i == 3 { Variant(ANSI_1[3], ANSI_1[2], "bright"); }
      else if i == 4 { Plain(ANSI_1[4]); }
    }
  }

  /** Entries 5 to 9 of `ANSI_1`. */
  lemma Ansi1BasesPresentBack()
    ensures forall i | 5 <= i < |ANSI_1| :: BaseAt(ANSI_1, i)
  {
    forall i | 5 <= i < |ANSI_1| ensures BaseAt(ANSI_1, i) {
      if i == 5 { Variant(ANSI_1[5], ANSI_1[4], "bright"); }
      else if i == 6 { Plain(ANSI_1[6]); }
      else if i == 7 { Variant(ANSI_1[7], ANSI_1[6], "bright"); }
      else if i == 8 { Plain(ANSI_1[8]); }
      else if i == 9 { Variant(ANSI_1[9], ANSI_1[8], "bright"); }
    }
  }

  /** Every variant in `ANSI_1` has its base in `ANSI_1`. */
  lemma Ansi1BasesPresent()
    ensures forall i | 0 <= i < |ANSI_1| :: BaseAt(ANSI_1, i)
  {
    Ansi1BasesPresentFront();
    Ansi1BasesPresentBack();
  }

  /** Every variant in `ANSI_2` has its base in `ANSI_2`. */
  lemma Ansi2BasesPresent()
    ensures forall i | 0 <= i < |ANSI_2| :: BaseAt(ANSI_2, i)
  {
    forall i | 0 <= i < |ANSI_2| ensures BaseAt(ANSI_2, i) {
      if i == 0 { Plain(ANSI_2[0]); }
      else if i == 1 { Variant(ANSI_2[1], ANSI_2[0], "bright"); }
      else if i == 2 { Plain(ANSI_2[2]); }
      else if i == 3 { Variant(ANSI_2[3], ANSI_2[2], "bright"); }
      else if i == 4 { Plain(ANSI_2[4]); }
      else if i == 5 { Variant(ANSI_2[5], ANSI_2[4], "bright"); }
    }
  }

  /** The design rule `classify` relies on: the base of every variant in the table is
      itself in the table, and is a base role. */
  lemma TableBasesPresent()
    ensures BasesPresent(ROLES)
  {
    General1BasesPresent();
    BasesPresentFromEntries(GENERAL_1);
    General2BasesPresent();
    BasesPresentFromEntries(GENERAL_2);
    General3BasesPresent();
    BasesPresentFromEntries(GENERAL_3);
    DebugBasesPresent();
    BasesPresentFromEntries(DEBUG);
    ModeBasesPresent();
    BasesPresentFromEntries(MODE);
    Syntax1BasesPresent();
    BasesPresentFromEntries(SYNTAX_1);
    Syntax2BasesPresent();
    BasesPresentFromEntries(SYNTAX_2);
    Syntax3BasesPresent();
    BasesPresentFromEntries(SYNTAX_3);
    Syntax4BasesPresent();
    BasesPresentFromEntries(SYNTAX_4);
    Syntax5BasesPresent();
    BasesPresentFromEntries(SYNTAX_5);
    Syntax6BasesPresent();
    BasesPresentFromEntries(SYNTAX_6);
    Syntax7BasesPresent();
    BasesPresentFromEntries(SYNTAX_7);
    DiffBasesPresent();
    BasesPresentFromEntries(DIFF);
    Markup1BasesPresent();
    BasesPresentFromEntries(MARKUP_1);
    Markup2BasesPresent();
    BasesPresentFromEntries(MARKUP_2);
    Ansi1BasesPresent();
    BasesPresentFromEntries(ANSI_1);
    Ansi2BasesPresent();
    BasesPresentFromEntries(ANSI_2);
    var acc := GENERAL_1;
    BasesPresentAppend(acc, GENERAL_2);
    acc := acc + GENERAL_2;
    BasesPresentAppend(acc, GENERAL_3);
    acc := acc + GENERAL_3;
    BasesPresentAppend(acc, DEBUG);
    acc := acc + DEBUG;
    BasesPresentAppend(acc, MODE);
    acc := acc + MODE;
    BasesPresentAppend(acc, SYNTAX_1);
    acc := acc + SYNTAX_1;
    BasesPresentAppend(acc, SYNTAX_2);
    acc := acc + SYNTAX_2;
    BasesPresentAppend(acc, SYNTAX_3);
    acc := acc + SYNTAX_3;
    BasesPresentAppend(acc, SYNTAX_4);
    acc := acc + SYNTAX_4;
    BasesPresentAppend(acc, SYNTAX_5);
    acc := acc + SYNTAX_5;
    BasesPresentAppend(acc, SYNTAX_6);
    acc := acc + SYNTAX_6;
    BasesPresentAppend(acc, SYNTAX_7);
    acc := acc + SYNTAX_7;
    BasesPresentAppend(acc, DIFF);
    acc := acc + DIFF;
    BasesPresentAppend(acc, MARKUP_1);
    acc := acc + MARKUP_1;
    BasesPresentAppend(acc, MARKUP_2);
    acc := acc + MARKUP_2;
    BasesPresentAppend(acc, ANSI_1);
    acc := acc + ANSI_1;
    BasesPresentAppend(acc, ANSI_2);
    acc := acc + ANSI_2;
  }

  /** `RoleName::from_str` (and `RoleName::parse`): the table entry equal to `s`. */
  function Parse(s: string): (r: Result<RoleName, Error>)
    ensures r.Ok? <==> s in ROLES
    ensures r.Ok? ==> r.value == s
    ensures r.Err? ==> r.error == UndefinedRole(s)
  {
    if s in ROLES then Ok(s) else Err(UndefinedRole(s))
  }

  /** `classify`: a name without `_` is a base role; any other name is a variant of
      the name before its last `_`, which the table guarantees to be a base role. */
  function Classify(r: RoleName): (k: RoleKind)
    ensures k.name == r
    ensures k.Base? <==> VARIANT_SEPARATOR !in r
    ensures k.Optional? ==> k.base == ExtractBase(r) && VARIANT_SEPARATOR !in k.base
  {
    IsBaseIffNoSeparator(r);
    if IsBase(r) then Base(r)
    else
      TableBasesPresent();
      IsBaseIffNoSeparator(ExtractBase(r));
      Optional(r, ExtractBase(r))
  }

  /** `iter()`: every role, in table order. */
  function Iter(): seq<RoleName> {
    ROLES
  }

  /** `base()`: `iter()` filtered by `is_base`. */
  function BaseRoles(): seq<RoleName> {
    Bases(ROLES)
  }

  /** `base()` yields exactly the roles without `_`; filtering keeps the table order,
      slice by slice (see `Variants.BasesAppend`). */
  lemma BaseRolesAreBases()
    ensures forall r :: r in BaseRoles() ==> r in ROLES && VARIANT_SEPARATOR !in r
    ensures forall r :: r in ROLES && VARIANT_SEPARATOR !in r ==> r in BaseRoles()
  {
    forall r ensures IsBase(r) <==> VARIANT_SEPARATOR !in r {
      IsBaseIffNoSeparator(r);
    }
  }

  /** Every name `iter()` yields parses back to itself. */
  lemma IterParses()
    ensures forall i | 0 <= i < |Iter()| :: Parse(Iter()[i]) == Ok(Iter()[i])
  {
  }

  /** What a scheme may assign to a role. */
  datatype RoleValue = Swatch(name: string) | Role(role: RoleName)

  /** The context the swatch-name validator reports errors under. */
  const SWATCH_CONTEXT: string := "swatch"

  /** `RoleValue::parse`: `$name` refers to a swatch whose name must validate, and any
      other value must be a role name. */
  function ParseValue(u: Unicode.Services, val: string): (r: Result<RoleValue, Error>)
    ensures |val| > 0 && val[0] == '$' ==>
              && (r.Ok? <==> Names.ValidName(u, Names.BeforeFirstDot, u.nfc(val[1..])))
              && (r.Ok? ==> r.value == Swatch(u.nfc(val[1..])))
              && (r.Err? ==> r.error == UndefinedRole("invalid swatch reference: `$" + val[1..] + "`"))
    ensures !(|val| > 0 && val[0] == '$') ==>
              && (r.Ok? <==> val in ROLES)
              && (r.Ok? ==> r.value == Role(val))
              && (r.Err? ==> r.error == UndefinedRole(val))
  {
    if |val| > 0 && val[0] == '$' then
      var rest := val[1..];
      match Names.ParseDisplay(u, Names.BeforeFirstDot, rest, SWATCH_CONTEXT)
      case Ok(name) => Ok(Swatch(name))
      case Err(_) => Err(UndefinedRole("invalid swatch reference: `$" + rest + "`"))
    else
      var role :- Parse(val);
      Ok(Role(role))
  }
}


=== FILE: baselscheme.dfy ===
/** Loading a scheme in the role-based tool: the root table's `scheme`,
    `scheme_ascii`, `meta`, `palette` and `roles` sections are read into a raw
    scheme, every role is resolved to a palette swatch, and the scheme's names are
    settled. The same loader appears twice in the tool's history (a single schemes
    module, and later a separate loading module); both are modelled here.

    The loader is written over a `Vocabulary`: the role names as a type `R` with
    their table, base roles, parser, fallbacks and display. `BaselLoad` instantiates
    it with the tool's role table. */
module BaselScheme {
  import opened Wrappers
  import opened Strings
  import Unicode
  import Names
  import Toml
  import Color
  import Swatches
  import IndexMaps
  import Collisions
  import Resolution
  import BaselRoles

  const MAX_META_FIELD_LENGTH: nat := 1000

  /** The scheme's optional descriptive fields. */
  datatype Meta = Meta(
    author: Option<string>, authorAscii: Option<string>,
    license: Option<string>, licenseAscii: Option<string>,
    blurb: Option<string>, blurbAscii: Option<string>)

  /** A role resolved to a swatch: its colour as lower-case hex, and the swatch's
      display and ASCII names. */
  datatype ResolvedRole = ResolvedRole(hex: string, swatch: string, ascii: string)

  datatype Error =
    | UndefinedSwatch(role: string, swatch: string)
    | InvalidMeta(field: string, length: nat)
    | InvalidRolesStructure(path: string, reason: string)
    | Deserializing(section: string, path: string)
    | Role(roleError: BaselRoles.Error)
    | Palette(swatchError: Swatches.Error)
    | Name(nameError: Names.Error)

  /** What a role may be assigned: `$swatch` or another role. */
  type Value<R> = Resolution.Ref<string, R>

  /** The role vocabulary, with role-value errors of the role table. */
  type Vocabulary<!R> = Resolution.Vocabulary<R, BaselRoles.Error>

  /** The scheme as read from its file, before resolution. */
  datatype RawScheme<R> = RawScheme(
    scheme: Option<string>,
    schemeAscii: Option<string>,
    meta: Meta,
    palette: seq<Swatches.Swatch>,
    roles: IndexMaps.Entries<R, Value<R>>)

  // ---------------------------------------------------------------------------
  // Meta fields

  /** `validate_meta_field`: a present value may hold at most 1000 bytes. */
  function ValidateMetaField(name: string, value: Option<string>): (r: Result<(), Error>)
    ensures r.Ok? <==> value.None? || ByteLen(value.value) <= MAX_META_FIELD_LENGTH
    ensures r.Err? ==> r.error == InvalidMeta(name, ByteLen(value.value))
  {
    if value.Some? && ByteLen(value.value) > MAX_META_FIELD_LENGTH then
      Err(InvalidMeta(name, ByteLen(value.value)))
    else Ok(())
  }

  /** The six meta fields, named as in the file, in the order they are checked. */
  function MetaFields(m: Meta): seq<(string, Option<string>)> {
    [("author", m.author), ("author_ascii", m.authorAscii),
     ("license", m.license), ("license_ascii", m.licenseAscii),
     ("blurb", m.blurb), ("blurb_ascii", m.blurbAscii)]
  }

  /** Validate fields in order; the first over-long one is reported. */
  function ValidateFields(fields: seq<(string, Option<string>)>): (r: Result<(), Error>)
    ensures r.Ok? <==> forall i :: 0 <= i < |fields| ==> ValidateMetaField(fields[i].0, fields[i].1).Ok?
    ensures r.Err? ==> exists i :: 0 <= i < |fields| && ValidateMetaField(fields[i].0, fields[i].1) == r
                                   && forall j :: 0 <= j < i ==> ValidateMetaField(fields[j].0, fields[j].1).Ok?
  {
    if |fields| == 0 then Ok(())
    else
      match ValidateMetaField(fields[0].0, fields[0].1)
      case Err(e) => Err(e)
      case Ok(_) =>
        var r := ValidateFields(fields[1..]);
        assert forall i :: 1 <= i < |fields| ==> fields[i] == fields[1..][i - 1];
        if r.Err? then
          assert exists i :: 0 <= i < |fields| && ValidateMetaField(fields[i].0, fields[i].1) == r
                             && forall j :: 0 <= j < i ==> ValidateMetaField(fields[j].0, fields[j].1).Ok? by {
            var i :| 0 <= i < |fields[1..]| && ValidateMetaField(fields[1..][i].0, fields[1..][i].1) == r
                     && forall j :: 0 <= j < i ==> ValidateMetaField(fields[1..][j].0, fields[1..][j].1).Ok?;
            assert fields[i + 1] == fields[1..][i];
          }
          r
        else r
  }

  /** The six `validate_meta_field` calls: every field must be at most 1000 bytes. */
  function ValidateMeta(m: Meta): (r: Result<(), Error>)
    ensures r.Ok? <==> forall i :: 0 <= i < 6 ==>
                         MetaFields(m)[i].1.None? || ByteLen(MetaFields(m)[i].1.value) <= MAX_META_FIELD_LENGTH
    ensures r.Err? ==> r.error.InvalidMeta? && r.error.length > MAX_META_FIELD_LENGTH
  {
    ValidateFields(MetaFields(m))
  }

  /** The `meta` section deserialised into `Meta`: a table whose six known keys, when
      present, must hold strings; other keys are ignored. */
  function MetaField(entries: seq<(string, Toml.Value)>, key: string, path: string): (r: Result<Option<string>, Error>)
    ensures r.Ok? <==> Toml.Get(entries, key).None? || Toml.Get(entries, key).value.TString?
    ensures r.Ok? ==> r.value == Toml.GetStr(entries, key)
    ensures r.Err? ==> r.error == Deserializing("meta", path)
  {
    match Toml.Get(entries, key)
    case None => Ok(None)
    case Some(v) => if v.TString? then Ok(Some(v.s)) else Err(Deserializing("meta", path))
  }

  function ParseMeta(v: Toml.Value, path: string): (r: Result<Meta, Error>)
    ensures !v.TTable? ==> r == Err(Deserializing("meta", path))
    ensures r.Ok? <==> && v.TTable?
                       && Toml.OptionalStr(v.entries, "author") && Toml.OptionalStr(v.entries, "author_ascii")
                       && Toml.OptionalStr(v.entries, "license") && Toml.OptionalStr(v.entries, "license_ascii")
                       && Toml.OptionalStr(v.entries, "blurb") && Toml.OptionalStr(v.entries, "blurb_ascii")
    ensures r.Ok? ==> r.value == Meta(Toml.GetStr(v.entries, "author"), Toml.GetStr(v.entries, "author_ascii"),
                                      Toml.GetStr(v.entries, "license"), Toml.GetStr(v.entries, "license_ascii"),
                                      Toml.GetStr(v.entries, "blurb"), Toml.GetStr(v.entries, "blurb_ascii"))
    ensures r.Err? ==> r.error == Deserializing("meta", path)
  {
    if !v.TTable? then Err(Deserializing("meta", path))
    else
      var author :- MetaField(v.entries, "author", path);
      var authorAscii :- MetaField(v.entries, "author_ascii", path);
      var license :- MetaField(v.entries, "license", path);
      var licenseAscii :- MetaField(v.entries, "license_ascii", path);
      var blurb :- MetaField(v.entries, "blurb", path);
      var blurbAscii :- MetaField(v.entries, "blurb_ascii", path);
      Ok(Meta(author, authorAscii, license, licenseAscii, blurb, blurbAscii))
  }

  // ---------------------------------------------------------------------------
  // The `roles` section

  /** `parse_role`: the key must name a role and the value must be a string that
      parses as a role value. */
  function ParseRole<R>(voc: Vocabulary<R>, key: string, val: Toml.Value, path: string)
    : (r: Result<(R, Value<R>), Error>)
    ensures r.Ok? <==> voc.parseName(key).Some? && val.TString? && voc.parseValue(val.s).Ok?
    ensures r.Ok? ==> r.value == (voc.parseName(key).value, voc.parseValue(val.s).value)
    ensures voc.parseName(key).None? ==>
              r == Err(InvalidRolesStructure(path, "invalid role name: `" + key + "`"))
    ensures voc.parseName(key).Some? && !val.TString? ==>
              r == Err(InvalidRolesStructure(path, "role `" + key + "` must be a string"))
    ensures voc.parseName(key).Some? && val.TString? && voc.parseValue(val.s).Err? ==>
              r == Err(Role(voc.parseValue(val.s).error))
  {
    match voc.parseName(key)
    case None => Err(InvalidRolesStructure(path, "invalid role name: `" + key + "`"))
    case Some(name) =>
      match val.AsStr()
      case None => Err(InvalidRolesStructure(path, "role `" + key + "` must be a string"))
      case Some(s) =>
        match voc.parseValue(s)
        case Err(e) => Err(Role(e))
        case Ok(v) => Ok((name, v))
  }

  /** `parse_role` as a function of one pair. */
  function RoleParser<R>(voc: Vocabulary<R>, path: string): ((string, Toml.Value)) -> Result<(R, Value<R>), Error> {
    (p: (string, Toml.Value)) => ParseRole(voc, p.0, p.1, path)
  }

  /** The `parse_roles` loop: the pairs are parsed in order into an
      insertion-ordered map. The first failing pair aborts; a role named more than
      once keeps its first position (and, by `ParsePairsLastWins`, its last value). */
  function ParsePairs<R(==)>(voc: Vocabulary<R>, pairs: seq<(string, Toml.Value)>, path: string)
    : (r: Result<IndexMaps.Entries<R, Value<R>>, Error>)
    ensures r.Ok? <==> forall i :: 0 <= i < |pairs| ==> ParseRole(voc, pairs[i].0, pairs[i].1, path).Ok?
    ensures r.Ok? ==> IndexMaps.Valid(r.value)
    ensures r.Ok? ==> IndexMaps.Keys(r.value) == Collisions.Distinct(Resolution.ParsedKeys(voc, pairs))
    ensures r.Err? ==> exists i :: 0 <= i < |pairs| && ParseRole(voc, pairs[i].0, pairs[i].1, path) == Err(r.error)
                                   && forall j :: 0 <= j < i ==> ParseRole(voc, pairs[j].0, pairs[j].1, path).Ok?
  {
    var kvs :- Traverse(pairs, RoleParser(voc, path));
    assert IndexMaps.Keys(kvs) == Resolution.ParsedKeys(voc, pairs);
    Ok(IndexMaps.Collect(kvs))
  }

  /** A role named more than once takes the value of its last occurrence. */
  lemma ParsePairsLastWins<R>(voc: Vocabulary<R>, pairs: seq<(string, Toml.Value)>, path: string, i: nat)
    requires i < |pairs|
    requires forall j :: i < j < |pairs| ==> voc.parseName(pairs[j].0) != voc.parseName(pairs[i].0)
    ensures ParsePairs(voc, pairs, path).Ok? ==>
              IndexMaps.Get(ParsePairs(voc, pairs, path).value, voc.parseName(pairs[i].0).value)
              == Some(voc.parseValue(pairs[i].1.s).value)
  {
    if ParsePairs(voc, pairs, path).Ok? {
      var kvs := Traverse(pairs, RoleParser(voc, path)).value;
      assert ParsePairs(voc, pairs, path).value == IndexMaps.Collect(kvs);
      var k := voc.parseName(pairs[i].0).value;
      assert kvs[i] == RoleParser(voc, path)(pairs[i]).value;
      assert forall j :: i < j < |kvs| ==> kvs[j].0 != k by {
        forall j | i < j < |kvs| ensures kvs[j].0 != k {
          assert kvs[j] == RoleParser(voc, path)(pairs[j]).value;
        }
      }
      IndexMaps.CollectGet(kvs, k);
      IndexMaps.LastValueAt(kvs, k, i);
    }
  }

  /** `parse_roles`: the section must be a table; nested tables contribute dotted
      keys, and every resulting pair is parsed in order. */
  function ParseRoles<R(==)>(voc: Vocabulary<R>, val: Toml.Value, path: string)
    : (r: Result<IndexMaps.Entries<R, Value<R>>, Error>)
    ensures !val.TTable? ==> r == Err(InvalidRolesStructure(path, "`roles` must be a table"))
    ensures val.TTable? ==> r == ParsePairs(voc, Toml.Flatten(val.entries), path)
  {
    if !val.TTable? then Err(InvalidRolesStructure(path, "`roles` must be a table"))
    else ParsePairs(voc, Toml.Flatten(val.entries), path)
  }

  // ---------------------------------------------------------------------------
  // Resolution

  /** A palette swatch as a resolved role. */
  function Resolved(s: Swatches.Swatch): ResolvedRole {
    ResolvedRole(Color.Display(s.color), s.name, s.ascii)
  }

  /** `palette.get(name)`, resolved. */
  function LookupSwatch(palette: seq<Swatches.Swatch>, name: string): Option<ResolvedRole> {
    match Swatches.Lookup(palette, name)
    case None => None
    case Some(s) => Some(Resolved(s))
  }

  function GraphOf<R(==, !new)>(voc: Vocabulary<R>, raw: RawScheme<R>): Resolution.Graph<string, R, ResolvedRole> {
    Resolution.Graph(voc.table, IndexMaps.AsMap(raw.roles), voc.fallback, n => LookupSwatch(raw.palette, n))
  }

  /** The engine's failures as the loader reports them. */
  function FailureError<R>(voc: Vocabulary<R>, f: Resolution.Failure<string, R>): Error {
    match f
    case Circular(chain) => Role(BaselRoles.CircularReference(Resolution.NamesOf(voc, chain)))
    case UndefinedSwatch(s, r) => UndefinedSwatch(voc.nameOf(r), s)
    case Missing(r) => Role(BaselRoles.MissingRequired(voc.nameOf(r)))
  }

  /** A value the palette lookup yields is a palette swatch, resolved. */
  lemma LookupIsSwatch(palette: seq<Swatches.Swatch>, t: ResolvedRole)
    requires exists n :: LookupSwatch(palette, n) == Some(t)
    ensures exists s :: s in palette && t == Resolved(s)
  {
    var n :| LookupSwatch(palette, n) == Some(t);
    assert Swatches.Lookup(palette, n).value in palette;
  }

  /** `resolve_role`. A resolved role is a palette swatch; an undefined swatch is
      reported under the role that holds the dangling reference; a circular chain is
      reported as the visited roles followed by the revisited one. */
  function ResolveRole<R(==, !new)>(voc: Vocabulary<R>, raw: RawScheme<R>, role: R, visited: seq<R>)
    : (r: Result<ResolvedRole, Error>)
    requires Resolution.Coherent(voc)
    ensures r.Ok? ==> exists s :: s in raw.palette && r.value == Resolved(s)
    ensures r.Err? && r.error.UndefinedSwatch? ==>
              && r.error.swatch !in Swatches.Names_(raw.palette)
              && exists x :: voc.nameOf(x) == r.error.role
                             && IndexMaps.Get(raw.roles, x) == Some(Resolution.SwatchRef(r.error.swatch))
    ensures r.Err? ==> r.error.UndefinedSwatch? || r.error.Role?
  {
    var g := GraphOf(voc, raw);
    match Resolution.Resolve(g, role, visited)
    case Ok(t) =>
      LookupIsSwatch(raw.palette, t);
      Ok(t)
    case Err(f) =>
      Err(FailureError(voc, f))
  }

  /** One role's resolution is the engine's, with its failure as the loader reports it. */
  lemma ResolveRoleIsEngine<R(!new)>(voc: Vocabulary<R>, raw: RawScheme<R>, role: R)
    requires Resolution.Coherent(voc)
    ensures ResolveRole(voc, raw, role, []).Ok? <==> Resolution.Resolve(GraphOf(voc, raw), role, []).Ok?
    ensures ResolveRole(voc, raw, role, []).Err? ==>
              ResolveRole(voc, raw, role, []).error == FailureError(voc, Resolution.Resolve(GraphOf(voc, raw), role, []).error)
  {
  }

  /** Along any list of roles, each role resolves on its own exactly when the engine
      resolves it. */
  lemma RolesAgreeWithEngine<R(!new)>(voc: Vocabulary<R>, raw: RawScheme<R>, order: seq<R>)
    requires Resolution.Coherent(voc)
    ensures forall i :: 0 <= i < |order| ==>
              (ResolveRole(voc, raw, order[i], []).Ok? <==> Resolution.Resolve(GraphOf(voc, raw), order[i], []).Ok?)
  {
    forall i | 0 <= i < |order| {
      ResolveRoleIsEngine(voc, raw, order[i]);
    }
  }

  /** With the pre-check passed, the engine resolves the whole table exactly when
      each role resolves on its own. */
  lemma EngineOkIffRolesOk<R(!new)>(voc: Vocabulary<R>, raw: RawScheme<R>)
    requires Resolution.Coherent(voc)
    requires Resolution.Unassigned(GraphOf(voc, raw), voc.bases) == []
    ensures Resolution.ResolveAll(GraphOf(voc, raw), voc.bases, voc.table).Ok? <==>
              forall i :: 0 <= i < |voc.table| ==> ResolveRole(voc, raw, voc.table[i], []).Ok?
  {
    RolesAgreeWithEngine(voc, raw, voc.table);
  }

  /** The engine's failure is the first role, in table order, whose own resolution
      fails, and that role reports it. */
  lemma EngineFailureIsFirstRole<R(!new)>(voc: Vocabulary<R>, raw: RawScheme<R>, f: Resolution.Failure<string, R>)
    requires Resolution.Coherent(voc)
    requires Resolution.ResolveAll(GraphOf(voc, raw), voc.bases, voc.table) == Err(Resolution.Failed(f))
    ensures exists i :: 0 <= i < |voc.table| && ResolveRole(voc, raw, voc.table[i], []) == Err(FailureError(voc, f))
                        && forall j :: 0 <= j < i ==> ResolveRole(voc, raw, voc.table[j], []).Ok?
  {
    var g := GraphOf(voc, raw);
    var i :| 0 <= i < |voc.table| && Resolution.Resolve(g, voc.table[i], []) == Err(f)
             && forall j :: 0 <= j < i ==> Resolution.Resolve(g, voc.table[j], []).Ok?;
    ResolveRoleIsEngine(voc, raw, voc.table[i]);
    RolesAgreeWithEngine(voc, raw, voc.table);
  }

  /** `resolve_roles`: every unassigned base role is reported in one error, in table
      order; otherwise every role is resolved in table order from a fresh visited
      set, and the first failure aborts. Once the pre-check has passed, a failure
      is a dangling swatch reference or a circular chain, never a missing role. */
  function ResolveRoles<R(==, !new)>(voc: Vocabulary<R>, raw: RawScheme<R>)
    : (r: Result<IndexMaps.Entries<R, ResolvedRole>, Error>)
    requires Resolution.Coherent(voc)
    ensures var missing := Resolution.Unassigned(GraphOf(voc, raw), voc.bases);
            missing != [] ==>
              r == Err(Role(BaselRoles.MissingRequired("missing required roles: " + Join(Resolution.NamesOf(voc, missing), ", "))))
    ensures Resolution.Unassigned(GraphOf(voc, raw), voc.bases) == [] && r.Err? ==>
              r.error.UndefinedSwatch? || (r.error.Role? && r.error.roleError.CircularReference?)
    ensures r.Ok? ==> IndexMaps.Keys(r.value) == voc.table
    ensures r.Ok? ==> forall i :: 0 <= i < |r.value| ==>
                        Ok(r.value[i].1) == ResolveRole(voc, raw, r.value[i].0, [])
  {
    var g := GraphOf(voc, raw);
    Resolution.ResolveAllNeverMissing(g, voc.bases, voc.table);
    match Resolution.ResolveAll(g, voc.bases, voc.table)
    case Err(e) =>
      if e.MissingBases? then
        Err(Role(BaselRoles.MissingRequired("missing required roles: " + Join(Resolution.NamesOf(voc, e.names), ", "))))
      else
        Err(FailureError(voc, e.failure))
    case Ok(v) =>
      Ok(v)
  }
  /** Once every base role is assigned, the roles resolve exactly when each role
      resolves on its own, and otherwise the error is that of the first role, in
      table order, whose resolution fails: the first error aborts. */
  lemma ResolveRolesOutcome<R(!new)>(voc: Vocabulary<R>, raw: RawScheme<R>)
    requires Resolution.Coherent(voc)
    requires Resolution.Unassigned(GraphOf(voc, raw), voc.bases) == []
    ensures ResolveRoles(voc, raw).Ok? <==>
              forall i :: 0 <= i < |voc.table| ==> ResolveRole(voc, raw, voc.table[i], []).Ok?
    ensures ResolveRoles(voc, raw).Err? ==>
              exists i :: 0 <= i < |voc.table| && ResolveRole(voc, raw, voc.table[i], []) == Err(ResolveRoles(voc, raw).error)
                          && forall j :: 0 <= j < i ==> ResolveRole(voc, raw, voc.table[j], []).Ok?
  {
    var g := GraphOf(voc, raw);
    EngineOkIffRolesOk(voc, raw);
    match Resolution.ResolveAll(g, voc.bases, voc.table)
    case Err(e) =>
      assert e.Failed?;
      EngineFailureIsFirstRole(voc, raw, e.failure);
    case Ok(_) =>
  }


  /** Every resolved role is a swatch of the palette. */
  lemma ResolvedFromPalette<R(!new)>(voc: Vocabulary<R>, raw: RawScheme<R>)
    requires Resolution.Coherent(voc)
    ensures ResolveRoles(voc, raw).Ok? ==>
            var v := ResolveRoles(voc, raw).value;
            forall i :: 0 <= i < |v| ==> exists s :: s in raw.palette && v[i].1 == Resolved(s)
  {
    if ResolveRoles(voc, raw).Ok? {
      var v := ResolveRoles(voc, raw).value;
      forall i | 0 <= i < |v| ensures exists s :: s in raw.palette && v[i].1 == Resolved(s) {
        assert Ok(v[i].1) == ResolveRole(voc, raw, v[i].0, []);
      }
    }
  }

  // ---------------------------------------------------------------------------
  // Names and the loaded scheme

  /** The context scheme names are validated under. */
  const SCHEME_CONTEXT: string := "scheme"

  function NameResult<T>(r: Result<T, Names.Error>): (r': Result<T, Error>)
    ensures r.Ok? <==> r'.Ok?
    ensures r.Ok? ==> r'.value == r.value
    ensures r.Err? ==> r'.error == Name(r.error)
  {
    match r
    case Ok(v) => Ok(v)
    case Err(e) => Err(Name(e))
  }

  /** `scheme_names`: an explicit `scheme` wins over the file stem, and an explicit
      `scheme_ascii` wins over the generated fallback of the display name. */
  function SchemeNames<R>(u: Unicode.Services, raw: RawScheme<R>, fallbackName: string): (r: Result<(string, string), Error>)
    ensures r.Ok? && raw.scheme.Some? ==> r.value.0 == raw.scheme.value
    ensures r.Ok? && raw.scheme.None? ==>
              r.value.0 == u.nfc(fallbackName) && Names.ValidName(u, Names.WholeName, r.value.0)
    ensures r.Ok? && raw.schemeAscii.Some? ==> r.value.1 == raw.schemeAscii.value
    ensures r.Ok? && raw.schemeAscii.None? ==>
              r.value.1 == Names.Sanitize(u.deunicode(r.value.0)) && IsAscii(r.value.1) && r.value.1 != []
    ensures raw.scheme.Some? && raw.schemeAscii.Some? ==> r == Ok((raw.scheme.value, raw.schemeAscii.value))
    ensures r.Err? ==> r.error.Name?
  {
    var name :- match raw.scheme
                case Some(n) => Ok(n)
                case None => NameResult(Names.ParseDisplay(u, Names.WholeName, fallbackName, SCHEME_CONTEXT));
    var ascii :- match raw.schemeAscii
                 case Some(a) => Ok(a)
                 case None => NameResult(Names.ToAscii(u, Names.WholeName, name, SCHEME_CONTEXT));
    Ok((name, ascii))
  }

  /** A loaded scheme: its names, meta, palette, the role assignments as written
      and every role resolved. */
  datatype Scheme<R> = Scheme(
    name: string,
    nameAscii: string,
    meta: Meta,
    palette: seq<Swatches.Swatch>,
    roles: IndexMaps.Entries<R, Value<R>>,
    resolvedRoles: IndexMaps.Entries<R, ResolvedRole>)

  /** `into_scheme`: roles are resolved before the names are settled, so a
      resolution failure is reported even when the names would fail too. */
  function IntoScheme<R(==, !new)>(u: Unicode.Services, voc: Vocabulary<R>, raw: RawScheme<R>, fallbackName: string)
    : (r: Result<Scheme<R>, Error>)
    requires Resolution.Coherent(voc)
    ensures r.Ok? <==> ResolveRoles(voc, raw).Ok? && SchemeNames(u, raw, fallbackName).Ok?
    ensures ResolveRoles(voc, raw).Err? ==> r == Err(ResolveRoles(voc, raw).error)
    ensures r.Ok? ==> && r.value.resolvedRoles == ResolveRoles(voc, raw).value
                      && (r.value.name, r.value.nameAscii) == SchemeNames(u, raw, fallbackName).value
                      && r.value.meta == raw.meta && r.value.palette == raw.palette && r.value.roles == raw.roles
  {
    var resolved :- ResolveRoles(voc, raw);
    var names :- SchemeNames(u, raw, fallbackName);
    Ok(Scheme(names.0, names.1, raw.meta, raw.palette, raw.roles, resolved))
  }

  /** An optional section holding a scheme name: absent is `None`; present, it must
      be a string that the display-name parser (or, for `ascii`, the ASCII-name
      parser) accepts. */
  function NameSection(u: Unicode.Services, root: seq<(string, Toml.Value)>, section: string, path: string, ascii: bool)
    : (r: Result<Option<string>, Error>)
    ensures Toml.Get(root, section).None? ==> r == Ok(None)
    ensures Toml.Get(root, section).Some? && r.Ok? ==> r.value.Some?
    ensures Toml.Get(root, section).Some? ==>
              (r.Ok? <==> && Toml.GetStr(root, section).Some?
                          && Names.ValidName(u, Names.WholeName, u.nfc(Toml.GetStr(root, section).value))
                          && (ascii ==> IsAscii(u.nfc(Toml.GetStr(root, section).value))))
    ensures r.Ok? && r.value.Some? ==>
              && Toml.GetStr(root, section).Some?
              && r.value.value == u.nfc(Toml.GetStr(root, section).value)
              && Names.ValidName(u, Names.WholeName, r.value.value)
              && (ascii ==> IsAscii(r.value.value))
    ensures r.Err? ==> r.error == Deserializing(section, path)
  {
    match Toml.Get(root, section)
    case None => Ok(None)
    case Some(v) =>
      match v.AsStr()
      case None => Err(Deserializing(section, path))
      case Some(s) =>
        var parsed := if ascii then Names.ParseAscii(u, Names.WholeName, s, SCHEME_CONTEXT)
                      else Names.ParseDisplay(u, Names.WholeName, s, SCHEME_CONTEXT);
        match parsed
        case Err(_) => Err(Deserializing(section, path))
        case Ok(n) => Ok(Some(n))
  }

  const NO_META: Meta := Meta(None, None, None, None, None, None)

  /** `palette` errors: a section that is not a table is a deserialising error;
      the swatch errors pass through. */
  function PaletteError(e: Swatches.Error, path: string): Error {
    if e.PaletteNotTable? then Deserializing("palette", path) else Palette(e)
  }

  /** What the loader establishes about a raw scheme before resolving it: explicit
      names are valid (the ASCII one all ASCII), every meta field is within its
      limit, the palette's names and ASCII names are distinct, and no role is
      assigned twice. */
  predicate WellFormed<R(==)>(u: Unicode.Services, raw: RawScheme<R>) {
    && (raw.scheme.Some? ==> Names.ValidName(u, Names.WholeName, raw.scheme.value))
    && (raw.schemeAscii.Some? ==> Names.ValidName(u, Names.WholeName, raw.schemeAscii.value)
                                  && IsAscii(raw.schemeAscii.value))
    && ValidateMeta(raw.meta).Ok?
    && (forall i, j :: 0 <= i < j < |raw.palette| ==>
          raw.palette[i].name != raw.palette[j].name && raw.palette[i].ascii != raw.palette[j].ascii)
    && IndexMaps.Valid(raw.roles)
  }

  /** The `meta` section, or no meta when it is absent. */
  function MetaSection(root: seq<(string, Toml.Value)>, path: string): (r: Result<Meta, Error>)
    ensures Toml.Get(root, "meta").None? ==> r == Ok(NO_META)
    ensures Toml.Get(root, "meta").Some? ==> r == ParseMeta(Toml.Get(root, "meta").value, path)
  {
    match Toml.Get(root, "meta")
    case None => Ok(NO_META)
    case Some(v) => ParseMeta(v, path)
  }

  /** The `palette` section, which must be present. */
  function PaletteSection(u: Unicode.Services, parseHex: Swatches.HexParser, root: seq<(string, Toml.Value)>, path: string)
    : (r: Result<seq<Swatches.Swatch>, Error>)
    ensures Toml.Get(root, "palette").None? ==> r == Err(Deserializing("palette", path))
    ensures r.Ok? ==> forall i, j :: 0 <= i < j < |r.value| ==>
                        r.value[i].name != r.value[j].name && r.value[i].ascii != r.value[j].ascii
  {
    match Toml.Get(root, "palette")
    case None => Err(Deserializing("palette", path))
    case Some(v) =>
      match Swatches.ParsePalette(u, Names.BeforeFirstDot, parseHex, v)
      case Ok(p) => Ok(p)
      case Err(e) => Err(PaletteError(e, path))
  }

  /** The `roles` section, which must be present. */
  function RolesSection<R(==)>(voc: Vocabulary<R>, root: seq<(string, Toml.Value)>, path: string)
    : (r: Result<IndexMaps.Entries<R, Value<R>>, Error>)
    ensures Toml.Get(root, "roles").None? ==> r == Err(Deserializing("roles", path))
    ensures Toml.Get(root, "roles").Some? ==> r == ParseRoles(voc, Toml.Get(root, "roles").value, path)
    ensures r.Ok? ==> IndexMaps.Valid(r.value)
  {
    match Toml.Get(root, "roles")
    case None => Err(Deserializing("roles", path))
    case Some(v) => ParseRoles(voc, v, path)
  }

  /** The reading half of `load` (later `load::single`) on an already parsed file:
      `scheme`, `scheme_ascii` and `meta` are read and the meta fields checked, then
      `palette` and `roles` must be present and parse, in that order. */
  function LoadRaw<R(==)>(u: Unicode.Services, voc: Vocabulary<R>, parseHex: Swatches.HexParser, path: string,
                          root: seq<(string, Toml.Value)>): (r: Result<RawScheme<R>, Error>)
    ensures r.Ok? ==> WellFormed(u, r.value)
    ensures r.Ok? ==> Toml.Get(root, "palette").Some? && Toml.Get(root, "roles").Some?
    ensures r.Ok? ==> (r.value.scheme.None? <==> Toml.Get(root, "scheme").None?)
  {
    var scheme :- NameSection(u, root, "scheme", path, false);
    var schemeAscii :- NameSection(u, root, "scheme_ascii", path, true);
    var meta :- MetaSection(root, path);
    var _ :- ValidateMeta(meta);
    var palette :- PaletteSection(u, parseHex, root, path);
    var roles :- RolesSection(voc, root, path);
    Ok(RawScheme(scheme, schemeAscii, meta, palette, roles))
  }

  /** `load`: the raw scheme is read, its roles resolved and its names settled, the
      display name falling back to the file stem. */
  function LoadTable<R(==, !new)>(u: Unicode.Services, voc: Vocabulary<R>, parseHex: Swatches.HexParser,
                                  stem: string, path: string, root: seq<(string, Toml.Value)>): (r: Result<Scheme<R>, Error>)
    requires Resolution.Coherent(voc)
    ensures r.Ok? ==> LoadRaw(u, voc, parseHex, path, root).Ok?
    ensures r.Ok? ==> ValidateMeta(r.value.meta).Ok?
    ensures r.Ok? ==> IndexMaps.Keys(r.value.resolvedRoles) == voc.table
    ensures r.Ok? && Toml.Get(root, "scheme").None? ==> r.value.name == u.nfc(stem)
    ensures r.Ok? ==> Names.ValidName(u, Names.WholeName, r.value.name)
  {
    var raw :- LoadRaw(u, voc, parseHex, path, root);
    IntoScheme(u, voc, raw, stem)
  }

  datatype LoadError = Loading(error: Error) | Unreadable(path: string) | CorruptedPath(path: string)

  /** `load_all` (later `load::all`): every `.toml` entry of the walk is loaded, in
      walk order, under its file stem; the first failure aborts. A later file with
      the same stem replaces the earlier one's scheme in place. */
  function LoadAll<R(==, !new)>(u: Unicode.Services, voc: Vocabulary<R>, parseHex: Swatches.HexParser, walk: seq<Toml.FileEntry>)
    : (r: Result<IndexMaps.Entries<string, Scheme<R>>, LoadError>)
    requires Resolution.Coherent(voc)
    ensures r.Ok? ==> IndexMaps.Valid(r.value)
    ensures r.Ok? ==> forall i :: 0 <= i < |walk| && walk[i].isToml ==>
                        walk[i].stem.Some? && walk[i].stem.value in IndexMaps.Keys(r.value)
    ensures r.Ok? ==> forall i :: 0 <= i < |r.value| ==> Names.ValidName(u, Names.WholeName, r.value[i].1.name)
  {
    if |walk| == 0 then Ok([])
    else
      var n := |walk| - 1;
      var e := walk[n];
      var m :- LoadAll(u, voc, parseHex, walk[..n]);
      assert forall i :: 0 <= i < n ==> walk[..n][i] == walk[i];
      if !e.isToml then Ok(m)
      else
        var stem :- e.stem.OkOr(CorruptedPath(e.path));
        var root :- e.root.OkOr(Unreadable(e.path));
        var scheme :- match LoadTable(u, voc, parseHex, stem, e.path, root)
                      case Ok(s) => Ok(s)
                      case Err(err) => Err(Loading(err));
        LoadAllStep(u, m, stem, scheme);
        Ok(IndexMaps.Insert(m, stem, scheme).0)
  }

  lemma LoadAllStep<R>(u: Unicode.Services, m: IndexMaps.Entries<string, Scheme<R>>, stem: string, scheme: Scheme<R>)
    requires IndexMaps.Valid(m)
    requires forall i :: 0 <= i < |m| ==> Names.ValidName(u, Names.WholeName, m[i].1.name)
    requires Names.ValidName(u, Names.WholeName, scheme.name)
    ensures var m' := IndexMaps.Insert(m, stem, scheme).0;
            && IndexMaps.Valid(m')
            && stem in IndexMaps.Keys(m')
            && (forall k :: k in IndexMaps.Keys(m) ==> k in IndexMaps.Keys(m'))
            && forall i :: 0 <= i < |m'| ==> Names.ValidName(u, Names.WholeName, m'[i].1.name)
  {
    var m' := IndexMaps.Insert(m, stem, scheme).0;
    forall i | 0 <= i < |m'| ensures Names.ValidName(u, Names.WholeName, m'[i].1.name) {
      IndexMaps.GetAt(m', i);
      IndexMaps.InsertGet(m, stem, scheme, m'[i].0);
    }
  }
}

=== FILE: baselslots.dfy ===
/** The slot vocabulary of an intermediate version of the tool: the same names as
    the role table, under the name "slots", with a classifier that does not look the
    base up again and a value parser that does not validate swatch names. */
module BaselSlots {
  import opened Wrappers
  import opened Variants
  import BaselRoles

  // The `SLOTS` table, written as consecutive slices in declaration order.

  /** Entries `bg` to `select_alt`. */
  const GENERAL_1: seq<string> := [
    "bg", "bg_alt", "fg", "fg_alt", "toolbar", "toolbar_popup", "toolbar_alt", "select",
    "select_2nd", "select_alt"
  ]

  /** Entries `accent` to `focus`. */
  const GENERAL_2: seq<string> := [
    "accent", "accent_2nd", "accent_separator", "accent_popup", "accent_linenum",
    "inactive", "focus"
  ]

  /** Entries `guide` to `hint`. */
  const GENERAL_3: seq<string> := [
    "guide", "guide_inlay", "guide_linenum", "guide_ruler", "guide_whitespace", "match",
    "error", "warning", "info", "hint"
  ]

  /** Entries `debug.active` to `debug.frameline`. */
  const DEBUG: seq<string> := [
    "debug.active", "debug.breakpoint", "debug.frameline"
  ]

  /** Entries `mode.normal` to `mode.select_2nd`. */
  const MODE: seq<string> := [
    "mode.normal", "mode.normal_2nd", "mode.insert", "mode.insert_2nd", "mode.select",
    "mode.select_2nd"
  ]

  /** Entries `syntax.variable` to `syntax.variable_member`. */
  const SYNTAX_1: seq<string> := [
    "syntax.variable", "syntax.variable_builtin", "syntax.variable_parameter",
    "syntax.variable_member"
  ]

  /** Entries `syntax.keyword` to `syntax.keyword_storage`. */
  const SYNTAX_2: seq<string> := [
    "syntax.keyword", "syntax.keyword_operator", "syntax.keyword_function",
    "syntax.keyword_conditional", "syntax.keyword_repeat", "syntax.keyword_import",
    "syntax.keyword_return", "syntax.keyword_exception", "syntax.keyword_directive",
    "syntax.keyword_storage"
  ]

  /** Entries `syntax.type` to `syntax.function_macro`. */
  const SYNTAX_3: seq<string> := [
    "syntax.type", "syntax.type_builtin", "syntax.type_variant", "syntax.function",
    "syntax.function_builtin", "syntax.function_method", "syntax.function_macro"
  ]

  /** Entries `syntax.constant` to `syntax.namespace`. */
  const SYNTAX_4: seq<string> := [
    "syntax.constant", "syntax.constant_builtin", "syntax.constant_boolean",
    "syntax.constant_number", "syntax.constant_character", "syntax.label",
    "syntax.constructor", "syntax.string", "syntax.attribute", "syntax.namespace"
  ]

  /** Entries `syntax.tag` to `syntax.operator`. */
  const SYNTAX_5: seq<string> := [
    "syntax.tag", "syntax.tag_builtin", "syntax.comment", "syntax.comment_doc",
    "syntax.operator"
  ]

  /** Entries `syntax.punctuation` to `syntax.punctuation_rainbow6`. */
  const SYNTAX_6: seq<string> := [
    "syntax.punctuation", "syntax.punctuation_rainbow1", "syntax.punctuation_rainbow2",
    "syntax.punctuation_rainbow3", "syntax.punctuation_rainbow4",
    "syntax.punctuation_rainbow5", "syntax.punctuation_rainbow6"
  ]

  /** Entries `syntax.special` to `syntax.special_punctuation`. */
  const SYNTAX_7: seq<string> := [
    "syntax.special", "syntax.special_function", "syntax.special_character",
    "syntax.special_string", "syntax.special_punctuation"
  ]

  /** Entries `diff.plus` to `diff.delta_conflict`. */
  const DIFF: seq<string> := [
    "diff.plus", "diff.minus", "diff.delta", "diff.delta_moved", "diff.delta_conflict"
  ]

  /** Entries `markup.heading` to `markup.list_unchecked`. */
  const MARKUP_1: seq<string> := [
    "markup.heading", "markup.heading_2nd", "markup.heading_3rd", "markup.heading_4th",
    "markup.heading_5th", "markup.heading_6th", "markup.list", "markup.list_numbered",
    "markup.list_checked", "markup.list_unchecked"
  ]

  /** Entries `markup.link` to `markup.raw`. */
  const MARKUP_2: seq<string> := [
    "markup.link", "markup.link_text", "markup.bold", "markup.italic",
    "markup.strikethrough", "markup.quote", "markup.raw"
  ]

  /** Entries `ansi.black` to `ansi.blue_bright`. */
  const ANSI_1: seq<string> := [
    "ansi.black", "ansi.black_bright", "ansi.red", "ansi.red_bright", "ansi.green",
    "ansi.green_bright", "ansi.yellow", "ansi.yellow_bright", "ansi.blue",
    "ansi.blue_bright"
  ]

  /** Entries `ansi.magenta` to `ansi.white_bright`. */
  const ANSI_2: seq<string> := [
    "ansi.magenta", "ansi.magenta_bright", "ansi.cyan", "ansi.cyan_bright", "ansi.white",
    "ansi.white_bright"
  ]

  /** Every slot name, in declaration order. */
  const SLOTS: seq<string> :=
    GENERAL_1 + GENERAL_2 + GENERAL_3 + DEBUG + MODE + SYNTAX_1 + SYNTAX_2 + SYNTAX_3
    + SYNTAX_4 + SYNTAX_5 + SYNTAX_6 + SYNTAX_7 + DIFF + MARKUP_1 + MARKUP_2 + ANSI_1
    + ANSI_2

  /** A name that occurs in the table. */
  type SlotName = s: string | s in SLOTS witness "bg"

  datatype Error =
    | UndefinedSlot(name: string)
    | CircularReference(chain: seq<string>)
    | MissingRequired(message: string)

  /** `SlotKind`: a base slot, or a variant with the base derived from its name. The
      base of a variant is a plain string: `classify` does not check it against the
      table. */
  datatype SlotKind = Base(name: SlotName) | Optional(name: SlotName, base: string)

  /** The slot table lists the same names, in the same order, as the role table. */
  lemma SlotsAreRoles()
    ensures SLOTS == BaselRoles.ROLES
  {
    assert GENERAL_1 == BaselRoles.GENERAL_1;
    assert GENERAL_2 == BaselRoles.GENERAL_2;
    assert GENERAL_3 == BaselRoles.GENERAL_3;
    assert DEBUG == BaselRoles.DEBUG;
    assert MODE == BaselRoles.MODE;
    assert SYNTAX_1 == BaselRoles.SYNTAX_1;
    assert SYNTAX_2 == BaselRoles.SYNTAX_2;
    assert SYNTAX_3 == BaselRoles.SYNTAX_3;
    assert SYNTAX_4 == BaselRoles.SYNTAX_4;
    assert SYNTAX_5 == BaselRoles.SYNTAX_5;
    assert SYNTAX_6 == BaselRoles.SYNTAX_6;
    assert SYNTAX_7 == BaselRoles.SYNTAX_7;
    assert DIFF == BaselRoles.DIFF;
    assert MARKUP_1 == BaselRoles.MARKUP_1;
    assert MARKUP_2 == BaselRoles.MARKUP_2;
    assert ANSI_1 == BaselRoles.ANSI_1;
    assert ANSI_2 == BaselRoles.ANSI_2;
  }

  /** Every variant slot's derived base is a slot, and a base one. */
  lemma TableBasesPresent()
    ensures BasesPresent(SLOTS)
  {
    SlotsAreRoles();
    BaselRoles.TableBasesPresent();
  }

  /** `SlotName::parse`: the name itself when it is in the table. */
  function Parse(name: string): (r: Result<SlotName, Error>)
    ensures r.Ok? <==> name in SLOTS
    ensures r.Ok? ==> r.value == name
    ensures r.Err? ==> r.error == UndefinedSlot(name)
  {
    if name in SLOTS then Ok(name) else Err(UndefinedSlot(name))
  }

  /** `derive_base`: the name before the last `_`. */
  function DeriveBase(slot: string): string {
    ExtractBase(slot)
  }

  /** `classify`: a name without `_` is a base slot; any other name is a variant of
      `derive_base(name)`, taken on trust. */
  function Classify(s: SlotName): (k: SlotKind)
    ensures k.name == s
    ensures k.Base? <==> VARIANT_SEPARATOR !in s
    ensures k.Optional? ==> k.base == DeriveBase(s)
  {
    IsBaseIffNoSeparator(s);
    if IsBase(s) then Base(s) else Optional(s, DeriveBase(s))
  }

  /** The trust is justified: the base `classify` derives for any slot is itself a
      base slot of the table. */
  lemma ClassifiedBaseIsSlot(s: SlotName)
    ensures Classify(s).Optional? ==>
              Classify(s).base in SLOTS && VARIANT_SEPARATOR !in Classify(s).base
  {
    TableBasesPresent();
    IsBaseIffNoSeparator(ExtractBase(s));
  }

  /** `iter()`: every slot, in table order. */
  function Iter(): seq<SlotName> {
    SLOTS
  }

  /** `base()`: `iter()` filtered by `is_base`. */
  function BaseSlots(): seq<SlotName> {
    Bases(SLOTS)
  }

  /** `base()` yields exactly the slots without `_`. */
  lemma BaseSlotsAreBases()
    ensures forall s :: s in BaseSlots() ==> s in SLOTS && VARIANT_SEPARATOR !in s
    ensures forall s :: s in SLOTS && VARIANT_SEPARATOR !in s ==> s in BaseSlots()
  {
    forall s ensures IsBase(s) <==> VARIANT_SEPARATOR !in s {
      IsBaseIffNoSeparator(s);
    }
  }

  /** Every name `iter()` yields parses (the `slots_are_valid` test). */
  lemma IterParses()
    ensures forall i | 0 <= i < |Iter()| :: Parse(Iter()[i]) == Ok(Iter()[i])
  {
  }

  /** What a scheme may assign to a slot. The swatch name is kept as written. */
  datatype SlotValue = Swatch(name: string) | Slot(slot: SlotName)

  /** `SlotValue::parse`: `$rest` is a swatch reference whatever `rest` is, even empty;
      any other value must be a slot name. */
  function ParseValue(val: string): (r: Result<SlotValue, Error>)
    ensures |val| > 0 && val[0] == '$' ==> r == Ok(Swatch(val[1..]))
    ensures !(|val| > 0 && val[0] == '$') ==>
              && (r.Ok? <==> val in SLOTS)
              && (r.Ok? ==> r.value == Slot(val))
              && (r.Err? ==> r.error == UndefinedSlot(val))
  {
    if |val| > 0 && val[0] == '$' then Ok(Swatch(val[1..]))
    else
      var slot :- Parse(val);
      Ok(Slot(slot))
  }
}

=== FILE: cli.dfy ===
/** The command line (`basel/src/cli.rs`): the flags, the combinations the
    argument parser refuses, the write mode and log level they select, and the
    optional cleaning of the output directory before rendering. Parsing the
    command line, the logger and the file system are foreign and appear only
    as the values they produce. */
module Cli {
  import Strategy

  newtype u8 = x: int | 0 <= x < 256

  /** The parsed flags: `-v` counted, `-q`, `-k`, `-c`, `-f`, `--dry-run`. */
  datatype Args = Args(verbose: u8, quiet: bool, keep: bool, clean: bool, force: bool, dryRun: bool)

  /** The argument parser refuses `--quiet` with `--verbose`, and `--clean` or
      `--force` with `--keep`. */
  predicate Accepted(a: Args) {
    !(a.quiet && a.verbose > 0) && !(a.clean && a.keep) && !(a.force && a.keep)
  }

  /** `Args::write_mode`: forcing or cleaning overwrites everything, keeping
      skips existing files, otherwise writes are smart. */
  function WriteMode(a: Args): (m: Strategy.Write)
    ensures m == Strategy.Force <==> a.force || a.clean
    ensures m == Strategy.Write.Skip <==> !a.force && !a.clean && a.keep
  {
    if a.force || a.clean then Strategy.Force
    else if a.keep then Strategy.Write.Skip
    else Strategy.Smart
  }

  /** On an accepted command line the mode is `Skip` exactly when `--keep` is
      given, and `Smart` exactly when none of the three flags is. */
  lemma KeepIsSkip(a: Args)
    requires Accepted(a)
    ensures WriteMode(a) == Strategy.Write.Skip <==> a.keep
    ensures WriteMode(a) == Strategy.Smart <==> !a.keep && !a.clean && !a.force
  {
  }

  /** With `--keep`, no tracked file on disk is ever rewritten, edited by the
      user or not. */
  lemma KeepNeverRewrites(a: Args, status: Strategy.FileStatus)
    requires Accepted(a) && a.keep
    ensures Strategy.Decide(status, WriteMode(a)) != Strategy.Overwrite
    ensures Strategy.Decide(status, WriteMode(a)) != Strategy.Update
  {
  }

  /** A user's edits are only ever overwritten under `--force` or `--clean`. */
  lemma EditsNeedForce(a: Args, status: Strategy.FileStatus)
    requires Strategy.Decide(status, WriteMode(a)) == Strategy.Overwrite
    ensures a.force || a.clean
  {
  }

  // ---------------------------------------------------------------------------
  // Logging

  /** The logger's level filters, quietest first. */
  datatype Level = Error | Warn | Info | Debug | Trace

  function Rank(l: Level): nat {
    match l
    case Error => 0
    case Warn => 1
    case Info => 2
    case Debug => 3
    case Trace => 4
  }

  /** `init_logger`: `--quiet` shows only errors; otherwise warnings, and one
      more level per `-v` up to everything. */
  function LogLevel(verbosity: u8, quiet: bool): (l: Level)
    ensures quiet ==> l == Error
    ensures !quiet ==> Rank(l) == if verbosity >= 3 then 4 else verbosity as nat + 1
  {
    if quiet then Error
    else
      match verbosity
      case 0 => Warn
      case 1 => Info
      case 2 => Debug
      case _ => Trace
  }

  /** More `-v` never shows less, and `--quiet` shows least of all. */
  lemma LogLevelMonotone(v: u8, w: u8, quiet: bool)
    requires v <= w
    ensures Rank(LogLevel(v, quiet)) <= Rank(LogLevel(w, quiet))
    ensures Rank(LogLevel(v, true)) <= Rank(LogLevel(v, false))
  {
  }

  // ---------------------------------------------------------------------------
  // Cleaning

  /** What `--clean` does to the output directory. */
  datatype Clean = Untouched | WouldRemove | Removed

  /** `run`'s cleaning step: only with `--clean` and only when the directory
      exists; a dry run reports the removal instead of doing it. */
  function CleanStep(a: Args, renderDirExists: bool): (c: Clean)
    ensures c == Removed <==> a.clean && renderDirExists && !a.dryRun
    ensures c == WouldRemove <==> a.clean && renderDirExists && a.dryRun
  {
    if a.clean && renderDirExists then
      if a.dryRun then WouldRemove else Removed
    else Untouched
  }

  /** The steps of `run` after loading, in order: the cleaning, then rendering
      with the selected mode and the dry-run flag. */
  datatype Plan = Plan(clean: Clean, mode: Strategy.Write, dryRun: bool)

  function Run(a: Args, renderDirExists: bool): (p: Plan)
    ensures p.dryRun ==> p.clean != Removed
    ensures p.clean == Removed ==> p.mode == Strategy.Force
  {
    Plan(CleanStep(a, renderDirExists), WriteMode(a), a.dryRun)
  }

  /** After a real clean every output file is re-created from scratch: nothing
      is tracked on disk, so each decision is a creation or re-creation. */
  lemma CleanRecreates(a: Args, renderDirExists: bool, status: Strategy.FileStatus)
    requires Run(a, renderDirExists).clean == Removed
    requires status.Tracked? ==> !status.fileExists
    ensures Strategy.Decide(status, Run(a, renderDirExists).mode) in {Strategy.Create, Strategy.Recreate}
  {
  }
}

=== FILE: collisions.dfy ===
/** Palette collision detection: group the swatches' names under a derived key in
    first-seen order (an `IndexMap<String, Vec<String>>` built with
    `entry(key).or_default().push(name)`), then report the first group holding more
    than one name. The same algorithm serves the ascii-name check and the
    case-insensitive check. */
module Collisions {
  import opened Wrappers

  /** The keys of `items`, in order. */
  function Keys<K, V>(items: seq<(K, V)>): (ks: seq<K>)
    ensures |ks| == |items|
    ensures forall i :: 0 <= i < |items| ==> ks[i] == items[i].0
  {
    seq(|items|, i requires 0 <= i < |items| => items[i].0)
  }

  /** The values filed under key `k`, in input order. */
  function Members<K(==), V>(items: seq<(K, V)>, k: K): seq<V>
  {
    if |items| == 0 then []
    else
      Members(items[..|items| - 1], k)
      + (if items[|items| - 1].0 == k then [items[|items| - 1].1] else [])
  }

  /** No key occurs twice. */
  predicate Injective<K(==)>(ks: seq<K>) {
    forall i, j :: 0 <= i < j < |ks| ==> ks[i] != ks[j]
  }

  /** Where `x` first occurs in `s`. */
  function FirstIndex<K(==)>(s: seq<K>, x: K): (r: nat)
    requires x in s
    ensures r < |s| && s[r] == x
    ensures forall i :: 0 <= i < r ==> s[i] != x
  {
    if s[0] == x then 0 else 1 + FirstIndex(s[1..], x)
  }

  /** The distinct elements of `ks` in first-seen order. */
  function Distinct<K(==)>(ks: seq<K>): (r: seq<K>)
    ensures Injective(r)
    ensures forall x :: x in r ==> x in ks
    ensures forall x :: x in ks ==> x in r
  {
    if |ks| == 0 then []
    else
      var init := ks[..|ks| - 1];
      assert ks == init + [ks[|ks| - 1]];
      var d := Distinct(init);
      if ks[|ks| - 1] in d then d else d + [ks[|ks| - 1]]
  }

  /** An insertion-ordered map from each key to the values collected under it. */
  datatype Groups<K(==), V> = Groups(order: seq<K>, members: map<K, seq<V>>)

  /** `entry(k).or_default().push(v)`: a new key goes to the end of the order. */
  function Push<K(==), V>(g: Groups<K, V>, k: K, v: V): Groups<K, V> {
    if k in g.members then Groups(g.order, g.members[k := g.members[k] + [v]])
    else Groups(g.order + [k], g.members[k := [v]])
  }

  /** The grouping loop. Its keys are the distinct keys in first-seen order and each
      group holds exactly the values filed under its key. */
  function GroupBy<K(==), V>(items: seq<(K, V)>): (g: Groups<K, V>)
    ensures g.order == Distinct(Keys(items))
    ensures forall k :: k in g.members ==> k in g.order
    ensures forall k :: k in g.order ==> k in g.members
    ensures forall k :: k in g.members ==> g.members[k] == Members(items, k)
  {
    if |items| == 0 then Groups([], map[])
    else
      var init := items[..|items| - 1];
      assert Keys(init) == Keys(items)[..|items| - 1];
      MembersLength(init, items[|items| - 1].0);
      Push(GroupBy(init), items[|items| - 1].0, items[|items| - 1].1)
  }

  /** The scan over the groups: the first one, in key order, with more than one value. */
  function FirstLarge<K(==), V>(order: seq<K>, members: map<K, seq<V>>): (r: Option<(K, seq<V>)>)
    requires forall k :: k in order ==> k in members
    ensures r.None? <==> forall i :: 0 <= i < |order| ==> |members[order[i]]| <= 1
    ensures r.Some? ==>
              exists m :: 0 <= m < |order| && order[m] == r.value.0
                          && r.value.1 == members[order[m]] && |r.value.1| > 1
                          && forall i :: 0 <= i < m ==> |members[order[i]]| <= 1
  {
    if |order| == 0 then None
    else if |members[order[0]]| > 1 then Some((order[0], members[order[0]]))
    else
      var r := FirstLarge(order[1..], members);
      assert forall i :: 1 <= i < |order| ==> order[i] == order[1..][i - 1];
      r
  }

  /** The collision check. It reports nothing exactly when no key repeats; otherwise
      it reports a repeated key with every value filed under it, and every key seen
      before that key's first occurrence is unique. */
  function FirstCollision<K(==), V>(items: seq<(K, V)>): (r: Option<(K, seq<V>)>)
    ensures r.None? <==> Injective(Keys(items))
    ensures r.Some? ==>
              && r.value.0 in Keys(items)
              && r.value.1 == Members(items, r.value.0)
              && |r.value.1| > 1
              && forall i :: 0 <= i < FirstIndex(Keys(items), r.value.0) ==>
                               |Members(items, items[i].0)| == 1
  {
    var g := GroupBy(items);
    var r := FirstLarge(g.order, g.members);
    FirstCollisionFacts(items);
    r
  }

  /** The proof of `FirstCollision`'s contract. */
  lemma FirstCollisionFacts<K, V>(items: seq<(K, V)>)
    ensures var r := FirstLarge(GroupBy(items).order, GroupBy(items).members);
            r.None? <==> Injective(Keys(items))
    ensures var r := FirstLarge(GroupBy(items).order, GroupBy(items).members);
            r.Some? ==>
              && r.value.0 in Keys(items)
              && r.value.1 == Members(items, r.value.0)
              && |r.value.1| > 1
              && forall i :: 0 <= i < FirstIndex(Keys(items), r.value.0) ==>
                               |Members(items, items[i].0)| == 1
  {
    var g := GroupBy(items);
    var r := FirstLarge(g.order, g.members);
    var ks := Keys(items);
    InjectiveIffSmallGroups(items);
    if r.Some? {
      var k := r.value.0;
      var m :| 0 <= m < |g.order| && g.order[m] == k
                && r.value.1 == g.members[g.order[m]] && |r.value.1| > 1
                && forall i :: 0 <= i < m ==> |g.members[g.order[i]]| <= 1;
      assert k in ks;
      forall i | 0 <= i < FirstIndex(ks, k)
        ensures |Members(items, items[i].0)| == 1
      {
        var x := ks[i];
        DistinctOrder(ks, x, k);
        var p := FirstIndex(g.order, x);
        assert p < m;
        MembersLength(items, x);
      }
    }
  }

  /** The reported key is the first repeated one in first-seen order: it occurs at
      some position before which every key occurs nowhere else. */
  lemma FirstCollisionIsFirstRepeat<K, V>(items: seq<(K, V)>)
    ensures FirstCollision(items).Some? ==>
              exists m :: 0 <= m < |items| && items[m].0 == FirstCollision(items).value.0
                          && forall i, j :: 0 <= i < m && 0 <= j < |items| && j != i ==> items[j].0 != items[i].0
  {
    if FirstCollision(items).None? { return; }
    var k := FirstCollision(items).value.0;
    var ks := Keys(items);
    var m := FirstIndex(ks, k);
    forall i, j | 0 <= i < m && 0 <= j < |items| && j != i
      ensures items[j].0 != items[i].0
    {
      assert |Members(items, items[i].0)| == 1;
      MembersLength(items, items[i].0);
    }
  }

  /** The values under `k` are non-empty exactly when `k` occurs, and there are at
      least two of them when it occurs at two positions. */
  lemma {:induction false} MembersLength<K, V>(items: seq<(K, V)>, k: K)
    ensures |Members(items, k)| > 0 <==> k in Keys(items)
    ensures (exists i, j :: 0 <= i < j < |items| && items[i].0 == k && items[j].0 == k)
            ==> |Members(items, k)| > 1
    ensures Injective(Keys(items)) ==> |Members(items, k)| <= 1
  {
    if |items| > 0 {
      var n := |items| - 1;
      var init := items[..n];
      MembersLength(init, k);
      assert Keys(init) == Keys(items)[..n];
      assert Keys(items) == Keys(init) + [items[n].0];
      if exists i, j :: 0 <= i < j < |items| && items[i].0 == k && items[j].0 == k {
        var i, j :| 0 <= i < j < |items| && items[i].0 == k && items[j].0 == k;
        if j < n {
          assert init[i].0 == k && init[j].0 == k;
        } else {
          assert init[i].0 == k;
          assert k in Keys(init);
        }
      }
      if Injective(Keys(items)) && items[n].0 == k {
        forall i | 0 <= i < n ensures Keys(init)[i] != k {
          assert Keys(items)[i] == Keys(init)[i];
        }
      }
    }
  }

  /** A value is filed under `k` exactly when some item pairs `k` with it. */
  lemma {:induction false} MembersMember<K, V>(items: seq<(K, V)>, k: K, v: V)
    ensures v in Members(items, k) <==> exists i :: 0 <= i < |items| && items[i] == (k, v)
  {
    if |items| > 0 {
      var n := |items| - 1;
      var init := items[..n];
      MembersMember(init, k, v);
      if exists i :: 0 <= i < |items| && items[i] == (k, v) {
        var i :| 0 <= i < |items| && items[i] == (k, v);
        if i < n {
          assert init[i] == (k, v);
        }
      }
      if exists i :: 0 <= i < |init| && init[i] == (k, v) {
        var i :| 0 <= i < |init| && init[i] == (k, v);
        assert items[i] == (k, v);
      }
    }
  }

  /** Either some key has two or more values, or the keys are injective. */
  lemma InjectiveIffSmallGroups<K, V>(items: seq<(K, V)>)
    ensures Injective(Keys(items)) <==> forall k :: k in Keys(items) ==> |Members(items, k)| <= 1
  {
    if !Injective(Keys(items)) {
      var i, j :| 0 <= i < j < |items| && Keys(items)[i] == Keys(items)[j];
      MembersLength(items, items[i].0);
    } else {
      forall k | k in Keys(items) ensures |Members(items, k)| <= 1 {
        MembersLength(items, k);
      }
    }
  }

  /** A sequence without repeats is its own list of distinct elements. */
  lemma {:induction false} DistinctOfInjective<K>(ks: seq<K>)
    requires Injective(ks)
    ensures Distinct(ks) == ks
  {
    if |ks| > 0 {
      var n := |ks| - 1;
      var init := ks[..n];
      assert ks == init + [ks[n]];
      assert Injective(init);
      DistinctOfInjective(init);
      assert ks[n] !in init;
    }
  }

  /** First-seen order: an element first met earlier sits earlier in `Distinct`. */
  lemma {:induction false} DistinctOrder<K>(ks: seq<K>, x: K, y: K)
    requires x in ks && y in ks
    requires FirstIndex(ks, x) < FirstIndex(ks, y)
    ensures FirstIndex(Distinct(ks), x) < FirstIndex(Distinct(ks), y)
  {
    var n := |ks| - 1;
    var init := ks[..n];
    assert ks == init + [ks[n]];
    var d := Distinct(init);
    assert x in init by {
      assert ks[FirstIndex(ks, x)] == x;
      assert init[FirstIndex(ks, x)] == x;
    }
    if y in init {
      var fy := FirstIndex(ks, y);
      assert fy < n by {
        var j :| 0 <= j < n && init[j] == y;
        assert ks[j] == y;
      }
      FirstIndexPrefix(ks, init, x);
      FirstIndexPrefix(ks, init, y);
      DistinctOrder(init, x, y);
      if ks[n] !in d {
        FirstIndexPrefix(d + [ks[n]], d, x);
        FirstIndexPrefix(d + [ks[n]], d, y);
      }
    } else {
      assert y == ks[n];
      assert y !in d;
      var e := d + [ks[n]];
      FirstIndexPrefix(e, d, x);
      assert e[|d|] == y;
      assert FirstIndex(e, y) == |d| by {
        forall i | 0 <= i < |d| ensures e[i] != y { assert e[i] == d[i]; }
      }
    }
  }

  /** Extending a sequence does not move an element it already holds. */
  lemma FirstIndexPrefix<K>(s: seq<K>, p: seq<K>, x: K)
    requires p <= s && x in p
    ensures x in s && FirstIndex(s, x) == FirstIndex(p, x)
  {
    var f := FirstIndex(p, x);
    assert s[f] == x;
    forall i | 0 <= i < f ensures s[i] != x { assert s[i] == p[i]; }
  }
}

=== FILE: color.dfy ===
/** Colours as the `hex_color` crate holds them, and the lower-case `#rrggbb` text
    every swatch colour is displayed as (`HexDisplay::with_case(Case::Lower)`).
    Parsing colour text is foreign code: loaders take the parser as a parameter. */
module Color {
  import opened Wrappers

  newtype byte = x: int | 0 <= x < 256

  datatype Rgb = Rgb(r: byte, g: byte, b: byte)

  predicate IsLowerHexDigit(c: char) {
    '0' <= c <= '9' || 'a' <= c <= 'f'
  }

  /** The lower-case digit for `d`. */
  function Digit(d: int): (c: char)
    requires 0 <= d < 16
    ensures IsLowerHexDigit(c)
  {
    if d < 10 then ('0' as int + d) as char else ('a' as int + d - 10) as char
  }

  /** The value of a hex digit in either case. */
  function DigitValue(c: char): (r: Option<int>)
    ensures r.Some? ==> 0 <= r.value < 16
  {
    if '0' <= c <= '9' then Some(c as int - '0' as int)
    else if 'a' <= c <= 'f' then Some(c as int - 'a' as int + 10)
    else if 'A' <= c <= 'F' then Some(c as int - 'A' as int + 10)
    else None
  }

  function Pair(x: byte): string {
    [Digit(x as int / 16), Digit(x as int % 16)]
  }

  /** The displayed text of a colour: `#` and six lower-case hex digits. */
  function Display(c: Rgb): (s: string)
    ensures |s| == 7 && s[0] == '#'
    ensures forall k :: 1 <= k < 7 ==> IsLowerHexDigit(s[k])
  {
    "#" + Pair(c.r) + Pair(c.g) + Pair(c.b)
  }

  /** No letter of the displayed text is upper case. */
  predicate LowerCase(s: string) {
    forall k :: 0 <= k < |s| ==> !('A' <= s[k] <= 'Z')
  }

  function ReadPair(s: string, i: nat): (r: Option<byte>)
    requires i + 2 <= |s|
  {
    var hi :- DigitValue(s[i]);
    var lo :- DigitValue(s[i + 1]);
    Some((hi * 16 + lo) as byte)
  }

  /** Reads `#rrggbb` text in either case. */
  function ReadDisplay(s: string): (r: Option<Rgb>)
  {
    if |s| != 7 || s[0] != '#' then None
    else
      var r :- ReadPair(s, 1);
      var g :- ReadPair(s, 3);
      var b :- ReadPair(s, 5);
      Some(Rgb(r, g, b))
  }

  lemma DigitRoundTrip(d: int)
    requires 0 <= d < 16
    ensures DigitValue(Digit(d)) == Some(d)
  {
  }

  lemma PairRoundTrip(x: byte, s: string, i: nat)
    requires i + 2 <= |s| && s[i] == Pair(x)[0] && s[i + 1] == Pair(x)[1]
    ensures ReadPair(s, i) == Some(x)
  {
    DigitRoundTrip(x as int / 16);
    DigitRoundTrip(x as int % 16);
  }

  /** The displayed text is lower case and reads back as the same colour, so two
      colours display alike only when they are equal. */
  lemma DisplayRoundTrip(c: Rgb)
    ensures LowerCase(Display(c))
    ensures ReadDisplay(Display(c)) == Some(c)
  {
    var s := Display(c);
    assert s == ['#', Pair(c.r)[0], Pair(c.r)[1], Pair(c.g)[0], Pair(c.g)[1], Pair(c.b)[0], Pair(c.b)[1]];
    PairRoundTrip(c.r, s, 1);
    PairRoundTrip(c.g, s, 3);
    PairRoundTrip(c.b, s, 5);
  }
}

=== FILE: colorobjects.dfy ===
/** The colour objects handed to templates. A swatch object and a role (or slot)
    object print as their hex code or their name depending on the render style,
    answer attribute lookups, and list the attributes they answer. Three variants
    exist: the swatch/slot object of `basel/src/swatches.rs`, the swatch/role object
    of `basel/src/render/objects.rs` (identical but for the list attribute's name),
    and the single-kind object of `src/schemes.rs`. */
module ColorObjects {
  import opened Wrappers
  import opened Color

  datatype ColorStyle = Hex | Name
  datatype TextStyle = Unicode | Ascii
  datatype Style = Style(color: ColorStyle, text: TextStyle)

  /** A template value an attribute lookup can return. Float channels are present
      but their values are not modelled. */
  datatype Value =
    | Str(s: string)
    | Channel(n: byte)
    | Fraction
    | List(items: seq<string>)

  /** A lookup key: templates may look up with a non-string value. */
  datatype Key = StrKey(s: string) | NonStrKey

  /** The name of the swatch object's list attribute: `slots` in the swatches
      module, `roles` in the render objects module. */
  const SLOTS_KEY: string := "slots"
  const ROLES_KEY: string := "roles"

  datatype Object =
    | SwatchObject(hex: string, name: string, ascii: string, rgb: Rgb,
                   listKey: string, members: seq<string>, style: Style)
    | RoleObject(hex: string, swatch: string, swatchAscii: string, rgb: Rgb, style: Style)

  /** The attribute a style prints: `hex`, or the Unicode or ASCII name. */
  function StyleKey(style: Style): string {
    match style.color
    case Hex => "hex"
    case Name => if style.text == Unicode then "name" else "ascii"
  }

  /** What the object prints as. */
  function Render(o: Object): (text: string)
    ensures o.style.color == Hex ==> text == o.hex
    ensures o.style == Style(Name, Unicode) ==> text == (if o.SwatchObject? then o.name else o.swatch)
    ensures o.style == Style(Name, Ascii) ==> text == (if o.SwatchObject? then o.ascii else o.swatchAscii)
  {
    match o.style.color
    case Hex => o.hex
    case Name =>
      match o
      case SwatchObject(_, name, ascii, _, _, _, _) => if o.style.text == Unicode then name else ascii
      case RoleObject(_, swatch, swatchAscii, _, _) => if o.style.text == Unicode then swatch else swatchAscii
  }

  /** Attribute lookup. A role object answers `name` and `ascii` as aliases of
      `swatch` and `swatch_ascii`; unknown keys and non-string keys give nothing. */
  function GetValue(o: Object, key: Key): (r: Option<Value>)
    ensures key.NonStrKey? ==> r.None?
    ensures key.StrKey? ==> (r.Some? <==> key.s in Enumerate(o))
    ensures key == StrKey("hex") ==> r == Some(Str(o.hex))
  {
    match key
    case NonStrKey => None
    case StrKey(k) =>
      match o
      case SwatchObject(hex, name, ascii, rgb, listKey, members, _) =>
        if k == "hex" then Some(Str(hex))
        else if k == "name" then Some(Str(name))
        else if k == "ascii" then Some(Str(ascii))
        else if k == listKey then Some(List(members))
        else ChannelValue(rgb, k)
      case RoleObject(hex, swatch, swatchAscii, rgb, _) =>
        if k == "hex" then Some(Str(hex))
        else if k == "swatch" || k == "name" then Some(Str(swatch))
        else if k == "swatch_ascii" || k == "ascii" then Some(Str(swatchAscii))
        else ChannelValue(rgb, k)
  }

  /** The six channel attributes shared by every object. */
  function ChannelValue(rgb: Rgb, k: string): (r: Option<Value>)
    ensures r.Some? <==> k in CHANNEL_KEYS
  {
    if k == "r" then Some(Channel(rgb.r))
    else if k == "g" then Some(Channel(rgb.g))
    else if k == "b" then Some(Channel(rgb.b))
    else if k in ["rf", "gf", "bf"] then Some(Fraction)
    else None
  }

  const CHANNEL_KEYS: seq<string> := ["r", "g", "b", "rf", "gf", "bf"]

  /** The attributes the object lists. */
  function Enumerate(o: Object): seq<string> {
    match o
    case SwatchObject(_, _, _, _, listKey, _, _) => ["hex", "name", "ascii", listKey] + CHANNEL_KEYS
    case RoleObject(_, _, _, _, _) => ["hex", "swatch", "swatch_ascii", "name", "ascii"] + CHANNEL_KEYS
  }

  /** Exactly the listed attributes are answered. */
  lemma EnumerateMatchesGetValue(o: Object, k: string)
    ensures GetValue(o, StrKey(k)).Some? <==> k in Enumerate(o)
  {
  }

  /** Printing an object is the same as reading the attribute its style names: the
      role object's aliases make one rule serve both kinds. */
  lemma RenderIsStyleAttribute(o: Object)
    ensures GetValue(o, StrKey(StyleKey(o.style))) == Some(Str(Render(o)))
  {
  }

  // ---------------------------------------------------------------------------
  // The serialised form

  /** A value as serde writes it for a template: text, a tuple of numbers, or a
      list of strings. */
  datatype Serial = SText(s: string) | SNumbers(ns: seq<byte>) | SStrings(items: seq<string>)

  /** The swatch object's list attribute is one of the two names the variants use. */
  predicate ListKey(k: string) {
    k == SLOTS_KEY || k == ROLES_KEY
  }

  /** `Value::from_serialize` of a colour object: the fields of its
      `#[serde(untagged)]` variant as a plain map, with `style` skipped. Such a
      value prints as a map whatever the style, and answers only these keys. */
  function Serialized(o: Object): (m: map<string, Serial>)
    ensures o.SwatchObject? && ListKey(o.listKey) ==>
              && m.Keys == {"hex", "name", "ascii", "rgb", o.listKey}
              && m["hex"] == SText(o.hex) && m["name"] == SText(o.name) && m["ascii"] == SText(o.ascii)
              && m["rgb"] == SNumbers([o.rgb.r, o.rgb.g, o.rgb.b]) && m[o.listKey] == SStrings(o.members)
    ensures o.RoleObject? ==>
              && m.Keys == {"hex", "swatch", "swatch_ascii", "rgb"}
              && m["hex"] == SText(o.hex) && m["swatch"] == SText(o.swatch)
              && m["swatch_ascii"] == SText(o.swatchAscii) && m["rgb"] == SNumbers([o.rgb.r, o.rgb.g, o.rgb.b])
  {
    match o
    case SwatchObject(hex, name, ascii, rgb, listKey, members, _) =>
      map["hex" := SText(hex), "name" := SText(name), "ascii" := SText(ascii),
          "rgb" := SNumbers([rgb.r, rgb.g, rgb.b]), listKey := SStrings(members)]
    case RoleObject(hex, swatch, swatchAscii, rgb, _) =>
      map["hex" := SText(hex), "swatch" := SText(swatch), "swatch_ascii" := SText(swatchAscii),
          "rgb" := SNumbers([rgb.r, rgb.g, rgb.b])]
  }

  /** The serialised form does not depend on the render style. */
  lemma SerializedIgnoresStyle(o: Object, style: Style)
    ensures Serialized(o.(style := style)) == Serialized(o)
  {
  }

  /** The serialised map answers fewer keys than the object: no channel and no
      `name`/`ascii` alias of a role object, and `rgb`, which the object does not
      answer, is the only key it adds. */
  lemma SerializedKeysAgainstObject(o: Object, k: string)
    requires o.SwatchObject? ==> ListKey(o.listKey)
    ensures k in CHANNEL_KEYS ==> k !in Serialized(o)
    ensures k in Serialized(o) && k != "rgb" ==> GetValue(o, StrKey(k)).Some?
    ensures "rgb" in Serialized(o) && GetValue(o, StrKey("rgb")).None?
  {
  }

  // ---------------------------------------------------------------------------
  // The single-kind object of `src/schemes.rs`

  datatype SimpleObject = SimpleObject(hex: string, name: string, rgb: Rgb, renderAsName: bool)

  function RenderSimple(o: SimpleObject): (text: string) {
    if o.renderAsName then o.name else o.hex
  }

  function GetSimpleValue(o: SimpleObject, key: Key): (r: Option<Value>)
    ensures key.NonStrKey? ==> r.None?
    ensures key.StrKey? ==> (r.Some? <==> key.s in SIMPLE_KEYS)
    ensures key == StrKey("hex") ==> r == Some(Str(o.hex))
  {
    match key
    case NonStrKey => None
    case StrKey(k) =>
      if k == "hex" then Some(Str(o.hex))
      else if k == "name" then Some(Str(o.name))
      else ChannelValue(o.rgb, k)
  }

  const SIMPLE_KEYS: seq<string> := ["hex", "name"] + CHANNEL_KEYS

  /** Exactly the eight listed attributes are answered, and printing reads `name`
      or `hex`. */
  lemma SimpleObjectAttributes(o: SimpleObject, k: string)
    ensures GetSimpleValue(o, StrKey(k)).Some? <==> k in SIMPLE_KEYS
    ensures GetSimpleValue(o, StrKey(if o.renderAsName then "name" else "hex")) == Some(Str(RenderSimple(o)))
  {
  }
}

=== FILE: config.dfy ===
/** The project configuration (`crates/theythemer/src/config.rs`): its
    defaults, the forge hosts the user's list is layered over, and how the
    configured directories are resolved against the project root. Reading
    the file, TOML decoding and shell expansion are foreign work and arrive
    as parameters. */
module Config {
  import opened Wrappers
  import opened Strings
  import IndexMaps
  import Collisions

  const FILENAME := "theythemer.toml"

  /** A forge host: the domain pattern it applies to and its optional link
      layouts and branch. */
  datatype Host = Host(domain: string, blobPath: Option<string>, rawPath: Option<string>, branch: Option<string>)

  datatype Dirs = Dirs(schemes: string, templates: string, render: string)

  datatype Config = Config(stripDirectives: seq<seq<string>>, dirs: Dirs, hosts: seq<Host>)

  datatype Error =
    | Parsing(message: string)
    | ExpandingPath(path: string)

  // ---------------------------------------------------------------------------
  // Defaults

  const DEFAULT_DIRS := Dirs("schemes", "templates", "render")

  /** The hosts the tool knows without configuration. */
  function DefaultHosts(): (hs: seq<Host>)
    ensures |hs| == 4
    ensures forall i :: 0 <= i < |hs| ==> hs[i].blobPath.Some? && hs[i].rawPath.Some? && hs[i].branch.None?
  {
    [ Host("github.com", Some("{domain}/{owner}/{repo}/blob/{rev}/{file}"),
           Some("raw.githubusercontent.com/{owner}/{repo}/{rev}/{file}"), None),
      Host("gitlab.com", Some("{domain}/{owner}/{repo}/-/blob/{rev}/{file}"),
           Some("{domain}/{owner}/{repo}/-/raw/{rev}/{file}"), None),
      Host("codeberg.org", Some("{domain}/{owner}/{repo}/src/branch/{rev}/{file}"),
           Some("{domain}/{owner}/{repo}/raw/branch/{rev}/{file}"), None),
      Host("bitbucket.org", Some("{domain}/{owner}/{repo}/src/{rev}/{file}"),
           Some("{domain}/{owner}/{repo}/raw/{rev}/{file}"), None) ]
  }

  function DefaultConfig(): Config {
    Config([["#:tombi"]], DEFAULT_DIRS, DefaultHosts())
  }

  /** The default hosts name four different domains. */
  lemma DefaultDomainsDistinct()
    ensures forall i, j :: 0 <= i < j < |DefaultHosts()| ==> DefaultHosts()[i].domain != DefaultHosts()[j].domain
  {
    var hs := DefaultHosts();
    assert hs[0].domain[1] == 'i' && hs[1].domain[1] == 'i';
    assert hs[0].domain[3] == 'h' && hs[1].domain[3] == 'l';
    assert |hs[0].domain| == 10 && |hs[1].domain| == 10 && |hs[2].domain| == 12 && |hs[3].domain| == 13;
  }

  // ---------------------------------------------------------------------------
  // Layering the user's hosts over the defaults

  /** `Host::merge_with`: the domain of `self`, each optional field from `self`
      when set and from `default` otherwise. */
  function MergeWith(self: Host, default: Host): (r: Host)
    ensures r.domain == self.domain
    ensures r.blobPath.Some? <==> self.blobPath.Some? || default.blobPath.Some?
    ensures r.rawPath.Some? <==> self.rawPath.Some? || default.rawPath.Some?
    ensures r.branch.Some? <==> self.branch.Some? || default.branch.Some?
    ensures self.blobPath.Some? ==> r.blobPath == self.blobPath
    ensures self.rawPath.Some? ==> r.rawPath == self.rawPath
    ensures self.branch.Some? ==> r.branch == self.branch
  {
    Host(self.domain,
         if self.blobPath.Some? then self.blobPath else default.blobPath,
         if self.rawPath.Some? then self.rawPath else default.rawPath,
         if self.branch.Some? then self.branch else default.branch)
  }

  /** Merging is associative, so layering several overrides one after another
      is the same as merging the overrides first. */
  lemma MergeAssociative(a: Host, b: Host, c: Host)
    ensures MergeWith(MergeWith(a, b), c) == MergeWith(a, MergeWith(b, c))
  {
  }

  /** A host merged with itself is unchanged. */
  lemma MergeSelf(h: Host)
    ensures MergeWith(h, h) == h
  {
  }

  /** The layers a domain has seen after the user's entries `users`: starting
      from `init`, every entry for that domain is merged over what came before
      (the first one taken as it is when there was nothing before). */
  function Layer(init: Option<Host>, users: seq<Host>, domain: string): (r: Option<Host>)
    decreases |users|
    ensures init.Some? ==> r.Some?
    ensures r.Some? <==> init.Some? || domain in Domains(users)
  {
    if |users| == 0 then init
    else
      var n := |users| - 1;
      var prev := Layer(init, users[..n], domain);
      assert Domains(users) == Domains(users[..n]) + [users[n].domain];
      if users[n].domain != domain then prev
      else Some(match prev case Some(p) => MergeWith(users[n], p) case None => users[n])
  }

  /** The domains of `users`, in order. */
  function Domains(users: seq<Host>): (ds: seq<string>)
    ensures |ds| == |users|
    ensures forall i :: 0 <= i < |users| ==> ds[i] == users[i].domain
  {
    seq(|users|, i requires 0 <= i < |users| => users[i].domain)
  }

  /** The domains of `users` not in `known`, each once, in the order they
      first appear. */
  function NewDomains(known: seq<string>, users: seq<Host>): (r: seq<string>)
    decreases |users|
    ensures forall d :: d in r <==> d !in known && d in Domains(users)
    ensures forall i, j :: 0 <= i < j < |r| ==> r[i] != r[j]
  {
    if |users| == 0 then []
    else
      var n := |users| - 1;
      var prev := NewDomains(known, users[..n]);
      assert Domains(users) == Domains(users[..n]) + [users[n].domain];
      if users[n].domain in known || users[n].domain in prev then prev else prev + [users[n].domain]
  }

  /** Every stored host sits under its own domain. */
  predicate KeyedByDomain(m: IndexMaps.Entries<string, Host>) {
    forall i :: 0 <= i < |m| ==> m[i].1.domain == m[i].0
  }

  /** One step of `merge_hosts_with_defaults`: a user host for a known domain is
      merged over the stored one, in place; a new domain is appended. */
  function MergeStep(m: IndexMaps.Entries<string, Host>, u: Host): (r: IndexMaps.Entries<string, Host>)
    ensures KeyedByDomain(m) ==> KeyedByDomain(r)
    ensures IndexMaps.Valid(m) ==> IndexMaps.Valid(r)
    ensures IndexMaps.Keys(r) == if u.domain in IndexMaps.Keys(m) then IndexMaps.Keys(m) else IndexMaps.Keys(m) + [u.domain]
  {
    match IndexMaps.Get(m, u.domain)
    case Some(d) => IndexMaps.Insert(m, u.domain, MergeWith(u, d)).0
    case None => IndexMaps.Insert(m, u.domain, u).0
  }

  /** The user's hosts layered, in order, over a starting table. */
  function MergeInto(m: IndexMaps.Entries<string, Host>, users: seq<Host>): (r: IndexMaps.Entries<string, Host>)
    requires IndexMaps.Valid(m) && KeyedByDomain(m)
    decreases |users|
    ensures IndexMaps.Valid(r) && KeyedByDomain(r)
    ensures IndexMaps.Keys(r) == IndexMaps.Keys(m) + NewDomains(IndexMaps.Keys(m), users)
  {
    if |users| == 0 then m
    else
      var n := |users| - 1;
      var prev := MergeInto(m, users[..n]);
      var u := users[n];
      var known := IndexMaps.Keys(m);
      var before := NewDomains(known, users[..n]);
      assert NewDomains(known, users)
             == if u.domain in known || u.domain in before then before else before + [u.domain];
      assert u.domain in IndexMaps.Keys(prev) <==> u.domain in known || u.domain in before;
      MergeStep(prev, u)
  }

  /** Each domain of the merged table holds its starting host with every user
      entry for that domain layered over it, in order. */
  lemma {:induction false} MergeIntoGet(m: IndexMaps.Entries<string, Host>, users: seq<Host>, d: string)
    requires IndexMaps.Valid(m) && KeyedByDomain(m)
    decreases |users|
    ensures IndexMaps.Get(MergeInto(m, users), d) == Layer(IndexMaps.Get(m, d), users, d)
  {
    if |users| > 0 {
      var n := |users| - 1;
      var prev := MergeInto(m, users[..n]);
      var u := users[n];
      var v := match IndexMaps.Get(prev, u.domain) case Some(h) => MergeWith(u, h) case None => u;
      assert MergeInto(m, users) == IndexMaps.Insert(prev, u.domain, v).0;
      MergeIntoGet(m, users[..n], d);
      MergeIntoGet(m, users[..n], u.domain);
      IndexMaps.InsertGet(prev, u.domain, v, d);
    }
  }

  /** The defaults as a table keyed by domain. */
  function DefaultTable(): (m: IndexMaps.Entries<string, Host>)
    ensures IndexMaps.Valid(m) && KeyedByDomain(m)
    ensures |m| == |DefaultHosts()|
    ensures forall i :: 0 <= i < |m| ==> m[i] == (DefaultHosts()[i].domain, DefaultHosts()[i])
  {
    DefaultDomainsDistinct();
    var hs := DefaultHosts();
    seq(|hs|, i requires 0 <= i < |hs| => (hs[i].domain, hs[i]))
  }

  /** The stored hosts, in table order. */
  function Values(m: IndexMaps.Entries<string, Host>): (r: seq<Host>)
    ensures |r| == |m|
    ensures forall i :: 0 <= i < |m| ==> r[i] == m[i].1
  {
    seq(|m|, i requires 0 <= i < |m| => m[i].1)
  }

  /** `merge_hosts_with_defaults`. */
  function MergeHostsWithDefaults(users: seq<Host>): (r: seq<Host>)
  {
    Values(MergeInto(DefaultTable(), users))
  }

  /** The hosts of a merged table: its keys in order, each once, each host
      being its domain's layers. */
  lemma {:induction false} MergedValues(t: IndexMaps.Entries<string, Host>, users: seq<Host>)
    requires IndexMaps.Valid(t) && KeyedByDomain(t)
    ensures var r := Values(MergeInto(t, users));
            var keys := IndexMaps.Keys(t) + NewDomains(IndexMaps.Keys(t), users);
            && |r| == |keys|
            && (forall i :: 0 <= i < |r| ==> r[i].domain == keys[i])
            && (forall i :: 0 <= i < |r| ==> Some(r[i]) == Layer(IndexMaps.Get(t, r[i].domain), users, r[i].domain))
  {
    var m := MergeInto(t, users);
    var r := Values(m);
    forall i | 0 <= i < |r| ensures Some(r[i]) == Layer(IndexMaps.Get(t, r[i].domain), users, r[i].domain) {
      IndexMaps.GetAt(m, i);
      MergeIntoGet(t, users, r[i].domain);
    }
  }

  /** A table built from a list of hosts, each under its own domain. */
  predicate TableOf(t: IndexMaps.Entries<string, Host>, hs: seq<Host>) {
    |t| == |hs| && forall i :: 0 <= i < |t| ==> t[i] == (hs[i].domain, hs[i])
  }

  /** Merging into a table built from `hs`: the domains of `hs` first, in their
      places; then the new domains in the order they first appear; every domain
      once. */
  lemma MergedPositions(t: IndexMaps.Entries<string, Host>, hs: seq<Host>, users: seq<Host>)
    requires IndexMaps.Valid(t) && KeyedByDomain(t) && TableOf(t, hs)
    ensures var r := Values(MergeInto(t, users));
            var news := NewDomains(IndexMaps.Keys(t), users);
            && |r| == |hs| + |news|
            && (forall i :: 0 <= i < |hs| ==> r[i].domain == hs[i].domain)
            && (forall i :: 0 <= i < |news| ==> r[|hs| + i].domain == news[i])
            && (forall i, j :: 0 <= i < j < |r| ==> r[i].domain != r[j].domain)
  {
    var m := MergeInto(t, users);
    var r := Values(m);
    var news := NewDomains(IndexMaps.Keys(t), users);
    var keys := IndexMaps.Keys(t) + news;
    assert IndexMaps.Keys(m) == keys;
    forall i | 0 <= i < |r| ensures r[i].domain == keys[i] {
      assert IndexMaps.Keys(m)[i] == m[i].0;
    }
    forall i | 0 <= i < |hs| ensures r[i].domain == hs[i].domain {
      assert keys[i] == IndexMaps.Keys(t)[i] == t[i].0;
    }
    forall i | 0 <= i < |news| ensures r[|hs| + i].domain == news[i] {
      assert keys[|hs| + i] == news[i];
    }
    forall i, j | 0 <= i < j < |r| ensures r[i].domain != r[j].domain {
      assert Collisions.Injective(IndexMaps.Keys(m));
      assert IndexMaps.Keys(m)[i] == m[i].0 && IndexMaps.Keys(m)[j] == m[j].0;
    }
  }

  /** `merge_hosts_with_defaults`: the default domains first, in their places;
      then the new domains in the order they first appear; every domain once;
      and each host is its default (if any) with every user entry for that
      domain layered over it in order. */
  lemma MergedHosts(users: seq<Host>)
    ensures var r := MergeHostsWithDefaults(users);
            var news := NewDomains(IndexMaps.Keys(DefaultTable()), users);
            && |r| == |DefaultHosts()| + |news|
            && (forall i :: 0 <= i < |DefaultHosts()| ==> r[i].domain == DefaultHosts()[i].domain)
            && (forall i :: 0 <= i < |news| ==> r[|DefaultHosts()| + i].domain == news[i])
            && (forall i, j :: 0 <= i < j < |r| ==> r[i].domain != r[j].domain)
            && (forall i :: 0 <= i < |r| ==> Some(r[i]) == Layer(IndexMaps.Get(DefaultTable(), r[i].domain), users, r[i].domain))
  {
    MergedPositions(DefaultTable(), DefaultHosts(), users);
    MergedValues(DefaultTable(), users);
  }

  /** A layer built only from copies of one host stays that host. */
  lemma {:induction false} LayerOfCopies(h: Host, users: seq<Host>, domain: string)
    requires forall i :: 0 <= i < |users| && users[i].domain == domain ==> users[i] == h
    decreases |users|
    ensures Layer(Some(h), users, domain) == Some(h)
  {
    if |users| > 0 {
      var n := |users| - 1;
      LayerOfCopies(h, users[..n], domain);
      MergeSelf(h);
    }
  }

  /** Users whose domains are all known bring no new domain. */
  lemma {:induction false} NoNewDomains(known: seq<string>, users: seq<Host>)
    requires forall i :: 0 <= i < |users| ==> users[i].domain in known
    decreases |users|
    ensures NewDomains(known, users) == []
  {
    if |users| > 0 {
      NoNewDomains(known, users[..|users| - 1]);
    }
  }

  /** In a table built from `hs`, each host's layers over `hs` are the host. */
  lemma OwnHostLayer(t: IndexMaps.Entries<string, Host>, hs: seq<Host>, i: nat)
    requires IndexMaps.Valid(t) && TableOf(t, hs) && i < |hs|
    ensures Layer(IndexMaps.Get(t, hs[i].domain), hs, hs[i].domain) == Some(hs[i])
  {
    var d := hs[i].domain;
    IndexMaps.GetAt(t, i);
    assert t[i] == (d, hs[i]);
    OneHostPerDomain(t, hs, i);
    LayerOfCopies(hs[i], hs, d);
  }

  /** A table built from `hs` lists each domain once, so a host sharing a
      domain with `hs[i]` is `hs[i]`. */
  lemma OneHostPerDomain(t: IndexMaps.Entries<string, Host>, hs: seq<Host>, i: nat)
    requires IndexMaps.Valid(t) && TableOf(t, hs) && i < |hs|
    ensures forall j :: 0 <= j < |hs| && hs[j].domain == hs[i].domain ==> hs[j] == hs[i]
  {
    forall j | 0 <= j < |hs| && hs[j].domain == hs[i].domain ensures hs[j] == hs[i] {
      assert Collisions.Injective(IndexMaps.Keys(t));
      assert IndexMaps.Keys(t)[i] == hs[i].domain && IndexMaps.Keys(t)[j] == hs[j].domain;
    }
  }

  /** Merging a table's own hosts into it again changes nothing. */
  lemma MergeOwnHosts(t: IndexMaps.Entries<string, Host>, hs: seq<Host>)
    requires IndexMaps.Valid(t) && KeyedByDomain(t) && TableOf(t, hs)
    ensures Values(MergeInto(t, hs)) == hs
  {
    var r := Values(MergeInto(t, hs));
    forall i | 0 <= i < |hs| ensures hs[i].domain in IndexMaps.Keys(t) {
      assert IndexMaps.Keys(t)[i] == t[i].0;
    }
    NoNewDomains(IndexMaps.Keys(t), hs);
    MergedPositions(t, hs, hs);
    MergedValues(t, hs);
    forall i | 0 <= i < |hs| ensures r[i] == hs[i] {
      OwnHostLayer(t, hs, i);
    }
  }

  /** Listing the default hosts explicitly in the configuration changes
      nothing. */
  lemma DefaultsAreAFixedPoint()
    ensures MergeHostsWithDefaults(DefaultHosts()) == DefaultHosts()
  {
    MergeOwnHosts(DefaultTable(), DefaultHosts());
  }

  // ---------------------------------------------------------------------------
  // Reading the file

  /** `parse`: blank or whitespace-only text is the default configuration;
      anything else is decoded, a decoding failure becoming `Parsing`. */
  function Parse(content: string, decode: string -> Result<Config, string>): (r: Result<Config, Error>)
    ensures IsBlank(content) ==> r == Ok(DefaultConfig())
    ensures !IsBlank(content) ==> (r.Ok? <==> decode(content).Ok?)
    ensures !IsBlank(content) && r.Ok? ==> r.value == decode(content).value
  {
    if Trim(content) == "" then Ok(DefaultConfig())
    else
      match decode(content)
      case Ok(c) => Ok(c)
      case Err(e) => Err(Parsing(e))
  }

  // ---------------------------------------------------------------------------
  // Resolving directories

  /** A Unix path is absolute when it starts at the root. */
  predicate IsAbsolute(path: string) {
    |path| > 0 && path[0] == '/'
  }

  /** `Path::join` of a relative path: appended under `root`, with one `/`
      between them. */
  function Join(root: string, rel: string): (r: string)
    ensures IsAbsolute(root) ==> IsAbsolute(r)
    ensures IsSuffix(rel, r)
  {
    if root == "" then rel
    else if root[|root| - 1] == '/' then root + rel
    else root + "/" + rel
  }

  /** `expand_and_resolve`: the shell-expanded path, kept when absolute and
      joined onto the project root otherwise. */
  function ExpandAndResolve(path: string, root: string, expand: string -> Option<string>): (r: Result<string, Error>)
    ensures r.Err? <==> expand(path).None?
    ensures r.Err? ==> r.error == ExpandingPath(path)
    ensures r.Ok? && IsAbsolute(expand(path).value) ==> r.value == expand(path).value
    ensures r.Ok? && !IsAbsolute(expand(path).value) ==> IsSuffix(expand(path).value, r.value)
    ensures r.Ok? && IsAbsolute(root) ==> IsAbsolute(r.value)
  {
    match expand(path)
    case None => Err(ExpandingPath(path))
    case Some(expanded) => Ok(if IsAbsolute(expanded) then expanded else Join(root, expanded))
  }

  /** Resolving twice is resolving once, when expansion leaves resolved paths
      alone: the first result is already absolute. */
  lemma ResolveIdempotent(path: string, root: string, expand: string -> Option<string>)
    requires IsAbsolute(root)
    requires ExpandAndResolve(path, root, expand).Ok?
    requires var p := ExpandAndResolve(path, root, expand).value; expand(p) == Some(p)
    ensures var p := ExpandAndResolve(path, root, expand).value; ExpandAndResolve(p, root, expand) == Ok(p)
  {
  }

  /** The part of `load` after the file is read: parse, resolve the three
      directories in order, then layer the hosts over the defaults. The first
      failing step, in that order, gives the error. */
  function Load(content: string, root: string, decode: string -> Result<Config, string>, expand: string -> Option<string>)
    : (r: Result<Config, Error>)
    ensures r.Ok? ==> Parse(content, decode).Ok?
    ensures r.Ok? ==> r.value.hosts == MergeHostsWithDefaults(Parse(content, decode).value.hosts)
    ensures r.Ok? ==> r.value.stripDirectives == Parse(content, decode).value.stripDirectives
    ensures r.Ok? && IsAbsolute(root) ==> IsAbsolute(r.value.dirs.schemes) && IsAbsolute(r.value.dirs.templates) && IsAbsolute(r.value.dirs.render)
    ensures r.Ok? <==> && Parse(content, decode).Ok?
                       && var c := Parse(content, decode).value;
                          && ExpandAndResolve(c.dirs.schemes, root, expand).Ok?
                          && ExpandAndResolve(c.dirs.templates, root, expand).Ok?
                          && ExpandAndResolve(c.dirs.render, root, expand).Ok?
    ensures r.Ok? ==> var c := Parse(content, decode).value;
                      r.value.dirs == Dirs(ExpandAndResolve(c.dirs.schemes, root, expand).value,
                                           ExpandAndResolve(c.dirs.templates, root, expand).value,
                                           ExpandAndResolve(c.dirs.render, root, expand).value)
    ensures Parse(content, decode).Err? ==> r == Err(Parse(content, decode).error)
    ensures Parse(content, decode).Ok? ==>
              var c := Parse(content, decode).value;
              var schemes := ExpandAndResolve(c.dirs.schemes, root, expand);
              var templates := ExpandAndResolve(c.dirs.templates, root, expand);
              var render := ExpandAndResolve(c.dirs.render, root, expand);
              && (schemes.Err? ==> r == Err(schemes.error))
              && (schemes.Ok? && templates.Err? ==> r == Err(templates.error))
              && (schemes.Ok? && templates.Ok? && render.Err? ==> r == Err(render.error))
  {
    var c :- Parse(content, decode);
    var schemes :- ExpandAndResolve(c.dirs.schemes, root, expand);
    var templates :- ExpandAndResolve(c.dirs.templates, root, expand);
    var render :- ExpandAndResolve(c.dirs.render, root, expand);
    Ok(Config(c.stripDirectives, Dirs(schemes, templates, render), MergeHostsWithDefaults(c.hosts)))
  }

  /** Expansion that leaves every path as written. */
  function Verbatim(path: string): (r: Option<string>)
    ensures r == Some(path)
  {
    Some(path)
  }

  /** An empty configuration file gives the default directories under the root
      and exactly the default hosts. */
  lemma BlankFileLoadsDefaults(content: string, root: string, decode: string -> Result<Config, string>)
    requires IsBlank(content) && IsAbsolute(root)
    ensures Load(content, root, decode, Verbatim)
         == Ok(Config([["#:tombi"]], Dirs(Join(root, "schemes"), Join(root, "templates"), Join(root, "render")), DefaultHosts()))
  {
    assert !IsAbsolute(DEFAULT_DIRS.schemes) && !IsAbsolute(DEFAULT_DIRS.templates) && !IsAbsolute(DEFAULT_DIRS.render);
    assert Parse(content, decode) == Ok(DefaultConfig());
    DefaultsAreAFixedPoint();
  }
}

=== FILE: context.dfy ===
/** The template context: the names a template sees when it is rendered for one
    scheme, and for one swatch when the template iterates over swatches. The
    role-based builder (`to_context` in `basel/src/schemes.rs`, repeated as `build`
    in `src/render/context.rs`) puts in the scheme's names and meta, the palette,
    one colour object per resolved role (a `group.key` role inside a group map), the
    current swatch, the upstream links and the `_set` list of the roles the author
    assigned. The slot-based builder of `src/schemes.rs` records the upstream links
    differently. Turning these values into template values is the template
    engine's work; the context here holds them as they are. */
module Context {
  import opened Wrappers
  import opened Strings
  import IndexMaps
  import Collisions
  import Color
  import ColorObjects
  import Upstream
  import Templates
  import Render

  /** The scheme's descriptive fields, each with an optional ASCII counterpart. */
  datatype Meta = Meta(author: Option<string>, authorAscii: Option<string>,
                       license: Option<string>, licenseAscii: Option<string>,
                       blurb: Option<string>, blurbAscii: Option<string>)

  /** What a context name can hold. */
  datatype Value =
    | Text(s: string)
    | MetaValue(meta: Meta)
    | Obj(obj: ColorObjects.Object)
    | Maps(items: seq<map<string, ColorObjects.Serial>>)
    | Group(members: map<string, ColorObjects.Object>)
    | Names(names: seq<string>)
    | Fields(fields: map<string, string>)

  type Ctx = map<string, Value>
  type Groups = map<string, map<string, ColorObjects.Object>>

  /** The builder's `InternalBug` errors, one per message. */
  datatype Error =
    | MissingSwatch(role: string, swatch: string)
    | BadRoleShape(role: string)
    | CurrentSwatchMissing(swatch: string)

  datatype Swatch = Swatch(name: string, hex: string, ascii: string, rgb: Color.Rgb)
  datatype ResolvedRole = ResolvedRole(hex: string, swatch: string, ascii: string)

  /** What the builder reads from a loaded scheme: its names and meta, the palette
      (one swatch per name, in palette order), the roles the author assigned, and
      every resolved role in vocabulary order. */
  datatype Scheme = Scheme(name: string, nameAscii: string, meta: Meta, palette: seq<Swatch>,
                           authored: seq<string>, resolved: seq<(string, ResolvedRole)>)

  const SCHEME_KEY: string := "scheme"
  const SCHEME_ASCII_KEY: string := "scheme_ascii"
  const META_KEY: string := "meta"
  const SWATCH_KEY: string := "swatch"
  const PALETTE_KEY: string := "palette"
  const SPECIAL_KEY: string := "special"
  const SET_KEY: string := "_set"
  const UPSTREAM_FILE: string := "upstream_file"
  const UPSTREAM_REPO: string := "upstream_repo"

  // ---------------------------------------------------------------------------
  // Meta

  /** `ascii_fallback`: the author's ASCII text when given, else the transliterated
      Unicode text, else nothing. */
  function AsciiFallback(unicode: Option<string>, ascii: Option<string>, deunicode: string -> string): Option<string> {
    if ascii.Some? then ascii
    else if unicode.Some? then Some(deunicode(unicode.value))
    else None
  }

  /** `insert_meta`'s `meta` value: the scheme's own for Unicode text; for ASCII text
      each field and its ASCII counterpart both become the ASCII fallback, which
      prefers the author's ASCII text and otherwise transliterates. */
  function MetaContext(meta: Meta, text: ColorObjects.TextStyle, deunicode: string -> string): (r: Meta)
    ensures text == ColorObjects.Unicode ==> r == meta
    ensures text == ColorObjects.Ascii ==>
              && r.author == r.authorAscii
              && r.license == r.licenseAscii
              && r.blurb == r.blurbAscii
    ensures text == ColorObjects.Ascii ==>
              && (meta.authorAscii.Some? ==> r.author == meta.authorAscii)
              && (meta.licenseAscii.Some? ==> r.license == meta.licenseAscii)
              && (meta.blurbAscii.Some? ==> r.blurb == meta.blurbAscii)
    ensures text == ColorObjects.Ascii ==>
              && (r.author.Some? <==> meta.author.Some? || meta.authorAscii.Some?)
              && (r.license.Some? <==> meta.license.Some? || meta.licenseAscii.Some?)
              && (r.blurb.Some? <==> meta.blurb.Some? || meta.blurbAscii.Some?)
  {
    match text
    case Unicode => meta
    case Ascii =>
      var author := AsciiFallback(meta.author, meta.authorAscii, deunicode);
      var license := AsciiFallback(meta.license, meta.licenseAscii, deunicode);
      var blurb := AsciiFallback(meta.blurb, meta.blurbAscii, deunicode);
      Meta(author, author, license, license, blurb, blurb)
  }

  /** Every field that is present is ASCII text. */
  predicate MetaIsAscii(m: Meta) {
    && (m.author.Some? ==> IsAscii(m.author.value))
    && (m.authorAscii.Some? ==> IsAscii(m.authorAscii.value))
    && (m.license.Some? ==> IsAscii(m.license.value))
    && (m.licenseAscii.Some? ==> IsAscii(m.licenseAscii.value))
    && (m.blurb.Some? ==> IsAscii(m.blurb.value))
    && (m.blurbAscii.Some? ==> IsAscii(m.blurbAscii.value))
  }

  /** With ASCII text, a template sees only ASCII meta, provided transliteration
      produces ASCII and the author's ASCII fields are ASCII. */
  lemma AsciiMetaIsAscii(meta: Meta, deunicode: string -> string)
    requires forall s :: IsAscii(deunicode(s))
    requires meta.authorAscii.Some? ==> IsAscii(meta.authorAscii.value)
    requires meta.licenseAscii.Some? ==> IsAscii(meta.licenseAscii.value)
    requires meta.blurbAscii.Some? ==> IsAscii(meta.blurbAscii.value)
    ensures MetaIsAscii(MetaContext(meta, ColorObjects.Ascii, deunicode))
  {
  }

  // ---------------------------------------------------------------------------
  // Swatches and the roles resolved to them

  /** The palette's names, in palette order. */
  function SwatchNames(palette: seq<Swatch>): (ns: seq<string>)
    ensures |ns| == |palette|
    ensures forall i :: 0 <= i < |palette| ==> ns[i] == palette[i].name
  {
    seq(|palette|, i requires 0 <= i < |palette| => palette[i].name)
  }

  /** `palette.get(name)`: the swatch with that name. */
  function FindSwatch(palette: seq<Swatch>, name: string): (r: Option<Swatch>)
    decreases |palette|
    ensures r.Some? ==> r.value in palette && r.value.name == name
    ensures r.None? <==> name !in SwatchNames(palette)
  {
    if |palette| == 0 then None
    else if palette[0].name == name then Some(palette[0])
    else
      var r := FindSwatch(palette[1..], name);
      assert SwatchNames(palette) == [palette[0].name] + SwatchNames(palette[1..]);
      r
  }

  /** Each resolved role as a (swatch, role) pair, in resolution order. */
  function RolePairs(resolved: seq<(string, ResolvedRole)>): (ps: seq<(string, string)>)
    ensures |ps| == |resolved|
    ensures forall i :: 0 <= i < |resolved| ==> ps[i] == (resolved[i].1.swatch, resolved[i].0)
  {
    seq(|resolved|, i requires 0 <= i < |resolved| => (resolved[i].1.swatch, resolved[i].0))
  }

  /** The roles resolved to swatch `s`, in resolution order. */
  function RolesOf(resolved: seq<(string, ResolvedRole)>, s: string): seq<string> {
    Collisions.Members(RolePairs(resolved), s)
  }

  /** A role is listed under `s` exactly when it resolved to `s`. */
  lemma RolesOfMember(resolved: seq<(string, ResolvedRole)>, s: string, x: string)
    ensures x in RolesOf(resolved, s) <==> exists i :: 0 <= i < |resolved| && resolved[i].0 == x && resolved[i].1.swatch == s
  {
    Collisions.MembersMember(RolePairs(resolved), s, x);
    if exists i :: 0 <= i < |resolved| && resolved[i].0 == x && resolved[i].1.swatch == s {
      var i :| 0 <= i < |resolved| && resolved[i].0 == x && resolved[i].1.swatch == s;
      assert RolePairs(resolved)[i] == (s, x);
    }
  }

  type Lists = IndexMaps.Entries<string, seq<string>>

  /** `map.get_mut(swatch)` followed by `push(role)`: a swatch the map holds gets
      the role appended; a role whose swatch the map lacks is ignored. */
  function Attach(m: Lists, pair: (string, string)): (r: Lists)
    ensures IndexMaps.Keys(r) == IndexMaps.Keys(m)
    ensures IndexMaps.Valid(m) ==> IndexMaps.Valid(r)
  {
    match IndexMaps.Get(m, pair.0)
    case None => m
    case Some(l) => IndexMaps.Insert(m, pair.0, l + [pair.1]).0
  }

  /** The second loop of `map_swatches_to_roles`, over the resolved roles in order. */
  function AttachAll(m: Lists, pairs: seq<(string, string)>): (r: Lists)
    decreases |pairs|
    ensures IndexMaps.Keys(r) == IndexMaps.Keys(m)
    ensures IndexMaps.Valid(m) ==> IndexMaps.Valid(r)
  {
    if |pairs| == 0 then m
    else Attach(AttachAll(m, pairs[..|pairs| - 1]), pairs[|pairs| - 1])
  }

  /** One push extends the list of its own swatch and no other. */
  lemma AttachGet(m: Lists, pair: (string, string), s: string, l: seq<string>)
    requires IndexMaps.Valid(m) && IndexMaps.Get(m, s) == Some(l)
    ensures IndexMaps.Get(Attach(m, pair), s) == Some(l + (if pair.0 == s then [pair.1] else []))
  {
    if IndexMaps.Get(m, pair.0).Some? {
      IndexMaps.InsertGet(m, pair.0, IndexMaps.Get(m, pair.0).value + [pair.1], s);
    }
    if pair.0 != s {
      assert l + [] == l;
    }
  }

  /** After the loop a list the map held is extended by exactly the roles filed
      under its swatch, in order. */
  lemma {:induction false} AttachAllGet(m: Lists, pairs: seq<(string, string)>, s: string, l: seq<string>)
    requires IndexMaps.Valid(m) && IndexMaps.Get(m, s) == Some(l)
    decreases |pairs|
    ensures IndexMaps.Get(AttachAll(m, pairs), s) == Some(l + Collisions.Members(pairs, s))
  {
    if |pairs| > 0 {
      var init := pairs[..|pairs| - 1];
      AttachAllGet(m, init, s, l);
      AttachGet(AttachAll(m, init), pairs[|pairs| - 1], s, l + Collisions.Members(init, s));
      AppendMembers(l, pairs, s);
      var tail := if pairs[|pairs| - 1].0 == s then [pairs[|pairs| - 1].1] else [];
      assert AttachAll(m, pairs) == Attach(AttachAll(m, init), pairs[|pairs| - 1]);
      assert l + Collisions.Members(init, s) + tail == l + Collisions.Members(pairs, s);
    } else {
      assert l + Collisions.Members(pairs, s) == l;
    }
  }

  /** `Members` of a non-empty sequence, unfolded once, after a prefix `l`. */
  lemma AppendMembers(l: seq<string>, pairs: seq<(string, string)>, s: string)
    requires |pairs| > 0
    ensures l + Collisions.Members(pairs, s) ==
            l + Collisions.Members(pairs[..|pairs| - 1], s)
            + (if pairs[|pairs| - 1].0 == s then [pairs[|pairs| - 1].1] else [])
  {
  }

  /** The palette's names, each with an empty list. */
  function EmptyLists(palette: seq<Swatch>): (ps: seq<(string, seq<string>)>)
    ensures |ps| == |palette|
    ensures forall i :: 0 <= i < |palette| ==> ps[i] == (palette[i].name, [])
  {
    seq(|palette|, i requires 0 <= i < |palette| => (palette[i].name, []))
  }

  /** `map_swatches_to_roles`: every palette swatch, in palette order, with the roles
      resolved to it. */
  function MapSwatchesToRoles(palette: seq<Swatch>, resolved: seq<(string, ResolvedRole)>): (m: Lists)
    ensures IndexMaps.Valid(m)
    ensures IndexMaps.Keys(m) == Collisions.Distinct(SwatchNames(palette))
  {
    var empty := EmptyLists(palette);
    assert IndexMaps.Keys(empty) == SwatchNames(palette);
    AttachAll(IndexMaps.Collect(empty), RolePairs(resolved))
  }

  /** Every palette swatch gets a list, possibly empty, holding exactly the roles
      resolved to it in resolution order; no other name gets one. */
  lemma MapSwatchesToRolesGet(palette: seq<Swatch>, resolved: seq<(string, ResolvedRole)>, s: string)
    ensures IndexMaps.Get(MapSwatchesToRoles(palette, resolved), s) ==
            if s in SwatchNames(palette) then Some(RolesOf(resolved, s)) else None
  {
    var empty := EmptyLists(palette);
    assert IndexMaps.Keys(empty) == SwatchNames(palette);
    IndexMaps.CollectGet(empty, s);
    if s in SwatchNames(palette) {
      var v := IndexMaps.LastValue(empty, s).value;
      var i :| 0 <= i < |empty| && empty[i] == (s, v);
      AttachAllGet(IndexMaps.Collect(empty), RolePairs(resolved), s, []);
      assert [] + RolesOf(resolved, s) == RolesOf(resolved, s);
    }
  }

  /** A role appears in a swatch's list exactly when it resolved to that swatch. */
  lemma RoleListedUnderOwnSwatch(palette: seq<Swatch>, resolved: seq<(string, ResolvedRole)>, s: string, x: string)
    requires s in SwatchNames(palette)
    ensures IndexMaps.Get(MapSwatchesToRoles(palette, resolved), s).Some?
    ensures x in IndexMaps.Get(MapSwatchesToRoles(palette, resolved), s).value <==>
            exists i :: 0 <= i < |resolved| && resolved[i].0 == x && resolved[i].1.swatch == s
  {
    MapSwatchesToRolesGet(palette, resolved, s);
    RolesOfMember(resolved, s, x);
  }

  // ---------------------------------------------------------------------------
  // The palette and the roles

  /** The list a swatch object carries: the swatch's roles, or none. */
  function ListedRoles(lists: Lists, name: string): seq<string> {
    match IndexMaps.Get(lists, name)
    case None => []
    case Some(l) => l
  }

  function SwatchObjectFor(sw: Swatch, lists: Lists, listKey: string, style: ColorObjects.Style): ColorObjects.Object {
    ColorObjects.SwatchObject(sw.hex, sw.name, sw.ascii, sw.rgb, listKey, ListedRoles(lists, sw.name), style)
  }

  /** `insert_palette`: one entry per palette swatch, in palette order. Each entry
      is the swatch object passed through `Value::from_serialize`, so a template
      sees a plain map of its serialised fields: it prints as a map, not by the
      render style, and has no channel attributes. */
  function PaletteMaps(palette: seq<Swatch>, lists: Lists, listKey: string, style: ColorObjects.Style)
    : (ms: seq<map<string, ColorObjects.Serial>>)
    ensures |ms| == |palette|
    ensures ColorObjects.ListKey(listKey) ==>
              forall i :: 0 <= i < |palette| ==>
                && ms[i].Keys == {"hex", "name", "ascii", "rgb", listKey}
                && ms[i]["hex"] == ColorObjects.SText(palette[i].hex)
                && ms[i]["name"] == ColorObjects.SText(palette[i].name)
                && ms[i]["ascii"] == ColorObjects.SText(palette[i].ascii)
                && ms[i]["rgb"] == ColorObjects.SNumbers([palette[i].rgb.r, palette[i].rgb.g, palette[i].rgb.b])
                && ms[i][listKey] == ColorObjects.SStrings(ListedRoles(lists, palette[i].name))
  {
    seq(|palette|, i requires 0 <= i < |palette| => ColorObjects.Serialized(SwatchObjectFor(palette[i], lists, listKey, style)))
  }

  /** Each palette entry of the context is a map of exactly the five serialised
      fields, and lists exactly the roles resolved to its swatch. */
  lemma PaletteListsRoles(scheme: Scheme, listKey: string, style: ColorObjects.Style, i: nat)
    requires ColorObjects.ListKey(listKey)
    requires i < |scheme.palette|
    ensures var m := PaletteMaps(scheme.palette, MapSwatchesToRoles(scheme.palette, scheme.resolved), listKey, style)[i];
            && m.Keys == {"hex", "name", "ascii", "rgb", listKey}
            && m["name"] == ColorObjects.SText(scheme.palette[i].name)
            && m["hex"] == ColorObjects.SText(scheme.palette[i].hex)
            && m[listKey] == ColorObjects.SStrings(RolesOf(scheme.resolved, scheme.palette[i].name))
  {
    var lists := MapSwatchesToRoles(scheme.palette, scheme.resolved);
    var m := PaletteMaps(scheme.palette, lists, listKey, style)[i];
    assert SwatchNames(scheme.palette)[i] == scheme.palette[i].name;
    MapSwatchesToRolesGet(scheme.palette, scheme.resolved, scheme.palette[i].name);
    assert ListedRoles(lists, scheme.palette[i].name) == RolesOf(scheme.resolved, scheme.palette[i].name);
  }

  /** A role the builder can place: its swatch is in the palette, and its name is
      one key or a `group.key` pair. */
  predicate Insertable(palette: seq<Swatch>, entry: (string, ResolvedRole)) {
    FindSwatch(palette, entry.1.swatch).Some? && |Split(entry.0, '.')| <= 2
  }

  /** The error for a role the builder cannot place; the swatch is checked first. */
  function RoleError(palette: seq<Swatch>, entry: (string, ResolvedRole)): Error {
    if FindSwatch(palette, entry.1.swatch).None? then MissingSwatch(entry.0, entry.1.swatch)
    else BadRoleShape(entry.0)
  }

  /** A role's object: the resolved hex and swatch names, the swatch's channels. */
  function RoleObjectFor(sw: Swatch, role: ResolvedRole, style: ColorObjects.Style): ColorObjects.Object {
    ColorObjects.RoleObject(role.hex, role.swatch, role.ascii, sw.rgb, style)
  }

  /** The object a placeable role contributes. */
  function RoleObjectOf(palette: seq<Swatch>, entry: (string, ResolvedRole), style: ColorObjects.Style): ColorObjects.Object
    requires FindSwatch(palette, entry.1.swatch).Some?
  {
    RoleObjectFor(FindSwatch(palette, entry.1.swatch).value, entry.1, style)
  }

  /** `insert_grouped_role`: the group's map, created empty when missing, gets the key. */
  function InsertGrouped(groups: Groups, group: string, key: string, o: ColorObjects.Object): (r: Groups)
    ensures r.Keys == groups.Keys + {group}
    ensures key in r[group] && r[group][key] == o
    ensures forall g :: g in groups && g != group ==> r[g] == groups[g]
    ensures group in groups ==> forall k :: k in groups[group] && k != key ==> k in r[group] && r[group][k] == groups[group][k]
  {
    var inner := if group in groups then groups[group] else map[];
    groups[group := inner[key := o]]
  }

  /** `insert_role`: a one-part name becomes a context key, a two-part name a key
      of its group; a missing swatch or a longer name is an error. */
  function InsertRole(palette: seq<Swatch>, style: ColorObjects.Style, st: (Ctx, Groups), entry: (string, ResolvedRole))
    : (r: Result<(Ctx, Groups), Error>)
    ensures r.Ok? <==> Insertable(palette, entry)
    ensures r.Err? ==> r.error == RoleError(palette, entry)
  {
    var parts := Split(entry.0, '.');
    match FindSwatch(palette, entry.1.swatch)
    case None => Err(MissingSwatch(entry.0, entry.1.swatch))
    case Some(sw) =>
      var o := RoleObjectFor(sw, entry.1, style);
      if |parts| == 1 then Ok((st.0[parts[0] := Obj(o)], st.1))
      else if |parts| == 2 then Ok((st.0, InsertGrouped(st.1, parts[0], parts[1], o)))
      else Err(BadRoleShape(entry.0))
  }

  /** A one-part name becomes a context key and leaves the groups alone; a
      two-part name becomes a key of its group and leaves the context alone. */
  lemma InsertRolePlaces(palette: seq<Swatch>, style: ColorObjects.Style, st: (Ctx, Groups), entry: (string, ResolvedRole))
    requires InsertRole(palette, style, st, entry).Ok?
    ensures var r := InsertRole(palette, style, st, entry).value;
            |Split(entry.0, '.')| == 1 ==>
              r.1 == st.1 && r.0 == st.0[entry.0 := Obj(RoleObjectOf(palette, entry, style))]
    ensures var r := InsertRole(palette, style, st, entry).value;
            var parts := Split(entry.0, '.');
            |parts| == 2 ==>
              r.0 == st.0 && r.1 == InsertGrouped(st.1, parts[0], parts[1], RoleObjectOf(palette, entry, style))
  {
    OnePartName(entry.0);
  }

  /** The role loop of the builder, over the resolved roles in order; the first
      role that cannot be placed stops it. */
  function InsertRoles(palette: seq<Swatch>, style: ColorObjects.Style, st: (Ctx, Groups), rs: seq<(string, ResolvedRole)>)
    : (r: Result<(Ctx, Groups), Error>)
    decreases |rs|
  {
    if |rs| == 0 then Ok(st)
    else
      var before :- InsertRoles(palette, style, st, rs[..|rs| - 1]);
      InsertRole(palette, style, before, rs[|rs| - 1])
  }

  /** The loop succeeds exactly when every role can be placed; otherwise it reports
      the first role that cannot. */
  lemma {:induction false} InsertRolesOutcome(palette: seq<Swatch>, style: ColorObjects.Style, st: (Ctx, Groups),
                                              rs: seq<(string, ResolvedRole)>)
    decreases |rs|
    ensures InsertRoles(palette, style, st, rs).Ok? <==> forall i :: 0 <= i < |rs| ==> Insertable(palette, rs[i])
    ensures InsertRoles(palette, style, st, rs).Err? ==>
              exists i :: 0 <= i < |rs| && !Insertable(palette, rs[i])
                          && (forall j :: 0 <= j < i ==> Insertable(palette, rs[j]))
                          && InsertRoles(palette, style, st, rs).error == RoleError(palette, rs[i])
  {
    if |rs| > 0 {
      var init := rs[..|rs| - 1];
      InsertRolesOutcome(palette, style, st, init);
      assert forall i :: 0 <= i < |init| ==> init[i] == rs[i];
      if InsertRoles(palette, style, st, init).Err? {
        var i :| 0 <= i < |init| && !Insertable(palette, init[i])
                 && (forall j :: 0 <= j < i ==> Insertable(palette, init[j]))
                 && InsertRoles(palette, style, st, init).error == RoleError(palette, init[i]);
        assert !Insertable(palette, rs[i]);
      } else if !Insertable(palette, rs[|rs| - 1]) {
        assert forall j :: 0 <= j < |rs| - 1 ==> Insertable(palette, rs[j]);
      }
    }
  }

  /** Under distinct role names, a one-part role ends up under its own name. */
  lemma {:induction false} InsertRolesPlacesKey(palette: seq<Swatch>, style: ColorObjects.Style, st: (Ctx, Groups),
                                                rs: seq<(string, ResolvedRole)>, i: nat)
    requires IndexMaps.Valid(rs) && InsertRoles(palette, style, st, rs).Ok?
    requires i < |rs| && |Split(rs[i].0, '.')| == 1
    decreases |rs|
    ensures var c := InsertRoles(palette, style, st, rs).value.0;
            && FindSwatch(palette, rs[i].1.swatch).Some?
            && rs[i].0 in c && c[rs[i].0] == Obj(RoleObjectOf(palette, rs[i], style))
  {
    var init := rs[..|rs| - 1];
    var last := rs[|rs| - 1];
    var before := InsertRoles(palette, style, st, init);
    assert before.Ok?;
    InsertRolePlaces(palette, style, before.value, last);
    if i < |rs| - 1 {
      IndexMaps.ValidPrefix(rs, |rs| - 1);
      assert init[i] == rs[i];
      InsertRolesPlacesKey(palette, style, st, init, i);
      assert IndexMaps.Keys(rs)[i] != IndexMaps.Keys(rs)[|rs| - 1];
      OnePartName(last.0);
    }
  }

  /** A one-part name splits into itself. */
  lemma OnePartName(name: string)
    ensures |Split(name, '.')| == 1 ==> Split(name, '.')[0] == name
  {
    var parts := Split(name, '.');
    if |parts| == 1 {
      assert Join(parts, ".") == parts[0];
    }
  }

  /** A two-part name is its parts joined by the dot. */
  lemma TwoPartName(name: string)
    ensures |Split(name, '.')| == 2 ==> name == Split(name, '.')[0] + "." + Split(name, '.')[1]
  {
    var parts := Split(name, '.');
    if |parts| == 2 {
      assert Join(parts[1..], ".") == parts[1];
    }
  }

  /** Under distinct role names, a `group.key` role ends up under its key in its group. */
  lemma {:induction false} InsertRolesPlacesGrouped(palette: seq<Swatch>, style: ColorObjects.Style, st: (Ctx, Groups),
                                                    rs: seq<(string, ResolvedRole)>, i: nat)
    requires IndexMaps.Valid(rs) && InsertRoles(palette, style, st, rs).Ok?
    requires i < |rs| && |Split(rs[i].0, '.')| == 2
    decreases |rs|
    ensures var g := InsertRoles(palette, style, st, rs).value.1;
            var parts := Split(rs[i].0, '.');
            && FindSwatch(palette, rs[i].1.swatch).Some?
            && parts[0] in g && parts[1] in g[parts[0]]
            && g[parts[0]][parts[1]] == RoleObjectOf(palette, rs[i], style)
  {
    var init := rs[..|rs| - 1];
    var last := rs[|rs| - 1];
    var before := InsertRoles(palette, style, st, init);
    assert before.Ok?;
    if i < |rs| - 1 {
      IndexMaps.ValidPrefix(rs, |rs| - 1);
      assert init[i] == rs[i];
      InsertRolesPlacesGrouped(palette, style, st, init, i);
      assert IndexMaps.Keys(rs)[i] != IndexMaps.Keys(rs)[|rs| - 1];
      GroupedKept(palette, style, before.value, last, rs[i].0, RoleObjectOf(palette, rs[i], style));
    } else {
      InsertRolePlaces(palette, style, before.value, last);
    }
  }

  /** Placing a role under another name keeps a grouped entry. */
  lemma GroupedKept(palette: seq<Swatch>, style: ColorObjects.Style, before: (Ctx, Groups), entry: (string, ResolvedRole),
                    name: string, o: ColorObjects.Object)
    requires InsertRole(palette, style, before, entry).Ok?
    requires entry.0 != name && |Split(name, '.')| == 2
    requires var p := Split(name, '.'); p[0] in before.1 && p[1] in before.1[p[0]] && before.1[p[0]][p[1]] == o
    ensures var after := InsertRole(palette, style, before, entry).value;
            var p := Split(name, '.');
            p[0] in after.1 && p[1] in after.1[p[0]] && after.1[p[0]][p[1]] == o
  {
    InsertRolePlaces(palette, style, before, entry);
    TwoPartName(entry.0);
    TwoPartName(name);
  }

  /** A key no role is named after keeps its value through the role loop. */
  lemma {:induction false} InsertRolesKeepsKey(palette: seq<Swatch>, style: ColorObjects.Style, st: (Ctx, Groups),
                                               rs: seq<(string, ResolvedRole)>, key: string)
    requires InsertRoles(palette, style, st, rs).Ok?
    requires forall i :: 0 <= i < |rs| ==> rs[i].0 != key
    decreases |rs|
    ensures var c := InsertRoles(palette, style, st, rs).value.0;
            && (key in c <==> key in st.0)
            && (key in st.0 ==> c[key] == st.0[key])
  {
    if |rs| > 0 {
      InsertRolesKeepsKey(palette, style, st, rs[..|rs| - 1], key);
      InsertRolePlaces(palette, style, InsertRoles(palette, style, st, rs[..|rs| - 1]).value, rs[|rs| - 1]);
    }
  }

  /** A name that is no role's group keeps its group map through the role loop. */
  lemma {:induction false} InsertRolesKeepsGroup(palette: seq<Swatch>, style: ColorObjects.Style, st: (Ctx, Groups),
                                                 rs: seq<(string, ResolvedRole)>, group: string)
    requires InsertRoles(palette, style, st, rs).Ok?
    requires forall i :: 0 <= i < |rs| && |Split(rs[i].0, '.')| == 2 ==> Split(rs[i].0, '.')[0] != group
    decreases |rs|
    ensures var g := InsertRoles(palette, style, st, rs).value.1;
            && (group in g <==> group in st.1)
            && (group in st.1 ==> g[group] == st.1[group])
  {
    if |rs| > 0 {
      InsertRolesKeepsGroup(palette, style, st, rs[..|rs| - 1], group);
      InsertRolePlaces(palette, style, InsertRoles(palette, style, st, rs[..|rs| - 1]).value, rs[|rs| - 1]);
    }
  }

  /** Every key the role loop adds is a one-part role's name, and every group it
      adds is the first part of a two-part role's name. */
  lemma {:induction false} InsertRolesAdds(palette: seq<Swatch>, style: ColorObjects.Style, st: (Ctx, Groups),
                                           rs: seq<(string, ResolvedRole)>, key: string)
    requires InsertRoles(palette, style, st, rs).Ok?
    decreases |rs|
    ensures key in InsertRoles(palette, style, st, rs).value.0 ==>
              key in st.0 || exists i :: 0 <= i < |rs| && |Split(rs[i].0, '.')| == 1 && rs[i].0 == key
    ensures key in InsertRoles(palette, style, st, rs).value.1 ==>
              key in st.1 || exists i :: 0 <= i < |rs| && |Split(rs[i].0, '.')| == 2 && Split(rs[i].0, '.')[0] == key
  {
    if |rs| > 0 {
      var init := rs[..|rs| - 1];
      InsertRolesAdds(palette, style, st, init, key);
      assert forall i :: 0 <= i < |init| ==> init[i] == rs[i];
      InsertRolePlaces(palette, style, InsertRoles(palette, style, st, init).value, rs[|rs| - 1]);
    }
  }

  // ---------------------------------------------------------------------------
  // Assembly

  /** The names every context starts with: the scheme's names, its meta and the
      palette. */
  function BaseContext(scheme: Scheme, lists: Lists, listKey: string, style: ColorObjects.Style,
                       deunicode: string -> string): Ctx
  {
    map[SCHEME_KEY := Text(scheme.name),
        SCHEME_ASCII_KEY := Text(scheme.nameAscii),
        META_KEY := MetaValue(MetaContext(scheme.meta, style.text, deunicode)),
        PALETTE_KEY := Maps(PaletteMaps(scheme.palette, lists, listKey, style))]
  }

  /** The base context holds only the four base names. */
  lemma BaseContextKey(scheme: Scheme, lists: Lists, listKey: string, style: ColorObjects.Style,
                       deunicode: string -> string, key: string)
    requires key in BaseContext(scheme, lists, listKey, style, deunicode)
    ensures key in {SCHEME_KEY, SCHEME_ASCII_KEY, META_KEY, PALETTE_KEY}
  {
  }

  /** The group loop: each group map goes in under its group's name, replacing
      whatever was there. */
  function WithGroups(ctx: Ctx, groups: Groups): (r: Ctx)
    ensures r.Keys == ctx.Keys + groups.Keys
    ensures forall k :: k in groups ==> r[k] == Group(groups[k])
    ensures forall k :: k in ctx && k !in groups ==> r[k] == ctx[k]
  {
    map k | k in ctx.Keys + groups.Keys :: if k in groups then Group(groups[k]) else ctx[k]
  }

  /** `insert_current_swatch`: when rendering for a swatch, its object goes in
      under `swatch`; a name outside the palette is an error. */
  function CurrentSwatch(ctx: Ctx, palette: seq<Swatch>, lists: Lists, listKey: string, style: ColorObjects.Style,
                         current: Option<string>): (r: Result<Ctx, Error>)
    ensures current.None? ==> r == Ok(ctx)
    ensures current.Some? ==> (r.Err? <==> current.value !in SwatchNames(palette))
    ensures r.Err? ==> r.error == CurrentSwatchMissing(current.value)
    ensures r.Ok? && current.Some? ==>
              r.value.Keys == ctx.Keys + {SWATCH_KEY}
              && forall k :: k in ctx && k != SWATCH_KEY ==> r.value[k] == ctx[k]
  {
    match current
    case None => Ok(ctx)
    case Some(name) =>
      match FindSwatch(palette, name)
      case None => Err(CurrentSwatchMissing(name))
      case Some(sw) => Ok(ctx[SWATCH_KEY := Obj(SwatchObjectFor(sw, lists, listKey, style))])
  }

  /** `insert_special`: both links are always present, empty when unknown. */
  function SpecialFields(special: Upstream.Special): (r: map<string, string>)
    ensures r.Keys == {UPSTREAM_FILE, UPSTREAM_REPO}
    ensures special.upstreamFile.Some? ==> r[UPSTREAM_FILE] == special.upstreamFile.value
    ensures special.upstreamRepo.Some? ==> r[UPSTREAM_REPO] == special.upstreamRepo.value
    ensures special.upstreamFile.None? ==> r[UPSTREAM_FILE] == ""
    ensures special.upstreamRepo.None? ==> r[UPSTREAM_REPO] == ""
  {
    map[UPSTREAM_FILE := OrEmpty(special.upstreamFile), UPSTREAM_REPO := OrEmpty(special.upstreamRepo)]
  }

  function OrEmpty(o: Option<string>): string {
    match o
    case None => ""
    case Some(v) => v
  }

  /** What follows the role loop: the groups, the current swatch, the links and
      `_set`. */
  function Finish(placed: (Ctx, Groups), palette: seq<Swatch>, lists: Lists, listKey: string, style: ColorObjects.Style,
                  special: Upstream.Special, current: Option<string>, authored: seq<string>): (r: Result<Ctx, Error>)
    ensures r.Ok? <==> (current.Some? ==> current.value in SwatchNames(palette))
    ensures r.Err? ==> r.error == CurrentSwatchMissing(current.value)
    ensures r.Ok? ==> SET_KEY in r.value && r.value[SET_KEY] == Names(authored)
    ensures r.Ok? ==> SPECIAL_KEY in r.value && r.value[SPECIAL_KEY] == Fields(SpecialFields(special))
    ensures r.Ok? && current.Some? ==> SWATCH_KEY in r.value
  {
    var ctx :- CurrentSwatch(WithGroups(placed.0, placed.1), palette, lists, listKey, style, current);
    Ok(ctx[SPECIAL_KEY := Fields(SpecialFields(special))][SET_KEY := Names(authored)])
  }

  /** Below the names set after the roles, the finished context is the role loop's
      context with the groups laid over it. */
  lemma FinishKey(placed: (Ctx, Groups), palette: seq<Swatch>, lists: Lists, listKey: string, style: ColorObjects.Style,
                  special: Upstream.Special, current: Option<string>, authored: seq<string>, key: string)
    requires Finish(placed, palette, lists, listKey, style, special, current, authored).Ok?
    requires !Reserved(key, current)
    ensures var r := Finish(placed, palette, lists, listKey, style, special, current, authored).value;
            && (key in r <==> key in placed.0 || key in placed.1)
            && (key in placed.1 ==> r[key] == Group(placed.1[key]))
            && (key in placed.0 && key !in placed.1 ==> r[key] == placed.0[key])
  {
  }

  /** When rendering for a swatch, the finished context holds that swatch's
      object under `swatch`. */
  lemma FinishSwatch(placed: (Ctx, Groups), palette: seq<Swatch>, lists: Lists, listKey: string,
                     style: ColorObjects.Style, special: Upstream.Special, name: string, authored: seq<string>)
    ensures Finish(placed, palette, lists, listKey, style, special, Some(name), authored).Ok? ==>
              && FindSwatch(palette, name).Some?
              && SWATCH_KEY in Finish(placed, palette, lists, listKey, style, special, Some(name), authored).value
              && Finish(placed, palette, lists, listKey, style, special, Some(name), authored).value[SWATCH_KEY]
                 == Obj(SwatchObjectFor(FindSwatch(palette, name).value, lists, listKey, style))
  {
    assert |SWATCH_KEY| == 6 && |SPECIAL_KEY| == 7 && |SET_KEY| == 4;
  }

  /** `to_context` (`build`): the base names, the roles, the groups, the current
      swatch, the links and finally `_set`, each later step replacing an earlier
      value under the same name. `listKey` names the swatch objects' role list. */
  function ToContext(scheme: Scheme, listKey: string, style: ColorObjects.Style, special: Upstream.Special,
                     current: Option<string>, deunicode: string -> string): (r: Result<Ctx, Error>)
    ensures r.Ok? ==> SET_KEY in r.value && r.value[SET_KEY] == Names(scheme.authored)
    ensures r.Ok? ==> SPECIAL_KEY in r.value && r.value[SPECIAL_KEY] == Fields(SpecialFields(special))
    ensures r.Ok? && current.Some? ==> SWATCH_KEY in r.value
  {
    var lists := MapSwatchesToRoles(scheme.palette, scheme.resolved);
    var placed :- InsertRoles(scheme.palette, style, (BaseContext(scheme, lists, listKey, style, deunicode), map[]), scheme.resolved);
    Finish(placed, scheme.palette, lists, listKey, style, special, current, scheme.authored)
  }

  /** The role loop's outcome, for the lemmas below. */
  function Placed(scheme: Scheme, listKey: string, style: ColorObjects.Style, deunicode: string -> string)
    : Result<(Ctx, Groups), Error>
  {
    var lists := MapSwatchesToRoles(scheme.palette, scheme.resolved);
    InsertRoles(scheme.palette, style, (BaseContext(scheme, lists, listKey, style, deunicode), map[]), scheme.resolved)
  }

  /** A finished context comes from a completed role loop. */
  lemma ToContextFromPlaced(scheme: Scheme, listKey: string, style: ColorObjects.Style, special: Upstream.Special,
                            current: Option<string>, deunicode: string -> string)
    ensures ToContext(scheme, listKey, style, special, current, deunicode).Ok? ==> Placed(scheme, listKey, style, deunicode).Ok?
    ensures Placed(scheme, listKey, style, deunicode).Ok? ==>
            ToContext(scheme, listKey, style, special, current, deunicode)
            == Finish(Placed(scheme, listKey, style, deunicode).value, scheme.palette,
                      MapSwatchesToRoles(scheme.palette, scheme.resolved), listKey, style, special, current, scheme.authored)
  {
  }

  /** The context is built exactly when every role can be placed and the current
      swatch, if any, is in the palette; otherwise the error names the first role
      that cannot be placed, or else the missing swatch. */
  lemma ToContextOutcome(scheme: Scheme, listKey: string, style: ColorObjects.Style, special: Upstream.Special,
                         current: Option<string>, deunicode: string -> string)
    ensures var r := ToContext(scheme, listKey, style, special, current, deunicode);
            r.Ok? <==> (forall i :: 0 <= i < |scheme.resolved| ==> Insertable(scheme.palette, scheme.resolved[i]))
                       && (current.Some? ==> current.value in SwatchNames(scheme.palette))
    ensures var r := ToContext(scheme, listKey, style, special, current, deunicode);
            r.Err? && (forall i :: 0 <= i < |scheme.resolved| ==> Insertable(scheme.palette, scheme.resolved[i])) ==>
              current.Some? && r.error == CurrentSwatchMissing(current.value)
    ensures var r := ToContext(scheme, listKey, style, special, current, deunicode);
            r.Err? && !(forall i :: 0 <= i < |scheme.resolved| ==> Insertable(scheme.palette, scheme.resolved[i])) ==>
              exists i :: 0 <= i < |scheme.resolved| && !Insertable(scheme.palette, scheme.resolved[i])
                          && (forall j :: 0 <= j < i ==> Insertable(scheme.palette, scheme.resolved[j]))
                          && r.error == RoleError(scheme.palette, scheme.resolved[i])
  {
    var lists := MapSwatchesToRoles(scheme.palette, scheme.resolved);
    var base := BaseContext(scheme, lists, listKey, style, deunicode);
    InsertRolesOutcome(scheme.palette, style, (base, map[]), scheme.resolved);
  }

  /** A name the context sets after the roles: the current swatch, the links and `_set`. */
  predicate Reserved(key: string, current: Option<string>) {
    key == SPECIAL_KEY || key == SET_KEY || (current.Some? && key == SWATCH_KEY)
  }

  /** The name is the group of some two-part role. */
  predicate IsGroup(resolved: seq<(string, ResolvedRole)>, key: string) {
    exists j :: 0 <= j < |resolved| && |Split(resolved[j].0, '.')| == 2 && Split(resolved[j].0, '.')[0] == key
  }

  /** The base names are not among the names set after the roles. */
  lemma BaseKeyNotReserved(key: string, current: Option<string>)
    requires key in {SCHEME_KEY, SCHEME_ASCII_KEY, META_KEY, PALETTE_KEY}
    ensures !Reserved(key, current)
  {
    assert |SPECIAL_KEY| == 7 && |SET_KEY| == 4 && |SWATCH_KEY| == 6;
    assert |SCHEME_ASCII_KEY| == 12 && |META_KEY| == 4 && |PALETTE_KEY| == 7;
    assert SCHEME_KEY[1] != SWATCH_KEY[1] && META_KEY[0] != SET_KEY[0] && PALETTE_KEY[0] != SPECIAL_KEY[0];
  }

  /** A one-part role is found under its name, unless a group or a later step
      claims that name. */
  lemma ContextRole(scheme: Scheme, listKey: string, style: ColorObjects.Style, special: Upstream.Special,
                    current: Option<string>, deunicode: string -> string, i: nat)
    requires IndexMaps.Valid(scheme.resolved)
    requires i < |scheme.resolved| && |Split(scheme.resolved[i].0, '.')| == 1
    requires !Reserved(scheme.resolved[i].0, current) && !IsGroup(scheme.resolved, scheme.resolved[i].0)
    ensures ToContext(scheme, listKey, style, special, current, deunicode).Ok? ==>
            var r := ToContext(scheme, listKey, style, special, current, deunicode).value;
            && FindSwatch(scheme.palette, scheme.resolved[i].1.swatch).Some?
            && scheme.resolved[i].0 in r
            && r[scheme.resolved[i].0] == Obj(RoleObjectOf(scheme.palette, scheme.resolved[i], style))
  {
    if ToContext(scheme, listKey, style, special, current, deunicode).Ok? {
      var lists := MapSwatchesToRoles(scheme.palette, scheme.resolved);
      var base := BaseContext(scheme, lists, listKey, style, deunicode);
      var name := scheme.resolved[i].0;
      ToContextFromPlaced(scheme, listKey, style, special, current, deunicode);
      InsertRolesPlacesKey(scheme.palette, style, (base, map[]), scheme.resolved, i);
      InsertRolesAdds(scheme.palette, style, (base, map[]), scheme.resolved, name);
      FinishKey(Placed(scheme, listKey, style, deunicode).value, scheme.palette, lists, listKey, style, special, current,
                scheme.authored, name);
    }
  }

  /** A `group.key` role is found under its key in its group's map, unless a later
      step claims the group's name. */
  lemma ContextGroupedRole(scheme: Scheme, listKey: string, style: ColorObjects.Style, special: Upstream.Special,
                           current: Option<string>, deunicode: string -> string, i: nat)
    requires IndexMaps.Valid(scheme.resolved)
    requires i < |scheme.resolved| && |Split(scheme.resolved[i].0, '.')| == 2
    requires !Reserved(Split(scheme.resolved[i].0, '.')[0], current)
    ensures ToContext(scheme, listKey, style, special, current, deunicode).Ok? ==>
            var r := ToContext(scheme, listKey, style, special, current, deunicode).value;
            var parts := Split(scheme.resolved[i].0, '.');
            && FindSwatch(scheme.palette, scheme.resolved[i].1.swatch).Some?
            && parts[0] in r && r[parts[0]].Group?
            && parts[1] in r[parts[0]].members
            && r[parts[0]].members[parts[1]] == RoleObjectOf(scheme.palette, scheme.resolved[i], style)
  {
    if ToContext(scheme, listKey, style, special, current, deunicode).Ok? {
      var lists := MapSwatchesToRoles(scheme.palette, scheme.resolved);
      var base := BaseContext(scheme, lists, listKey, style, deunicode);
      ToContextFromPlaced(scheme, listKey, style, special, current, deunicode);
      InsertRolesPlacesGrouped(scheme.palette, style, (base, map[]), scheme.resolved, i);
      FinishKey(Placed(scheme, listKey, style, deunicode).value, scheme.palette, lists, listKey, style, special, current,
                scheme.authored, Split(scheme.resolved[i].0, '.')[0]);
    }
  }

  /** When rendering for a swatch, `swatch` holds that swatch's object listing the
      roles resolved to it. */
  lemma ContextSwatch(scheme: Scheme, listKey: string, style: ColorObjects.Style, special: Upstream.Special,
                      name: string, deunicode: string -> string)
    ensures ToContext(scheme, listKey, style, special, Some(name), deunicode).Ok? ==>
            var r := ToContext(scheme, listKey, style, special, Some(name), deunicode).value;
            && SWATCH_KEY in r && r[SWATCH_KEY].Obj?
            && var o := r[SWATCH_KEY].obj;
            && o.SwatchObject? && o.name == name && o.listKey == listKey && o.style == style
            && o.members == RolesOf(scheme.resolved, name)
            && FindSwatch(scheme.palette, name).Some?
            && o.hex == FindSwatch(scheme.palette, name).value.hex
            && o.rgb == FindSwatch(scheme.palette, name).value.rgb
  {
    if ToContext(scheme, listKey, style, special, Some(name), deunicode).Ok? {
      var lists := MapSwatchesToRoles(scheme.palette, scheme.resolved);
      ToContextFromPlaced(scheme, listKey, style, special, Some(name), deunicode);
      FinishSwatch(Placed(scheme, listKey, style, deunicode).value, scheme.palette, lists, listKey, style, special,
                   name, scheme.authored);
      MapSwatchesToRolesGet(scheme.palette, scheme.resolved, name);
    }
  }

  /** The scheme's names, meta and palette survive unless a role or group takes
      their name. */
  lemma ContextBaseKey(scheme: Scheme, listKey: string, style: ColorObjects.Style, special: Upstream.Special,
                       current: Option<string>, deunicode: string -> string, key: string)
    requires key in {SCHEME_KEY, SCHEME_ASCII_KEY, META_KEY, PALETTE_KEY}
    requires forall j :: 0 <= j < |scheme.resolved| ==> scheme.resolved[j].0 != key
    requires !IsGroup(scheme.resolved, key)
    ensures ToContext(scheme, listKey, style, special, current, deunicode).Ok? ==>
            var r := ToContext(scheme, listKey, style, special, current, deunicode).value;
            && key in r
            && r[key] == BaseContext(scheme, MapSwatchesToRoles(scheme.palette, scheme.resolved), listKey, style, deunicode)[key]
  {
    if ToContext(scheme, listKey, style, special, current, deunicode).Ok? {
      var lists := MapSwatchesToRoles(scheme.palette, scheme.resolved);
      var base := BaseContext(scheme, lists, listKey, style, deunicode);
      ToContextFromPlaced(scheme, listKey, style, special, current, deunicode);
      BaseKeyNotReserved(key, current);
      InsertRolesKeepsKey(scheme.palette, style, (base, map[]), scheme.resolved, key);
      InsertRolesAdds(scheme.palette, style, (base, map[]), scheme.resolved, key);
      FinishKey(Placed(scheme, listKey, style, deunicode).value, scheme.palette, lists, listKey, style, special, current,
                scheme.authored, key);
    }
  }

  /** Unless a role or group is named `palette`, the context's palette holds one
      plain map per swatch, in palette order, listing the roles resolved to it. */
  lemma ContextPalette(scheme: Scheme, listKey: string, style: ColorObjects.Style, special: Upstream.Special,
                       current: Option<string>, deunicode: string -> string, i: nat)
    requires ColorObjects.ListKey(listKey)
    requires forall j :: 0 <= j < |scheme.resolved| ==> scheme.resolved[j].0 != PALETTE_KEY
    requires !IsGroup(scheme.resolved, PALETTE_KEY)
    requires i < |scheme.palette|
    ensures ToContext(scheme, listKey, style, special, current, deunicode).Ok? ==>
            var r := ToContext(scheme, listKey, style, special, current, deunicode).value;
            && PALETTE_KEY in r && r[PALETTE_KEY].Maps? && |r[PALETTE_KEY].items| == |scheme.palette|
            && var m := r[PALETTE_KEY].items[i];
            && m.Keys == {"hex", "name", "ascii", "rgb", listKey}
            && m["name"] == ColorObjects.SText(scheme.palette[i].name)
            && m["hex"] == ColorObjects.SText(scheme.palette[i].hex)
            && m[listKey] == ColorObjects.SStrings(RolesOf(scheme.resolved, scheme.palette[i].name))
  {
    ContextBaseKey(scheme, listKey, style, special, current, deunicode, PALETTE_KEY);
    PaletteListsRoles(scheme, listKey, style, i);
  }

  /** Nothing else gets in: every name of the context is a base name, a one-part
      role, a group, or a name set after the roles. */
  lemma ContextKeys(scheme: Scheme, listKey: string, style: ColorObjects.Style, special: Upstream.Special,
                    current: Option<string>, deunicode: string -> string, key: string)
    ensures ToContext(scheme, listKey, style, special, current, deunicode).Ok? && key in ToContext(scheme, listKey, style, special, current, deunicode).value ==>
              || key in {SCHEME_KEY, SCHEME_ASCII_KEY, META_KEY, PALETTE_KEY}
              || Reserved(key, current)
              || (exists j :: 0 <= j < |scheme.resolved| && |Split(scheme.resolved[j].0, '.')| == 1 && scheme.resolved[j].0 == key)
              || IsGroup(scheme.resolved, key)
  {
    var lists := MapSwatchesToRoles(scheme.palette, scheme.resolved);
    var base := BaseContext(scheme, lists, listKey, style, deunicode);
    var r := ToContext(scheme, listKey, style, special, current, deunicode);
    if r.Ok? && key in r.value && !Reserved(key, current) {
      var placed := Placed(scheme, listKey, style, deunicode).value;
      ToContextFromPlaced(scheme, listKey, style, special, current, deunicode);
      FinishKey(placed, scheme.palette, lists, listKey, style, special, current, scheme.authored, key);
      PlacedKeys(scheme, listKey, style, deunicode, key);
    }
  }

  /** The role loop's keys and groups, traced back to the base names and the roles. */
  lemma PlacedKeys(scheme: Scheme, listKey: string, style: ColorObjects.Style, deunicode: string -> string, key: string)
    ensures Placed(scheme, listKey, style, deunicode).Ok? && key in Placed(scheme, listKey, style, deunicode).value.0 ==>
              || key in {SCHEME_KEY, SCHEME_ASCII_KEY, META_KEY, PALETTE_KEY}
              || exists j :: 0 <= j < |scheme.resolved| && |Split(scheme.resolved[j].0, '.')| == 1 && scheme.resolved[j].0 == key
    ensures Placed(scheme, listKey, style, deunicode).Ok? && key in Placed(scheme, listKey, style, deunicode).value.1 ==>
              IsGroup(scheme.resolved, key)
  {
    var lists := MapSwatchesToRoles(scheme.palette, scheme.resolved);
    var st: (Ctx, Groups) := (BaseContext(scheme, lists, listKey, style, deunicode), map[]);
    var placed := InsertRoles(scheme.palette, style, st, scheme.resolved);
    assert Placed(scheme, listKey, style, deunicode) == placed;
    if placed.Ok? {
      InsertRolesAdds(scheme.palette, style, st, scheme.resolved, key);
      if key in placed.value.0 && key in st.0 {
        BaseContextKey(scheme, lists, listKey, style, deunicode, key);
      }
    }
  }

  /** A built context passes the renderer's `_set` guard, and the `set` test run
      over it holds exactly for the roles the author assigned. */
  lemma ContextSetTest(scheme: Scheme, listKey: string, style: ColorObjects.Style, special: Upstream.Special,
                       current: Option<string>, deunicode: string -> string, role: string,
                       text: string, header: string, template: string)
    ensures ToContext(scheme, listKey, style, special, current, deunicode).Ok? ==>
            var r := ToContext(scheme, listKey, style, special, current, deunicode).value;
            && Render.RenderFile(SET_KEY in r, Render.Text(text), header, template, scheme.name) == Ok(header + text)
            && r[SET_KEY].Names?
            && Templates.SetTest(Templates.Str(role), Some(Templates.SetObject(r[SET_KEY].names)))
               == Ok(role in scheme.authored)
  {
    Templates.SetTestIsMembership(scheme.authored, role);
  }

  // ---------------------------------------------------------------------------
  // The slot-based builder's links

  /** `insert_special_fields` of `src/schemes.rs`: the file link only when a URL is
      given, the repository link only when a base can be recovered from it. The
      recovery is a parameter. */
  function OptionalSpecialFields(url: Option<string>, extractBase: string -> Option<string>): (r: map<string, string>)
    ensures url.None? ==> r == map[]
    ensures url.Some? ==> UPSTREAM_FILE in r && r[UPSTREAM_FILE] == url.value
    ensures UPSTREAM_REPO in r <==> url.Some? && extractBase(url.value).Some?
    ensures UPSTREAM_REPO in r ==> r[UPSTREAM_REPO] == extractBase(url.value).value
    ensures r.Keys <= {UPSTREAM_FILE, UPSTREAM_REPO}
  {
    match url
    case None => map[]
    case Some(u) =>
      match extractBase(u)
      case None => map[UPSTREAM_FILE := u]
      case Some(b) => map[UPSTREAM_FILE := u, UPSTREAM_REPO := b]
  }

  /** The two builders agree on every link the slot-based one records; a link it
      leaves out is the one the role-based builder shows as empty. */
  lemma SpecialFieldsAgree(url: Option<string>, extractBase: string -> Option<string>)
    ensures var full := SpecialFields(Upstream.Special(url, if url.Some? then extractBase(url.value) else None));
            var part := OptionalSpecialFields(url, extractBase);
            && (forall k :: k in part ==> k in full && full[k] == part[k])
            && (forall k :: k in full && k !in part ==> full[k] == "")
  {
  }
}

=== FILE: directives.dfy ===
/** Template directives: comment lines a template carries either for the renderer
    (`#basel:key = value`) or for the tools that later read the rendered file (lines
    that a configured strip pattern matches, such as `#:tombi …`). The renderer
    removes both kinds from the template text, keeps the second kind as the header
    of every output, and reads its style from the first kind.

    Two generations are modelled side by side and differ only in the `Dialect`:
    `basel/src/directives.rs` matches a pattern's parts anywhere in the line and
    normalises a kept line around `=`; `basel/src/templates/directives.rs` matches
    the parts in order, without overlap, and canonicalises a kept line to lower case
    with ` = ` between its pieces. */
module Directives {
  import opened Wrappers
  import opened Strings
  import IndexMaps
  import Render
  import Extensions
  import opened Sorting

  const BASEL_PREFIX: string := "#basel:"
  const TOMBI_FORMAT_DISABLED: string := "#:tombi format.disabled = true"
  const RENDER_SWATCH_NAMES: string := "render_swatch_names"
  const RENDER_AS_ASCII: string := "render_as_ascii"

  /** The character-by-character lower-case mapping of `str::to_lowercase`; one
      character may map to several. */
  type CaseMap = char -> string

  datatype Dialect =
    | AnyOrder
    | InOrder(lower: CaseMap)

  datatype Line = Content | Basel(key: string, val: string) | Other(text: string)

  datatype Error = IncompleteDirective(filePath: string, part: string)

  datatype ColorStyle = Hex | Name
  datatype TextStyle = Unicode | Ascii
  datatype Style = Style(color: ColorStyle, text: TextStyle)

  const DEFAULT_STYLE: Style := Style(Hex, Unicode)

  /** What a template's directives amount to: its style, and the set of output
      directive lines, held as a sequence without repetitions. */
  datatype Directives = Directives(style: Style, outputLines: seq<string>)

  // ---------------------------------------------------------------------------
  // Normalising an output directive

  function MapTrim(pieces: seq<string>): (r: seq<string>)
    decreases |pieces|
    ensures |r| == |pieces|
  {
    if |pieces| == 0 then [] else [Trim(pieces[0])] + MapTrim(pieces[1..])
  }

  lemma {:induction false} MapTrimAt(pieces: seq<string>, k: nat)
    requires k < |pieces|
    decreases k
    ensures MapTrim(pieces)[k] == Trim(pieces[k])
  {
    if k > 0 {
      MapTrimAt(pieces[1..], k - 1);
      assert pieces[1..][k - 1] == pieces[k];
    }
  }

  /** The pieces between `=` signs, trimmed, joined by `sep`. */
  function JoinTrimmed(s: string, sep: string): string {
    Join(MapTrim(Split(s, '=')), sep)
  }

  /** `Directives::normalize` of `directives.rs`. */
  function Normalize(d: string): string {
    JoinTrimmed(d, "=")
  }

  function Lower(lower: CaseMap, s: string): string
    decreases |s|
  {
    if |s| == 0 then "" else lower(s[0]) + Lower(lower, s[1..])
  }

  /** `Directives::canonicalize` of `templates/directives.rs`. */
  function Canonicalize(lower: CaseMap, d: string): string {
    JoinTrimmed(Lower(lower, d), " = ")
  }

  /** The form under which a dialect stores and compares output directives. */
  function Equiv(dialect: Dialect, d: string): string {
    match dialect
    case AnyOrder => Normalize(d)
    case InOrder(lower) => Canonicalize(lower, d)
  }

  /** What the Unicode case tables guarantee about lower-casing: the characters it
      produces are already lower case, and `=` and space are left alone. */
  ghost predicate LawfulCase(lower: CaseMap) {
    (forall c, d :: d in lower(c) ==> lower(d) == [d])
    && lower('=') == "=" && lower(' ') == " "
  }

  ghost predicate Lawful(dialect: Dialect) {
    dialect.InOrder? ==> LawfulCase(dialect.lower)
  }

  predicate Trimmed(t: string) {
    t == [] || (!IsWhitespace(t[0]) && !IsWhitespace(t[|t| - 1]))
  }

  /** The pieces `Split` finds in `pre + Join(ts, pad + "=" + pad)`. */
  function Padded(pre: string, ts: seq<string>, pad: string): seq<string>
    requires |ts| >= 1
    decreases |ts|
  {
    if |ts| == 1 then [pre + ts[0]] else [pre + ts[0] + pad] + Padded(pad, ts[1..], pad)
  }

  lemma {:induction false} SplitJoined(pre: string, ts: seq<string>, pad: string)
    requires |ts| >= 1 && '=' !in pre && '=' !in pad
    requires forall k :: 0 <= k < |ts| ==> '=' !in ts[k]
    decreases |ts|
    ensures Split(pre + Join(ts, pad + "=" + pad), '=') == Padded(pre, ts, pad)
  {
    if |ts| > 1 {
      var sep := pad + "=" + pad;
      var rest := Join(ts[1..], sep);
      assert pre + Join(ts, sep) == (pre + ts[0] + pad) + ['='] + (pad + rest);
      SplitAfter(pre + ts[0] + pad, '=', pad + rest);
      SplitJoined(pad, ts[1..], pad);
    }
  }

  lemma MapTrimCons(x: string, ys: seq<string>)
    ensures MapTrim([x] + ys) == [Trim(x)] + MapTrim(ys)
  {
    assert ([x] + ys)[1..] == ys;
  }

  lemma {:induction false} TrimPaddedPieces(pre: string, ts: seq<string>, pad: string)
    requires |ts| >= 1 && IsBlank(pre) && IsBlank(pad)
    requires forall k :: 0 <= k < |ts| ==> Trimmed(ts[k])
    decreases |ts|
    ensures MapTrim(Padded(pre, ts, pad)) == ts
  {
    var first := ts[0];
    assert Trimmed(first);
    if |ts| == 1 {
      assert pre + first == pre + first + "";
      TrimPadded(pre, first, "");
      MapTrimCons(pre + first, []);
      assert ts == [first];
    } else {
      var tail := ts[1..];
      assert forall k :: 0 <= k < |tail| ==> tail[k] == ts[k + 1];
      TrimPadded(pre, first, pad);
      TrimPaddedPieces(pad, tail, pad);
      MapTrimCons(pre + first + pad, Padded(pad, tail, pad));
      assert ts == [first] + tail;
    }
  }

  /** Splitting on `=`, trimming and joining with a blank-padded `=` is idempotent. */
  lemma JoinTrimmedIdempotent(s: string, pad: string)
    requires IsBlank(pad) && '=' !in pad
    ensures JoinTrimmed(JoinTrimmed(s, pad + "=" + pad), pad + "=" + pad) == JoinTrimmed(s, pad + "=" + pad)
  {
    var sep := pad + "=" + pad;
    var ts := MapTrim(Split(s, '='));
    TrimmedPieces(s, ts);
    assert "" + Join(ts, sep) == Join(ts, sep);
    SplitJoined("", ts, pad);
    TrimPaddedPieces("", ts, pad);
  }

  /** The trimmed pieces of a split on `=` hold no `=` and no outer whitespace. */
  lemma TrimmedPieces(s: string, ts: seq<string>)
    requires ts == MapTrim(Split(s, '='))
    ensures forall k :: 0 <= k < |ts| ==> '=' !in ts[k] && Trimmed(ts[k])
  {
    var pieces := Split(s, '=');
    forall k | 0 <= k < |ts| ensures '=' !in ts[k] && Trimmed(ts[k]) {
      MapTrimAt(pieces, k);
      TrimChars(pieces[k], '=');
    }
  }

  /** `normalize` is idempotent. */
  lemma NormalizeIdempotent(d: string)
    ensures Normalize(Normalize(d)) == Normalize(d)
  {
    assert "" + "=" + "" == "=";
    JoinTrimmedIdempotent(d, "");
  }

  lemma JoinTrimmedChars(s: string, sep: string, c: char)
    ensures c in JoinTrimmed(s, sep) ==> c in s || c in sep
  {
    var pieces := Split(s, '=');
    var ts := MapTrim(pieces);
    JoinChars(ts, sep, c);
    if c in JoinTrimmed(s, sep) && c !in sep {
      var k :| 0 <= k < |ts| && c in ts[k];
      MapTrimAt(pieces, k);
      TrimChars(pieces[k], c);
      JoinKeeps(pieces, "=", k, c);
    }
  }

  lemma {:induction false} LowerFixes(lower: CaseMap, s: string)
    requires forall k :: 0 <= k < |s| ==> lower(s[k]) == [s[k]]
    decreases |s|
    ensures Lower(lower, s) == s
  {
    if |s| > 0 {
      LowerFixes(lower, s[1..]);
      assert s == [s[0]] + s[1..];
    }
  }

  lemma {:induction false} LowerIsFixed(lower: CaseMap, s: string, c: char)
    requires LawfulCase(lower)
    decreases |s|
    ensures c in Lower(lower, s) ==> lower(c) == [c]
  {
    if |s| > 0 {
      LowerIsFixed(lower, s[1..], c);
    }
  }

  /** `canonicalize` is idempotent, given the Unicode case tables' guarantee. */
  lemma CanonicalizeIdempotent(lower: CaseMap, d: string)
    requires LawfulCase(lower)
    ensures Canonicalize(lower, Canonicalize(lower, d)) == Canonicalize(lower, d)
  {
    var y := Lower(lower, d);
    var j := JoinTrimmed(y, " = ");
    forall k | 0 <= k < |j| ensures lower(j[k]) == [j[k]] {
      JoinTrimmedChars(y, " = ", j[k]);
      LowerIsFixed(lower, d, j[k]);
    }
    LowerFixes(lower, j);
    assert " " + "=" + " " == " = ";
    JoinTrimmedIdempotent(y, " ");
  }

  lemma EquivIdempotent(dialect: Dialect, d: string)
    requires Lawful(dialect)
    ensures Equiv(dialect, Equiv(dialect, d)) == Equiv(dialect, d)
  {
    match dialect
    case AnyOrder => NormalizeIdempotent(d);
    case InOrder(lower) => CanonicalizeIdempotent(lower, d);
  }

  // ---------------------------------------------------------------------------
  // Strip patterns

  /** Every part occurs somewhere in the line. */
  predicate AllPartsOccur(line: string, parts: seq<string>) {
    forall j :: 0 <= j < |parts| ==> Contains(line, parts[j])
  }

  /** The `try_fold` of the ordered `matches_pattern`: each part is looked for from
      the end of the previous match; the result is the end of the last match. */
  function MatchFrom(line: string, parts: seq<string>, from: nat): (r: Option<nat>)
    decreases |parts|
  {
    if |parts| == 0 then Some(from)
    else if from > |line| then None
    else
      match FindFrom(line, parts[0], from)
      case None => None
      case Some(pos) => MatchFrom(line, parts[1..], pos + |parts[0]|)
  }

  /** The parts occur in order and without overlap, the first at or after `from`. */
  ghost predicate Embeds(line: string, parts: seq<string>, from: nat)
    decreases |parts|
  {
    |parts| == 0
    || exists i: nat :: from <= i && OccursAt(line, parts[0], i) && Embeds(line, parts[1..], i + |parts[0]|)
  }

  /** What the greedy search finds is an ordered placement. */
  lemma {:induction false} MatchFromSound(line: string, parts: seq<string>, from: nat)
    requires MatchFrom(line, parts, from).Some?
    decreases |parts|
    ensures Embeds(line, parts, from)
  {
    if |parts| > 0 {
      var pos := FindFrom(line, parts[0], from).value;
      MatchFromSound(line, parts[1..], pos + |parts[0]|);
      assert from <= pos && OccursAt(line, parts[0], pos) && Embeds(line, parts[1..], pos + |parts[0]|);
    }
  }

  /** The greedy search finds an ordered placement whenever one exists. */
  lemma {:induction false} MatchFromFinds(line: string, parts: seq<string>, from: nat)
    requires Embeds(line, parts, from)
    decreases |parts|
    ensures MatchFrom(line, parts, from).Some?
  {
    if |parts| > 0 {
      var i := EmbedsHead(line, parts, from);
      FindFromFirst(line, parts[0], from, i);
      var pos := FindFrom(line, parts[0], from).value;
      EmbedsEarlier(line, parts[1..], i + |parts[0]|, pos + |parts[0]|);
      MatchFromFinds(line, parts[1..], pos + |parts[0]|);
      MatchFromStep(line, parts, from);
    }
  }

  /** One step of the search: when the first part is found, the rest is looked
      for after it. */
  lemma MatchFromStep(line: string, parts: seq<string>, from: nat)
    requires |parts| > 0 && from <= |line| && FindFrom(line, parts[0], from).Some?
    requires MatchFrom(line, parts[1..], FindFrom(line, parts[0], from).value + |parts[0]|).Some?
    ensures MatchFrom(line, parts, from).Some?
  {
  }

  /** A placement of the first part that the rest can follow. */
  lemma EmbedsHead(line: string, parts: seq<string>, from: nat) returns (i: nat)
    requires |parts| > 0 && Embeds(line, parts, from)
    ensures from <= i && OccursAt(line, parts[0], i) && Embeds(line, parts[1..], i + |parts[0]|)
  {
    i :| from <= i && OccursAt(line, parts[0], i) && Embeds(line, parts[1..], i + |parts[0]|);
  }

  /** The search from `from` stops at or before any occurrence after `from`. */
  lemma FindFromFirst(line: string, p: string, from: nat, i: nat)
    requires from <= i && OccursAt(line, p, i)
    ensures from <= |line|
    ensures FindFrom(line, p, from).Some? && FindFrom(line, p, from).value <= i
  {
  }

  lemma MatchFromComplete(line: string, parts: seq<string>, from: nat)
    ensures MatchFrom(line, parts, from).Some? <==> Embeds(line, parts, from)
  {
    if MatchFrom(line, parts, from).Some? {
      MatchFromSound(line, parts, from);
    }
    if Embeds(line, parts, from) {
      MatchFromFinds(line, parts, from);
    }
  }

  lemma EmbedsEarlier(line: string, parts: seq<string>, a: nat, b: nat)
    requires Embeds(line, parts, a) && b <= a
    ensures Embeds(line, parts, b)
  {
    if |parts| > 0 {
      var i: nat :| a <= i && OccursAt(line, parts[0], i) && Embeds(line, parts[1..], i + |parts[0]|);
      assert b <= i;
    }
  }

  lemma {:induction false} EmbedsAllOccur(line: string, parts: seq<string>, from: nat)
    requires Embeds(line, parts, from)
    decreases |parts|
    ensures AllPartsOccur(line, parts)
  {
    if |parts| > 0 {
      var i: nat :| from <= i && OccursAt(line, parts[0], i) && Embeds(line, parts[1..], i + |parts[0]|);
      EmbedsAllOccur(line, parts[1..], i + |parts[0]|);
      forall j | 0 <= j < |parts| ensures Contains(line, parts[j]) {
        if j > 0 {
          assert parts[j] == parts[1..][j - 1];
        }
      }
    }
  }

  /** `matches_pattern`: some pattern matches the line, with the dialect's notion of
      a match; a pattern without parts matches every line. */
  predicate Matches(dialect: Dialect, line: string, patterns: seq<seq<string>>) {
    exists k :: 0 <= k < |patterns| && PatternMatches(dialect, line, patterns[k])
  }

  predicate PatternMatches(dialect: Dialect, line: string, parts: seq<string>) {
    match dialect
    case AnyOrder => AllPartsOccur(line, parts)
    case InOrder(_) => MatchFrom(line, parts, 0).Some?
  }

  /** The ordered dialect matches exactly when the parts can be placed in order
      without overlap. */
  lemma InOrderMeansEmbedded(lower: CaseMap, line: string, parts: seq<string>)
    ensures PatternMatches(InOrder(lower), line, parts) <==> Embeds(line, parts, 0)
  {
    MatchFromComplete(line, parts, 0);
  }

  /** Every line the ordered dialect strips, the unordered one strips too. */
  lemma InOrderImpliesAnyOrder(lower: CaseMap, line: string, patterns: seq<seq<string>>)
    requires Matches(InOrder(lower), line, patterns)
    ensures Matches(AnyOrder, line, patterns)
  {
    var k :| 0 <= k < |patterns| && PatternMatches(InOrder(lower), line, patterns[k]);
    MatchFromComplete(line, patterns[k], 0);
    EmbedsAllOccur(line, patterns[k], 0);
    assert PatternMatches(AnyOrder, line, patterns[k]);
  }

  // ---------------------------------------------------------------------------
  // Classifying a line

  /** A trimmed line that is a comment but not a doubled `##` comment. */
  predicate IsComment(t: string) {
    t != [] && IsPrefix("#", t) && !IsPrefix("##", t)
  }

  /** `t` is `k`, an `=` and `v`, with no `=` in `k`. */
  predicate SplitsAt(t: string, k: string, v: string) {
    t == k + "=" + v && '=' !in k
  }

  /** The key and value of a `#basel:` directive's text after the prefix: split at
      the first `=` of the trimmed text, each side trimmed; nothing without `=`. */
  function BaselPair(part: string): (r: Option<(string, string)>)
    ensures r.None? <==> '=' !in part
    ensures r.Some? ==> exists k, v :: SplitsAt(Trim(part), k, v) && r.value == (Trim(k), Trim(v))
  {
    var t := Trim(part);
    TrimChars(part, '=');
    match SplitOnce(t, '=')
    case Some((k, v)) =>
      assert SplitsAt(t, k, v);
      Some((Trim(k), Trim(v)))
    case None => None
  }

  /** A directive's key holds no `=`, and key and value carry no outer whitespace. */
  lemma BaselPairShape(part: string)
    ensures var r := BaselPair(part);
            r.Some? ==> '=' !in r.value.0 && Trimmed(r.value.0) && Trimmed(r.value.1)
  {
    var r := BaselPair(part);
    if r.Some? {
      var k, v :| SplitsAt(Trim(part), k, v) && r.value == (Trim(k), Trim(v));
      TrimmedSides(k, v);
    }
  }

  /** Trimming both sides of a split leaves no outer whitespace, and no `=` in the key. */
  lemma TrimmedSides(k: string, v: string)
    requires '=' !in k
    ensures '=' !in Trim(k) && Trimmed(Trim(k)) && Trimmed(Trim(v))
  {
    TrimChars(k, '=');
  }

  lemma BaselPrefixIsComment(t: string)
    ensures IsPrefix(BASEL_PREFIX, t) ==> IsComment(t)
  {
    if IsPrefix(BASEL_PREFIX, t) {
      assert t[0] == BASEL_PREFIX[0] && t[1] == BASEL_PREFIX[1];
    }
  }

  /** `classify_line` on the trimmed line: blank text, `##` comments and
      non-comments are content; a `#basel:` line must hold a key and a value; any
      other comment is an output directive exactly when a strip pattern matches it. */
  function Classify(dialect: Dialect, t: string, patterns: seq<seq<string>>, filePath: string)
    : (r: Result<Line, Error>)
    ensures r.Err? <==> IsPrefix(BASEL_PREFIX, t) && BaselPair(t[|BASEL_PREFIX|..]).None?
    ensures r.Err? ==> r.error == IncompleteDirective(filePath, t[|BASEL_PREFIX|..])
    ensures r.Ok? && r.value.Basel? ==>
      IsPrefix(BASEL_PREFIX, t) && BaselPair(t[|BASEL_PREFIX|..]) == Some((r.value.key, r.value.val))
    ensures r.Ok? && r.value.Other? ==>
      IsComment(t) && !IsPrefix(BASEL_PREFIX, t) && r.value.text == t && Matches(dialect, t, patterns)
    ensures r == Ok(Content) <==> !IsComment(t) || (!IsPrefix(BASEL_PREFIX, t) && !Matches(dialect, t, patterns))
  {
    BaselPrefixIsComment(t);
    if t == [] || IsPrefix("##", t) || !IsPrefix("#", t) then Ok(Content)
    else if IsPrefix(BASEL_PREFIX, t) then
      var part := t[|BASEL_PREFIX|..];
      match BaselPair(part)
      case Some((k, v)) => Ok(Basel(k, v))
      case None => Err(IncompleteDirective(filePath, part))
    else if Matches(dialect, t, patterns) then Ok(Other(t))
    else Ok(Content)
  }

  /** `classify_line`: a line is classified by its trimmed text. */
  function ClassifyLine(dialect: Dialect, line: string, patterns: seq<seq<string>>, filePath: string)
    : (r: Result<Line, Error>)
  {
    Classify(dialect, Trim(line), patterns, filePath)
  }

  // ---------------------------------------------------------------------------
  // Trimming blank lines at both ends

  /** `l.trim().is_empty()`. */
  predicate BlankLine(l: string) {
    IsBlank(l)
  }

  /** `position`: the first non-blank line at or after `from`. */
  function FirstNonBlank(lines: seq<string>, from: nat): (r: Option<nat>)
    requires from <= |lines|
    decreases |lines| - from
    ensures r.None? <==> forall k :: from <= k < |lines| ==> BlankLine(lines[k])
    ensures r.Some? ==> from <= r.value < |lines| && !BlankLine(lines[r.value])
    ensures r.Some? ==> forall k :: from <= k < r.value ==> BlankLine(lines[k])
  {
    if from == |lines| then None
    else if !BlankLine(lines[from]) then Some(from)
    else FirstNonBlank(lines, from + 1)
  }

  /** `rposition`: the last non-blank line. */
  function LastNonBlank(lines: seq<string>): (r: Option<nat>)
    decreases |lines|
    ensures r.None? <==> forall k :: 0 <= k < |lines| ==> BlankLine(lines[k])
    ensures r.Some? ==> r.value < |lines| && !BlankLine(lines[r.value])
    ensures r.Some? ==> forall k :: r.value < k < |lines| ==> BlankLine(lines[k])
  {
    if |lines| == 0 then None
    else if !BlankLine(lines[|lines| - 1]) then Some(|lines| - 1)
    else LastNonBlank(lines[..|lines| - 1])
  }

  /** The range `trim_ends` keeps: from the first to the last non-blank line, and
      nothing when every line is blank. */
  function TrimBounds(lines: seq<string>): (r: (nat, nat))
    ensures r.0 <= r.1 <= |lines|
    ensures forall k :: 0 <= k < |lines| && (k < r.0 || r.1 <= k) ==> BlankLine(lines[k])
    ensures r.0 < r.1 ==> !BlankLine(lines[r.0]) && !BlankLine(lines[r.1 - 1])
    ensures r.0 == r.1 ==> r == (0, 0)
  {
    match FirstNonBlank(lines, 0)
    case None => (0, 0)
    case Some(s) =>
      var e := match LastNonBlank(lines) case None => |lines| case Some(i) => i + 1;
      (s, e)
  }

  /** `trim_ends` / `trim_file_ends`. */
  function TrimEnds(lines: seq<string>): (r: string)
    ensures (forall k :: 0 <= k < |lines| ==> BlankLine(lines[k])) ==> r == ""
  {
    var b := TrimBounds(lines);
    Join(lines[b.0..b.1], "\n")
  }

  /** Trimming what was already trimmed keeps all of it. */
  lemma TrimBoundsIdempotent(lines: seq<string>)
    ensures var b := TrimBounds(lines); TrimBounds(lines[b.0..b.1]) == (0, b.1 - b.0)
  {
    var b := TrimBounds(lines);
    var kept := lines[b.0..b.1];
    var c := TrimBounds(kept);
    if b.0 < b.1 {
      assert kept[0] == lines[b.0] && kept[|kept| - 1] == lines[b.1 - 1];
      assert c.0 == 0 && c.1 == |kept|;
    }
  }

  lemma TrimEndsIdempotent(lines: seq<string>)
    ensures var b := TrimBounds(lines); TrimEnds(lines[b.0..b.1]) == TrimEnds(lines)
  {
    TrimBoundsIdempotent(lines);
    var b := TrimBounds(lines);
    assert lines[b.0..b.1][0..b.1 - b.0] == lines[b.0..b.1];
  }

  // ---------------------------------------------------------------------------
  // Reading a template

  /** The lines that satisfy `keep`, in their order. */
  function Keep<T>(xs: seq<T>, keep: T -> bool): (r: seq<T>)
    decreases |xs|
    ensures |r| <= |xs|
    ensures forall k :: 0 <= k < |r| ==> r[k] in xs && keep(r[k])
    ensures forall k :: 0 <= k < |xs| && keep(xs[k]) ==> xs[k] in r
  {
    if |xs| == 0 then []
    else (if keep(xs[0]) then [xs[0]] else []) + Keep(xs[1..], keep)
  }

  lemma {:induction false} KeepAll<T>(xs: seq<T>, keep: T -> bool)
    requires forall k :: 0 <= k < |xs| ==> keep(xs[k])
    decreases |xs|
    ensures Keep(xs, keep) == xs
  {
    if |xs| > 0 {
      KeepAll(xs[1..], keep);
      assert xs == [xs[0]] + xs[1..];
    }
  }

  /** `classify_line` over every line of a template: all classifications in
      order, or the error of the first line that fails. */
  function ClassifyAll(dialect: Dialect, lines: seq<string>, patterns: seq<seq<string>>, filePath: string)
    : (r: Result<seq<Line>, Error>)
    ensures r.Ok? <==> forall k :: 0 <= k < |lines| ==> ClassifyLine(dialect, lines[k], patterns, filePath).Ok?
    ensures r.Ok? ==> |r.value| == |lines|
    ensures r.Ok? ==> forall k :: 0 <= k < |lines| ==> ClassifyLine(dialect, lines[k], patterns, filePath) == Ok(r.value[k])
    ensures r.Err? ==> exists k :: 0 <= k < |lines| && ClassifyLine(dialect, lines[k], patterns, filePath) == Err(r.error)
                                   && forall j :: 0 <= j < k ==> ClassifyLine(dialect, lines[j], patterns, filePath).Ok?
  {
    Traverse(lines, l => ClassifyLine(dialect, l, patterns, filePath))
  }

  /** The two directive accumulators of `from_template_internal`. */
  datatype Tallied = Tallied(raw: seq<(string, string)>, outputs: seq<string>)

  /** The loop of `from_template_internal` over classified lines: `#basel` pairs
      are recorded in order; output directives are kept in their dialect's form,
      each once (the `HashSet`). */
  function Tally(dialect: Dialect, ls: seq<Line>): (r: Tallied)
    decreases |ls|
    ensures NoDuplicates(r.outputs)
    ensures forall x :: x in r.outputs <==> exists k :: 0 <= k < |ls| && ls[k].Other? && x == Equiv(dialect, ls[k].text)
    ensures forall p :: p in r.raw <==> exists k :: 0 <= k < |ls| && ls[k] == Basel(p.0, p.1)
  {
    if |ls| == 0 then Tallied([], [])
    else
      var s := Tally(dialect, ls[1..]);
      assert forall k :: 1 <= k < |ls| ==> ls[1..][k - 1] == ls[k];
      assert forall j :: 0 <= j < |ls| - 1 ==> ls[j + 1] == ls[1..][j];
      match ls[0]
      case Basel(k, v) => Tallied([(k, v)] + s.raw, s.outputs)
      case Other(t) =>
        var n := Equiv(dialect, t);
        Tallied(s.raw, if n in s.outputs then s.outputs else [n] + s.outputs)
      case Content => s
  }

  /** A later `#basel` line with the same key overwrites an earlier one. */
  lemma {:induction false} TallyLastWins(dialect: Dialect, ls: seq<Line>, i: nat, key: string, val: string)
    requires i < |ls| && ls[i] == Basel(key, val)
    requires forall j :: i < j < |ls| ==> !(ls[j].Basel? && ls[j].key == key)
    decreases |ls|
    ensures IndexMaps.LastValue(Tally(dialect, ls).raw, key) == Some(val)
  {
    var rest := Tally(dialect, ls[1..]);
    if i == 0 {
      assert key !in IndexMaps.Keys(rest.raw) by {
        forall m | 0 <= m < |rest.raw| ensures rest.raw[m].0 != key {
          assert rest.raw[m] in rest.raw;
          var j :| 0 <= j < |ls[1..]| && ls[1..][j] == Basel(rest.raw[m].0, rest.raw[m].1);
          assert ls[j + 1] == ls[1..][j];
        }
      }
      IndexMaps.LastValueCons((key, val), rest.raw, key);
    } else {
      forall j | i - 1 < j < |ls[1..]| ensures !(ls[1..][j].Basel? && ls[1..][j].key == key) {
        assert ls[1..][j] == ls[j + 1];
      }
      TallyLastWins(dialect, ls[1..], i - 1, key, val);
      assert key in IndexMaps.Keys(rest.raw) by {
        var m :| 0 <= m < |rest.raw| && rest.raw[m].0 == key;
      }
      if ls[0].Basel? {
        IndexMaps.LastValueCons((ls[0].key, ls[0].val), rest.raw, key);
      }
    }
  }

  function StyleFold(entries: seq<(string, string)>, s: Style): (r: Style)
    decreases |entries|
    ensures r.color == Name <==> match IndexMaps.LastValue(entries, RENDER_SWATCH_NAMES)
                                 case Some(v) => v == "true"
                                 case None => s.color == Name
    ensures r.text == Ascii <==> match IndexMaps.LastValue(entries, RENDER_AS_ASCII)
                                 case Some(v) => v == "true"
                                 case None => s.text == Ascii
  {
    if |entries| == 0 then s
    else
      var key := entries[0].0;
      var val := entries[0].1;
      var next :=
        if key == RENDER_SWATCH_NAMES then s.(color := if Render.ParseBool(val) then Name else Hex)
        else if key == RENDER_AS_ASCII then s.(text := if Render.ParseBool(val) then Ascii else Unicode)
        else s;
      IndexMaps.LastValueCons(entries[0], entries[1..], RENDER_SWATCH_NAMES);
      IndexMaps.LastValueCons(entries[0], entries[1..], RENDER_AS_ASCII);
      assert entries == [entries[0]] + entries[1..];
      StyleFold(entries[1..], next)
  }

  /** `Config::from` / `parse_style`: over the map the `#basel` pairs build,
      `render_swatch_names` selects names over hex and `render_as_ascii` selects
      ASCII over Unicode, each only for the value `true`; other keys are ignored. */
  function ParseStyle(raw: seq<(string, string)>): (r: Style)
    ensures r.color == Name <==> IndexMaps.LastValue(raw, RENDER_SWATCH_NAMES) == Some("true")
    ensures r.text == Ascii <==> IndexMaps.LastValue(raw, RENDER_AS_ASCII) == Some("true")
  {
    var m := IndexMaps.Collect(raw);
    IndexMaps.CollectGet(raw, RENDER_SWATCH_NAMES);
    IndexMaps.CollectGet(raw, RENDER_AS_ASCII);
    IndexMaps.CollectValid(m);
    IndexMaps.CollectGet(m, RENDER_SWATCH_NAMES);
    IndexMaps.CollectGet(m, RENDER_AS_ASCII);
    StyleFold(m, DEFAULT_STYLE)
  }

  /** `from_template`: the directives of a template and its text without them.
      The content lines are those classified as content, in order, with blank
      lines trimmed at both ends. */
  function FromTemplate(dialect: Dialect, content: string, patterns: seq<seq<string>>, filePath: string)
    : (r: Result<(Directives, string), Error>)
    ensures r.Ok? <==> ClassifyAll(dialect, Lines(content), patterns, filePath).Ok?
    ensures r.Err? ==> r.error == ClassifyAll(dialect, Lines(content), patterns, filePath).error
    ensures r.Ok? ==> NoDuplicates(r.value.0.outputLines)
    ensures r.Ok? ==> var ls := ClassifyAll(dialect, Lines(content), patterns, filePath).value;
                      forall x :: x in r.value.0.outputLines <==>
                        exists k :: 0 <= k < |ls| && ls[k].Other? && x == Equiv(dialect, ls[k].text)
    ensures r.Ok? && Lawful(dialect) ==> forall x :: x in r.value.0.outputLines ==> Equiv(dialect, x) == x
    ensures r.Ok? ==> r.value.1 == TrimEnds(Keep(Lines(content), l => IsContent(dialect, patterns, filePath, l)))
  {
    var ls :- ClassifyAll(dialect, Lines(content), patterns, filePath);
    var tally := Tally(dialect, ls);
    StoredFormIsStable(dialect, tally.outputs, ls);
    Ok((Directives(ParseStyle(tally.raw), tally.outputs),
        TrimEnds(Keep(Lines(content), l => IsContent(dialect, patterns, filePath, l)))))
  }

  predicate IsContent(dialect: Dialect, patterns: seq<seq<string>>, filePath: string, line: string) {
    ClassifyLine(dialect, line, patterns, filePath) == Ok(Content)
  }

  /** Under a lawful dialect the stored form of an output directive is a fixed
      point of the dialect's equivalence. */
  lemma StoredFormIsStable(dialect: Dialect, outputs: seq<string>, ls: seq<Line>)
    requires forall x :: x in outputs <==> exists k :: 0 <= k < |ls| && ls[k].Other? && x == Equiv(dialect, ls[k].text)
    ensures Lawful(dialect) ==> forall x :: x in outputs ==> Equiv(dialect, x) == x
  {
    if Lawful(dialect) {
      forall x | x in outputs ensures Equiv(dialect, x) == x {
        var k :| 0 <= k < |ls| && ls[k].Other? && x == Equiv(dialect, ls[k].text);
        EquivIdempotent(dialect, ls[k].text);
      }
    }
  }

  /** An output directive is stored exactly when some line of the template is
      one, in its trimmed text's dialect form. */
  lemma OutputLineOfTemplate(dialect: Dialect, content: string, patterns: seq<seq<string>>, filePath: string, k: nat)
    requires k < |Lines(content)|
    requires ClassifyLine(dialect, Lines(content)[k], patterns, filePath).Ok?
    requires ClassifyLine(dialect, Lines(content)[k], patterns, filePath).value.Other?
    ensures FromTemplate(dialect, content, patterns, filePath).Ok? ==> Equiv(dialect, Trim(Lines(content)[k])) in FromTemplate(dialect, content, patterns, filePath).value.0.outputLines
  {
    if FromTemplate(dialect, content, patterns, filePath).Ok? {
      var ls := ClassifyAll(dialect, Lines(content), patterns, filePath).value;
      assert ls[k].text == Trim(Lines(content)[k]);
    }
  }

  /** A template without directive lines keeps the default style, has no header
      lines, and loses only its blank first and last lines. */
  lemma NoDirectivesKeepsText(dialect: Dialect, content: string, patterns: seq<seq<string>>, filePath: string)
    requires forall k :: 0 <= k < |Lines(content)| ==> ClassifyLine(dialect, Lines(content)[k], patterns, filePath) == Ok(Content)
    ensures FromTemplate(dialect, content, patterns, filePath) == Ok((Directives(DEFAULT_STYLE, []), TrimEnds(Lines(content))))
  {
    var lines := Lines(content);
    KeepAll(lines, l => IsContent(dialect, patterns, filePath, l));
    var ls := ClassifyAll(dialect, lines, patterns, filePath).value;
    TallyAllContent(dialect, ls);
  }

  /** Content lines add nothing to either accumulator. */
  lemma {:induction false} TallyAllContent(dialect: Dialect, ls: seq<Line>)
    requires forall k :: 0 <= k < |ls| ==> ls[k] == Content
    decreases |ls|
    ensures Tally(dialect, ls) == Tallied([], [])
  {
    if |ls| > 0 {
      assert forall k :: 0 <= k < |ls[1..]| ==> ls[1..][k] == ls[k + 1];
      TallyAllContent(dialect, ls[1..]);
    }
  }

  /** The style a template asks for is decided by its last `render_swatch_names`
      line: names exactly when that line's value is `true`. */
  lemma LastSwatchNamesLineDecides(dialect: Dialect, content: string, patterns: seq<seq<string>>, filePath: string,
                                   i: nat, val: string)
    requires i < |Lines(content)|
    requires ClassifyLine(dialect, Lines(content)[i], patterns, filePath) == Ok(Basel(RENDER_SWATCH_NAMES, val))
    requires forall j :: i < j < |Lines(content)| && ClassifyLine(dialect, Lines(content)[j], patterns, filePath).Ok? ==>
               !(ClassifyLine(dialect, Lines(content)[j], patterns, filePath).value.Basel?
                 && ClassifyLine(dialect, Lines(content)[j], patterns, filePath).value.key == RENDER_SWATCH_NAMES)
    ensures FromTemplate(dialect, content, patterns, filePath).Ok? ==> (FromTemplate(dialect, content, patterns, filePath).value.0.style.color == Name <==> val == "true")
  {
    if FromTemplate(dialect, content, patterns, filePath).Ok? {
      var ls := ClassifyAll(dialect, Lines(content), patterns, filePath).value;
      TallyLastWins(dialect, ls, i, RENDER_SWATCH_NAMES, val);
    }
  }

  // ---------------------------------------------------------------------------
  // The header of an output

  predicate HasEquivalent(dialect: Dialect, lines: seq<string>, line: string) {
    exists k :: 0 <= k < |lines| && Equiv(dialect, lines[k]) == Equiv(dialect, line)
  }

  /** The header's lines: the output directives, with the tombi line that turns off
      formatting added to a TOML output that has no equivalent line, sorted. */
  function HeaderLines(dialect: Dialect, lines: seq<string>, isToml: bool): (r: seq<string>)
    requires NoDuplicates(lines)
    ensures StrictlySorted(r)
    ensures forall x :: x in r <==> x in lines
                                    || (x == TOMBI_FORMAT_DISABLED && isToml && !HasEquivalent(dialect, lines, TOMBI_FORMAT_DISABLED))
  {
    if isToml && !HasEquivalent(dialect, lines, TOMBI_FORMAT_DISABLED) then
      assert TOMBI_FORMAT_DISABLED !in lines by {
        forall k | 0 <= k < |lines| ensures lines[k] != TOMBI_FORMAT_DISABLED {
          assert Equiv(dialect, lines[k]) != Equiv(dialect, TOMBI_FORMAT_DISABLED);
        }
      }
      var all := lines + [TOMBI_FORMAT_DISABLED];
      assert forall k :: 0 <= k < |lines| ==> all[k] == lines[k];
      Sort(all)
    else Sort(lines)
  }

  /** `make_header`: no header at all when there are no lines, otherwise the lines
      one per row followed by a blank line. */
  function MakeHeader(dialect: Dialect, d: Directives, outputPath: string): (r: string)
    requires NoDuplicates(d.outputLines)
    ensures r == "" <==> |d.outputLines| == 0 && !Extensions.IsToml(outputPath)
    ensures r != "" ==> IsSuffix("\n\n", r)
  {
    var header := HeaderLines(dialect, d.outputLines, Extensions.IsToml(outputPath));
    if |header| == 0 then ""
    else
      assert |d.outputLines| > 0 || Extensions.IsToml(outputPath) by {
        assert header[0] in header;
      }
      Join(header, "\n") + "\n\n"
  }

  /** The header does not depend on the order the set of lines is held in. */
  lemma HeaderOrderIndependent(dialect: Dialect, a: seq<string>, b: seq<string>, outputPath: string, style: Style)
    requires NoDuplicates(a) && NoDuplicates(b)
    requires forall x :: x in a <==> x in b
    ensures MakeHeader(dialect, Directives(style, a), outputPath) == MakeHeader(dialect, Directives(style, b), outputPath)
  {
    SameHeaderLines(dialect, a, b, Extensions.IsToml(outputPath));
  }

  /** Two holdings of the same set of lines give the same header lines. */
  lemma SameHeaderLines(dialect: Dialect, a: seq<string>, b: seq<string>, isToml: bool)
    requires NoDuplicates(a) && NoDuplicates(b)
    requires forall x :: x in a <==> x in b
    ensures HeaderLines(dialect, a, isToml) == HeaderLines(dialect, b, isToml)
  {
    SameEquivalents(dialect, a, b, TOMBI_FORMAT_DISABLED);
    SortedUnique(HeaderLines(dialect, a, isToml), HeaderLines(dialect, b, isToml));
  }

  /** Whether some line is equivalent to `line` depends only on the set of lines. */
  lemma SameEquivalents(dialect: Dialect, a: seq<string>, b: seq<string>, line: string)
    requires forall x :: x in a <==> x in b
    ensures HasEquivalent(dialect, a, line) <==> HasEquivalent(dialect, b, line)
  {
    if HasEquivalent(dialect, a, line) {
      var k :| 0 <= k < |a| && Equiv(dialect, a[k]) == Equiv(dialect, line);
      assert a[k] in b;
    }
    if HasEquivalent(dialect, b, line) {
      var k :| 0 <= k < |b| && Equiv(dialect, b[k]) == Equiv(dialect, line);
      assert b[k] in a;
    }
  }

  /** Every TOML output's header has a line equivalent to the tombi line that
      turns formatting off. */
  lemma TomlHeaderDisablesFormatting(dialect: Dialect, lines: seq<string>)
    requires NoDuplicates(lines)
    ensures exists x :: x in HeaderLines(dialect, lines, true) && Equiv(dialect, x) == Equiv(dialect, TOMBI_FORMAT_DISABLED)
  {
    if HasEquivalent(dialect, lines, TOMBI_FORMAT_DISABLED) {
      var k :| 0 <= k < |lines| && Equiv(dialect, lines[k]) == Equiv(dialect, TOMBI_FORMAT_DISABLED);
      assert lines[k] in HeaderLines(dialect, lines, true);
    } else {
      assert TOMBI_FORMAT_DISABLED in HeaderLines(dialect, lines, true);
    }
  }
}

=== FILE: extensions.dfy ===
/** The path-extension test the renderer uses to recognise TOML outputs and Jinja
    templates: `Path::extension` compared with ASCII case folding. */
module Extensions {
  import opened Wrappers
  import opened Strings
  import Render

  /** `Path::extension`: the text after the last `.` of the file name, unless the
      name has no `.` or its only `.` is its first character (a hidden file). */
  function Extension(path: string): (r: Option<string>)
    ensures r.Some? ==> '.' !in r.value && '/' !in r.value
    ensures r.Some? ==> Render.FileName(path).Some?
    ensures r.Some? ==> exists stem :: stem != "" && Render.FileName(path).value == stem + "." + r.value
  {
    match Render.FileName(path)
    case None => None
    case Some(name) =>
      match RSplitOnce(name, '.')
      case None => None
      case Some((before, after)) =>
        if before == "" then None
        else
          assert '/' !in after by {
            forall k | 0 <= k < |after| ensures after[k] != '/' {
              assert after[k] == name[|before| + 1 + k];
            }
          }
          Some(after)
  }

  /** `has_extension`: the extension equals `ext` up to ASCII case. */
  predicate HasExtension(path: string, ext: string) {
    Extension(path).Some? && EqIgnoreAsciiCase(Extension(path).value, ext)
  }

  predicate IsToml(path: string) {
    HasExtension(path, "toml")
  }

  predicate IsJinja(path: string) {
    HasExtension(path, "jinja")
  }

  /** A file name made of a non-empty stem, a dot and a dot-free suffix has exactly
      that suffix as its extension. */
  lemma ExtensionOfName(path: string, stem: string, ext: string)
    requires Render.FileName(path) == Some(stem + "." + ext)
    requires stem != "" && '.' !in ext
    ensures Extension(path) == Some(ext)
  {
    var name := stem + "." + ext;
    assert name[|stem|] == '.';
    var i := LastIndexOf(name, '.');
    assert name[..i] == stem && name[i + 1..] == ext;
  }

  /** The test ignores the ASCII case of both sides: `Theme.TOML` is a TOML file. */
  lemma CaseInsensitive(path: string, ext: string, other: string)
    requires EqIgnoreAsciiCase(ext, other)
    ensures HasExtension(path, ext) <==> HasExtension(path, other)
  {
  }

  /** Recognising a TOML output is decided by the file name alone: any path whose
      file name is `stem.toml`, in any ASCII case, is TOML. */
  lemma TomlByName(path: string, stem: string, ext: string)
    requires Render.FileName(path) == Some(stem + "." + ext)
    requires stem != "" && EqIgnoreAsciiCase(ext, "toml")
    ensures IsToml(path)
  {
    assert '.' !in ext by {
      forall k | 0 <= k < |ext| ensures ext[k] != '.' {
        assert AsciiLowerChar(ext[k]) == AsciiLowerChar("toml"[k]);
      }
    }
    ExtensionOfName(path, stem, ext);
  }
}

=== FILE: hosts.dfy ===
/** The forge-host table the renderer uses to turn a file's remote location
    into links (`basel/src/templates/hosts.rs`; `src/templates/providers.rs` is
    the same code with the placeholders `{host}` and `{ref}` in place of
    `{domain}` and `{rev}`). Hosts are checked and ordered by how specific
    their domain pattern is; a domain picks the exact entry if there is one and
    the first matching pattern otherwise; the chosen layout's placeholders are
    then filled in. Glob compilation and matching, URL parsing and the regular
    expression that splits a blob path are foreign code and arrive as
    parameters. */
module Hosts {
  import opened Wrappers
  import opened Strings
  import Config
  import Placeholders

  /** Which of the two tables: the renderer's hosts or the generator's
      providers. They differ only in two placeholder names. */
  datatype Dialect = HostTable | ProviderTable

  /** The placeholders a layout may use, in the order they are substituted:
      domain, owner, repository, revision, file. */
  function Names(d: Dialect): (r: seq<string>)
    ensures |r| == 5
  {
    match d
    case HostTable => ["domain", "owner", "repo", "rev", "file"]
    case ProviderTable => ["host", "owner", "repo", "ref", "file"]
  }

  datatype Error =
    | MissingRequired(field: string, domain: string)
    | UnrecognizedPattern(url: string)
    | NoMatchingHost(domain: string)
    | NoDomain(url: string)
    | ParsingUrl(url: string)
    | ParsingGlob(domain: string)
    /** The `expect` on the URL's host in `extract_components`, which panics. */
    | HostExpected(url: string)

  /** A host whose pattern compiled and whose two layouts are present. */
  datatype Resolved = Resolved(domain: string, blobPath: string, rawPath: string, branch: Option<string>)

  // ---------------------------------------------------------------------------
  // Resolving one host

  /** `Host::resolve`: the domain must compile as a glob, then the blob layout
      must be present, then the raw layout. */
  function ResolveHost(h: Config.Host, globOk: string -> bool): (r: Result<Resolved, Error>)
    ensures r.Ok? <==> globOk(h.domain) && h.blobPath.Some? && h.rawPath.Some?
    ensures r.Ok? ==> r.value.domain == h.domain && r.value.branch == h.branch
                      && Some(r.value.blobPath) == h.blobPath && Some(r.value.rawPath) == h.rawPath
    ensures !globOk(h.domain) ==> r == Err(ParsingGlob(h.domain))
    ensures globOk(h.domain) && h.blobPath.None? ==> r == Err(MissingRequired("blob_path", h.domain))
    ensures globOk(h.domain) && h.blobPath.Some? && h.rawPath.None? ==> r == Err(MissingRequired("raw_path", h.domain))
  {
    if !globOk(h.domain) then Err(ParsingGlob(h.domain))
    else
      match (h.blobPath, h.rawPath)
      case (None, _) => Err(MissingRequired("blob_path", h.domain))
      case (Some(_), None) => Err(MissingRequired("raw_path", h.domain))
      case (Some(b), Some(w)) => Ok(Resolved(h.domain, b, w, h.branch))
  }

  // ---------------------------------------------------------------------------
  // Specificity

  const USIZE_MAX: nat := 0xFFFF_FFFF_FFFF_FFFF

  /** How specific a domain pattern is: its dot-separated labels, its literal
      characters, its wildcards. Compared lexicographically. */
  datatype Spec = Spec(labels: nat, literals: nat, wildcards: nat)

  /** Lexicographic `a <= b`. */
  predicate Leq(a: Spec, b: Spec) {
    a.labels < b.labels
    || (a.labels == b.labels && (a.literals < b.literals || (a.literals == b.literals && a.wildcards <= b.wildcards)))
  }

  lemma LeqTotal(a: Spec, b: Spec)
    ensures Leq(a, b) || Leq(b, a)
    ensures Leq(a, b) && Leq(b, a) ==> a == b
  {
  }

  lemma LeqTransitive(a: Spec, b: Spec, c: Spec)
    requires Leq(a, b) && Leq(b, c)
    ensures Leq(a, c)
  {
  }

  /** A pattern with no `*`, `?` or `{` names one domain. */
  predicate IsExact(p: string) {
    '*' !in p && '?' !in p && '{' !in p
  }

  predicate IsGlobSyntax(c: char) {
    c == '*' || c == '?' || c == '{' || c == '}' || c == ','
  }

  /** The characters of `p` that are not glob syntax. */
  function CountLiterals(p: string): (n: nat)
    decreases |p|
    ensures n <= |p|
    ensures n == |p| <==> forall i :: 0 <= i < |p| ==> !IsGlobSyntax(p[i])
  {
    if |p| == 0 then 0
    else
      var n := CountLiterals(p[1..]);
      assert forall i :: 1 <= i < |p| ==> p[i] == p[1..][i - 1];
      (if IsGlobSyntax(p[0]) then 0 else 1) + n
  }

  /** `calculate_specificity`: an exact pattern scores its label count, the
      largest literal count and no wildcards; any other pattern scores its label
      count, its literal characters, and its `*`, `?` and `{`. */
  function Specificity(p: string): (r: Spec)
    ensures r.labels == CountChar(p, '.') + 1
    ensures IsExact(p) ==> r.literals == USIZE_MAX && r.wildcards == 0
    ensures !IsExact(p) ==> r.literals <= |p| && r.wildcards > 0
  {
    var labels := CountChar(p, '.') + 1;
    if IsExact(p) then Spec(labels, USIZE_MAX, 0)
    else Spec(labels, CountLiterals(p), CountChar(p, '*') + CountChar(p, '?') + CountChar(p, '{'))
  }

  /** More labels is more specific, whatever else the patterns hold. */
  lemma MoreLabelsOutrank(p: string, q: string)
    requires CountChar(p, '.') > CountChar(q, '.')
    ensures Leq(Specificity(q), Specificity(p)) && Specificity(q) != Specificity(p)
  {
  }

  /** With as many labels, an exact domain outranks every pattern with
      wildcards (a pattern cannot hold `usize::MAX` literals). */
  lemma ExactOutranksGlob(p: string, q: string)
    ensures IsExact(p) && !IsExact(q) && CountChar(p, '.') == CountChar(q, '.') && |q| < USIZE_MAX ==>
              Leq(Specificity(q), Specificity(p)) && Specificity(q) != Specificity(p)
  {
  }

  // ---------------------------------------------------------------------------
  // The stable descending sort

  /** Each element's key is at least the keys after it. */
  predicate SortedDesc<T>(xs: seq<T>, key: T -> Spec) {
    forall i, j :: 0 <= i < j < |xs| ==> Leq(key(xs[j]), key(xs[i]))
  }

  /** The elements whose key is `k`, in order. */
  function WithKey<T>(xs: seq<T>, key: T -> Spec, k: Spec): (r: seq<T>)
    decreases |xs|
    ensures |r| <= |xs|
  {
    if |xs| == 0 then []
    else (if key(xs[0]) == k then [xs[0]] else []) + WithKey(xs[1..], key, k)
  }

  lemma WithKeyCons<T>(x: T, s: seq<T>, key: T -> Spec, k: Spec)
    ensures WithKey([x] + s, key, k) == (if key(x) == k then [x] else []) + WithKey(s, key, k)
  {
    assert ([x] + s)[1..] == s;
  }

  /** An element no smaller than every key of a sorted sequence may go first. */
  lemma SortedCons<T>(x: T, s: seq<T>, key: T -> Spec)
    requires SortedDesc(s, key)
    requires forall j :: 0 <= j < |s| ==> Leq(key(s[j]), key(x))
    ensures SortedDesc([x] + s, key)
  {
    var r := [x] + s;
    forall i, j | 0 <= i < j < |r| ensures Leq(key(r[j]), key(r[i])) {
      assert r[j] == s[j - 1];
      if i > 0 { assert r[i] == s[i - 1]; }
    }
  }

  /** The bound of a sorted sequence's head holds for its tail with `x` put in. */
  lemma BoundAfterInsert<T>(head: T, tail: seq<T>, x: T, rest: seq<T>, key: T -> Spec)
    requires forall j :: 0 <= j < |tail| ==> Leq(key(tail[j]), key(head))
    requires Leq(key(x), key(head))
    requires multiset(rest) == multiset(tail) + multiset{x}
    ensures forall j :: 0 <= j < |rest| ==> Leq(key(rest[j]), key(head))
  {
    forall j | 0 <= j < |rest| ensures Leq(key(rest[j]), key(head)) {
      assert rest[j] in multiset(rest);
      if rest[j] != x {
        assert rest[j] in multiset(tail);
        var i :| 0 <= i < |tail| && tail[i] == rest[j];
      }
    }
  }

  /** `x` placed before the first element whose key does not exceed its own. */
  function InsertDesc<T(==)>(x: T, s: seq<T>, key: T -> Spec): (r: seq<T>)
    requires SortedDesc(s, key)
    decreases |s|
    ensures SortedDesc(r, key)
    ensures multiset(r) == multiset(s) + multiset{x}
    ensures forall k :: WithKey(r, key, k) == if key(x) == k then [x] + WithKey(s, key, k) else WithKey(s, key, k)
  {
    if |s| == 0 || Leq(key(s[0]), key(x)) then
      InsertFront(x, s, key);
      [x] + s
    else
      assert SortedDesc(s[1..], key) by {
        forall a, b | 0 <= a < b < |s| - 1 ensures Leq(key(s[1..][b]), key(s[1..][a])) {
          assert s[1..][a] == s[a + 1] && s[1..][b] == s[b + 1];
        }
      }
      var rest := InsertDesc(x, s[1..], key);
      InsertBehind(x, s, rest, key);
      [s[0]] + rest
  }

  /** `x` may go first when it is no smaller than the current head. */
  lemma InsertFront<T>(x: T, s: seq<T>, key: T -> Spec)
    requires SortedDesc(s, key)
    requires |s| == 0 || Leq(key(s[0]), key(x))
    ensures SortedDesc([x] + s, key)
    ensures multiset([x] + s) == multiset(s) + multiset{x}
    ensures forall k :: WithKey([x] + s, key, k) == if key(x) == k then [x] + WithKey(s, key, k) else WithKey(s, key, k)
  {
    forall j | 0 <= j < |s| ensures Leq(key(s[j]), key(x)) {
      if j > 0 { LeqTransitive(key(s[j]), key(s[0]), key(x)); }
    }
    SortedCons(x, s, key);
    forall k ensures WithKey([x] + s, key, k) == if key(x) == k then [x] + WithKey(s, key, k) else WithKey(s, key, k) {
      WithKeyCons(x, s, key, k);
    }
  }

  /** `x` goes behind a head that outranks it, into the sorted tail. */
  lemma InsertBehind<T>(x: T, s: seq<T>, rest: seq<T>, key: T -> Spec)
    requires SortedDesc(s, key) && |s| > 0 && !Leq(key(s[0]), key(x))
    requires SortedDesc(rest, key)
    requires multiset(rest) == multiset(s[1..]) + multiset{x}
    requires forall k :: WithKey(rest, key, k) == if key(x) == k then [x] + WithKey(s[1..], key, k) else WithKey(s[1..], key, k)
    ensures SortedDesc([s[0]] + rest, key)
    ensures multiset([s[0]] + rest) == multiset(s) + multiset{x}
    ensures forall k :: WithKey([s[0]] + rest, key, k) == if key(x) == k then [x] + WithKey(s, key, k) else WithKey(s, key, k)
  {
    var head, tail := s[0], s[1..];
    assert s == [head] + tail;
    HeadBoundsTail(s, key);
    LeqTotal(key(head), key(x));
    BoundAfterInsert(head, tail, x, rest, key);
    SortedCons(head, rest, key);
    assert key(head) != key(x) by {
      LeqTotal(key(x), key(x));
    }
    forall k ensures WithKey([head] + rest, key, k) == if key(x) == k then [x] + WithKey(s, key, k) else WithKey(s, key, k) {
      WithKeyBehind(x, head, tail, rest, key, k);
    }
  }

  /** Putting `x` behind a head of another key keeps, for every key, the
      order `x` would have at the front. */
  lemma WithKeyBehind<T>(x: T, head: T, tail: seq<T>, rest: seq<T>, key: T -> Spec, k: Spec)
    requires key(head) != key(x)
    requires WithKey(rest, key, k) == if key(x) == k then [x] + WithKey(tail, key, k) else WithKey(tail, key, k)
    ensures WithKey([head] + rest, key, k)
            == if key(x) == k then [x] + WithKey([head] + tail, key, k) else WithKey([head] + tail, key, k)
  {
    WithKeyCons(head, rest, key, k);
    WithKeyCons(head, tail, key, k);
    if key(x) == k {
      assert WithKey([head] + rest, key, k) == WithKey(rest, key, k);
      assert WithKey([head] + tail, key, k) == WithKey(tail, key, k);
    } else if key(head) == k {
      assert WithKey([head] + rest, key, k) == [head] + WithKey(tail, key, k);
    }
  }

  /** The head of a sorted sequence bounds its tail. */
  lemma HeadBoundsTail<T>(s: seq<T>, key: T -> Spec)
    requires SortedDesc(s, key) && |s| > 0
    ensures forall j :: 0 <= j < |s| - 1 ==> Leq(key(s[1..][j]), key(s[0]))
  {
    forall j | 0 <= j < |s| - 1 ensures Leq(key(s[1..][j]), key(s[0])) {
      assert s[1..][j] == s[j + 1];
    }
  }

  /** `resolved.sort_by(|a, b| b_spec.cmp(&a_spec))`: a stable sort, most
      specific first. */
  function SortDesc<T(==)>(xs: seq<T>, key: T -> Spec): (r: seq<T>)
    decreases |xs|
    ensures SortedDesc(r, key)
    ensures multiset(r) == multiset(xs)
    ensures forall k :: WithKey(r, key, k) == WithKey(xs, key, k)
  {
    if |xs| == 0 then []
    else
      assert xs == [xs[0]] + xs[1..];
      InsertDesc(xs[0], SortDesc(xs[1..], key), key)
  }

  // ---------------------------------------------------------------------------
  // Resolving the table

  /** The sort key of a resolved host. */
  function SpecOf(h: Resolved): Spec {
    Specificity(h.domain)
  }

  /** The first half of `resolve`: every host resolved, in order, the first
      failure aborting. */
  function ResolveAll(hosts: seq<Config.Host>, globOk: string -> bool): (r: Result<seq<Resolved>, Error>)
    ensures r.Ok? <==> forall i :: 0 <= i < |hosts| ==> ResolveHost(hosts[i], globOk).Ok?
    ensures r.Ok? ==> |r.value| == |hosts| && forall i :: 0 <= i < |hosts| ==> r.value[i] == ResolveHost(hosts[i], globOk).value
    ensures r.Err? ==> exists i :: 0 <= i < |hosts| && ResolveHost(hosts[i], globOk) == Err(r.error)
                                   && forall j :: 0 <= j < i ==> ResolveHost(hosts[j], globOk).Ok?
  {
    Traverse(hosts, h => ResolveHost(h, globOk))
  }

  /** `resolve`: every host resolved, then a stable sort, most specific first:
      the hosts are all there, ordered by specificity, and hosts of equal
      specificity keep their configured order. */
  function Resolve(hosts: seq<Config.Host>, globOk: string -> bool): (r: Result<seq<Resolved>, Error>)
    ensures r.Err? <==> ResolveAll(hosts, globOk).Err?
    ensures r.Err? ==> r.error == ResolveAll(hosts, globOk).error
    ensures r.Ok? ==> SortedDesc(r.value, SpecOf)
    ensures r.Ok? ==> multiset(r.value) == multiset(ResolveAll(hosts, globOk).value)
    ensures r.Ok? ==> forall k :: WithKey(r.value, SpecOf, k) == WithKey(ResolveAll(hosts, globOk).value, SpecOf, k)
  {
    var resolved :- ResolveAll(hosts, globOk);
    Ok(SortDesc(resolved, SpecOf))
  }

  /** Every default host resolves, whenever its domain compiles as a glob. */
  lemma DefaultsResolve(globOk: string -> bool)
    requires forall i :: 0 <= i < |Config.DefaultHosts()| ==> globOk(Config.DefaultHosts()[i].domain)
    ensures Resolve(Config.DefaultHosts(), globOk).Ok?
  {
  }

  /** In a resolved table, an exact domain comes before every wildcard pattern
      with as many labels. */
  lemma ExactBeforeGlob(hosts: seq<Config.Host>, globOk: string -> bool, i: nat, j: nat)
    ensures Resolve(hosts, globOk).Ok? ==>
              var r := Resolve(hosts, globOk).value;
              i < |r| && j < |r|
              && IsExact(r[j].domain) && !IsExact(r[i].domain)
              && CountChar(r[j].domain, '.') == CountChar(r[i].domain, '.')
              && |r[i].domain| < USIZE_MAX
              ==> j < i
  {
    if Resolve(hosts, globOk).Ok? {
      var r := Resolve(hosts, globOk).value;
      if i < |r| && j < |r| && IsExact(r[j].domain) && !IsExact(r[i].domain)
         && CountChar(r[j].domain, '.') == CountChar(r[i].domain, '.') && |r[i].domain| < USIZE_MAX
      {
        assert SortedDesc(r, SpecOf);
        SortedExactFirst(r, i, j);
      }
    }
  }

  /** In a sequence sorted by specificity, an exact domain comes before every
      wildcard pattern with as many labels. */
  lemma SortedExactFirst(r: seq<Resolved>, i: nat, j: nat)
    requires SortedDesc(r, SpecOf)
    requires i < |r| && j < |r|
    requires IsExact(r[j].domain) && !IsExact(r[i].domain)
    requires CountChar(r[j].domain, '.') == CountChar(r[i].domain, '.')
    requires |r[i].domain| < USIZE_MAX
    ensures j < i
  {
    ExactOutranksGlob(r[j].domain, r[i].domain);
    LeqTotal(SpecOf(r[i]), SpecOf(r[j]));
  }

  // ---------------------------------------------------------------------------
  // Choosing a host

  /** The first position whose element satisfies `p`. */
  function FirstWhere<T>(xs: seq<T>, p: T -> bool): (r: Option<nat>)
    decreases |xs|
    ensures r.Some? ==> r.value < |xs| && p(xs[r.value]) && forall j :: 0 <= j < r.value ==> !p(xs[j])
    ensures r.None? <==> forall j :: 0 <= j < |xs| ==> !p(xs[j])
  {
    if |xs| == 0 then None
    else if p(xs[0]) then Some(0)
    else
      assert forall j :: 1 <= j < |xs| ==> xs[j] == xs[1..][j - 1];
      match FirstWhere(xs[1..], p)
      case None => None
      case Some(i) => Some(i + 1)
  }

  /** `find_matching`: the first host whose pattern is the domain itself,
      anywhere in the table; failing that, the first host whose glob matches. */
  function FindMatching(domain: string, hosts: seq<Resolved>, matches: (string, string) -> bool): (r: Option<Resolved>)
    ensures (exists i :: 0 <= i < |hosts| && hosts[i].domain == domain) ==>
              exists i :: 0 <= i < |hosts| && r == Some(hosts[i]) && hosts[i].domain == domain
                          && forall j :: 0 <= j < i ==> hosts[j].domain != domain
    ensures (forall i :: 0 <= i < |hosts| ==> hosts[i].domain != domain) ==>
              && (r.None? <==> forall i :: 0 <= i < |hosts| ==> !matches(hosts[i].domain, domain))
              && (r.Some? ==> exists i :: 0 <= i < |hosts| && r == Some(hosts[i]) && matches(hosts[i].domain, domain)
                                          && forall j :: 0 <= j < i ==> !matches(hosts[j].domain, domain))
  {
    match FirstWhere(hosts, (h: Resolved) => h.domain == domain)
    case Some(i) => Some(hosts[i])
    case None =>
      match FirstWhere(hosts, (h: Resolved) => matches(h.domain, domain))
      case Some(i) => Some(hosts[i])
      case None => None
  }

  /** An exact entry is chosen even when a pattern earlier in the table also
      matches the domain. */
  lemma ExactEntryWins(domain: string, hosts: seq<Resolved>, matches: (string, string) -> bool, g: nat, e: nat)
    requires g < e < |hosts| && matches(hosts[g].domain, domain) && hosts[g].domain != domain
    requires hosts[e].domain == domain && forall j :: 0 <= j < e ==> hosts[j].domain != domain
    ensures FindMatching(domain, hosts, matches) == Some(hosts[e])
  {
  }

  // ---------------------------------------------------------------------------
  // Filling a layout

  /** `apply`: each placeholder `{names[i]}` replaced by `values[i]`, in order. */
  function Apply(pattern: string, names: seq<string>, values: seq<string>): string
    requires |names| == |values|
    decreases |names|
  {
    if |names| == 0 then pattern
    else Apply(Replace(pattern, "{" + names[0] + "}", values[0]), names[1..], values[1..])
  }

  /** The value given for placeholder `n`: the first one named so. */
  function Lookup(names: seq<string>, values: seq<string>, n: string): (r: Option<string>)
    requires |names| == |values|
    decreases |names|
    ensures r.None? <==> n !in names
  {
    if |names| == 0 then None
    else if names[0] == n then Some(values[0])
    else Lookup(names[1..], values[1..], n)
  }

  /** A pattern's holes filled from the name list. */
  function FillAll(ps: seq<Placeholders.Piece>, names: seq<string>, values: seq<string>): (r: seq<Placeholders.Piece>)
    requires |names| == |values|
    decreases |names|
    ensures |r| == |ps|
    ensures forall k :: 0 <= k < |ps| ==>
              r[k] == (if ps[k].Hole? && Lookup(names, values, ps[k].name).Some?
                       then Placeholders.Lit(Lookup(names, values, ps[k].name).value) else ps[k])
  {
    if |names| == 0 then ps
    else FillAll(Placeholders.Fill(ps, names[0], values[0]), names[1..], values[1..])
  }

  /** When every hole of a pattern is named, filling leaves no hole. */
  lemma FillAllFills(ps: seq<Placeholders.Piece>, names: seq<string>, values: seq<string>)
    requires |names| == |values|
    requires forall k :: 0 <= k < |ps| && ps[k].Hole? ==> ps[k].name in names
    ensures Placeholders.Filled(FillAll(ps, names, values))
  {
  }

  /** On a well-formed layout with brace-free values, `apply` is filling the
      holes: nothing but the placeholders changes, and a value is never
      rescanned for a later placeholder. */
  lemma {:induction false} ApplyFills(ps: seq<Placeholders.Piece>, names: seq<string>, values: seq<string>)
    requires |names| == |values|
    requires Placeholders.WellFormed(ps)
    requires forall i :: 0 <= i < |names| ==> Placeholders.PlainName(names[i]) && '{' !in values[i]
    decreases |names|
    ensures Apply(Placeholders.Spell(ps), names, values) == Placeholders.Spell(FillAll(ps, names, values))
  {
    if |names| > 0 {
      Placeholders.ReplaceFills(ps, names[0], values[0]);
      ApplyFills(Placeholders.Fill(ps, names[0], values[0]), names[1..], values[1..]);
    }
  }

  // ---------------------------------------------------------------------------
  // Links

  /** What the git-URL parser gives: the text, its host, and the owner and
      repository when the URL has a recognised shape. */
  datatype GitUrl = GitUrl(text: string, host: Option<string>, ownerRepo: Option<(string, string)>)

  /** What the URL parser gives: the host, if any, and the path. */
  datatype ParsedUrl = ParsedUrl(host: Option<string>, path: string)

  /** What the blob-path expression captures. */
  datatype Components = Components(owner: string, repo: string, rev: string, file: string)

  /** A link: `https://` and a layout with the five placeholders filled. */
  function Link(d: Dialect, layout: string, values: seq<string>): string
    requires |values| == 5
  {
    "https://" + Apply(layout, Names(d), values)
  }

  /** A link is its layout with every placeholder filled: when the layout is
      well formed, names only the dialect's five placeholders and the values
      hold no `{`, the link is `https://` and the layout's literals with each
      hole replaced by its value. */
  lemma LinkFills(d: Dialect, ps: seq<Placeholders.Piece>, values: seq<string>)
    requires |values| == 5
    requires Placeholders.WellFormed(ps)
    requires forall k :: 0 <= k < |ps| && ps[k].Hole? ==> ps[k].name in Names(d)
    requires forall i :: 0 <= i < 5 ==> '{' !in values[i]
    ensures Link(d, Placeholders.Spell(ps), values) == "https://" + Placeholders.Spell(FillAll(ps, Names(d), values))
    ensures Placeholders.Filled(FillAll(ps, Names(d), values))
  {
    NamesArePlain(d);
    ApplyFills(ps, Names(d), values);
    FillAllFills(ps, Names(d), values);
  }

  /** `build_blob`: the URL needs a host, the host a table entry, the URL an
      owner and repository; the entry's blob layout is then filled in under
      `https://`. */
  function BuildBlob(d: Dialect, url: GitUrl, path: string, rev: string, hosts: seq<Resolved>,
                     matches: (string, string) -> bool): (r: Result<string, Error>)
    ensures r.Ok? <==> url.host.Some? && FindMatching(url.host.value, hosts, matches).Some? && url.ownerRepo.Some?
    ensures url.host.None? ==> r == Err(NoDomain(url.text))
    ensures url.host.Some? && FindMatching(url.host.value, hosts, matches).None? ==> r == Err(NoMatchingHost(url.host.value))
    ensures r.Ok? ==> r.value == Link(d, FindMatching(url.host.value, hosts, matches).value.blobPath,
                                      [url.host.value, url.ownerRepo.value.0, url.ownerRepo.value.1, rev, path])
  {
    var domain :- url.host.OkOr(NoDomain(url.text));
    var host :- FindMatching(domain, hosts, matches).OkOr(NoMatchingHost(domain));
    var (owner, repo) :- url.ownerRepo.OkOr(UnrecognizedPattern(url.text));
    Ok(Link(d, host.blobPath, [domain, owner, repo, rev, path]))
  }

  /** The placeholder names hold no braces. */
  lemma NamesArePlain(d: Dialect)
    ensures forall i :: 0 <= i < |Names(d)| ==> Placeholders.PlainName(Names(d)[i])
  {
  }

  /** `resolve_blob`: the URL must parse and have a host, the host a table
      entry, and its path the blob shape; the entry's raw layout is then filled
      in under `https://`. */
  function ResolveBlob(d: Dialect, url: string, hosts: seq<Resolved>, matches: (string, string) -> bool,
                       parse: string -> Option<ParsedUrl>, capture: string -> Option<Components>): (r: Result<string, Error>)
    ensures parse(url).None? ==> r == Err(ParsingUrl(url))
    ensures parse(url).Some? && parse(url).value.host.None? ==> r == Err(NoDomain(url))
    ensures r.Ok? <==> && parse(url).Some? && parse(url).value.host.Some?
                       && FindMatching(parse(url).value.host.value, hosts, matches).Some?
                       && capture(parse(url).value.path).Some?
    ensures r.Ok? ==> r.value == Link(d, FindMatching(parse(url).value.host.value, hosts, matches).value.rawPath,
                                      var c := capture(parse(url).value.path).value;
                                      [parse(url).value.host.value, c.owner, c.repo, c.rev, c.file])
  {
    var parsed :- parse(url).OkOr(ParsingUrl(url));
    var domain :- parsed.host.OkOr(NoDomain(url));
    var host :- FindMatching(domain, hosts, matches).OkOr(NoMatchingHost(domain));
    var c :- capture(parsed.path).OkOr(UnrecognizedPattern(url));
    Ok(Link(d, host.rawPath, [domain, c.owner, c.repo, c.rev, c.file]))
  }

  /** `extract_repo_url`: the URL must parse and its path have the blob shape;
      the repository link is `https://domain/owner/repo`. A URL without a host
      reaches the panicking `expect`. */
  function ExtractRepoUrl(blob: string, parse: string -> Option<ParsedUrl>, capture: string -> Option<Components>)
    : (r: Result<Option<string>, Error>)
    ensures r.Ok? <==> && parse(blob).Some? && capture(parse(blob).value.path).Some?
                       && parse(blob).value.host.Some?
    ensures r.Ok? ==> r.value.Some?
    ensures r.Ok? ==> var c := capture(parse(blob).value.path).value;
                      r.value.value == "https://" + parse(blob).value.host.value + "/" + c.owner + "/" + c.repo
    ensures parse(blob).None? ==> r == Err(ParsingUrl(blob))
    ensures parse(blob).Some? && capture(parse(blob).value.path).None? ==> r == Err(UnrecognizedPattern(blob))
    ensures parse(blob).Some? && capture(parse(blob).value.path).Some? && parse(blob).value.host.None?
            ==> r == Err(HostExpected(blob))
  {
    var parsed :- parse(blob).OkOr(ParsingUrl(blob));
    var c :- capture(parsed.path).OkOr(UnrecognizedPattern(blob));
    var domain :- parsed.host.OkOr(HostExpected(blob));
    Ok(Some("https://" + domain + "/" + c.owner + "/" + c.repo))
  }

  /** For a blob link `https://domain/owner/repo/...` whose pieces the parser
      and the expression report faithfully, the repository link is
      `https://domain/owner/repo`, a prefix of the blob link. */
  lemma RepoUrlPrefixesBlob(blob: string, parse: string -> Option<ParsedUrl>, capture: string -> Option<Components>,
                            domain: string, c: Components, rest: string)
    requires parse(blob) == Some(ParsedUrl(Some(domain), "/" + c.owner + "/" + c.repo + rest))
    requires capture("/" + c.owner + "/" + c.repo + rest) == Some(c)
    requires blob == "https://" + domain + ("/" + c.owner + "/" + c.repo + rest)
    ensures ExtractRepoUrl(blob, parse, capture).Ok?
    ensures ExtractRepoUrl(blob, parse, capture).value.value == "https://" + domain + "/" + c.owner + "/" + c.repo
    ensures IsPrefix(ExtractRepoUrl(blob, parse, capture).value.value, blob)
  {
    var u := "https://" + domain + "/" + c.owner + "/" + c.repo;
    assert blob == u + rest;
  }

  // ---------------------------------------------------------------------------
  // The default blob layouts

  /** `{domain}/{owner}/{repo}<sep>{rev}/{file}`, the shape of every default
      blob layout, over a list of five placeholder names. */
  function BlobLayout(names: seq<string>, sep: string): seq<Placeholders.Piece>
    requires |names| == 5
  {
    [ Placeholders.Hole(names[0]), Placeholders.Lit("/"), Placeholders.Hole(names[1]), Placeholders.Lit("/"),
      Placeholders.Hole(names[2]), Placeholders.Lit(sep), Placeholders.Hole(names[3]), Placeholders.Lit("/"),
      Placeholders.Hole(names[4]) ]
  }

  /** A blob layout over a dialect's names is well formed when its separator
      holds no `{`, and uses only that dialect's placeholders. */
  lemma BlobLayoutWellFormed(d: Dialect, sep: string)
    requires '{' !in sep
    ensures Placeholders.WellFormed(BlobLayout(Names(d), sep))
    ensures forall k :: 0 <= k < 9 && BlobLayout(Names(d), sep)[k].Hole? ==> BlobLayout(Names(d), sep)[k].name in Names(d)
  {
    NamesArePlain(d);
  }

  lemma FillAllHole(ps: seq<Placeholders.Piece>, names: seq<string>, values: seq<string>, k: nat, v: string)
    requires |names| == |values| && k < |ps| && ps[k].Hole? && Lookup(names, values, ps[k].name) == Some(v)
    ensures FillAll(ps, names, values)[k] == Placeholders.Lit(v)
  {
  }

  lemma FillAllLit(ps: seq<Placeholders.Piece>, names: seq<string>, values: seq<string>, k: nat)
    requires |names| == |values| && k < |ps| && ps[k].Lit?
    ensures FillAll(ps, names, values)[k] == ps[k]
  {
  }

  /** The text of a nine-piece pattern. */
  lemma SpellNine(ps: seq<Placeholders.Piece>)
    requires |ps| == 9
    ensures Placeholders.Spell(ps)
         == Placeholders.Spelling(ps[0]) + (Placeholders.Spelling(ps[1]) + (Placeholders.Spelling(ps[2])
          + (Placeholders.Spelling(ps[3]) + (Placeholders.Spelling(ps[4]) + (Placeholders.Spelling(ps[5])
          + (Placeholders.Spelling(ps[6]) + (Placeholders.Spelling(ps[7]) + Placeholders.Spelling(ps[8]))))))))
  {
    assert Placeholders.Spell(ps[8..]) == Placeholders.Spelling(ps[8]) + Placeholders.Spell(ps[9..]);
    assert Placeholders.Spelling(ps[8]) + "" == Placeholders.Spelling(ps[8]);
    assert Placeholders.Spell(ps[7..]) == Placeholders.Spelling(ps[7]) + Placeholders.Spell(ps[8..]);
    assert Placeholders.Spell(ps[6..]) == Placeholders.Spelling(ps[6]) + Placeholders.Spell(ps[7..]);
    assert Placeholders.Spell(ps[5..]) == Placeholders.Spelling(ps[5]) + Placeholders.Spell(ps[6..]);
    assert Placeholders.Spell(ps[4..]) == Placeholders.Spelling(ps[4]) + Placeholders.Spell(ps[5..]);
    assert Placeholders.Spell(ps[3..]) == Placeholders.Spelling(ps[3]) + Placeholders.Spell(ps[4..]);
    assert Placeholders.Spell(ps[2..]) == Placeholders.Spelling(ps[2]) + Placeholders.Spell(ps[3..]);
    assert Placeholders.Spell(ps[1..]) == Placeholders.Spelling(ps[1]) + Placeholders.Spell(ps[2..]);
    assert Placeholders.Spell(ps) == Placeholders.Spelling(ps[0]) + Placeholders.Spell(ps[1..]);
  }

  /** The text of a filled blob layout. */
  lemma SpellLinkPieces(filled: seq<Placeholders.Piece>, sep: string, values: seq<string>)
    requires |filled| == 9 && |values| == 5
    requires filled[0] == Placeholders.Lit(values[0]) && filled[2] == Placeholders.Lit(values[1])
          && filled[4] == Placeholders.Lit(values[2]) && filled[6] == Placeholders.Lit(values[3])
          && filled[8] == Placeholders.Lit(values[4])
    requires filled[1] == filled[3] == filled[7] == Placeholders.Lit("/") && filled[5] == Placeholders.Lit(sep)
    ensures Placeholders.Spell(filled)
         == values[0] + ("/" + (values[1] + ("/" + (values[2] + (sep + (values[3] + ("/" + values[4])))))))
  {
    SpellNine(filled);
  }

  /** Filling a blob layout over distinct names puts the values between its
      separators. */
  lemma FillBlobLayout(names: seq<string>, sep: string, values: seq<string>)
    requires |names| == 5 && |values| == 5
    requires forall a, b :: 0 <= a < b < 5 ==> names[a] != names[b]
    ensures Placeholders.Spell(FillAll(BlobLayout(names, sep), names, values))
         == values[0] + ("/" + (values[1] + ("/" + (values[2] + (sep + (values[3] + ("/" + values[4])))))))
  {
    var ps := BlobLayout(names, sep);
    LookupAt(names, values, 0);
    LookupAt(names, values, 1);
    LookupAt(names, values, 2);
    LookupAt(names, values, 3);
    LookupAt(names, values, 4);
    FillAllHole(ps, names, values, 0, values[0]);
    FillAllHole(ps, names, values, 2, values[1]);
    FillAllHole(ps, names, values, 4, values[2]);
    FillAllHole(ps, names, values, 6, values[3]);
    FillAllHole(ps, names, values, 8, values[4]);
    FillAllLit(ps, names, values, 1);
    FillAllLit(ps, names, values, 3);
    FillAllLit(ps, names, values, 5);
    FillAllLit(ps, names, values, 7);
    SpellLinkPieces(FillAll(ps, names, values), sep, values);
  }

  /** With distinct names, each name looks up the value at its own position. */
  lemma {:induction false} LookupAt(names: seq<string>, values: seq<string>, i: nat)
    requires |names| == |values| && i < |names|
    requires forall a, b :: 0 <= a < b < |names| ==> names[a] != names[b]
    decreases i
    ensures Lookup(names, values, names[i]) == Some(values[i])
  {
    if i > 0 {
      assert names[0] != names[i];
      assert names[1..][i - 1] == names[i] && values[1..][i - 1] == values[i];
      LookupAt(names[1..], values[1..], i - 1);
    }
  }

  /** The placeholder names of a table are distinct. */
  lemma NamesDistinct(d: Dialect)
    ensures forall a, b :: 0 <= a < b < 5 ==> Names(d)[a] != Names(d)[b]
  {
    var names := Names(d);
    assert names[1][0] == 'o' && names[4][0] == 'f' && names[2][0] == 'r' && |names[2]| == 4 && |names[3]| == 3;
    assert names[0][0] != 'o' && names[0][0] != 'f' && names[0][0] != 'r';
    assert names[3][0] != 'o' && names[3][0] != 'f';
  }

  /** The text of a blob layout: its placeholders in braces around the
      separators. */
  lemma SpellBlobLayout(names: seq<string>, sep: string)
    requires |names| == 5
    ensures Placeholders.Spell(BlobLayout(names, sep))
         == "{" + names[0] + "}" + ("/" + ("{" + names[1] + "}" + ("/" + ("{" + names[2] + "}"
          + (sep + ("{" + names[3] + "}" + ("/" + ("{" + names[4] + "}"))))))))
  {
    SpellNine(BlobLayout(names, sep));
  }

  /** The host table's placeholders in braces. */
  lemma HostHoles()
    ensures "{" + Names(HostTable)[0] + "}" == "{domain}"
    ensures "{" + Names(HostTable)[1] + "}" == "{owner}"
    ensures "{" + Names(HostTable)[2] + "}" == "{repo}"
    ensures "{" + Names(HostTable)[3] + "}" == "{rev}"
    ensures "{" + Names(HostTable)[4] + "}" == "{file}"
  {
  }

  lemma GitHubBlobLiteral()
    ensures "{domain}/{owner}/{repo}/blob/{rev}/{file}"
         == "{domain}" + ("/" + ("{owner}" + ("/" + ("{repo}" + ("/blob/" + ("{rev}" + ("/" + "{file}")))))))
  {
  }

  lemma GitLabBlobLiteral()
    ensures "{domain}/{owner}/{repo}/-/blob/{rev}/{file}"
         == "{domain}" + ("/" + ("{owner}" + ("/" + ("{repo}" + ("/-/blob/" + ("{rev}" + ("/" + "{file}")))))))
  {
  }

  lemma CodebergBlobLiteral()
    ensures "{domain}/{owner}/{repo}/src/branch/{rev}/{file}"
         == "{domain}" + ("/" + ("{owner}" + ("/" + ("{repo}" + ("/src/branch/" + ("{rev}" + ("/" + "{file}")))))))
  {
  }

  lemma BitbucketBlobLiteral()
    ensures "{domain}/{owner}/{repo}/src/{rev}/{file}"
         == "{domain}" + ("/" + ("{owner}" + ("/" + ("{repo}" + ("/src/" + ("{rev}" + ("/" + "{file}")))))))
  {
  }

  /** The separator between repository and revision in each default host's
      blob layout, in table order: GitHub, GitLab, Codeberg, Bitbucket. */
  function DefaultBlobSeparator(i: nat): string
    requires i < 4
  {
    ["/blob/", "/-/blob/", "/src/branch/", "/src/"][i]
  }

  /** Every default blob layout is `{domain}/{owner}/{repo}<sep>{rev}/{file}`. */
  lemma DefaultBlobTexts(i: nat)
    requires i < 4
    ensures Config.DefaultHosts()[i].blobPath == Some(Placeholders.Spell(BlobLayout(Names(HostTable), DefaultBlobSeparator(i))))
  {
    var sep := DefaultBlobSeparator(i);
    SpellBlobLayout(Names(HostTable), sep);
    HostHoles();
    if i == 0 { GitHubBlobLiteral(); }
    else if i == 1 { GitLabBlobLiteral(); }
    else if i == 2 { CodebergBlobLiteral(); }
    else { BitbucketBlobLiteral(); }
  }

  /** A blob layout's link: `https://domain/owner/repo<sep>rev/file`. */
  lemma BlobLayoutLink(sep: string, domain: string, owner: string, repo: string, rev: string, file: string)
    requires '{' !in sep && '{' !in domain && '{' !in owner && '{' !in repo && '{' !in rev && '{' !in file
    ensures Link(HostTable, Placeholders.Spell(BlobLayout(Names(HostTable), sep)), [domain, owner, repo, rev, file])
         == "https://" + (domain + ("/" + (owner + ("/" + (repo + (sep + (rev + ("/" + file))))))))
  {
    var values := [domain, owner, repo, rev, file];
    var ps := BlobLayout(Names(HostTable), sep);
    BlobLayoutWellFormed(HostTable, sep);
    LinkFills(HostTable, ps, values);
    NamesDistinct(HostTable);
    FillBlobLayout(Names(HostTable), sep, values);
  }

  /** In a reordering of a list with distinct domains, each listed domain picks
      its own entry. */
  lemma PicksOwnEntry(list: seq<Resolved>, hosts: seq<Resolved>, i: nat, matches: (string, string) -> bool)
    requires i < |list| && multiset(hosts) == multiset(list)
    requires forall a, b :: 0 <= a < b < |list| ==> list[a].domain != list[b].domain
    ensures FindMatching(list[i].domain, hosts, matches) == Some(list[i])
  {
    var domain := list[i].domain;
    assert list[i] in multiset(hosts);
    var j :| 0 <= j < |hosts| && hosts[j] == list[i];
    var r := FindMatching(domain, hosts, matches);
    var k :| 0 <= k < |hosts| && r == Some(hosts[k]) && hosts[k].domain == domain;
    assert hosts[k] in multiset(list);
    var m :| 0 <= m < |list| && list[m] == hosts[k];
  }

  /** In a resolved table whose domains are distinct, each listed domain picks
      its own entry. */
  lemma DomainPicksItself(table: seq<Config.Host>, i: nat, hosts: seq<Resolved>, globOk: string -> bool,
                          matches: (string, string) -> bool)
    requires i < |table|
    requires forall a, b :: 0 <= a < b < |table| ==> table[a].domain != table[b].domain
    ensures Resolve(table, globOk) == Ok(hosts) ==>
              FindMatching(table[i].domain, hosts, matches) == Some(ResolveHost(table[i], globOk).value)
  {
    if Resolve(table, globOk) == Ok(hosts) {
      var list := ResolveAll(table, globOk).value;
      assert forall k :: 0 <= k < |table| ==> list[k].domain == table[k].domain;
      PicksOwnEntry(list, hosts, i, matches);
    }
  }

  /** A URL on a listed domain of a resolved table with distinct domains gets
      that entry's blob layout, filled in. */
  lemma ChosenBlobLink(d: Dialect, table: seq<Config.Host>, i: nat, url: GitUrl, path: string, rev: string,
                       hosts: seq<Resolved>, globOk: string -> bool, matches: (string, string) -> bool)
    requires i < |table|
    requires forall a, b :: 0 <= a < b < |table| ==> table[a].domain != table[b].domain
    requires url.host == Some(table[i].domain) && url.ownerRepo.Some?
    ensures Resolve(table, globOk) == Ok(hosts) ==>
              BuildBlob(d, url, path, rev, hosts, matches)
              == Ok(Link(d, table[i].blobPath.value, [url.host.value, url.ownerRepo.value.0, url.ownerRepo.value.1, rev, path]))
  {
    DomainPicksItself(table, i, hosts, globOk, matches);
  }

  /** The default domains hold no `{`. */
  lemma DefaultDomainsPlain(i: nat, domain: string)
    requires i < 4 && domain == Config.DefaultHosts()[i].domain
    ensures '{' !in domain
  {
  }

  /** A table entry whose blob layout is `{domain}/{owner}/{repo}<sep>{rev}/{file}`
      gives, for a URL on its domain, `https://domain/owner/repo<sep>rev/path`. */
  lemma TableBlobLink(table: seq<Config.Host>, i: nat, sep: string, url: GitUrl, path: string, rev: string,
                      hosts: seq<Resolved>, globOk: string -> bool, matches: (string, string) -> bool)
    requires i < |table|
    requires forall a, b :: 0 <= a < b < |table| ==> table[a].domain != table[b].domain
    requires table[i].blobPath == Some(Placeholders.Spell(BlobLayout(Names(HostTable), sep))) && '{' !in sep
    requires url.host == Some(table[i].domain) && url.ownerRepo.Some?
    requires '{' !in table[i].domain && '{' !in url.ownerRepo.value.0 && '{' !in url.ownerRepo.value.1
    requires '{' !in rev && '{' !in path
    ensures Resolve(table, globOk) == Ok(hosts) ==>
              BuildBlob(HostTable, url, path, rev, hosts, matches)
              == Ok("https://" + (url.host.value + ("/" + (url.ownerRepo.value.0 + ("/" + (url.ownerRepo.value.1
                   + (sep + (rev + ("/" + path)))))))))
  {
    ChosenBlobLink(HostTable, table, i, url, path, rev, hosts, globOk, matches);
    BlobLayoutLink(sep, url.host.value, url.ownerRepo.value.0, url.ownerRepo.value.1, rev, path);
  }

  /** The default separators hold no `{`. */
  lemma DefaultSeparatorsPlain(i: nat)
    requires i < 4
    ensures '{' !in DefaultBlobSeparator(i)
  {
  }

  /** With the default table, a URL on a default host gets that host's blob
      link, `https://domain/owner/repo<sep>rev/path`. */
  lemma DefaultTableBlobLink(i: nat, url: GitUrl, path: string, rev: string, hosts: seq<Resolved>,
                             globOk: string -> bool, matches: (string, string) -> bool)
    requires i < 4
    requires url.host == Some(Config.DefaultHosts()[i].domain) && url.ownerRepo.Some?
    requires '{' !in url.ownerRepo.value.0 && '{' !in url.ownerRepo.value.1 && '{' !in rev && '{' !in path
    ensures Resolve(Config.DefaultHosts(), globOk) == Ok(hosts) ==>
              BuildBlob(HostTable, url, path, rev, hosts, matches)
              == Ok("https://" + (url.host.value + ("/" + (url.ownerRepo.value.0 + ("/" + (url.ownerRepo.value.1
                   + (DefaultBlobSeparator(i) + (rev + ("/" + path)))))))))
  {
    Config.DefaultDomainsDistinct();
    DefaultDomainsPlain(i, url.host.value);
    DefaultBlobTexts(i);
    DefaultSeparatorsPlain(i);
    TableBlobLink(Config.DefaultHosts(), i, DefaultBlobSeparator(i), url, path, rev, hosts, globOk, matches);
  }
}

=== FILE: indexmap.dfy ===
/** Insertion-ordered maps (the `indexmap` crate's `IndexMap`), held as their entry
    sequence. A well-formed map never holds a key twice; `insert` on a present key
    replaces the value in place, `swap_remove` moves the last entry into the hole. */
module IndexMaps {
  import opened Wrappers
  import Collisions

  type Entries<K, V> = seq<(K, V)>

  /** The keys, in map order. */
  function Keys<K, V>(m: Entries<K, V>): (ks: seq<K>)
    ensures |ks| == |m|
    ensures forall i :: 0 <= i < |m| ==> ks[i] == m[i].0
  {
    seq(|m|, i requires 0 <= i < |m| => m[i].0)
  }

  /** No key occurs twice. */
  predicate Valid<K(==), V>(m: Entries<K, V>) {
    Collisions.Injective(Keys(m))
  }

  /** Where `k` sits in the map. */
  function IndexOf<K(==), V>(m: Entries<K, V>, k: K): (r: Option<nat>)
    ensures r.None? <==> k !in Keys(m)
    ensures r.Some? ==> r.value < |m| && m[r.value].0 == k
    ensures r.Some? ==> forall i :: 0 <= i < r.value ==> m[i].0 != k
  {
    if |m| == 0 then None
    else if m[0].0 == k then Some(0)
    else
      var r := IndexOf(m[1..], k);
      assert Keys(m) == [m[0].0] + Keys(m[1..]);
      if r.Some? then Some(r.value + 1) else None
  }

  /** `IndexMap::get`. */
  function Get<K(==), V>(m: Entries<K, V>, k: K): (r: Option<V>)
    ensures r.None? <==> k !in Keys(m)
    ensures r.Some? ==> (k, r.value) in m
  {
    match IndexOf(m, k)
    case None => None
    case Some(i) => Some(m[i].1)
  }

  /** In a well-formed map, the entry at `i` is what `get` finds under its key. */
  lemma GetAt<K, V>(m: Entries<K, V>, i: nat)
    requires Valid(m) && i < |m|
    ensures Get(m, m[i].0) == Some(m[i].1)
  {
    var j := IndexOf(m, m[i].0).value;
    assert Keys(m)[j] == Keys(m)[i];
  }

  /** `IndexMap::insert`: the new map and the value `k` held before. A present key
      keeps its position and gets the new value; a new key goes to the end. */
  function Insert<K(==), V>(m: Entries<K, V>, k: K, v: V): (r: (Entries<K, V>, Option<V>))
    ensures r.1 == Get(m, k)
    ensures k in Keys(m) ==> Keys(r.0) == Keys(m)
    ensures k !in Keys(m) ==> Keys(r.0) == Keys(m) + [k]
    ensures Valid(m) ==> Valid(r.0)
    ensures forall e :: e in r.0 ==> e in m || e == (k, v)
  {
    match IndexOf(m, k)
    case None =>
      assert Keys(m + [(k, v)]) == Keys(m) + [k];
      (m + [(k, v)], None)
    case Some(i) =>
      assert Keys(m[i := (k, v)]) == Keys(m);
      (m[i := (k, v)], Some(m[i].1))
  }

  /** After `insert(k, v)`, `k` maps to `v` and every other key to what it mapped to. */
  lemma InsertGet<K, V>(m: Entries<K, V>, k: K, v: V, j: K)
    requires Valid(m)
    ensures Get(Insert(m, k, v).0, k) == Some(v)
    ensures j != k ==> Get(Insert(m, k, v).0, j) == Get(m, j)
  {
    var m' := Insert(m, k, v).0;
    var i :| 0 <= i < |m'| && m'[i] == (k, v) by {
      if k in Keys(m) {
        assert m'[IndexOf(m, k).value] == (k, v);
      } else {
        assert m'[|m|] == (k, v);
      }
    }
    GetAt(m', i);
    if j != k {
      if j in Keys(m) {
        var p := IndexOf(m, j).value;
        GetAt(m, p);
        assert m'[p] == m[p];
        GetAt(m', p);
      } else {
        assert j !in Keys(m');
      }
    }
  }

  /** `IndexMap::contains_key`. */
  predicate ContainsKey<K(==), V>(m: Entries<K, V>, k: K) {
    k in Keys(m)
  }

  /** `IndexMap::swap_remove`: the entry under `k` is replaced by the last entry, which
      is popped; the result is the new map and the removed value. */
  function SwapRemove<K(==), V>(m: Entries<K, V>, k: K): (r: (Entries<K, V>, Option<V>))
    ensures r.1 == Get(m, k)
    ensures r.1.None? ==> r.0 == m
    ensures r.1.Some? ==> |r.0| == |m| - 1
    ensures forall e :: e in r.0 ==> e in m
  {
    match IndexOf(m, k)
    case None => (m, None)
    case Some(i) =>
      var last := |m| - 1;
      (seq(last, p requires 0 <= p < last => if p == i then m[last] else m[p]), Some(m[i].1))
  }

  /** After `swap_remove(k)` on a well-formed map, `k` is gone, the map is still
      well-formed, and every other key keeps its value. */
  lemma SwapRemoveGet<K, V>(m: Entries<K, V>, k: K, j: K)
    requires Valid(m)
    ensures Valid(SwapRemove(m, k).0)
    ensures Get(SwapRemove(m, k).0, k).None?
    ensures j != k ==> Get(SwapRemove(m, k).0, j) == Get(m, j)
  {
    var m' := SwapRemove(m, k).0;
    if k in Keys(m) {
      var i := IndexOf(m, k).value;
      assert Valid(m') by {
        forall p, q | 0 <= p < q < |m'| ensures Keys(m')[p] != Keys(m')[q] {
          SwapRemoveFrom(m, k, p);
          SwapRemoveFrom(m, k, q);
        }
      }
      assert k !in Keys(m') by {
        forall p | 0 <= p < |m'| ensures Keys(m')[p] != k {
          SwapRemoveFrom(m, k, p);
          GetAt(m, i);
        }
      }
      if j != k {
        SwapRemoveOther(m, k, j);
      }
    }
  }

  /** Each entry left by `swap_remove(k)` is an entry of `m` other than `k`'s: the
      one at the same place, or the former last entry in `k`'s place. */
  lemma SwapRemoveFrom<K, V>(m: Entries<K, V>, k: K, p: nat)
    requires k in Keys(m) && p < |SwapRemove(m, k).0|
    ensures var i := IndexOf(m, k).value;
            var src := if p == i then |m| - 1 else p;
            src != i && src < |m| && SwapRemove(m, k).0[p] == m[src]
  {
  }

  /** A key other than the removed one keeps its value. */
  lemma SwapRemoveOther<K, V>(m: Entries<K, V>, k: K, j: K)
    requires Valid(m) && k in Keys(m) && j != k
    ensures Get(SwapRemove(m, k).0, j) == Get(m, j)
  {
    var m' := SwapRemove(m, k).0;
    var i := IndexOf(m, k).value;
    var last := |m| - 1;
    if j in Keys(m) {
      var p := IndexOf(m, j).value;
      GetAt(m, p);
      var p' := if p == last then i else p;
      assert p' < |m'| && m'[p'] == m[p];
      assert Valid(m') by {
        forall a, b | 0 <= a < b < |m'| ensures Keys(m')[a] != Keys(m')[b] {
          SwapRemoveFrom(m, k, a);
          SwapRemoveFrom(m, k, b);
        }
      }
      GetAt(m', p');
    } else {
      assert j !in Keys(m') by {
        forall a | 0 <= a < |m'| ensures Keys(m')[a] != j {
          SwapRemoveFrom(m, k, a);
        }
      }
    }
  }

  /** `collect()` into an `IndexMap`: repeated `insert` from empty, so a key keeps the
      position of its first occurrence and the value of its last. */
  function Collect<K(==), V>(pairs: seq<(K, V)>): (m: Entries<K, V>)
    ensures Valid(m)
    ensures Keys(m) == Collisions.Distinct(Keys(pairs))
    ensures forall e :: e in m ==> e in pairs
  {
    if |pairs| == 0 then []
    else
      var n := |pairs| - 1;
      assert Keys(pairs) == Keys(pairs[..n]) + [pairs[n].0];
      Insert(Collect(pairs[..n]), pairs[n].0, pairs[n].1).0
  }

  /** The value `collect()` keeps under `k`: that of the last pair with key `k`. */
  function LastValue<K(==), V>(pairs: seq<(K, V)>, k: K): (r: Option<V>)
    ensures r.None? <==> k !in Keys(pairs)
    ensures r.Some? ==> exists i :: 0 <= i < |pairs| && pairs[i] == (k, r.value)
                                    && forall j :: i < j < |pairs| ==> pairs[j].0 != k
  {
    if |pairs| == 0 then None
    else
      var n := |pairs| - 1;
      assert Keys(pairs) == Keys(pairs[..n]) + [pairs[n].0];
      if pairs[n].0 == k then Some(pairs[n].1) else LastValue(pairs[..n], k)
  }

  /** Scanning from the back: the last pair decides when it has key `k`. */
  lemma LastValueSnoc<K, V>(init: seq<(K, V)>, p: (K, V), k: K)
    ensures LastValue(init + [p], k) == if p.0 == k then Some(p.1) else LastValue(init, k)
  {
    assert (init + [p])[..|init|] == init;
  }

  /** The pair at `i` is the last with key `k`, so its value is the one kept. */
  lemma {:induction false} LastValueAt<K, V>(pairs: seq<(K, V)>, k: K, i: nat)
    requires i < |pairs| && pairs[i].0 == k
    requires forall j :: i < j < |pairs| ==> pairs[j].0 != k
    ensures LastValue(pairs, k) == Some(pairs[i].1)
  {
    var n := |pairs| - 1;
    if i < n {
      LastValueAt(pairs[..n], k, i);
    }
  }

  /** Scanning from the front: a later pair with key `k` overrides the first one. */
  lemma {:induction false} LastValueCons<K, V>(p: (K, V), rest: seq<(K, V)>, k: K)
    ensures LastValue([p] + rest, k)
            == if k in Keys(rest) then LastValue(rest, k) else if p.0 == k then Some(p.1) else None
    decreases |rest|
  {
    var all := [p] + rest;
    if |rest| == 0 {
      assert all[..0] == [];
    } else {
      var m := |rest| - 1;
      assert all[..|all| - 1] == [p] + rest[..m];
      assert all[|all| - 1] == rest[m];
      assert Keys(rest) == Keys(rest[..m]) + [rest[m].0];
      LastValueCons(p, rest[..m], k);
    }
  }

  /** Later duplicates win. */
  lemma {:induction false} CollectGet<K, V>(pairs: seq<(K, V)>, k: K)
    ensures Get(Collect(pairs), k) == LastValue(pairs, k)
  {
    if |pairs| > 0 {
      var n := |pairs| - 1;
      CollectGet(pairs[..n], k);
      InsertGet(Collect(pairs[..n]), pairs[n].0, pairs[n].1, k);
    }
  }

  /** Collecting the entries of a well-formed map gives the map back. */
  lemma {:induction false} CollectValid<K, V>(m: Entries<K, V>)
    requires Valid(m)
    ensures Collect(m) == m
  {
    if |m| > 0 {
      var n := |m| - 1;
      var init := m[..n];
      ValidPrefix(m, n);
      CollectValid(init);
      InsertNew(init, m[n].0, m[n].1);
      SplitLast(m);
    }
  }

  lemma SplitLast<T>(s: seq<T>)
    requires |s| > 0
    ensures s == s[..|s| - 1] + [s[|s| - 1]]
  {
  }

  /** A prefix of a well-formed map is well-formed, and lacks the keys after it. */
  lemma ValidPrefix<K, V>(m: Entries<K, V>, n: nat)
    requires Valid(m) && n < |m|
    ensures Valid(m[..n]) && m[n].0 !in Keys(m[..n])
  {
    assert forall p :: 0 <= p < n ==> Keys(m[..n])[p] == Keys(m)[p];
    forall p | 0 <= p < n ensures Keys(m[..n])[p] != m[n].0 {
      assert Keys(m)[p] != Keys(m)[n];
    }
  }

  /** Inserting a new key appends its entry. */
  lemma InsertNew<K, V>(m: Entries<K, V>, k: K, v: V)
    requires k !in Keys(m)
    ensures Insert(m, k, v).0 == m + [(k, v)]
  {
  }

  /** The map as a Dafny `map`: the same keys, each with the value `get` finds. */
  function AsMap<K(==, !new), V>(m: Entries<K, V>): (r: map<K, V>)
    ensures forall k :: k in r <==> k in Keys(m)
    ensures forall k :: k in r ==> r[k] == Get(m, k).value
  {
    map k | k in Keys(m) :: Get(m, k).value
  }
}

=== FILE: legacyscheme.dfy ===
/** The earliest resolver: a fixed enumeration of slots, each optionally carrying a
    `fallback` property, and a resolver that shares one cache and one visiting set
    across all slots. A slot whose resolution fails is dropped from the scheme; an
    unassigned slot without a fallback aborts the whole run (a panic). */
module LegacyScheme {
  import opened Wrappers
  import Color
  import IndexMaps

  datatype Slot =
    | Bg | Fg
    | Color0 | Color1 | Color2 | Color3 | Color4 | Color5 | Color6 | Color7
    | Color8 | Color9 | Color10 | Color11 | Color12 | Color13 | Color14 | Color15
    | Select0 | Select1 | AltSelect | AltText | Comment | Link
    | Accent0 | Accent1 | AccentText | Inactive | InactiveText

  /** `Slot::iter()`: declaration order. */
  const ALL: seq<Slot> := [
    Bg, Fg,
    Color0, Color1, Color2, Color3, Color4, Color5, Color6, Color7,
    Color8, Color9, Color10, Color11, Color12, Color13, Color14, Color15,
    Select0, Select1, AltSelect, AltText, Comment, Link,
    Accent0, Accent1, AccentText, Inactive, InactiveText
  ]

  /** The enumeration lists every slot. */
  lemma InAll(s: Slot)
    ensures s in ALL
  {
    match s
    case Bg => case Fg =>
    case Color0 => case Color1 => case Color2 => case Color3 =>
    case Color4 => case Color5 => case Color6 => case Color7 =>
    case Color8 => case Color9 => case Color10 => case Color11 =>
    case Color12 => case Color13 => case Color14 => case Color15 =>
    case Select0 => case Select1 => case AltSelect => case AltText =>
    case Comment => case Link => case Accent0 => case Accent1 =>
    case AccentText => case Inactive => case InactiveText =>
  }

  /** The snake-case name a slot displays and parses as. */
  function Name(s: Slot): string {
    match s
    case Bg => "bg" case Fg => "fg"
    case Color0 => "color0" case Color1 => "color1" case Color2 => "color2" case Color3 => "color3"
    case Color4 => "color4" case Color5 => "color5" case Color6 => "color6" case Color7 => "color7"
    case Color8 => "color8" case Color9 => "color9" case Color10 => "color10" case Color11 => "color11"
    case Color12 => "color12" case Color13 => "color13" case Color14 => "color14" case Color15 => "color15"
    case Select0 => "select0" case Select1 => "select1" case AltSelect => "alt_select"
    case AltText => "alt_text" case Comment => "comment" case Link => "link"
    case Accent0 => "accent0" case Accent1 => "accent1" case AccentText => "accent_text"
    case Inactive => "inactive" case InactiveText => "inactive_text"
  }

  /** The first slot of `slots` whose name is `name`. */
  function Find(slots: seq<Slot>, name: string): (r: Option<Slot>)
    ensures r.Some? ==> r.value in slots && Name(r.value) == name
    ensures r.None? ==> forall s :: s in slots ==> Name(s) != name
  {
    if |slots| == 0 then None
    else if Name(slots[0]) == name then Some(slots[0])
    else Find(slots[1..], name)
  }

  /** `Slot::from_str`: the slot whose snake-case name is `name`. */
  function FromStr(name: string): (r: Option<Slot>)
    ensures r.Some? ==> Name(r.value) == name
    ensures r.None? ==> forall s :: Name(s) != name
  {
    var r := Find(ALL, name);
    assert r.None? ==> forall s :: Name(s) != name by {
      forall s ensures r.None? ==> Name(s) != name {
        InAll(s);
      }
    }
    r
  }

  /** Every slot parses back from its name. */
  lemma NameRoundTrip(s: Slot)
    ensures FromStr(Name(s)) == Some(s)
  {
    var r := FromStr(Name(s));
    assert r.Some?;
    NameInjective(r.value, s);
  }

  /** Distinct slots have distinct names. */
  lemma NameInjective(a: Slot, b: Slot)
    requires Name(a) == Name(b)
    ensures a == b
  {
    match a
    case Bg => NamesBasic(a, b); case Fg => NamesBasic(a, b);
    case Color0 => NamesBasic(a, b); case Color1 => NamesBasic(a, b);
    case Color2 => NamesBasic(a, b); case Color3 => NamesBasic(a, b);
    case Color4 => NamesBasic(a, b); case Color5 => NamesBasic(a, b);
    case Color6 => NamesBasic(a, b); case Color7 => NamesBasic(a, b);
    case Color8 => NamesBright(a, b); case Color9 => NamesBright(a, b);
    case Color10 => NamesBright(a, b); case Color11 => NamesBright(a, b);
    case Color12 => NamesBright(a, b); case Color13 => NamesBright(a, b);
    case Color14 => NamesBright(a, b); case Color15 => NamesBright(a, b);
    case Select0 => NamesUi(a, b); case Select1 => NamesUi(a, b);
    case AltSelect => NamesUi(a, b); case AltText => NamesUi(a, b);
    case Comment => NamesUi(a, b); case Link => NamesUi(a, b);
    case Accent0 => NamesUi(a, b); case Accent1 => NamesUi(a, b);
    case AccentText => NamesUi(a, b); case Inactive => NamesUi(a, b);
    case InactiveText => NamesUi(a, b);
  }

  /** No other slot shares a name with the background, foreground or the first eight colours. */
  lemma NamesBasic(a: Slot, b: Slot)
    requires a.Bg? || a.Fg? || a.Color0? || a.Color1? || a.Color2? || a.Color3?
          || a.Color4? || a.Color5? || a.Color6? || a.Color7?
    requires Name(a) == Name(b)
    ensures a == b
  {
  }

  /** No other slot shares a name with one of the eight bright colours. */
  lemma NamesBright(a: Slot, b: Slot)
    requires a.Color8? || a.Color9? || a.Color10? || a.Color11?
          || a.Color12? || a.Color13? || a.Color14? || a.Color15?
    requires Name(a) == Name(b)
    ensures a == b
  {
    match a
    case Color10 => assert Name(a)[6] == '0';
    case Color11 => assert Name(a)[6] == '1';
    case Color12 => assert Name(a)[6] == '2';
    case Color13 => assert Name(a)[6] == '3';
    case Color14 => assert Name(a)[6] == '4';
    case Color15 => assert Name(a)[6] == '5';
    case _ =>
  }

  /** No other slot shares a name with one of the interface slots. */
  lemma NamesUi(a: Slot, b: Slot)
    requires !(a.Bg? || a.Fg? || a.Color0? || a.Color1? || a.Color2? || a.Color3?
            || a.Color4? || a.Color5? || a.Color6? || a.Color7?)
    requires !(a.Color8? || a.Color9? || a.Color10? || a.Color11?
            || a.Color12? || a.Color13? || a.Color14? || a.Color15?)
    requires Name(a) == Name(b)
    ensures a == b
  {
  }

  /** The `fallback` property, as the text the enumeration declares. */
  function FallbackProp(s: Slot): Option<string> {
    match s
    case Color0 => Some("bg")
    case Color7 => Some("fg")
    case Color8 => Some("color0")
    case Color9 => Some("color1")
    case Color10 => Some("color2")
    case Color11 => Some("color3")
    case Color12 => Some("color4")
    case Color13 => Some("color5")
    case Color14 => Some("color6")
    case Color15 => Some("color7")
    case AltSelect => Some("color15")
    case AltText => Some("color0")
    case Comment => Some("color7")
    case Link => Some("color14")
    case AccentText => Some("alt_text")
    case Inactive => Some("comment")
    case InactiveText => Some("alt_text")
    case _ => None
  }

  /** How many fallback steps lead from `s` to a slot without one. */
  function Depth(s: Slot): nat {
    match s
    case Color0 | Color7 | Color9 | Color10 | Color11 | Color12 | Color13 | Color14 => 1
    case Color8 | Color15 | AltText | Comment | Link => 2
    case AltSelect | AccentText | Inactive | InactiveText => 3
    case _ => 0
  }

  /** The slot a fallback leads to. Following it strictly decreases the depth. */
  function Fallback(s: Slot): (r: Option<Slot>)
    ensures r.Some? ==> Depth(r.value) < Depth(s)
    ensures r.None? <==> Depth(s) == 0
  {
    match s
    case Color0 => Some(Bg)
    case Color7 => Some(Fg)
    case Color8 => Some(Color0)
    case Color9 => Some(Color1)
    case Color10 => Some(Color2)
    case Color11 => Some(Color3)
    case Color12 => Some(Color4)
    case Color13 => Some(Color5)
    case Color14 => Some(Color6)
    case Color15 => Some(Color7)
    case AltSelect => Some(Color15)
    case AltText => Some(Color0)
    case Comment => Some(Color7)
    case Link => Some(Color14)
    case AccentText => Some(AltText)
    case Inactive => Some(Comment)
    case InactiveText => Some(AltText)
    case _ => None
  }

  /** The declared property text is the name of the fallback slot. */
  lemma FallbackPropIsName(s: Slot)
    ensures FallbackProp(s).Some? <==> Fallback(s).Some?
    ensures FallbackProp(s).Some? ==> FallbackProp(s).value == Name(Fallback(s).value)
  {
  }

  /** Table lemma: every declared fallback parses as a slot, so the
      `from_str(..).unwrap()` on it never panics. */
  lemma FallbackParses(s: Slot)
    ensures FallbackProp(s).Some? ==> FromStr(FallbackProp(s).value) == Fallback(s)
  {
    FallbackPropIsName(s);
    if Fallback(s).Some? {
      NameRoundTrip(Fallback(s).value);
    }
  }

  /** Following fallbacks `k > 0` times never returns to the starting slot. */
  function FallbackIterate(s: Slot, k: nat): Option<Slot>
    decreases k
  {
    if k == 0 then Some(s)
    else
      match Fallback(s)
      case None => None
      case Some(t) => FallbackIterate(t, k - 1)
  }

  lemma {:induction false} FallbackAcyclic(s: Slot, k: nat)
    requires k > 0
    ensures FallbackIterate(s, k) != Some(s)
  {
    DepthAlongFallbacks(s, k);
  }

  lemma {:induction false} DepthAlongFallbacks(s: Slot, k: nat)
    requires k > 0
    ensures FallbackIterate(s, k).Some? ==> Depth(FallbackIterate(s, k).value) < Depth(s)
    decreases k
  {
    match Fallback(s)
    case None =>
    case Some(t) =>
      if k > 1 {
        DepthAlongFallbacks(t, k - 1);
      }
  }

  // ---------------------------------------------------------------------------
  // Slot values

  /** What a scheme may assign: another slot, a palette colour, a literal colour,
      or `none`. */
  datatype SlotValue = Other(slot: Slot) | PaletteColor(name: string) | Rgb(color: Color.Rgb) | NoneValue

  /** The custom deserialiser: `"none"`, then literal colour text, then `$name`,
      then a slot name, in that order; anything else is an error. */
  function DeserializeValue(parseHex: string -> Option<Color.Rgb>, val: string): (r: Result<SlotValue, string>)
    ensures val == "none" ==> r == Ok(NoneValue)
    ensures val != "none" && parseHex(val).Some? ==> r == Ok(Rgb(parseHex(val).value))
    ensures val != "none" && parseHex(val).None? && |val| > 0 && val[0] == '$' ==> r == Ok(PaletteColor(val[1..]))
    ensures r.Ok? && r.value.Other? ==> Name(r.value.slot) == val && val != "none" && parseHex(val).None?
    ensures r.Err? <==> val != "none" && parseHex(val).None? && !(|val| > 0 && val[0] == '$') && FromStr(val).None?
    ensures r.Err? ==> r.error == "bad slot value: " + val
  {
    if val == "none" then Ok(NoneValue)
    else if parseHex(val).Some? then Ok(Rgb(parseHex(val).value))
    else if |val| > 0 && val[0] == '$' then Ok(PaletteColor(val[1..]))
    else
      match FromStr(val)
      case Some(s) => Ok(Other(s))
      case None => Err("bad slot value: " + val)
  }

  // ---------------------------------------------------------------------------
  // Resolution with a shared cache and visiting set

  datatype ResolveError = UndefinedSlot(name: string) | UndefinedPaletteColor(name: string) | Circular | MissingRequired(slot: string)

  datatype Raw = Raw(palette: IndexMaps.Entries<string, Color.Rgb>, slots: IndexMaps.Entries<Slot, SlotValue>)

  /** The resolver's mutable state: resolved slots and the slots being resolved. */
  datatype State = State(cache: map<Slot, string>, visiting: set<Slot>)

  /** A resolution step either returns (a colour text or an error, and the new
      state) or panics on an unassigned slot without a fallback. */
  datatype Step = Done(result: Result<string, ResolveError>, state: State) | Panicked(slot: Slot)

  function Elements(s: seq<Slot>): set<Slot> {
    set x | x in s
  }

  /** The slots not yet being resolved: the termination measure. */
  function Unvisited(st: State): set<Slot> {
    Elements(ALL) - st.visiting
  }

  /** The cache only grows, and existing entries keep their values. */
  predicate Extends(a: State, b: State) {
    forall t :: t in a.cache ==> t in b.cache && b.cache[t] == a.cache[t]
  }

  /** `resolve_slot`: a cached slot is returned at once without touching `visiting`;
      re-entering a slot being resolved is `Circular`; otherwise the slot is marked,
      its assigned value (or its fallback, as a slot reference) is turned into
      colour text, and on success the mark is removed and the result cached. On an
      error the mark stays. */
  function ResolveSlot(raw: Raw, s: Slot, st: State): (r: Step)
    ensures s in st.cache ==> r == Done(Ok(st.cache[s]), st)
    ensures s !in st.cache && s in st.visiting ==> r == Done(Err(Circular), st)
    ensures r.Done? ==> Extends(st, r.state)
    ensures r.Done? ==> forall t :: t in r.state.cache && t !in st.cache ==> t !in st.visiting
    ensures r.Done? && r.result.Ok? ==>
              && r.state.visiting == st.visiting
              && s in r.state.cache && r.state.cache[s] == r.result.value
    ensures r.Done? && r.result.Err? ==>
              && st.visiting <= r.state.visiting
              && s in r.state.visiting
    decreases Unvisited(st), 0
  {
    if s in st.cache then Done(Ok(st.cache[s]), st)
    else if s in st.visiting then Done(Err(Circular), st)
    else
      InAll(s);
      var marked := State(st.cache, st.visiting + {s});
      match IndexMaps.Get(raw.slots, s)
      case Some(v) => Settle(raw, s, v, marked)
      case None =>
        match FallbackProp(s)
        case None => Panicked(s)
        case Some(p) =>
          match FromStr(p)
          case None => Panicked(s)
          case Some(f) => Settle(raw, s, Other(f), marked)
  }

  /** `color_from` followed by the bookkeeping of a successful `resolve_slot`. */
  function Settle(raw: Raw, s: Slot, val: SlotValue, st: State): (r: Step)
    requires s in st.visiting && s !in st.cache
    ensures r.Done? ==> Extends(st, r.state)
    ensures r.Done? ==> forall t :: t in r.state.cache && t !in st.cache ==> t !in st.visiting - {s}
    ensures r.Done? && r.result.Ok? ==>
              && r.state.visiting == st.visiting - {s}
              && s in r.state.cache && r.state.cache[s] == r.result.value
    ensures r.Done? && r.result.Err? ==> st.visiting <= r.state.visiting
    decreases Unvisited(st), 2
  {
    match ColorFrom(raw, val, s, st)
    case Panicked(p) => Panicked(p)
    case Done(Err(e), st') => Done(Err(e), st')
    case Done(Ok(out), st') =>
      Done(Ok(out), State(st'.cache[s := out], st'.visiting - {s}))
  }

  /** `color_from`: `none` is a missing required slot, a literal colour and a
      palette colour become lower-case text, and a slot reference recurses. */
  function ColorFrom(raw: Raw, val: SlotValue, s: Slot, st: State): (r: Step)
    requires s in st.visiting && s !in st.cache
    ensures r.Done? ==> Extends(st, r.state)
    ensures r.Done? ==> forall t :: t in r.state.cache && t !in st.cache ==> t !in st.visiting
    ensures r.Done? && r.result.Ok? ==> r.state.visiting == st.visiting && s !in r.state.cache
    ensures r.Done? && r.result.Err? ==> st.visiting <= r.state.visiting
    ensures val.NoneValue? ==> r == Done(Err(MissingRequired(Name(s))), st)
    ensures val.Rgb? ==> r == Done(Ok(Color.Display(val.color)), st)
    ensures val.PaletteColor? ==>
              r == match IndexMaps.Get(raw.palette, val.name)
                   case None => Done(Err(UndefinedPaletteColor(val.name)), st)
                   case Some(c) => Done(Ok(Color.Display(c)), st)
    decreases Unvisited(st), 1
  {
    match val
    case NoneValue => Done(Err(MissingRequired(Name(s))), st)
    case Rgb(h) => Done(Ok(Color.Display(h)), st)
    case Other(t) => ResolveSlot(raw, t, st)
    case PaletteColor(p) =>
      match IndexMaps.Get(raw.palette, p)
      case None => Done(Err(UndefinedPaletteColor(p)), st)
      case Some(c) => Done(Ok(Color.Display(c)), st)
  }

  /** The outcome of `resolve`: the slots that resolved, with their colours, or a
      panic. */
  datatype Run = Ran(entries: seq<(Slot, Color.Rgb)>, state: State) | RunPanicked(slot: Slot)

  /** The `filter_map` over the slots: each is resolved with the shared state; a slot
      whose resolution fails, or whose text does not parse back as a colour, is
      left out. Every colour kept is the parse of the text cached for its slot, and
      the cache only grows. */
  function ResolveEach(raw: Raw, parseHex: string -> Option<Color.Rgb>, order: seq<Slot>, st: State): (r: Run)
    ensures r.Ran? ==> |r.entries| <= |order|
    ensures r.Ran? ==> forall i :: 0 <= i < |r.entries| ==> r.entries[i].0 in order
    ensures r.Ran? ==> Extends(st, r.state)
    ensures r.Ran? ==> forall i :: 0 <= i < |r.entries| ==>
              && r.entries[i].0 in r.state.cache
              && parseHex(r.state.cache[r.entries[i].0]) == Some(r.entries[i].1)
    decreases |order|
  {
    if |order| == 0 then Ran([], st)
    else
      match ResolveSlot(raw, order[0], st)
      case Panicked(p) => RunPanicked(p)
      case Done(res, st') =>
        var head := if res.Ok? && parseHex(res.value).Some? then [(order[0], parseHex(res.value).value)] else [];
        match ResolveEach(raw, parseHex, order[1..], st')
        case RunPanicked(p) => RunPanicked(p)
        case Ran(rest, st'') => Ran(head + rest, st'')
  }

  /** The entry a resolved slot contributes: one when its text parses as a colour,
      none otherwise. */
  function Kept(parseHex: string -> Option<Color.Rgb>, s: Slot, res: Result<string, ResolveError>)
    : (r: seq<(Slot, Color.Rgb)>)
    ensures r != [] <==> res.Ok? && parseHex(res.value).Some?
    ensures r != [] ==> r == [(s, parseHex(res.value).value)]
  {
    if res.Ok? && parseHex(res.value).Some? then [(s, parseHex(res.value).value)] else []
  }

  /** The run of the remaining slots after one slot's step, prefixed by that
      slot's entry. */
  function Continue(head: seq<(Slot, Color.Rgb)>, rest: Run): Run {
    match rest
    case RunPanicked(p) => RunPanicked(p)
    case Ran(e, s) => Ran(head + e, s)
  }

  /** One step of the `filter_map`: the first slot's resolution, then the rest. */
  lemma ResolveEachCons(raw: Raw, parseHex: string -> Option<Color.Rgb>, order: seq<Slot>, st: State,
                        res: Result<string, ResolveError>, st': State)
    requires |order| > 0 && ResolveSlot(raw, order[0], st) == Done(res, st')
    ensures ResolveEach(raw, parseHex, order, st)
            == Continue(Kept(parseHex, order[0], res), ResolveEach(raw, parseHex, order[1..], st'))
  {
  }

  /** A panic in the first slot's step ends the whole run. */
  lemma ResolveEachPanics(raw: Raw, parseHex: string -> Option<Color.Rgb>, order: seq<Slot>, st: State)
    requires |order| > 0 && ResolveSlot(raw, order[0], st).Panicked?
    ensures ResolveEach(raw, parseHex, order, st).RunPanicked?
  {
  }

  /** Two entry lists prefixed one after the other to a run. */
  lemma ContinueTwice(e1: seq<(Slot, Color.Rgb)>, e2: seq<(Slot, Color.Rgb)>, run: Run)
    ensures Continue(e1, Continue(e2, run)).Ran? ==>
              && run.Ran?
              && Continue(e1, Continue(e2, run)).state == run.state
              && Continue(e1, Continue(e2, run)).entries == e1 + e2 + run.entries
  {
  }

  /** Resolving `a` and then `b` from where `a` left off gives the run of `a + b`. */
  predicate RunsCompose(raw: Raw, parseHex: string -> Option<Color.Rgb>, a: seq<Slot>, b: seq<Slot>, st: State) {
    var ra := ResolveEach(raw, parseHex, a, st);
    var rab := ResolveEach(raw, parseHex, a + b, st);
    && (ra.RunPanicked? ==> rab.RunPanicked?)
    && (ra.Ran? ==> rab == Continue(ra.entries, ResolveEach(raw, parseHex, b, ra.state)))
  }

  /** Prefixing one entry list to two runs keeps the way they compose. */
  lemma ContinueCompose(head: seq<(Slot, Color.Rgb)>, r1: Run, r12: Run, r2: Run)
    requires r1.RunPanicked? ==> r12.RunPanicked?
    requires r1.Ran? ==> r12 == Continue(r1.entries, r2)
    ensures Continue(head, r1).RunPanicked? ==> Continue(head, r12).RunPanicked?
    ensures Continue(head, r1).Ran? ==>
              && Continue(head, r1).state == r1.state
              && Continue(head, r12) == Continue(Continue(head, r1).entries, r2)
  {
    if r1.Ran? && r2.Ran? {
      assert head + (r1.entries + r2.entries) == (head + r1.entries) + r2.entries;
    }
  }

  /** The inductive step of `ResolveEachAppend`, with the first slot's step named. */
  lemma AppendStep(raw: Raw, parseHex: string -> Option<Color.Rgb>, a: seq<Slot>, b: seq<Slot>, st: State,
                   res: Result<string, ResolveError>, st': State)
    requires |a| > 0 && ResolveSlot(raw, a[0], st) == Done(res, st')
    requires RunsCompose(raw, parseHex, a[1..], b, st')
    ensures RunsCompose(raw, parseHex, a, b, st)
  {
    assert (a + b)[0] == a[0];
    assert (a + b)[1..] == a[1..] + b;
    ResolveEachCons(raw, parseHex, a, st, res, st');
    ResolveEachCons(raw, parseHex, a + b, st, res, st');
    var head := Kept(parseHex, a[0], res);
    var r1 := ResolveEach(raw, parseHex, a[1..], st');
    var r12 := ResolveEach(raw, parseHex, a[1..] + b, st');
    if r1.Ran? {
      ContinueCompose(head, r1, r12, ResolveEach(raw, parseHex, b, r1.state));
    } else {
      ContinueCompose(head, r1, r12, r12);
    }
  }

  /** Resolving a list of slots part after part is resolving the whole list: the
      state left by the first part is where the second starts, and the kept
      entries concatenate. */
  lemma {:induction false} ResolveEachAppend(raw: Raw, parseHex: string -> Option<Color.Rgb>, a: seq<Slot>,
                                             b: seq<Slot>, st: State)
    ensures ResolveEach(raw, parseHex, a, st).RunPanicked? ==> ResolveEach(raw, parseHex, a + b, st).RunPanicked?
    ensures ResolveEach(raw, parseHex, a, st).Ran? ==>
              ResolveEach(raw, parseHex, a + b, st)
              == Continue(ResolveEach(raw, parseHex, a, st).entries,
                          ResolveEach(raw, parseHex, b, ResolveEach(raw, parseHex, a, st).state))
    decreases |a|
  {
    if |a| == 0 {
      assert a + b == b;
    } else {
      match ResolveSlot(raw, a[0], st)
      case Panicked(_) =>
        assert (a + b)[0] == a[0];
      case Done(res, st') =>
        ResolveEachAppend(raw, parseHex, a[1..], b, st');
        AppendStep(raw, parseHex, a, b, st, res, st');
    }
  }

  /** The slot at position `k` is kept exactly when its resolution, in the state
      the earlier slots left, returns text that parses as a colour. The kept
      entries are those of the earlier slots, then this slot's, then those of the
      later slots, so nothing else is dropped and the order is the slots' order. */
  lemma ResolveEachAt(raw: Raw, parseHex: string -> Option<Color.Rgb>, order: seq<Slot>, st: State, k: nat)
    requires k < |order|
    ensures var r := ResolveEach(raw, parseHex, order, st);
            var pre := ResolveEach(raw, parseHex, order[..k], st);
            r.Ran? ==>
              && pre.Ran?
              && var step := ResolveSlot(raw, order[k], pre.state);
              && step.Done?
              && var post := ResolveEach(raw, parseHex, order[k + 1..], step.state);
              && post.Ran?
              && r.state == post.state
              && r.entries == pre.entries + Kept(parseHex, order[k], step.result) + post.entries
  {
    var tail := order[k..];
    assert order == order[..k] + tail;
    ResolveEachAppend(raw, parseHex, order[..k], tail, st);
    var pre := ResolveEach(raw, parseHex, order[..k], st);
    if pre.Ran? {
      assert tail[0] == order[k];
      assert tail[1..] == order[k + 1..];
      var step := ResolveSlot(raw, order[k], pre.state);
      if step.Done? {
        ResolveEachCons(raw, parseHex, tail, pre.state, step.result, step.state);
        ContinueTwice(pre.entries, Kept(parseHex, order[k], step.result),
                      ResolveEach(raw, parseHex, order[k + 1..], step.state));
      } else {
        ResolveEachPanics(raw, parseHex, tail, pre.state);
      }
    }
  }

  /** A resolved scheme: its name and the colour of every kept slot. The source's
      `Scheme` also carries the raw scheme's `meta` unchanged; resolution never
      reads it, so it is not modelled here. */
  datatype Scheme = Scheme(name: string, slots: seq<(Slot, Color.Rgb)>)

  /** `resolve`: one cache and one visiting set for all slots, in declaration order.
      `None` is a panic. */
  function Resolve(raw: Raw, parseHex: string -> Option<Color.Rgb>, name: string): (r: Option<Scheme>)
    ensures r.Some? ==> r.value.name == name && |r.value.slots| <= |ALL|
  {
    match ResolveEach(raw, parseHex, ALL, State(map[], {}))
    case RunPanicked(_) => None
    case Ran(entries, _) => Some(Scheme(name, entries))
  }
}

=== FILE: manifest.dfy ===
/** The incremental ledger: a path-keyed, insertion-ordered record of every file the
    tool has written, with the hashes of the content, the template and the scheme it
    was rendered from. The ledger is stored as a JSON array of entries and rebuilt
    into a map on load. The hash function, the JSON codec and the file system are
    parameters: the model relies only on the hash being a function. */
module Ledger {
  import opened Wrappers
  import Strings
  import IndexMaps
  import Collisions
  import Strategy

  // ---------------------------------------------------------------------------
  // Paths and hashes

  const MANIFEST_PATH: string := ".basel/manifest.json"
  const MANIFEST_VERSION: int := 0

  /** `extract_filename_from`: the text after the last `/`, or the whole path. */
  function FilenameFrom(path: string): (r: string)
    ensures '/' !in r
    ensures '/' !in path ==> r == path
    ensures '/' in path ==> Strings.IsSuffix("/" + r, path)
  {
    match Strings.RSplitOnce(path, '/')
    case Some((_, file)) => file
    case None => path
  }

  /** `extract_parents_from`: the text before the last `/`, if there is one. */
  function ParentsFrom(path: string): (r: Option<string>)
    ensures r.None? <==> '/' !in path
    ensures r.Some? ==> path == r.value + "/" + FilenameFrom(path)
  {
    match Strings.RSplitOnce(path, '/')
    case Some((ancestors, _)) => Some(ancestors)
    case None => None
  }

  /** `manifest_parents`: the directory to create before saving, `.` when the
      ledger path has none. */
  function ParentsOrDot(path: string): (r: string)
    ensures '/' !in path ==> r == "."
    ensures '/' in path ==> path == r + "/" + FilenameFrom(path)
  {
    ParentsFrom(path).UnwrapOr(".")
  }

  /** The ledger file is `manifest.json` inside `.basel`. */
  lemma ManifestPathParts()
    ensures FilenameFrom(MANIFEST_PATH) == "manifest.json"
    ensures ParentsOrDot(MANIFEST_PATH) == ".basel"
  {
    assert MANIFEST_PATH == ".basel" + ['/'] + "manifest.json";
    assert '/' !in "manifest.json";
    Strings.RSplitOnceAt(".basel", "manifest.json", '/');
  }

  /** The raw digest of a content, as lower-case hex; SHA-256 itself is not
      modelled, only that it is a function. */
  type Digest = string -> string

  /** `hash`: the digest tagged with its algorithm. */
  function Hash(digest: Digest, content: string): (h: string)
    ensures Strings.IsPrefix("sha256:", h)
    ensures h[|"sha256:"|..] == digest(content)
  {
    "sha256:" + digest(content)
  }

  /** Equal hashes mean equal digests: the tag adds nothing and loses nothing. */
  lemma HashInjective(digest: Digest, a: string, b: string)
    ensures Hash(digest, a) == Hash(digest, b) <==> digest(a) == digest(b)
  {
    if Hash(digest, a) == Hash(digest, b) {
      assert Hash(digest, a)[7..] == Hash(digest, b)[7..];
    }
  }

  // ---------------------------------------------------------------------------
  // The ledger

  datatype Error =
    | Reading(file: string)
    | Parsing(file: string)
    | ReadingOutput(path: string)

  /** What reading a file gives: its text, nothing because it does not exist, or an
      error of another kind. */
  datatype ReadOutcome = Read(text: string) | NotFound | ReadFailed

  /** The state of an output file on disk, as the status check sees it. */
  datatype OnDisk = Absent | Unreadable | Readable(content: string)

  /** A ledger of entries of type `E`, each filed under its own path. */
  datatype Ledger<E> = Ledger(version: int, entries: IndexMaps.Entries<string, E>)

  /** The stored form: the version and the entries as an array, in ledger order. */
  datatype Document<E> = Document(version: int, entries: seq<E>)

  /** Every entry sits under its own path, and no path occurs twice. */
  predicate WellFormed<E>(pathOf: E -> string, l: Ledger<E>) {
    IndexMaps.Valid(l.entries)
    && forall i :: 0 <= i < |l.entries| ==> l.entries[i].0 == pathOf(l.entries[i].1)
  }

  /** `Manifest::new`: the empty ledger. */
  function New<E>(version: int): (l: Ledger<E>)
    ensures |l.entries| == 0 && l.version == version
  {
    Ledger(version, [])
  }

  /** Each entry paired with its path, in order. */
  function Keyed<E>(pathOf: E -> string, es: seq<E>): (r: seq<(string, E)>)
    ensures |r| == |es|
    ensures forall i :: 0 <= i < |es| ==> r[i] == (pathOf(es[i]), es[i])
  {
    seq(|es|, i requires 0 <= i < |es| => (pathOf(es[i]), es[i]))
  }

  /** `serialize_files`: the entries in ledger order. */
  function Serialize<E>(l: Ledger<E>): (d: Document<E>)
    ensures d.version == l.version && |d.entries| == |l.entries|
    ensures forall i :: 0 <= i < |l.entries| ==> d.entries[i] == l.entries[i].1
  {
    Document(l.version, seq(|l.entries|, i requires 0 <= i < |l.entries| => l.entries[i].1))
  }

  /** `deserialize_files`: insert every entry under its path, in order, so a path
      keeps the position of its first entry and the value of its last. */
  function Deserialize<E>(pathOf: E -> string, d: Document<E>): (l: Ledger<E>)
    ensures WellFormed(pathOf, l)
    ensures l.version == d.version
    ensures IndexMaps.Keys(l.entries) == Collisions.Distinct(IndexMaps.Keys(Keyed(pathOf, d.entries)))
    ensures Collisions.Injective(IndexMaps.Keys(Keyed(pathOf, d.entries))) ==> |l.entries| == |d.entries|
  {
    var pairs := Keyed(pathOf, d.entries);
    var m := IndexMaps.Collect(pairs);
    assert Collisions.Injective(IndexMaps.Keys(pairs)) ==>
             Collisions.Distinct(IndexMaps.Keys(pairs)) == IndexMaps.Keys(pairs) by {
      if Collisions.Injective(IndexMaps.Keys(pairs)) {
        Collisions.DistinctOfInjective(IndexMaps.Keys(pairs));
      }
    }
    assert forall i :: 0 <= i < |m| ==> m[i].0 == pathOf(m[i].1) by {
      forall i | 0 <= i < |m| ensures m[i].0 == pathOf(m[i].1) {
        assert m[i] in pairs;
      }
    }
    Ledger(d.version, m)
  }

  /** Storing a well-formed ledger and loading it back gives the same ledger. */
  lemma SerializeRoundTrip<E>(pathOf: E -> string, l: Ledger<E>)
    requires WellFormed(pathOf, l)
    ensures Deserialize(pathOf, Serialize(l)) == l
  {
    var pairs := Keyed(pathOf, Serialize(l).entries);
    assert pairs == l.entries;
    IndexMaps.CollectValid(l.entries);
  }

  /** On load, the entry kept under a path is the last one stored with that path. */
  lemma LaterDuplicatesWin<E>(pathOf: E -> string, d: Document<E>, p: string)
    ensures Get(Deserialize(pathOf, d), p).None? <==> forall i :: 0 <= i < |d.entries| ==> pathOf(d.entries[i]) != p
    ensures Get(Deserialize(pathOf, d), p).Some? ==>
              exists i :: 0 <= i < |d.entries| && d.entries[i] == Get(Deserialize(pathOf, d), p).value
                          && pathOf(d.entries[i]) == p
                          && forall j :: i < j < |d.entries| ==> pathOf(d.entries[j]) != p
  {
    var pairs := Keyed(pathOf, d.entries);
    IndexMaps.CollectGet(pairs, p);
    var r := IndexMaps.LastValue(pairs, p);
    if r.None? {
      forall i | 0 <= i < |d.entries| ensures pathOf(d.entries[i]) != p {
        assert IndexMaps.Keys(pairs)[i] == pathOf(d.entries[i]);
      }
    } else {
      var i :| 0 <= i < |pairs| && pairs[i] == (p, r.value) && forall j :: i < j < |pairs| ==> pairs[j].0 != p;
      assert d.entries[i] == r.value;
      forall j | i < j < |d.entries| ensures pathOf(d.entries[j]) != p {
        assert pairs[j].0 == pathOf(d.entries[j]);
      }
    }
  }

  /** `load_or_create`: a missing ledger file starts an empty ledger at the current
      version; a file that cannot be read or decoded is an error. */
  function LoadOrCreate<E>(pathOf: E -> string, file: string, version: int, read: ReadOutcome,
                           decode: string -> Option<Document<E>>): (r: Result<Ledger<E>, Error>)
    ensures r.Ok? ==> WellFormed(pathOf, r.value)
    ensures read.NotFound? ==> r.Ok? && |r.value.entries| == 0 && r.value.version == version
    ensures read.ReadFailed? ==> r == Err(Reading(file))
    ensures read.Read? ==> (r.Err? <==> decode(read.text).None?)
    ensures read.Read? && r.Err? ==> r.error == Parsing(file)
    ensures read.Read? && r.Ok? ==> r.value == Deserialize(pathOf, decode(read.text).value)
  {
    match read
    case Read(text) =>
      (match decode(text)
       case Some(d) => Ok(Deserialize(pathOf, d))
       case None => Err(Parsing(file)))
    case NotFound => Ok(New(version))
    case ReadFailed => Err(Reading(file))
  }

  /** `get`. */
  function Get<E>(l: Ledger<E>, path: string): (r: Option<E>)
    ensures r.None? <==> path !in IndexMaps.Keys(l.entries)
  {
    IndexMaps.Get(l.entries, path)
  }

  /** `insert`: file the entry under its path, replacing any entry there; the flag
      says whether the path was already tracked. */
  function Insert<E>(pathOf: E -> string, l: Ledger<E>, e: E): (r: (Ledger<E>, bool))
    ensures r.1 <==> pathOf(e) in IndexMaps.Keys(l.entries)
    ensures r.0.version == l.version
    ensures WellFormed(pathOf, l) ==> WellFormed(pathOf, r.0)
  {
    var (m, prior) := IndexMaps.Insert(l.entries, pathOf(e), e);
    assert WellFormed(pathOf, l) ==> WellFormed(pathOf, Ledger(l.version, m)) by {
      if WellFormed(pathOf, l) {
        forall i | 0 <= i < |m| ensures m[i].0 == pathOf(m[i].1) {
          assert m[i] in l.entries || m[i] == (pathOf(e), e);
        }
      }
    }
    (Ledger(l.version, m), prior.Some?)
  }

  /** After `insert(e)`, `e` is what its path finds, and every other path finds what
      it found before. */
  lemma InsertThenGet<E>(pathOf: E -> string, l: Ledger<E>, e: E, q: string)
    requires WellFormed(pathOf, l)
    ensures Get(Insert(pathOf, l, e).0, pathOf(e)) == Some(e)
    ensures q != pathOf(e) ==> Get(Insert(pathOf, l, e).0, q) == Get(l, q)
  {
    IndexMaps.InsertGet(l.entries, pathOf(e), e, q);
  }

  /** `remove`: drop the entry under `path` by swapping the last entry into its
      place; the flag says whether there was one. */
  function Remove<E>(pathOf: E -> string, l: Ledger<E>, path: string): (r: (Ledger<E>, bool))
    ensures r.1 <==> path in IndexMaps.Keys(l.entries)
    ensures !r.1 ==> r.0 == l
    ensures r.1 ==> |r.0.entries| == |l.entries| - 1
    ensures WellFormed(pathOf, l) ==> WellFormed(pathOf, r.0)
  {
    var (m, removed) := IndexMaps.SwapRemove(l.entries, path);
    assert WellFormed(pathOf, l) ==> WellFormed(pathOf, Ledger(l.version, m)) by {
      if WellFormed(pathOf, l) {
        IndexMaps.SwapRemoveGet(l.entries, path, path);
        forall i | 0 <= i < |m| ensures m[i].0 == pathOf(m[i].1) {
          assert m[i] in l.entries;
        }
      }
    }
    (Ledger(l.version, m), removed.Some?)
  }

  /** After `remove(path)`, the path finds nothing and every other path finds what
      it found before; only the order of the entries may change. */
  lemma RemoveThenGet<E>(pathOf: E -> string, l: Ledger<E>, path: string, q: string)
    requires WellFormed(pathOf, l)
    ensures Get(Remove(pathOf, l, path).0, path).None?
    ensures q != path ==> Get(Remove(pathOf, l, path).0, q) == Get(l, q)
  {
    IndexMaps.SwapRemoveGet(l.entries, path, q);
  }

  /** The paths of `ks` that are not in `rendered`, in the order of `ks`. */
  function Orphans(ks: seq<string>, rendered: set<string>): (r: seq<string>)
    ensures forall p :: p in r <==> p in ks && p !in rendered
    ensures |r| <= |ks|
  {
    if |ks| == 0 then []
    else (if ks[0] in rendered then [] else [ks[0]]) + Orphans(ks[1..], rendered)
  }

  /** Filtering keeps relative order: the orphans of a concatenation are the orphans
      of each part, in turn. */
  lemma {:induction false} OrphansAppend(a: seq<string>, b: seq<string>, rendered: set<string>)
    ensures Orphans(a + b, rendered) == Orphans(a, rendered) + Orphans(b, rendered)
  {
    if |a| > 0 {
      assert (a + b)[1..] == a[1..] + b;
      OrphansAppend(a[1..], b, rendered);
    } else {
      assert a + b == b;
    }
  }

  /** `find_orphans`: the tracked paths that were not rendered this run, in ledger
      order. */
  function FindOrphans<E>(l: Ledger<E>, rendered: set<string>): (r: seq<string>)
    ensures forall p :: p in r <==> Get(l, p).Some? && p !in rendered
  {
    Orphans(IndexMaps.Keys(l.entries), rendered)
  }

  // ---------------------------------------------------------------------------
  // The ledger of rendered files

  /** One rendered file: where it is, what it was rendered from, and the hashes of
      its content, its template's source and its scheme's serialised form. */
  datatype ManagedFile = ManagedFile(path: string, template: string, scheme: string,
                                     hash: string, templateHash: string, schemeHash: string)

  function PathOf(f: ManagedFile): string {
    f.path
  }

  /** What the status check and the entry builder know about the render inputs:
      the template's name and source, and the scheme's name and its JSON form
      (`None` when serialising it fails). */
  datatype Inputs = Inputs(templateName: string, templateSource: string,
                           schemeName: string, schemeJson: Option<string>)

  /** `make_entry`: the record for a file just written with `content`. */
  function MakeEntry(digest: Digest, path: string, inputs: Inputs, content: string)
    : (r: Result<ManagedFile, Error>)
    ensures r.Ok? <==> inputs.schemeJson.Some?
    ensures r.Err? ==> r.error == Parsing(FilenameFrom(MANIFEST_PATH))
    ensures r.Ok? ==> r.value.path == path && r.value.template == inputs.templateName
                      && r.value.scheme == inputs.schemeName
    ensures r.Ok? ==> r.value.hash == Hash(digest, content)
                      && r.value.templateHash == Hash(digest, inputs.templateSource)
                      && r.value.schemeHash == Hash(digest, inputs.schemeJson.value)
  {
    match inputs.schemeJson
    case None => Err(Parsing(FilenameFrom(MANIFEST_PATH)))
    case Some(json) =>
      Ok(ManagedFile(path, inputs.templateName, inputs.schemeName, Hash(digest, content),
                     Hash(digest, inputs.templateSource), Hash(digest, json)))
  }

  /** `check_file`: an untracked path is `NotTracked`; for a tracked one, the file is
      user-modified when it exists, can be read, and hashes differently from the
      record, and the template and scheme are compared by hash independently. */
  function CheckFile(digest: Digest, l: Ledger<ManagedFile>, path: string, file: OnDisk, inputs: Inputs)
    : (r: Result<Strategy.FileStatus, Error>)
    ensures Get(l, path).None? ==> r == Ok(Strategy.NotTracked)
    ensures Get(l, path).Some? ==> (r.Ok? <==> inputs.schemeJson.Some?)
    ensures r.Ok? && Get(l, path).Some? ==>
              var e := Get(l, path).value;
              r.value.Tracked?
              && (r.value.fileExists <==> !file.Absent?)
              && (r.value.userModified <==> file.Readable? && Hash(digest, file.content) != e.hash)
              && (r.value.templateChanged <==> Hash(digest, inputs.templateSource) != e.templateHash)
              && (r.value.schemeChanged <==> Hash(digest, inputs.schemeJson.value) != e.schemeHash)
  {
    match Get(l, path)
    case None => Ok(Strategy.NotTracked)
    case Some(e) =>
      var fileExists := !file.Absent?;
      var currentHash := if file.Readable? then Some(Hash(digest, file.content)) else None;
      var userModified := currentHash.Some? && currentHash.value != e.hash;
      var templateChanged := Hash(digest, inputs.templateSource) != e.templateHash;
      match inputs.schemeJson
      case None => Err(Parsing(FilenameFrom(MANIFEST_PATH)))
      case Some(json) =>
        Ok(Strategy.Tracked(fileExists, userModified, templateChanged, Hash(digest, json) != e.schemeHash))
  }

  /** A file recorded by `make_entry` and left as written, with its template and
      scheme unchanged, checks as present, unmodified and up to date, so the write
      decision skips it in every mode. Only hash determinism is needed. */
  lemma UntouchedOutputIsSkipped(digest: Digest, l: Ledger<ManagedFile>, path: string, inputs: Inputs,
                                 content: string, mode: Strategy.Write)
    requires WellFormed(PathOf, l)
    requires MakeEntry(digest, path, inputs, content).Ok?
    ensures var l' := Insert(PathOf, l, MakeEntry(digest, path, inputs, content).value).0;
            CheckFile(digest, l', path, Readable(content), inputs) == Ok(Strategy.Tracked(true, false, false, false))
            && Strategy.Decide(Strategy.Tracked(true, false, false, false), mode) == Strategy.Decision.Skip
  {
    var e := MakeEntry(digest, path, inputs, content).value;
    InsertThenGet(PathOf, l, e, path);
  }

  /** With a collision-free digest, any edit to a tracked file's content is noticed. */
  lemma EditDetected(digest: Digest, l: Ledger<ManagedFile>, path: string, inputs: Inputs,
                     written: string, edited: string)
    requires forall a, b :: digest(a) == digest(b) ==> a == b
    requires WellFormed(PathOf, l)
    requires MakeEntry(digest, path, inputs, written).Ok?
    requires edited != written
    ensures var l' := Insert(PathOf, l, MakeEntry(digest, path, inputs, written).value).0;
            var r := CheckFile(digest, l', path, Readable(edited), inputs);
            r.Ok? && r.value.Tracked? && r.value.userModified
  {
    var e := MakeEntry(digest, path, inputs, written).value;
    InsertThenGet(PathOf, l, e, path);
    HashInjective(digest, edited, written);
  }

  // ---------------------------------------------------------------------------
  // The generic ledger with a combined dependency flag

  const DIR: string := ".theymer"

  /** `Manifest::file`: the ledger file `DIR/FILENAME`. */
  function LedgerFile(filename: string): (r: string)
    ensures Strings.IsPrefix(DIR + "/", r)
    ensures r[|DIR| + 1..] == filename
  {
    DIR + "/" + filename
  }

  /** The index of rendered files: `index.json`, version 0. */
  const INDEX_FILENAME: string := "index.json"
  const INDEX_VERSION: int := 0

  /** The status of a tracked file when the template and the scheme are folded
      into one dependency flag. */
  datatype Status =
    | NotTracked
    | Tracked(fileExists: bool, userModified: bool, dependencyChanged: bool)

  /** `check_status`: an existing file is hashed, and a read failure is an error
      rather than "unmodified"; the dependency check always runs, even for a
      missing file. */
  function CheckStatus(digest: Digest, path: string, file: OnDisk, entryHash: string,
                       dependencyChanged: Result<bool, Error>): (r: Result<Status, Error>)
    ensures r.Ok? <==> !file.Unreadable? && dependencyChanged.Ok?
    ensures file.Unreadable? ==> r == Err(ReadingOutput(path))
    ensures !file.Unreadable? && dependencyChanged.Err? ==> r == Err(dependencyChanged.error)
    ensures r.Ok? ==> r.value.Tracked?
                      && (r.value.fileExists <==> file.Readable?)
                      && (r.value.userModified <==> file.Readable? && Hash(digest, file.content) != entryHash)
                      && r.value.dependencyChanged == dependencyChanged.value
  {
    var fileExists := !file.Absent?;
    var userModified :- match file
      case Absent => Ok(false)
      case Unreadable => Err(ReadingOutput(path))
      case Readable(c) => Ok(Hash(digest, c) != entryHash);
    var changed :- dependencyChanged;
    Ok(Tracked(fileExists, userModified, changed))
  }

  /** The dependency check of the index: the template hash is compared first, and
      the scheme is serialised and hashed only when the template is unchanged. */
  function DependencyChanged(digest: Digest, e: ManagedFile, inputs: Inputs): (r: Result<bool, Error>)
    ensures Hash(digest, inputs.templateSource) != e.templateHash ==> r == Ok(true)
    ensures r.Err? <==> Hash(digest, inputs.templateSource) == e.templateHash && inputs.schemeJson.None?
    ensures r.Ok? ==> (r.value <==> Hash(digest, inputs.templateSource) != e.templateHash
                                    || Hash(digest, inputs.schemeJson.value) != e.schemeHash)
  {
    if Hash(digest, inputs.templateSource) != e.templateHash then Ok(true)
    else
      match inputs.schemeJson
      case None => Err(Parsing(INDEX_FILENAME))
      case Some(json) => Ok(Hash(digest, json) != e.schemeHash)
  }

  /** `Index::check`: `NotTracked` without an entry, else the combined status. */
  function IndexCheck(digest: Digest, l: Ledger<ManagedFile>, path: string, file: OnDisk, inputs: Inputs)
    : (r: Result<Status, Error>)
    ensures Get(l, path).None? ==> r == Ok(NotTracked)
    ensures Get(l, path).Some? ==>
              var e := Get(l, path).value;
              var templateChanged := Hash(digest, inputs.templateSource) != e.templateHash;
              && (r.Ok? <==> !file.Unreadable? && (templateChanged || inputs.schemeJson.Some?))
              && (r.Ok? ==> r.value.Tracked?
                            && (r.value.fileExists <==> file.Readable?)
                            && (r.value.userModified <==> file.Readable? && Hash(digest, file.content) != e.hash)
                            && (r.value.dependencyChanged <==>
                                  templateChanged || Hash(digest, inputs.schemeJson.value) != e.schemeHash))
  {
    match Get(l, path)
    case None => Ok(NotTracked)
    case Some(e) => CheckStatus(digest, path, file, e.hash, DependencyChanged(digest, e, inputs))
  }

  /** The combined flag is exactly the disjunction of the two separate flags the
      older ledger reports, whenever both checks succeed. */
  lemma IndexAgreesWithCheckFile(digest: Digest, l: Ledger<ManagedFile>, path: string, file: OnDisk,
                                 inputs: Inputs)
    requires file != Unreadable
    requires CheckFile(digest, l, path, file, inputs).Ok?
    ensures var prev := CheckFile(digest, l, path, file, inputs).value;
            var r := IndexCheck(digest, l, path, file, inputs);
            r.Ok?
            && (prev.NotTracked? <==> r.value.NotTracked?)
            && (prev.Tracked? ==>
                  && r.value.fileExists == prev.fileExists
                  && r.value.userModified == prev.userModified
                  && r.value.dependencyChanged == (prev.templateChanged || prev.schemeChanged))
  {
  }

  /** An index entry made for a file left as written, with unchanged inputs, checks
      as present, unmodified and up to date. */
  lemma UntouchedIndexEntryIsClean(digest: Digest, l: Ledger<ManagedFile>, path: string, inputs: Inputs,
                                   content: string)
    requires WellFormed(PathOf, l)
    requires MakeEntry(digest, path, inputs, content).Ok?
    ensures var l' := Insert(PathOf, l, MakeEntry(digest, path, inputs, content).value).0;
            IndexCheck(digest, l', path, Readable(content), inputs) == Ok(Tracked(true, false, false))
  {
    var e := MakeEntry(digest, path, inputs, content).value;
    InsertThenGet(PathOf, l, e, path);
  }
}

=== FILE: names.dfy ===
/** Validation of user-visible names (scheme names, swatch names) and generation of
    their ASCII fallbacks. A display name must be non-empty NFC text made of Unicode
    letters, digits, `-` and `_`, at most 255 UTF-8 bytes long and not a reserved
    Windows device name. The ASCII fallback is produced by transliterating, mapping
    every character into a filename-safe alphabet while collapsing separator runs,
    and trimming separators off both ends. */
module Names {
  import opened Wrappers
  import opened Strings
  import opened Unicode

  const MAX_NAME_LENGTH: nat := 255

  const WINDOWS_RESERVED: seq<string> := [
    "CON", "PRN", "AUX", "NUL", "COM1", "COM2", "COM3", "COM4", "COM5", "COM6", "COM7", "COM8",
    "COM9", "LPT1", "LPT2", "LPT3", "LPT4", "LPT5", "LPT6", "LPT7", "LPT8", "LPT9"
  ]

  /** Why a name was rejected; each is one of the source's reason strings. */
  datatype Reason =
    | Empty
    | UnsafeCharacter
    | TooLong(length: nat)
    | ReservedName
    | NonAscii
    | EndsWithDot
    | NoValidCharacters

  datatype Error =
    | Invalid(context: string, name: string, reason: Reason)
    | InvalidAscii(context: string, name: string, reason: Reason)
    | GeneratingAscii(context: string, displayName: string, asciiName: string, reason: Reason)

  // ---------------------------------------------------------------------------
  // Display names

  /** Which part of a name is compared against the reserved device names: the whole
      name (`names.rs`), or only the text before the first `.` (`swatches.rs`). */
  datatype ReservedRule = WholeName | BeforeFirstDot

  function ReservedStem(rule: ReservedRule, name: string): (stem: string)
    ensures IsPrefix(stem, name)
    ensures '.' !in name ==> stem == name
  {
    if rule == WholeName then name
    else
      var parts := Split(name, '.');
      JoinPrefix(parts, ".");
      parts[0]
  }

  lemma JoinPrefix(parts: seq<string>, sep: string)
    requires |parts| >= 1
    ensures IsPrefix(parts[0], Join(parts, sep))
  {
  }

  /** The relevant part of the name, upper-cased, is a reserved device name. */
  predicate IsReserved(u: Services, rule: ReservedRule, name: string) {
    u.toUppercase(ReservedStem(rule, name)) in WINDOWS_RESERVED
  }

  /** The two rules agree on names without a `.`, which is every name that passed
      the character check. */
  lemma ReservedRulesAgree(u: Services, name: string)
    requires '.' !in name
    ensures IsReserved(u, WholeName, name) == IsReserved(u, BeforeFirstDot, name)
  {
  }

  predicate IsSafe(u: Services, c: char) {
    u.isAlphanumeric(c) || c == '-' || c == '_'
  }

  predicate AllSafe(u: Services, s: string) {
    forall k :: 0 <= k < |s| ==> IsSafe(u, s[k])
  }

  /** What an accepted, already normalised display name satisfies. */
  predicate ValidName(u: Services, rule: ReservedRule, n: string) {
    n != [] && AllSafe(u, n) && ByteLen(n) <= MAX_NAME_LENGTH && !IsReserved(u, rule, n)
  }

  /** NFC-normalises `name` and rejects it, checking in this order, when it is empty,
      holds an unsafe character, is longer than 255 bytes, or is reserved. */
  function NormalizeAndValidate(u: Services, rule: ReservedRule, name: string, context: string): (r: Result<string, Error>)
    ensures r.Ok? <==> ValidName(u, rule, u.nfc(name))
    ensures r.Ok? ==> r.value == u.nfc(name)
    ensures r.Err? ==> r.error.Invalid? && r.error.context == context && r.error.name == name
    ensures r.Err? ==> (r.error.reason == Empty <==> u.nfc(name) == [])
    ensures r.Err? ==> (r.error.reason == UnsafeCharacter <==> u.nfc(name) != [] && !AllSafe(u, u.nfc(name)))
    ensures r.Err? ==> (r.error.reason.TooLong? <==>
                          u.nfc(name) != [] && AllSafe(u, u.nfc(name)) && ByteLen(u.nfc(name)) > MAX_NAME_LENGTH)
    ensures r.Err? ==> (r.error.reason == ReservedName <==>
                          u.nfc(name) != [] && AllSafe(u, u.nfc(name)) && ByteLen(u.nfc(name)) <= MAX_NAME_LENGTH
                          && IsReserved(u, rule, u.nfc(name)))
  {
    var normalized := u.nfc(name);
    if normalized == [] then Err(Invalid(context, name, Empty))
    else if !AllSafe(u, normalized) then Err(Invalid(context, name, UnsafeCharacter))
    else if ByteLen(normalized) > MAX_NAME_LENGTH then Err(Invalid(context, name, TooLong(ByteLen(normalized))))
    else if IsReserved(u, rule, normalized) then Err(Invalid(context, name, ReservedName))
    else Ok(normalized)
  }

  /** Once the character check has passed a name holds no `.`, so both reserved-name
      rules make the same decision: the two validators are interchangeable. */
  lemma NormalizeRulesAgree(u: Services, name: string, context: string)
    requires AsciiStable(u)
    ensures NormalizeAndValidate(u, WholeName, name, context)
            == NormalizeAndValidate(u, BeforeFirstDot, name, context)
  {
    var n := u.nfc(name);
    if AllSafe(u, n) {
      assert IsAsciiChar('.') && !IsAsciiAlphanumeric('.');
      ReservedRulesAgree(u, n);
    }
  }

  /** Rejects a name holding any non-ASCII character. */
  function ValidateSetAscii(name: string, context: string): (r: Result<(), Error>)
    ensures r.Ok? <==> IsAscii(name)
    ensures r.Err? ==> r.error == InvalidAscii(context, name, NonAscii)
  {
    if !IsAscii(name) then Err(InvalidAscii(context, name, NonAscii)) else Ok(())
  }

  /** The display-name type's parser (`name_type!`, display half). */
  function ParseDisplay(u: Services, rule: ReservedRule, s: string, context: string): (r: Result<string, Error>)
    ensures r.Ok? <==> ValidName(u, rule, u.nfc(s))
    ensures r.Ok? ==> r.value == u.nfc(s)
  {
    NormalizeAndValidate(u, rule, s, context)
  }

  /** The ASCII-name type's parser: a valid display name that is also all ASCII. */
  function ParseAscii(u: Services, rule: ReservedRule, s: string, context: string): (r: Result<string, Error>)
    ensures r.Ok? <==> ValidName(u, rule, u.nfc(s)) && IsAscii(u.nfc(s))
    ensures r.Ok? ==> r.value == u.nfc(s)
    ensures r.Err? && ValidName(u, rule, u.nfc(s)) ==> r.error == InvalidAscii(context, u.nfc(s), NonAscii)
  {
    var normalized :- NormalizeAndValidate(u, rule, s, context);
    var _ :- ValidateSetAscii(normalized, context);
    Ok(normalized)
  }

  /** Parsing an accepted name again gives the same name back: with NFC idempotent,
      a name written out as its inner string and read back is unchanged. */
  lemma ParseDisplayStable(u: Services, rule: ReservedRule, s: string, context: string)
    requires NfcIdempotent(u)
    requires ParseDisplay(u, rule, s, context).Ok?
    ensures ParseDisplay(u, rule, ParseDisplay(u, rule, s, context).value, context) == ParseDisplay(u, rule, s, context)
  {
    assert u.nfc(u.nfc(s)) == u.nfc(s);
  }

  // ---------------------------------------------------------------------------
  // ASCII fallback generation

  predicate IsSep(c: char) {
    c == '-' || c == '_'
  }

  /** Characters that become `-` when they start a separator run. */
  predicate IsDashLike(c: char) {
    c == ' ' || c == '/' || c == ':' || c == ',' || c == ';' || c == '|' || c == '+'
  }

  predicate IsFilenameChar(c: char) {
    IsAsciiAlphanumeric(c) || IsSep(c)
  }

  /** Only filename-safe characters and never two separators in a row. */
  predicate Clean(s: string) {
    (forall k :: 0 <= k < |s| ==> IsFilenameChar(s[k]))
    && (forall k :: 0 <= k < |s| - 1 ==> !(IsSep(s[k]) && IsSep(s[k + 1])))
  }

  /** No separator at either end. */
  predicate Trimmed(s: string) {
    s == [] || (!IsSep(s[0]) && !IsSep(s[|s| - 1]))
  }

  /** The separator a non-alphanumeric character stands for. */
  function SepFor(c: char): (r: char)
    requires !IsAsciiAlphanumeric(c)
    ensures IsSep(r)
    ensures IsSep(c) ==> r == c
  {
    if IsSep(c) then c else if IsDashLike(c) then '-' else '_'
  }

  /** The post-transliteration filter: ASCII letters and digits pass and end a run;
      any other character starts a separator run, writing `SepFor(c)` if it is the
      first of its run and nothing otherwise. */
  function Filter(s: string, lastWasSep: bool): (r: string)
    ensures Clean(r)
    ensures |r| <= |s|
    ensures lastWasSep && r != [] ==> !IsSep(r[0])
    ensures s != [] && IsAsciiAlphanumeric(s[0]) ==> r != [] && r[0] == s[0]
    ensures s != [] && !lastWasSep ==> r != []
  {
    if s == [] then ""
    else if IsAsciiAlphanumeric(s[0]) then [s[0]] + Filter(s[1..], false)
    else if lastWasSep then Filter(s[1..], true)
    else [SepFor(s[0])] + Filter(s[1..], true)
  }

  /** Rust's `trim_start_matches` over the separator set. */
  function TrimStartSeps(s: string): (r: string)
    ensures IsSuffix(r, s)
    ensures r == [] || !IsSep(r[0])
    ensures forall k :: 0 <= k < |s| - |r| ==> IsSep(s[k])
  {
    if s != [] && IsSep(s[0]) then TrimStartSeps(s[1..]) else s
  }

  /** Rust's `trim_end_matches` over the separator set. */
  function TrimEndSeps(s: string): (r: string)
    ensures IsPrefix(r, s)
    ensures r == [] || !IsSep(r[|r| - 1])
    ensures forall k :: |r| <= k < |s| ==> IsSep(s[k])
  {
    if s != [] && IsSep(s[|s| - 1]) then TrimEndSeps(s[..|s| - 1]) else s
  }

  /** Rust's `trim_matches(|c| c == '-' || c == '_')`. */
  function TrimSeps(s: string): (r: string)
    ensures Trimmed(r)
    ensures Clean(s) ==> Clean(r)
  {
    var t := TrimStartSeps(s);
    var r := TrimEndSeps(t);
    assert Clean(s) ==> Clean(r) by {
      if Clean(s) {
        var off := |s| - |t|;
        forall k | 0 <= k < |r| ensures r[k] == s[off + k] {
          assert r[k] == t[k] == s[off + k];
        }
      }
    }
    assert Trimmed(r) by {
      if r != [] {
        assert r[0] == t[0];
      }
    }
    r
  }

  /** Filter followed by trimming: the transformation applied after transliteration. */
  function Sanitize(s: string): (r: string)
    ensures Clean(r) && Trimmed(r)
  {
    TrimSeps(Filter(s, false))
  }

  /** A clean string goes through the filter unchanged, provided it does not begin
      with a separator right after one. */
  lemma {:induction false} FilterFixesClean(t: string, lastWasSep: bool)
    requires Clean(t)
    requires lastWasSep && t != [] ==> !IsSep(t[0])
    ensures Filter(t, lastWasSep) == t
    decreases |t|
  {
    if t != [] {
      assert Clean(t[1..]) by {
        forall k | 0 <= k < |t[1..]| - 1 ensures !(IsSep(t[1..][k]) && IsSep(t[1..][k + 1])) {
          assert t[1..][k] == t[k + 1];
        }
      }
      if IsAsciiAlphanumeric(t[0]) {
        FilterFixesClean(t[1..], false);
      } else {
        assert IsSep(t[0]);
        assert |t| > 1 ==> !IsSep(t[1]);
        FilterFixesClean(t[1..], true);
      }
    }
  }

  lemma TrimSepsFixesTrimmed(t: string)
    requires Trimmed(t)
    ensures TrimSeps(t) == t
  {
  }

  /** Sanitising is idempotent. */
  lemma SanitizeIdempotent(s: string)
    ensures Sanitize(Sanitize(s)) == Sanitize(s)
  {
    var t := Sanitize(s);
    FilterFixesClean(t, false);
    TrimSepsFixesTrimmed(t);
  }

  /** Checks run on a generated fallback: length, reserved name, trailing dot. */
  function ValidateAutoAscii(u: Services, rule: ReservedRule, displayName: string, asciiName: string, context: string)
    : (r: Result<(), Error>)
    ensures r.Ok? <==> ByteLen(asciiName) <= MAX_NAME_LENGTH && !IsReserved(u, rule, asciiName)
                       && !IsSuffix(".", asciiName)
    ensures r.Err? ==> r.error.GeneratingAscii? && r.error.displayName == displayName
                       && r.error.asciiName == asciiName
  {
    if ByteLen(asciiName) > MAX_NAME_LENGTH then
      Err(GeneratingAscii(context, displayName, asciiName, TooLong(ByteLen(asciiName))))
    else if IsReserved(u, rule, asciiName) then
      Err(GeneratingAscii(context, displayName, asciiName, ReservedName))
    else if IsSuffix(".", asciiName) then
      Err(GeneratingAscii(context, displayName, asciiName, EndsWithDot))
    else Ok(())
  }

  /** A sanitised string never ends with `.`, so that check of `ValidateAutoAscii`
      cannot fire on generated fallbacks. */
  lemma SanitizedNeverEndsWithDot(s: string)
    ensures !IsSuffix(".", Sanitize(s))
  {
    var r := Sanitize(s);
    assert r != [] ==> IsFilenameChar(r[|r| - 1]);
  }

  /** Generates the ASCII fallback of a display name. */
  function ToAscii(u: Services, rule: ReservedRule, displayName: string, context: string): (r: Result<string, Error>)
    ensures r.Ok? <==> var a := Sanitize(u.deunicode(displayName));
                       a != [] && |a| <= MAX_NAME_LENGTH && !IsReserved(u, rule, a)
    ensures r.Ok? ==> r.value == Sanitize(u.deunicode(displayName))
    ensures r.Ok? ==> r.value != [] && Clean(r.value) && Trimmed(r.value) && IsAscii(r.value)
    ensures r.Err? && Sanitize(u.deunicode(displayName)) == [] ==>
              r.error == GeneratingAscii(context, displayName, [], NoValidCharacters)
  {
    var asciiName := Sanitize(u.deunicode(displayName));
    SanitizedNeverEndsWithDot(u.deunicode(displayName));
    CleanIsAscii(asciiName);
    if asciiName == [] then
      Err(GeneratingAscii(context, displayName, asciiName, NoValidCharacters))
    else
      var _ :- ValidateAutoAscii(u, rule, displayName, asciiName, context);
      Ok(asciiName)
  }

  lemma CleanIsAscii(s: string)
    requires Clean(s)
    ensures IsAscii(s)
    ensures ByteLen(s) == |s|
  {
    forall k | 0 <= k < |s| ensures IsAsciiChar(s[k]) {
      assert IsFilenameChar(s[k]);
    }
  }

  /** A generated fallback is itself a valid ASCII name: it passes the ASCII-name
      parser unchanged. */
  lemma ToAsciiParsesAsAscii(u: Services, rule: ReservedRule, displayName: string, context: string)
    requires AsciiStable(u)
    requires ToAscii(u, rule, displayName, context).Ok?
    ensures ParseAscii(u, rule, ToAscii(u, rule, displayName, context).value, context)
            == Ok(ToAscii(u, rule, displayName, context).value)
  {
    var a := ToAscii(u, rule, displayName, context).value;
    CleanIsAscii(a);
    assert u.nfc(a) == a;
    forall k | 0 <= k < |a| ensures IsSafe(u, a[k]) {
      assert IsFilenameChar(a[k]);
      assert IsAsciiChar(a[k]);
    }
  }

  /** Generating the fallback of a fallback gives it back. */
  lemma ToAsciiIdempotent(u: Services, rule: ReservedRule, displayName: string, context: string)
    requires AsciiStable(u)
    requires ToAscii(u, rule, displayName, context).Ok?
    ensures var a := ToAscii(u, rule, displayName, context).value;
            ToAscii(u, rule, a, context) == Ok(a)
  {
    var a := ToAscii(u, rule, displayName, context).value;
    CleanIsAscii(a);
    assert u.deunicode(a) == a;
    FilterFixesClean(a, false);
    TrimSepsFixesTrimmed(a);
  }
  // ---------------------------------------------------------------------------
  // Names tagged with their domain and text kind

  datatype TextKind = UnicodeText | AsciiText

  /** A validated name of some domain ("scheme", "swatch", ...). */
  datatype Validated = Validated(domain: string, kind: TextKind, inner: string)

  /** Parsing: normalise and validate, then apply the kind's extra check (none for
      Unicode, all-ASCII for Ascii). */
  function ParseValidated(u: Services, domain: string, kind: TextKind, s: string)
    : (r: Result<Validated, Error>)
    ensures r.Ok? <==> ValidName(u, WholeName, u.nfc(s)) && (kind == AsciiText ==> IsAscii(u.nfc(s)))
    ensures r.Ok? ==> r.value == Validated(domain, kind, u.nfc(s))
  {
    var normalized :- NormalizeAndValidate(u, WholeName, s, domain);
    var _ :- if kind == AsciiText then ValidateSetAscii(normalized, domain) else Ok(());
    Ok(Validated(domain, kind, normalized))
  }

  /** Serialisation writes the inner string. */
  function Serialize(v: Validated): string {
    v.inner
  }

  /** Deserialising what was serialised gives the same value back. */
  lemma ValidatedRoundTrip(u: Services, domain: string, kind: TextKind, s: string)
    requires NfcIdempotent(u)
    requires ParseValidated(u, domain, kind, s).Ok?
    ensures var v := ParseValidated(u, domain, kind, s).value;
            ParseValidated(u, domain, kind, Serialize(v)) == Ok(v)
  {
    assert u.nfc(u.nfc(s)) == u.nfc(s);
  }

  /** Only a Unicode-kind name has an ASCII fallback. */
  function ValidatedToAscii(u: Services, v: Validated): (r: Result<Validated, Error>)
    requires v.kind == UnicodeText
    ensures r.Ok? <==> ToAscii(u, WholeName, v.inner, v.domain).Ok?
    ensures r.Ok? ==> r.value.kind == AsciiText && r.value.domain == v.domain
  {
    var a :- ToAscii(u, WholeName, v.inner, v.domain);
    Ok(Validated(v.domain, AsciiText, a))
  }

  /** The fallback is a value the Ascii parser accepts unchanged. */
  lemma ValidatedToAsciiParses(u: Services, v: Validated)
    requires AsciiStable(u)
    requires v.kind == UnicodeText
    ensures ValidatedToAscii(u, v).Ok? ==>
            var a := ValidatedToAscii(u, v).value;
            ParseValidated(u, v.domain, AsciiText, a.inner) == Ok(a)
  {
    if ValidatedToAscii(u, v).Ok? {
      ToAsciiParsesAsAscii(u, WholeName, v.inner, v.domain);
    }
  }
}

=== FILE: placeholders.dfy ===
/** Patterns with `{name}` placeholders, as the upstream-link code writes them
    (`"{base}/blob/{branch}/{file}"`, `"{domain}/{owner}/{repo}/blob/{rev}/{file}"`),
    and the fact that makes `str::replace` on them predictable: replacing
    `{name}` in a pattern's text fills exactly the holes called `name`, provided
    neither the literal text nor the filled-in values hold a `{`. */
module Placeholders {
  import opened Strings

  /** A piece of a pattern: literal text, or a hole `{name}`. */
  datatype Piece = Lit(text: string) | Hole(name: string)

  function Spelling(p: Piece): string {
    match p
    case Lit(t) => t
    case Hole(n) => "{" + n + "}"
  }

  /** The text of a pattern. */
  function Spell(ps: seq<Piece>): string
    decreases |ps|
  {
    if |ps| == 0 then "" else Spelling(ps[0]) + Spell(ps[1..])
  }

  /** A hole name without braces. */
  predicate PlainName(n: string) {
    '{' !in n && '}' !in n
  }

  /** Literal text holds no `{`, hole names no braces. */
  predicate WellFormed(ps: seq<Piece>) {
    forall k :: 0 <= k < |ps| ==> (if ps[k].Lit? then '{' !in ps[k].text else PlainName(ps[k].name))
  }

  /** Every hole called `name` becomes the literal `value`. */
  function Fill(ps: seq<Piece>, name: string, value: string): (r: seq<Piece>)
    decreases |ps|
    ensures |r| == |ps|
    ensures forall k :: 0 <= k < |ps| ==> r[k] == (if ps[k] == Hole(name) then Lit(value) else ps[k])
  {
    if |ps| == 0 then []
    else [if ps[0] == Hole(name) then Lit(value) else ps[0]] + Fill(ps[1..], name, value)
  }

  /** The pattern has no holes left: its text is the literals, in order. */
  predicate Filled(ps: seq<Piece>) {
    forall k :: 0 <= k < |ps| ==> ps[k].Lit?
  }

  /** Text without the pattern's first character passes through `replace` unchanged. */
  lemma {:induction false} ReplaceSkips(a: string, b: string, pat: string, rep: string)
    requires |pat| > 0 && pat[0] !in a
    decreases |a|
    ensures Replace(a + b, pat, rep) == a + Replace(b, pat, rep)
  {
    if |a| > 0 {
      var s := a + b;
      if |s| < |pat| {
        assert Replace(s, pat, rep) == s;
        assert Replace(b, pat, rep) == b;
      } else {
        assert s[..|pat|] != pat by {
          assert s[..|pat|][0] == a[0];
        }
        assert s[1..] == a[1..] + b;
        ReplaceSkips(a[1..], b, pat, rep);
        assert Replace(s, pat, rep) == [s[0]] + Replace(s[1..], pat, rep);
        assert s[0] == a[0] && a == [a[0]] + a[1..];
      }
    } else {
      assert a + b == b;
    }
  }

  /** A match at the front is replaced, and scanning resumes after it. */
  lemma ReplaceAtFront(pat: string, b: string, rep: string)
    requires |pat| > 0
    ensures Replace(pat + b, pat, rep) == rep + Replace(b, pat, rep)
  {
    var s := pat + b;
    assert s[..|pat|] == pat && s[|pat|..] == b;
  }

  /** A hole with another name does not start with the placeholder `{name}`. */
  lemma OtherHoleDiffers(n: string, name: string, b: string)
    requires PlainName(n) && PlainName(name) && n != name
    ensures var s := "{" + n + "}" + b;
            var pat := "{" + name + "}";
            |s| < |pat| || s[..|pat|] != pat
  {
    var s := "{" + n + "}" + b;
    var pat := "{" + name + "}";
    if |s| >= |pat| {
      if |n| < |name| {
        assert s[..|pat|][|n| + 1] != pat[|n| + 1];
      } else if |n| > |name| {
        assert s[..|pat|][|name| + 1] != pat[|name| + 1];
      } else {
        assert s[..|pat|] == "{" + n + "}";
        assert ("{" + n + "}")[1..|n| + 1] == n && pat[1..|name| + 1] == name;
      }
    }
  }

  /** A first character that does not start a match is kept, and scanning
      resumes at the next one. */
  lemma ReplaceKeepsFirst(c: char, t: string, pat: string, rep: string)
    requires |pat| > 0
    requires |[c] + t| < |pat| || ([c] + t)[..|pat|] != pat
    ensures Replace([c] + t, pat, rep) == [c] + Replace(t, pat, rep)
  {
    var s := [c] + t;
    assert s[1..] == t;
    if |s| < |pat| {
      assert !Contains(s, pat) by {
        forall i: nat ensures !OccursAt(s, pat, i) { }
      }
      assert !Contains(t, pat) by {
        forall i: nat ensures !OccursAt(t, pat, i) { }
      }
    }
  }

  /** A hole with another name is not a match and passes through unchanged. */
  lemma ReplaceSkipsOtherHole(n: string, name: string, b: string, rep: string)
    requires PlainName(n) && PlainName(name) && n != name
    ensures Replace("{" + n + "}" + b, "{" + name + "}", rep) == "{" + n + "}" + Replace(b, "{" + name + "}", rep)
  {
    var pat := "{" + name + "}";
    var tail := n + "}";
    assert '{' !in tail;
    ReplaceSkips(tail, b, pat, rep);
    OtherHoleDiffers(n, name, b);
    HoleRegroups(n, b);
    HoleRegroups(n, Replace(b, pat, rep));
    ReplaceKeepsFirst('{', tail + b, pat, rep);
  }

  /** The spelling of a hole followed by text, regrouped around its first brace. */
  lemma HoleRegroups(n: string, b: string)
    ensures "{" + n + "}" + b == ['{'] + ((n + "}") + b)
  {
  }

  /** `str::replace` of `{name}` on a pattern's text fills the holes called `name`. */
  lemma {:induction false} ReplaceFills(ps: seq<Piece>, name: string, value: string)
    requires WellFormed(ps) && PlainName(name) && '{' !in value
    decreases |ps|
    ensures Replace(Spell(ps), "{" + name + "}", value) == Spell(Fill(ps, name, value))
    ensures WellFormed(Fill(ps, name, value))
  {
    var pat := "{" + name + "}";
    if |ps| > 0 {
      assert WellFormed(ps[1..]) by {
        forall k | 0 <= k < |ps[1..]| ensures ps[1..][k] == ps[k + 1] { }
      }
      ReplaceFills(ps[1..], name, value);
      var rest := Spell(ps[1..]);
      assert Fill(ps, name, value)[1..] == Fill(ps[1..], name, value);
      match ps[0]
      case Lit(t) =>
        ReplaceSkips(t, rest, pat, value);
      case Hole(n) =>
        if n == name {
          ReplaceAtFront(pat, rest, value);
        } else {
          ReplaceSkipsOtherHole(n, name, rest, value);
        }
    }
  }
}

=== FILE: render.dfy ===
/** Rendering: where each template's output goes, which templates are rendered,
    in which order the (template, scheme, swatch) units run, and how a render
    failure is reported. The template engine, the file system and the formatters
    are parameters; a unit's outcome is whatever the given renderer returns. */
module Render {
  import opened Wrappers
  import Strings
  import IndexMaps

  const SCHEME_MARKER: string := "SCHEME"
  const SWATCH_MARKER: string := "SWATCH"
  const TEMPLATE_SUFFIX: string := ".jinja"
  const SKIP_RENDERING_PREFIX: char := '_'
  const SET_TEST_OBJECT: string := "_set"

  datatype Error =
    | Rendering(template: string, scheme: string)
    | CreatingDirectory(path: string)
    | WritingFile(path: string)
    | InternalBug(message: string)

  /** `uses_swatch_iteration`: the template's name holds the swatch marker. */
  predicate UsesSwatchIteration(templateName: string) {
    Strings.Contains(templateName, SWATCH_MARKER)
  }

  // ---------------------------------------------------------------------------
  // Output paths

  /** `str::strip_suffix`. */
  function StripSuffix(s: string, suffix: string): (r: Option<string>)
    ensures r.Some? <==> Strings.IsSuffix(suffix, s)
    ensures r.Some? ==> r.value + suffix == s
  {
    if Strings.IsSuffix(suffix, s) then Some(s[..|s| - |suffix|]) else None
  }

  /** The template's name without its `.jinja` suffix; only one suffix goes. */
  function RelativePath(templateName: string): (r: string)
    ensures Strings.IsSuffix(TEMPLATE_SUFFIX, templateName) ==> r + TEMPLATE_SUFFIX == templateName
    ensures !Strings.IsSuffix(TEMPLATE_SUFFIX, templateName) ==> r == templateName
  {
    StripSuffix(templateName, TEMPLATE_SUFFIX).UnwrapOr(templateName)
  }

  /** The pieces that are path components: empty pieces (from repeated or trailing
      separators) and `.` pieces are not. */
  function Normal(pieces: seq<string>): (cs: seq<string>)
    ensures forall k :: 0 <= k < |cs| ==> cs[k] in pieces && cs[k] != "" && cs[k] != "."
  {
    if |pieces| == 0 then []
    else (if pieces[0] == "" || pieces[0] == "." then [] else [pieces[0]]) + Normal(pieces[1..])
  }

  /** `Path::components` of a relative path, as strings. */
  function Components(p: string): (cs: seq<string>)
    ensures forall k :: 0 <= k < |cs| ==> cs[k] != "" && cs[k] != "." && '/' !in cs[k]
  {
    Normal(Strings.Split(p, '/'))
  }

  /** `Path::file_name`: the last component, unless there is none or it is `..`. */
  function FileName(p: string): (r: Option<string>)
    ensures r.Some? ==> r.value != "" && '/' !in r.value
    ensures r.Some? <==> |Components(p)| > 0 && Components(p)[|Components(p)| - 1] != ".."
  {
    var cs := Components(p);
    if |cs| == 0 || cs[|cs| - 1] == ".." then None else Some(cs[|cs| - 1])
  }

  /** `Path::parent`, defaulting to the empty path: every component but the last. */
  function ParentDirs(p: string): (r: seq<string>)
    ensures |Components(p)| > 0 ==> Components(p) == r + [Components(p)[|Components(p)| - 1]]
  {
    var cs := Components(p);
    if |cs| == 0 then [] else cs[..|cs| - 1]
  }

  /** `render_dir / scheme / parent dirs / file`, by components. */
  datatype OutputPath = OutputPath(renderDir: string, scheme: string, parents: seq<string>, file: string)

  /** The markers in a file name replaced: the scheme always, the swatch only when
      one is given. */
  function Substitute(fileName: string, schemeName: string, swatch: Option<string>): (r: string)
    ensures !Strings.Contains(fileName, SCHEME_MARKER) && !Strings.Contains(fileName, SWATCH_MARKER) ==> r == fileName
    ensures '/' !in fileName && '/' !in schemeName && (swatch.Some? ==> '/' !in swatch.value) ==> '/' !in r
  {
    var named := Strings.Replace(fileName, SCHEME_MARKER, schemeName);
    Strings.ReplaceAvoids(fileName, SCHEME_MARKER, schemeName, '/');
    match swatch
    case None => named
    case Some(s) =>
      Strings.ReplaceAvoids(named, SWATCH_MARKER, s, '/');
      Strings.Replace(named, SWATCH_MARKER, s)
  }

  /** `resolve_path`: the output goes under the render directory and the scheme's
      own directory, then the template's own directories, kept as they are, then the
      file name with its markers replaced. A name with no file component is a bug. */
  function ResolvePath(templateName: string, schemeName: string, renderDir: string, swatch: Option<string>)
    : (r: Result<OutputPath, Error>)
    ensures r.Err? <==> FileName(RelativePath(templateName)).None?
    ensures r.Err? ==>
              r.error == InternalBug("attempted to render to corrupted path `" + RelativePath(templateName) + "`")
    ensures r.Ok? ==> r.value.renderDir == renderDir && r.value.scheme == schemeName
    ensures r.Ok? ==> Components(RelativePath(templateName)) == r.value.parents + [FileName(RelativePath(templateName)).value]
    ensures r.Ok? ==> r.value.file == Substitute(FileName(RelativePath(templateName)).value, schemeName, swatch)
    ensures r.Ok? && '/' !in schemeName && (swatch.Some? ==> '/' !in swatch.value) ==> '/' !in r.value.file
  {
    var rel := RelativePath(templateName);
    match FileName(rel)
    case None => Err(InternalBug("attempted to render to corrupted path `" + rel + "`"))
    case Some(name) => Ok(OutputPath(renderDir, schemeName, ParentDirs(rel), Substitute(name, schemeName, swatch)))
  }

  // ---------------------------------------------------------------------------
  // Which templates render, and in which order

  /** `should_render`: no `/`-separated segment of the name starts with the skip
      prefix; equivalently, neither the name nor any text right after a `/` does. */
  function ShouldRender(name: string): (r: bool)
    ensures r <==> !Skipped(name) && !SlashSkip(name)
  {
    var segments := Strings.Split(name, '/');
    SegmentStarts(name);
    !AnySkipped(segments)
  }

  /** The segment starts with the skip prefix. */
  predicate Skipped(segment: string) {
    |segment| > 0 && segment[0] == SKIP_RENDERING_PREFIX
  }

  predicate AnySkipped(segments: seq<string>) {
    exists k :: 0 <= k < |segments| && Skipped(segments[k])
  }

  /** Some `/` is directly followed by the skip prefix. */
  predicate SlashSkip(s: string) {
    exists i :: 0 <= i < |s| - 1 && s[i] == '/' && s[i + 1] == SKIP_RENDERING_PREFIX
  }

  lemma AnySkippedCons(x: string, ys: seq<string>)
    ensures AnySkipped([x] + ys) <==> Skipped(x) || AnySkipped(ys)
  {
    if AnySkipped(ys) {
      var k :| 0 <= k < |ys| && Skipped(ys[k]);
      assert ([x] + ys)[k + 1] == ys[k];
    }
    if Skipped(x) {
      assert ([x] + ys)[0] == x;
    }
    if AnySkipped([x] + ys) && !Skipped(x) {
      var k :| 0 <= k < |[x] + ys| && Skipped(([x] + ys)[k]);
      assert ys[k - 1] == ([x] + ys)[k];
    }
  }

  /** Splitting at the first `/`: a skip after a `/` is either right after this
      one, or after a `/` in the rest. */
  lemma SlashSkipAtFirst(s: string, i: nat)
    requires i < |s| && s[i] == '/' && '/' !in s[..i]
    ensures SlashSkip(s) <==> Skipped(s[i + 1..]) || SlashSkip(s[i + 1..])
  {
    var rest := s[i + 1..];
    if SlashSkip(rest) {
      var j :| 0 <= j < |rest| - 1 && rest[j] == '/' && rest[j + 1] == SKIP_RENDERING_PREFIX;
      assert s[i + 1 + j] == '/' && s[i + 1 + j + 1] == SKIP_RENDERING_PREFIX;
    }
    if Skipped(rest) {
      assert s[i] == '/' && s[i + 1] == SKIP_RENDERING_PREFIX;
    }
    if SlashSkip(s) {
      var j :| 0 <= j < |s| - 1 && s[j] == '/' && s[j + 1] == SKIP_RENDERING_PREFIX;
      if j > i {
        assert rest[j - i - 1] == '/' && rest[j - i] == SKIP_RENDERING_PREFIX;
      }
    }
  }

  /** Some segment is skipped exactly when the name, or the text after some `/`,
      starts with the skip prefix. */
  lemma {:induction false} SegmentStarts(s: string)
    decreases |s|
    ensures AnySkipped(Strings.Split(s, '/')) <==> Skipped(s) || SlashSkip(s)
  {
    if '/' in s {
      var i := Strings.IndexOf(s, '/');
      var rest := s[i + 1..];
      SegmentStarts(rest);
      assert Strings.Split(s, '/') == [s[..i]] + Strings.Split(rest, '/');
      AnySkippedCons(s[..i], Strings.Split(rest, '/'));
      SlashSkipAtFirst(s, i);
      assert Skipped(s[..i]) <==> Skipped(s) by {
        if i > 0 { assert s[..i][0] == s[0]; }
      }
    } else {
      assert Strings.Split(s, '/') == [s];
      assert !SlashSkip(s);
      AnySkippedCons(s, []);
    }
  }

  /** One render: a template, a scheme, and the swatch when the template iterates
      over swatches. */
  datatype Unit = Unit(template: string, scheme: string, swatch: Option<string>)

  /** A scheme as the iteration sees it: its name and its palette's swatch names,
      in palette order. */
  type SchemePalette = (string, seq<string>)

  /** The number of swatches across all schemes. */
  function SwatchCount(schemes: seq<SchemePalette>): nat {
    if |schemes| == 0 then 0 else |schemes[0].1| + SwatchCount(schemes[1..])
  }

  function SwatchUnits(template: string, scheme: string, swatches: seq<string>): (us: seq<Unit>)
    ensures |us| == |swatches|
    ensures forall k :: 0 <= k < |us| ==> us[k] == Unit(template, scheme, Some(swatches[k]))
  {
    seq(|swatches|, k requires 0 <= k < |swatches| => Unit(template, scheme, Some(swatches[k])))
  }

  /** The units of one template: one per scheme, or one per (scheme, swatch) pair
      when the template iterates over swatches; schemes in order, swatches in
      palette order. */
  function UnitsOf(template: string, schemes: seq<SchemePalette>): (us: seq<Unit>)
    ensures UsesSwatchIteration(template) ==> |us| == SwatchCount(schemes)
    ensures !UsesSwatchIteration(template) ==> |us| == |schemes|
    ensures !UsesSwatchIteration(template) ==>
              forall j :: 0 <= j < |schemes| ==> us[j] == Unit(template, schemes[j].0, None)
    ensures forall u: Unit :: u in us <==>
              u.template == template
              && exists j :: 0 <= j < |schemes| && schemes[j].0 == u.scheme
                             && (if UsesSwatchIteration(template)
                                 then u.swatch.Some? && u.swatch.value in schemes[j].1
                                 else u.swatch.None?)
  {
    if |schemes| == 0 then []
    else
      var first := if UsesSwatchIteration(template)
                   then SwatchUnits(template, schemes[0].0, schemes[0].1)
                   else [Unit(template, schemes[0].0, None)];
      var rest := UnitsOf(template, schemes[1..]);
      assert forall u: Unit :: u in first ==>
               (u.template == template && u.scheme == schemes[0].0
                && (if UsesSwatchIteration(template)
                    then u.swatch.Some? && u.swatch.value in schemes[0].1
                    else u.swatch.None?));
      assert forall j :: 1 <= j < |schemes| ==> schemes[j] == schemes[1..][j - 1];
      assert forall u: Unit ::
               (u.template == template && UsesSwatchIteration(template) && u.swatch.Some?
                && u.scheme == schemes[0].0 && u.swatch.value in schemes[0].1) ==> u in first by {
        forall u: Unit | u.template == template && UsesSwatchIteration(template) && u.swatch.Some?
                   && u.scheme == schemes[0].0 && u.swatch.value in schemes[0].1
          ensures u in first
        {
          var k :| 0 <= k < |schemes[0].1| && schemes[0].1[k] == u.swatch.value;
          assert first[k] == u;
        }
      }
      first + rest
  }

  /** A single scheme's units: its swatches in palette order, or the one
      swatch-less unit. */
  lemma UnitsOfOne(template: string, scheme: SchemePalette)
    ensures UnitsOf(template, [scheme]) ==
            if UsesSwatchIteration(template) then SwatchUnits(template, scheme.0, scheme.1)
            else [Unit(template, scheme.0, None)]
  {
    assert [scheme][1..] == [];
  }

  /** Units run scheme by scheme: the units of two lists of schemes one after the
      other are the concatenation of their units. Together with `UnitsOfOne`
      this fixes the order as scheme by scheme, then swatch by swatch. */
  lemma {:induction false} UnitsOfAppend(template: string, a: seq<SchemePalette>, b: seq<SchemePalette>)
    ensures UnitsOf(template, a + b) == UnitsOf(template, a) + UnitsOf(template, b)
  {
    if |a| == 0 {
      assert a + b == b;
    } else {
      assert (a + b)[0] == a[0];
      assert (a + b)[1..] == a[1..] + b;
      UnitsOfAppend(template, a[1..], b);
    }
  }

  /** The render plan: every template in order, each with its units. A template
      with a skip-prefixed segment has none when `skipPrefixed` is set; the older
      renderer does not skip. */
  function Plan(templates: seq<string>, schemes: seq<SchemePalette>, skipPrefixed: bool): (us: seq<Unit>)
    ensures forall u: Unit :: u in us <==>
              (u.template in templates && (skipPrefixed ==> ShouldRender(u.template))
               && u in UnitsOf(u.template, schemes))
  {
    if |templates| == 0 then []
    else
      var t := templates[0];
      var first := if skipPrefixed && !ShouldRender(t) then [] else UnitsOf(t, schemes);
      var rest := Plan(templates[1..], schemes, skipPrefixed);
      assert forall x :: x in templates <==> x == t || x in templates[1..];
      first + rest
  }

  /** The plan runs template by template: planning two lists of templates one after
      the other gives the concatenation of their plans. */
  lemma {:induction false} PlanAppend(a: seq<string>, b: seq<string>, schemes: seq<SchemePalette>, skipPrefixed: bool)
    ensures Plan(a + b, schemes, skipPrefixed) == Plan(a, schemes, skipPrefixed) + Plan(b, schemes, skipPrefixed)
  {
    if |a| == 0 {
      assert a + b == b;
    } else {
      assert (a + b)[1..] == a[1..] + b;
      PlanAppend(a[1..], b, schemes, skipPrefixed);
    }
  }

  /** A single template's plan is its units, in their order, or nothing when it
      is skipped. */
  lemma PlanOne(template: string, schemes: seq<SchemePalette>, skipPrefixed: bool)
    ensures Plan([template], schemes, skipPrefixed) ==
            if skipPrefixed && !ShouldRender(template) then [] else UnitsOf(template, schemes)
  {
    assert [template][1..] == [];
  }

  /** `render`: the units in plan order, stopping at the first that fails. */
  function RenderAll<T>(templates: seq<string>, schemes: seq<SchemePalette>, skipPrefixed: bool,
                        renderOne: Unit -> Result<T, Error>): (r: Result<seq<T>, Error>)
    ensures r.Ok? <==> forall u :: u in Plan(templates, schemes, skipPrefixed) ==> renderOne(u).Ok?
    ensures var plan := Plan(templates, schemes, skipPrefixed);
            r.Ok? ==> |r.value| == |plan| && forall i :: 0 <= i < |plan| ==> r.value[i] == renderOne(plan[i]).value
    ensures var plan := Plan(templates, schemes, skipPrefixed);
            r.Err? ==> exists i :: 0 <= i < |plan| && renderOne(plan[i]) == Err(r.error)
                                   && forall j :: 0 <= j < i ==> renderOne(plan[j]).Ok?
  {
    var plan := Plan(templates, schemes, skipPrefixed);
    TraverseOkMembers(plan, renderOne);
    Traverse(plan, renderOne)
  }

  // ---------------------------------------------------------------------------
  // One file

  /** What the template engine returned: the text, an undefined-value error, or
      any other error. */
  datatype Rendered = Text(text: string) | Undefined(message: string) | Failed(message: string)

  /** `file`: a context without `_set` is a bug, caught before rendering; an
      undefined value is a bug too, since the context should define everything the
      templates use; any other engine error is reported against the template and
      the scheme. On success the text written is the header followed by the render. */
  function RenderFile(hasSet: bool, rendered: Rendered, header: string, templateName: string,
                      schemeName: string): (r: Result<string, Error>)
    ensures r.Ok? <==> hasSet && rendered.Text?
    ensures r.Ok? ==> Strings.IsPrefix(header, r.value) && r.value[|header|..] == rendered.text
    ensures !hasSet ==> r == Err(InternalBug("context missing `_set`"))
    ensures hasSet && rendered.Undefined? ==> r == Err(InternalBug(rendered.message))
    ensures hasSet && rendered.Failed? ==> r == Err(Rendering(templateName, schemeName))
  {
    if !hasSet then Err(InternalBug("context missing `_set`"))
    else
      match rendered
      case Undefined(message) => Err(InternalBug(message))
      case Failed(_) => Err(Rendering(templateName, schemeName))
      case Text(text) => Ok(header + text)
  }

  // ---------------------------------------------------------------------------
  // The older renderer's directives

  /** `Config::parse_bool`: only `true` means true; anything else is false. */
  function ParseBool(value: string): (b: bool)
    ensures b <==> value == "true"
  {
    match value
    case "true" => true
    case "false" => false
    case _ => false
  }

  /** `Config::parse`: the directives in order, each `render_swatch_names` entry
      overwriting the setting and every other key ignored; so the last such entry
      decides, and without one the setting keeps its default. */
  function ParseRenderConfig(directives: seq<(string, string)>, current: bool): (b: bool)
    ensures b <==> match IndexMaps.LastValue(directives, "render_swatch_names")
                   case Some(v) => v == "true"
                   case None => current
  {
    if |directives| == 0 then current
    else
      var next := if directives[0].0 == "render_swatch_names" then ParseBool(directives[0].1) else current;
      IndexMaps.LastValueCons(directives[0], directives[1..], "render_swatch_names");
      assert directives == [directives[0]] + directives[1..];
      ParseRenderConfig(directives[1..], next)
  }
}

=== FILE: resolution.dfy ===
/** The role/slot resolution algorithm the scheme loaders share (`resolve_role` and
    `resolve_roles` in the tool's loaders, `resolve_slot` and `resolve_all` in the
    slot-based one). A scheme assigns some names a swatch reference or another name;
    an unassigned variant falls back to its base name, and an unassigned base name is
    missing. Resolution follows these references with an insertion-ordered visited
    set, reports a revisit as a circular chain, and reports every missing base name
    in one error before resolving anything.

    The names `R`, swatch references `S` and resolved values `T` are type parameters;
    each loader instantiates them with its own vocabulary and palette. */
module Resolution {
  import opened Wrappers

  /** What a scheme assigns to a name. */
  datatype Ref<S, R> = SwatchRef(swatch: S) | NameRef(name: R)

  datatype Failure<S, R> =
    | Circular(chain: seq<R>)
    | UndefinedSwatch(swatch: S, name: R)
    | Missing(name: R)

  /** Everything resolution consults: the vocabulary in table order, the scheme's
      assignments, the fallback of each name (`None` for a base name, its base for a
      variant), and the palette lookup. */
  datatype Graph<!S, !R, T> = Graph(
    table: seq<R>,
    refs: map<R, Ref<S, R>>,
    fallback: R -> Option<R>,
    lookup: S -> Option<T>)

  /** The table lists every value of the name type. */
  ghost predicate Complete<R(!new)>(table: seq<R>) {
    forall r: R :: r in table
  }

  /** A loader's name vocabulary: every name in table order, the base names in table
      order, the name parser, the parser of assigned values (failing with `E`), each
      name's fallback and its display. */
  datatype Vocabulary<!R, E> = Vocabulary(
    table: seq<R>,
    bases: seq<R>,
    parseName: string -> Option<R>,
    parseValue: string -> Result<Ref<string, R>, E>,
    fallback: R -> Option<R>,
    nameOf: R -> string)

  /** What the loaders rely on: the table lists every name, a name without a
      fallback is a base name, and a parsed name displays as the text it came from. */
  ghost predicate Coherent<R(!new), E>(voc: Vocabulary<R, E>) {
    && Complete(voc.table)
    && (forall x :: x in voc.table && voc.fallback(x).None? ==> x in voc.bases)
    && (forall s :: voc.parseName(s).Some? ==> voc.nameOf(voc.parseName(s).value) == s)
  }

  /** The name each key of `pairs` parses to, in order. */
  function ParsedKeys<R, E, V>(voc: Vocabulary<R, E>, pairs: seq<(string, V)>): (ks: seq<R>)
    requires forall i :: 0 <= i < |pairs| ==> voc.parseName(pairs[i].0).Some?
    ensures |ks| == |pairs|
    ensures forall i :: 0 <= i < |pairs| ==> ks[i] == voc.parseName(pairs[i].0).value
  {
    seq(|pairs|, i requires 0 <= i < |pairs| => voc.parseName(pairs[i].0).value)
  }

  /** Names as displayed in messages. */
  function NamesOf<R, E>(voc: Vocabulary<R, E>, rs: seq<R>): (ns: seq<string>)
    ensures |ns| == |rs|
    ensures forall i :: 0 <= i < |rs| ==> ns[i] == voc.nameOf(rs[i])
  {
    seq(|rs|, i requires 0 <= i < |rs| => voc.nameOf(rs[i]))
  }

  /** The one name resolution moves to from `r`, if it moves on. */
  function Next<S, R, T>(g: Graph<S, R, T>, r: R): Option<R> {
    if r in g.refs then
      match g.refs[r]
      case NameRef(x) => Some(x)
      case SwatchRef(_) => None
    else g.fallback(r)
  }

  /** A name assigned a swatch that the palette holds. */
  predicate Terminal<S, R, T>(g: Graph<S, R, T>, r: R) {
    r in g.refs && g.refs[r].SwatchRef? && g.lookup(g.refs[r].swatch).Some?
  }

  /** Consecutive names of `p` follow `Next`. */
  predicate IsPath<S, R, T>(g: Graph<S, R, T>, p: seq<R>) {
    forall i :: 0 <= i < |p| - 1 ==> Next(g, p[i]) == Some(p[i + 1])
  }

  predicate Distinct<R(==)>(p: seq<R>) {
    forall i, j :: 0 <= i < j < |p| ==> p[i] != p[j]
  }

  /** The names of `s` as a set. */
  function Elements<R>(s: seq<R>): set<R> {
    set x | x in s
  }

  /** `resolve_role(role, visited)`: revisiting gives the visited chain followed by
      the repeated name; a swatch reference resolves through the palette; a name
      reference recurses; an unassigned name falls back to its base, or is missing. */
  function Resolve<S(!new), R(!new), T>(g: Graph<S, R, T>, role: R, visited: seq<R>): (r: Result<T, Failure<S, R>>)
    requires Complete(g.table)
    ensures r.Ok? ==> exists s :: g.lookup(s) == Some(r.value)
    ensures r.Err? && r.error.UndefinedSwatch? ==>
              && r.error.name in g.refs
              && g.refs[r.error.name] == SwatchRef(r.error.swatch)
              && g.lookup(r.error.swatch).None?
    ensures r.Err? && r.error.Missing? ==>
              r.error.name !in g.refs && g.fallback(r.error.name).None?
    ensures r.Err? && r.error.Circular? ==> CircularChain(g, role, visited, r.error.chain)
    decreases Elements(g.table) - Elements(visited)
  {
    if role in visited then Err(Circular(visited + [role]))
    else
      var v := visited + [role];
      assert Elements(g.table) - Elements(v) < Elements(g.table) - Elements(visited) by {
        assert role in Elements(g.table) - Elements(visited);
        assert role !in Elements(g.table) - Elements(v);
      }
      if role in g.refs then
        match g.refs[role]
        case SwatchRef(s) =>
          if g.lookup(s).Some? then Ok(g.lookup(s).value) else Err(UndefinedSwatch(s, role))
        case NameRef(x) =>
          var r := Resolve(g, x, v);
          CircularChainStep(g, role, visited, x, r);
          r
      else
        match g.fallback(role)
        case None => Err(Missing(role))
        case Some(b) =>
          var r := Resolve(g, b, v);
          CircularChainStep(g, role, visited, b, r);
          r
  }

  /** The shape of a circular-reference report: it starts with the visited chain and
      then `role`, follows `Next` from there, and ends with a name it already holds. */
  predicate CircularChain<S, R, T>(g: Graph<S, R, T>, role: R, visited: seq<R>, chain: seq<R>) {
    && |visited| < |chain|
    && chain[..|visited|] == visited
    && chain[|visited|] == role
    && chain[|chain| - 1] in chain[..|chain| - 1]
    && forall i :: |visited| <= i < |chain| - 1 ==> Next(g, chain[i]) == Some(chain[i + 1])
  }

  /** One recursive step of `Resolve` keeps the chain's shape. */
  lemma CircularChainStep<S, R, T>(g: Graph<S, R, T>, role: R, visited: seq<R>, x: R,
                                   r: Result<T, Failure<S, R>>)
    requires Next(g, role) == Some(x)
    requires r.Err? && r.error.Circular? ==> CircularChain(g, x, visited + [role], r.error.chain)
    ensures r.Err? && r.error.Circular? ==> CircularChain(g, role, visited, r.error.chain)
  {
    if r.Err? && r.error.Circular? {
      var c := r.error.chain;
      assert c[..|visited|] == c[..|visited| + 1][..|visited|];
    }
  }

  /** Resolving from a fresh visited set reports a circular reference only for a
      genuine cycle: the chain is a path from `role` whose last name occurs earlier. */
  lemma CircularMeansCycle<S(!new), R(!new), T>(g: Graph<S, R, T>, role: R)
    requires Complete(g.table)
    requires Resolve(g, role, []).Err? && Resolve(g, role, []).error.Circular?
    ensures var c := Resolve(g, role, []).error.chain;
            && |c| >= 2 && c[0] == role && IsPath(g, c)
            && exists j :: 0 <= j < |c| - 1 && c[j] == c[|c| - 1]
  {
  }

  /** Success is the existence of a reference path: `role` resolves to `t` exactly
      when a path of distinct names outside `visited` leads from `role` to a name
      assigned a swatch the palette maps to `t`. */
  lemma {:induction false} ResolvedByPath<S(!new), R(!new), T>(g: Graph<S, R, T>, role: R, visited: seq<R>, p: seq<R>)
    requires Complete(g.table)
    requires |p| > 0 && p[0] == role && IsPath(g, p) && Distinct(p)
    requires forall i :: 0 <= i < |p| ==> p[i] !in visited
    requires Terminal(g, p[|p| - 1])
    ensures Resolve(g, role, visited) == Ok(g.lookup(g.refs[p[|p| - 1]].swatch).value)
    decreases |p|
  {
    if |p| > 1 {
      var v := visited + [role];
      assert p[1..][0] == p[1];
      forall i | 0 <= i < |p[1..]| ensures p[1..][i] !in v {
        assert p[1..][i] == p[i + 1] && p[i + 1] != p[0];
      }
      ResolvedByPath(g, p[1], v, p[1..]);
    }
  }

  /** The converse: a successful resolution follows such a path. */
  lemma {:induction false} PathOfResolved<S(!new), R(!new), T>(g: Graph<S, R, T>, role: R, visited: seq<R>)
    returns (p: seq<R>)
    requires Complete(g.table)
    requires Resolve(g, role, visited).Ok?
    ensures |p| > 0 && p[0] == role && IsPath(g, p) && Distinct(p)
    ensures forall i :: 0 <= i < |p| ==> p[i] !in visited
    ensures Terminal(g, p[|p| - 1])
    ensures Resolve(g, role, visited).value == g.lookup(g.refs[p[|p| - 1]].swatch).value
    decreases Elements(g.table) - Elements(visited)
  {
    var v := visited + [role];
    assert Elements(g.table) - Elements(v) < Elements(g.table) - Elements(visited) by {
      assert role in Elements(g.table) - Elements(visited);
      assert role !in Elements(g.table) - Elements(v);
    }
    var n := Next(g, role);
    if n.None? {
      p := [role];
    } else {
      var q := PathOfResolved(g, n.value, v);
      p := [role] + q;
      assert p[1..] == q;
      forall i, j | 0 <= i < j < |p| ensures p[i] != p[j] {
        if i > 0 {
          assert p[i] == q[i - 1] && p[j] == q[j - 1];
        } else {
          assert p[j] == q[j - 1];
        }
      }
    }
  }

  /** The names of `bases` the scheme leaves unassigned, in order. */
  function Unassigned<S, R(!new), T>(g: Graph<S, R, T>, bases: seq<R>): (m: seq<R>)
    ensures forall x :: x in m <==> x in bases && x !in g.refs
    ensures |m| <= |bases|
  {
    if |bases| == 0 then []
    else (if bases[0] in g.refs then [] else [bases[0]]) + Unassigned(g, bases[1..])
  }

  datatype AllFailure<S, R> = MissingBases(names: seq<R>) | Failed(failure: Failure<S, R>)

  /** Resolve every name of `order` with a fresh visited set; the first failure
      aborts. The result pairs each name with its value, in order. */
  function ResolveEach<S(!new), R(!new), T>(g: Graph<S, R, T>, order: seq<R>): (r: Result<seq<(R, T)>, Failure<S, R>>)
    requires Complete(g.table)
    ensures r.Ok? <==> forall i :: 0 <= i < |order| ==> Resolve(g, order[i], []).Ok?
    ensures r.Ok? ==> |r.value| == |order|
    ensures r.Ok? ==> forall i :: 0 <= i < |order| ==>
                        r.value[i] == (order[i], Resolve(g, order[i], []).value)
    ensures r.Err? ==> exists i :: 0 <= i < |order| && Resolve(g, order[i], []) == Err(r.error)
                                   && forall j :: 0 <= j < i ==> Resolve(g, order[j], []).Ok?
  {
    if |order| == 0 then Ok([])
    else
      match Resolve(g, order[0], [])
      case Err(e) => Err(e)
      case Ok(t) =>
        var rest := ResolveEach(g, order[1..]);
        assert forall i :: 1 <= i < |order| ==> order[i] == order[1..][i - 1];
        if rest.Err? then
          assert exists i :: 0 <= i < |order| && Resolve(g, order[i], []) == Err(rest.error)
                             && forall j :: 0 <= j < i ==> Resolve(g, order[j], []).Ok? by {
            var i :| 0 <= i < |order[1..]| && Resolve(g, order[1..][i], []) == Err(rest.error)
                     && forall j :: 0 <= j < i ==> Resolve(g, order[1..][j], []).Ok?;
            assert Resolve(g, order[i + 1], []) == Err(rest.error);
          }
          Err(rest.error)
        else
          Ok([(order[0], t)] + rest.value)
  }

  /** `resolve_roles`: the base names the scheme leaves unassigned are reported
      together, in `bases` order, before anything is resolved; then every name of
      `order` is resolved. */
  function ResolveAll<S(!new), R(!new), T>(g: Graph<S, R, T>, bases: seq<R>, order: seq<R>)
    : (r: Result<seq<(R, T)>, AllFailure<S, R>>)
    requires Complete(g.table)
    ensures r.Err? && r.error.MissingBases? <==> Unassigned(g, bases) != []
    ensures r.Err? && r.error.MissingBases? ==> r.error.names == Unassigned(g, bases)
    ensures r.Ok? <==> Unassigned(g, bases) == [] && forall i :: 0 <= i < |order| ==> Resolve(g, order[i], []).Ok?
    ensures r.Ok? ==> |r.value| == |order|
    ensures r.Ok? ==> forall i :: 0 <= i < |order| ==>
                        r.value[i] == (order[i], Resolve(g, order[i], []).value)
    ensures r.Err? && r.error.Failed? ==>
              exists i :: 0 <= i < |order| && Resolve(g, order[i], []) == Err(r.error.failure)
                          && forall j :: 0 <= j < i ==> Resolve(g, order[j], []).Ok?
  {
    var missing := Unassigned(g, bases);
    if missing != [] then Err(MissingBases(missing))
    else
      match ResolveEach(g, order)
      case Ok(v) => Ok(v)
      case Err(e) => Err(Failed(e))
  }

  /** Once the pre-check passes with `bases` holding every base name of the table,
      no resolution reports a missing name: that branch is unreachable. */
  lemma PrecheckExcludesMissing<S(!new), R(!new), T>(g: Graph<S, R, T>, bases: seq<R>, role: R, visited: seq<R>)
    requires Complete(g.table)
    requires forall x :: x in g.table && g.fallback(x).None? ==> x in bases
    requires Unassigned(g, bases) == []
    ensures !(Resolve(g, role, visited).Err? && Resolve(g, role, visited).error.Missing?)
  {
  }

  /** The same for a whole run: once the pre-check passes, no failure is a missing name. */
  lemma ResolveAllNeverMissing<S(!new), R(!new), T>(g: Graph<S, R, T>, bases: seq<R>, order: seq<R>)
    requires Complete(g.table)
    requires forall x :: x in g.table && g.fallback(x).None? ==> x in bases
    ensures var r := ResolveAll(g, bases, order);
            r.Err? && r.error.Failed? ==> !r.error.failure.Missing?
  {
    var r := ResolveAll(g, bases, order);
    if r.Err? && r.error.Failed? {
      var i :| 0 <= i < |order| && Resolve(g, order[i], []) == Err(r.error.failure);
      PrecheckExcludesMissing(g, bases, order[i], []);
    }
  }
}

=== FILE: slotload.dfy ===
/** The slot loader instantiated with the slot table: slot names are the table's
    entries, a `$name` value refers to a swatch, and an optional slot falls back to
    the base its name derives. */
module SlotLoad {
  import opened Wrappers
  import Toml
  import Swatches
  import IndexMaps
  import Resolution
  import BaselSlots
  import SlotScheme

  type SlotName = BaselSlots.SlotName

  /** `SlotName::parse`, with its error dropped (the loader reports its own). */
  function ParseName(s: string): (r: Option<SlotName>)
    ensures r.Some? <==> s in BaselSlots.SLOTS
    ensures r.Some? ==> r.value == s
  {
    match BaselSlots.Parse(s)
    case Ok(n) => Some(n)
    case Err(_) => None
  }

  /** A parsed slot value as the loader's reference. */
  function RefOf(v: BaselSlots.SlotValue): SlotScheme.Value<SlotName> {
    match v
    case Swatch(n) => Resolution.SwatchRef(n)
    case Slot(s) => Resolution.NameRef(s)
  }

  /** `SlotValue::parse`, as a reference. */
  function ParseValue(s: string): (r: Result<SlotScheme.Value<SlotName>, BaselSlots.Error>)
    ensures r.Ok? <==> BaselSlots.ParseValue(s).Ok?
    ensures r.Ok? ==> r.value == RefOf(BaselSlots.ParseValue(s).value)
    ensures r.Err? ==> r.error == BaselSlots.ParseValue(s).error
  {
    match BaselSlots.ParseValue(s)
    case Ok(v) => Ok(RefOf(v))
    case Err(e) => Err(e)
  }

  /** `classify`: a base slot has no fallback; an optional slot falls back to the
      base its name derives, which the table guarantees is a slot. */
  function Fallback(s: SlotName): (r: Option<SlotName>)
    ensures r.None? <==> BaselSlots.Classify(s).Base?
    ensures r.Some? ==> r.value == BaselSlots.DeriveBase(s)
  {
    match BaselSlots.Classify(s)
    case Base(_) => None
    case Optional(_, b) =>
      BaselSlots.ClassifiedBaseIsSlot(s);
      Some(b)
  }

  function Display(s: SlotName): string {
    s
  }

  /** The slot vocabulary: `iter()`, `base()`, the two parsers and `classify`. */
  function Slots(): SlotScheme.Vocabulary<SlotName> {
    Resolution.Vocabulary(BaselSlots.Iter(), BaselSlots.BaseSlots(), ParseName, ParseValue, Fallback, Display)
  }

  /** The slot table meets what the loader relies on. */
  lemma SlotsCoherent()
    ensures Resolution.Coherent(Slots())
  {
    var voc := Slots();
    assert Resolution.Complete(voc.table);
    NoFallbackIsBase();
    assert forall s :: voc.parseName(s).Some? ==> voc.nameOf(voc.parseName(s).value) == s;
  }

  /** Only base slots lack a fallback. */
  lemma NoFallbackIsBase()
    ensures forall x :: x in Slots().table && Slots().fallback(x).None? ==> x in Slots().bases
  {
    BaselSlots.BaseSlotsAreBases();
  }

  /** `load` with the slot table: on success every slot of the table is resolved, in
      table order, under the given name. */
  function Load(parseHex: Swatches.HexParser, name: string, path: string, root: seq<(string, Toml.Value)>)
    : (r: Result<SlotScheme.Scheme<SlotName>, SlotScheme.Error>)
    ensures r.Ok? ==> IndexMaps.Keys(r.value.resolvedSlots) == BaselSlots.Iter()
    ensures r.Ok? ==> r.value.name == name
  {
    SlotsCoherent();
    SlotScheme.Load(Slots(), parseHex, name, path, root)
  }

  /** `load_all` with the slot table. */
  function LoadAll(parseHex: Swatches.HexParser, walk: seq<Toml.FileEntry>)
    : (r: Result<IndexMaps.Entries<string, SlotScheme.Scheme<SlotName>>, SlotScheme.Error>)
    ensures r.Ok? ==> IndexMaps.Valid(r.value)
    ensures r.Ok? ==> forall i :: 0 <= i < |walk| && walk[i].isToml ==>
                        walk[i].stem.Some? && walk[i].stem.value in IndexMaps.Keys(r.value)
  {
    SlotsCoherent();
    SlotScheme.LoadAll(Slots(), parseHex, walk)
  }
}

=== FILE: slotscheme.dfy ===
/** Loading a scheme in the slot-based tool: the root table's `meta`, `palette` and
    `slots` sections are read into a raw scheme and every slot is resolved to a
    palette colour. Unlike the role-based loader, swatch names are not validated
    (only the empty name is refused), the palette maps names straight to colours,
    and an undefined swatch is reported without the slot that refers to it.

    The loader is written over a vocabulary of slot names `R`; `SlotLoad`
    instantiates it with the slot table. */
module SlotScheme {
  import opened Wrappers
  import opened Strings
  import Toml
  import Color
  import Swatches
  import IndexMaps
  import Collisions
  import Resolution
  import BaselSlots

  datatype Error =
    | Slot(slotError: BaselSlots.Error)
    | UndefinedSwatch(swatch: string)
    | InvalidSlotsStructure(path: string, reason: string)
    | Deserializing(section: string, path: string)
    | ReadingFile(path: string)
    | InternalBug(message: string)

  /** The slot vocabulary, with slot-value errors of the slot table. */
  type Vocabulary<!R> = Resolution.Vocabulary<R, BaselSlots.Error>

  /** What a slot may be assigned: `$swatch` or another slot. */
  type Value<R> = Resolution.Ref<string, R>

  datatype Meta = Meta(author: Option<string>, license: Option<string>, blurb: Option<string>)

  const NO_META: Meta := Meta(None, None, None)

  /** A slot resolved to a palette entry: the swatch's name and its colour as
      lower-case hex. */
  datatype ResolvedSlot = ResolvedSlot(swatchName: string, hex: string)

  /** The scheme as read from its file, before resolution. */
  datatype Raw<R> = Raw(
    meta: Meta,
    palette: IndexMaps.Entries<string, Color.Rgb>,
    slots: IndexMaps.Entries<R, Value<R>>)

  // ---------------------------------------------------------------------------
  // The `slots` section

  /** `parse_slot`: the key must name a slot and the value must be a string that
      parses as a slot value. */
  function ParseSlot<R>(voc: Vocabulary<R>, key: string, val: Toml.Value, path: string)
    : (r: Result<(R, Value<R>), Error>)
    ensures r.Ok? <==> voc.parseName(key).Some? && val.TString? && voc.parseValue(val.s).Ok?
    ensures r.Ok? ==> r.value == (voc.parseName(key).value, voc.parseValue(val.s).value)
    ensures voc.parseName(key).None? ==>
              r == Err(InvalidSlotsStructure(path, "invalid slot name: `" + key + "`"))
    ensures voc.parseName(key).Some? && !val.TString? ==>
              r == Err(InvalidSlotsStructure(path, "slot `" + key + "` must be a string"))
    ensures voc.parseName(key).Some? && val.TString? && voc.parseValue(val.s).Err? ==>
              r == Err(Slot(voc.parseValue(val.s).error))
  {
    match voc.parseName(key)
    case None => Err(InvalidSlotsStructure(path, "invalid slot name: `" + key + "`"))
    case Some(name) =>
      match val.AsStr()
      case None => Err(InvalidSlotsStructure(path, "slot `" + key + "` must be a string"))
      case Some(s) =>
        match voc.parseValue(s)
        case Err(e) => Err(Slot(e))
        case Ok(v) => Ok((name, v))
  }

  /** `parse_slot` as a function of one pair. */
  function SlotParser<R>(voc: Vocabulary<R>, path: string): ((string, Toml.Value)) -> Result<(R, Value<R>), Error> {
    (p: (string, Toml.Value)) => ParseSlot(voc, p.0, p.1, path)
  }

  /** The `parse_slots` loop: the pairs are parsed in order into an
      insertion-ordered map; the first failing pair aborts, and a slot named twice
      keeps its first position and its last value. */
  function ParsePairs<R(==)>(voc: Vocabulary<R>, pairs: seq<(string, Toml.Value)>, path: string)
    : (r: Result<IndexMaps.Entries<R, Value<R>>, Error>)
    ensures r.Ok? <==> forall i :: 0 <= i < |pairs| ==> ParseSlot(voc, pairs[i].0, pairs[i].1, path).Ok?
    ensures r.Ok? ==> IndexMaps.Valid(r.value)
    ensures r.Ok? ==> IndexMaps.Keys(r.value) == Collisions.Distinct(Resolution.ParsedKeys(voc, pairs))
    ensures r.Err? ==> exists i :: 0 <= i < |pairs| && ParseSlot(voc, pairs[i].0, pairs[i].1, path) == Err(r.error)
                                   && forall j :: 0 <= j < i ==> ParseSlot(voc, pairs[j].0, pairs[j].1, path).Ok?
  {
    var kvs :- Traverse(pairs, SlotParser(voc, path));
    assert IndexMaps.Keys(kvs) == Resolution.ParsedKeys(voc, pairs);
    Ok(IndexMaps.Collect(kvs))
  }

  /** A slot named more than once takes the value of its last occurrence. */
  lemma ParsePairsLastWins<R>(voc: Vocabulary<R>, pairs: seq<(string, Toml.Value)>, path: string, i: nat)
    requires i < |pairs|
    requires forall j :: i < j < |pairs| ==> voc.parseName(pairs[j].0) != voc.parseName(pairs[i].0)
    ensures ParsePairs(voc, pairs, path).Ok? ==>
              IndexMaps.Get(ParsePairs(voc, pairs, path).value, voc.parseName(pairs[i].0).value)
              == Some(voc.parseValue(pairs[i].1.s).value)
  {
    if ParsePairs(voc, pairs, path).Ok? {
      var kvs := Traverse(pairs, SlotParser(voc, path)).value;
      assert ParsePairs(voc, pairs, path).value == IndexMaps.Collect(kvs);
      var k := voc.parseName(pairs[i].0).value;
      assert kvs[i] == SlotParser(voc, path)(pairs[i]).value;
      assert forall j :: i < j < |kvs| ==> kvs[j].0 != k by {
        forall j | i < j < |kvs| ensures kvs[j].0 != k {
          assert kvs[j] == SlotParser(voc, path)(pairs[j]).value;
        }
      }
      IndexMaps.CollectGet(kvs, k);
      IndexMaps.LastValueAt(kvs, k, i);
    }
  }

  /** `parse_slots`: the section must be a table; nested tables contribute dotted
      keys. */
  function ParseSlots<R(==)>(voc: Vocabulary<R>, val: Toml.Value, path: string)
    : (r: Result<IndexMaps.Entries<R, Value<R>>, Error>)
    ensures !val.TTable? ==> r == Err(InvalidSlotsStructure(path, "`slots` must be a table"))
    ensures val.TTable? ==> r == ParsePairs(voc, Toml.Flatten(val.entries), path)
  {
    if !val.TTable? then Err(InvalidSlotsStructure(path, "`slots` must be a table"))
    else ParsePairs(voc, Toml.Flatten(val.entries), path)
  }

  // ---------------------------------------------------------------------------
  // Resolution

  /** `palette.get(name)`, resolved: the swatch's name with its colour's text. */
  function LookupSwatch(palette: IndexMaps.Entries<string, Color.Rgb>, name: string): (r: Option<ResolvedSlot>)
    ensures r.None? <==> name !in IndexMaps.Keys(palette)
    ensures r.Some? ==> r.value == ResolvedSlot(name, Color.Display(IndexMaps.Get(palette, name).value))
  {
    match IndexMaps.Get(palette, name)
    case None => None
    case Some(c) => Some(ResolvedSlot(name, Color.Display(c)))
  }

  function GraphOf<R(==, !new)>(voc: Vocabulary<R>, raw: Raw<R>): Resolution.Graph<string, R, ResolvedSlot> {
    Resolution.Graph(voc.table, IndexMaps.AsMap(raw.slots), voc.fallback, n => LookupSwatch(raw.palette, n))
  }

  /** The engine's failures as the loader reports them: an undefined swatch carries
      only the swatch's name. */
  function FailureError<R>(voc: Vocabulary<R>, f: Resolution.Failure<string, R>): Error {
    match f
    case Circular(chain) => Slot(BaselSlots.CircularReference(Resolution.NamesOf(voc, chain)))
    case UndefinedSwatch(s, _) => UndefinedSwatch(s)
    case Missing(r) => Slot(BaselSlots.MissingRequired(voc.nameOf(r)))
  }

  /** A value the palette lookup yields names a palette entry and shows its colour. */
  lemma LookupIsEntry(palette: IndexMaps.Entries<string, Color.Rgb>, t: ResolvedSlot)
    requires exists n :: LookupSwatch(palette, n) == Some(t)
    ensures t.swatchName in IndexMaps.Keys(palette)
    ensures t.hex == Color.Display(IndexMaps.Get(palette, t.swatchName).value)
  {
    var n :| LookupSwatch(palette, n) == Some(t);
  }

  /** `resolve_slot`. A resolved slot names a palette entry and carries that entry's
      colour; an undefined swatch is one some slot is assigned and the palette lacks;
      a circular chain is the visited slots followed by the revisited one. */
  function ResolveSlot<R(==, !new)>(voc: Vocabulary<R>, raw: Raw<R>, slot: R, visited: seq<R>)
    : (r: Result<ResolvedSlot, Error>)
    requires Resolution.Coherent(voc)
    ensures r.Ok? ==> && r.value.swatchName in IndexMaps.Keys(raw.palette)
                      && r.value.hex == Color.Display(IndexMaps.Get(raw.palette, r.value.swatchName).value)
    ensures r.Err? && r.error.UndefinedSwatch? ==>
              && r.error.swatch !in IndexMaps.Keys(raw.palette)
              && exists x :: IndexMaps.Get(raw.slots, x) == Some(Resolution.SwatchRef(r.error.swatch))
    ensures r.Err? ==> r.error.UndefinedSwatch? || r.error.Slot?
  {
    var g := GraphOf(voc, raw);
    match Resolution.Resolve(g, slot, visited)
    case Ok(t) =>
      LookupIsEntry(raw.palette, t);
      Ok(t)
    case Err(f) =>
      Err(FailureError(voc, f))
  }

  /** One slot's resolution is the engine's, with its failure as the loader reports it. */
  lemma ResolveSlotIsEngine<R(!new)>(voc: Vocabulary<R>, raw: Raw<R>, slot: R)
    requires Resolution.Coherent(voc)
    ensures ResolveSlot(voc, raw, slot, []).Ok? <==> Resolution.Resolve(GraphOf(voc, raw), slot, []).Ok?
    ensures ResolveSlot(voc, raw, slot, []).Err? ==>
              ResolveSlot(voc, raw, slot, []).error == FailureError(voc, Resolution.Resolve(GraphOf(voc, raw), slot, []).error)
  {
  }

  /** Along any list of slots, each slot resolves on its own exactly when the engine
      resolves it. */
  lemma SlotsAgreeWithEngine<R(!new)>(voc: Vocabulary<R>, raw: Raw<R>, order: seq<R>)
    requires Resolution.Coherent(voc)
    ensures forall i :: 0 <= i < |order| ==>
              (ResolveSlot(voc, raw, order[i], []).Ok? <==> Resolution.Resolve(GraphOf(voc, raw), order[i], []).Ok?)
  {
    forall i | 0 <= i < |order| {
      ResolveSlotIsEngine(voc, raw, order[i]);
    }
  }

  /** The engine's failure is the first slot, in table order, whose own resolution
      fails, and that slot reports it. */
  lemma EngineFailureIsFirstSlot<R(!new)>(voc: Vocabulary<R>, raw: Raw<R>, f: Resolution.Failure<string, R>)
    requires Resolution.Coherent(voc)
    requires Resolution.ResolveAll(GraphOf(voc, raw), voc.bases, voc.table) == Err(Resolution.Failed(f))
    ensures exists i :: 0 <= i < |voc.table| && ResolveSlot(voc, raw, voc.table[i], []) == Err(FailureError(voc, f))
                        && forall j :: 0 <= j < i ==> ResolveSlot(voc, raw, voc.table[j], []).Ok?
  {
    var g := GraphOf(voc, raw);
    var i :| 0 <= i < |voc.table| && Resolution.Resolve(g, voc.table[i], []) == Err(f)
             && forall j :: 0 <= j < i ==> Resolution.Resolve(g, voc.table[j], []).Ok?;
    ResolveSlotIsEngine(voc, raw, voc.table[i]);
    SlotsAgreeWithEngine(voc, raw, voc.table);
  }

  /** `resolve_all`: every unassigned base slot is reported in one error, in table
      order; otherwise every slot is resolved in table order from a fresh visited
      set, and the first failure aborts. Once the pre-check has passed, a failure is
      a dangling swatch reference or a circular chain, never a missing slot. */
  function ResolveAll<R(==, !new)>(voc: Vocabulary<R>, raw: Raw<R>)
    : (r: Result<IndexMaps.Entries<R, ResolvedSlot>, Error>)
    requires Resolution.Coherent(voc)
    ensures var missing := Resolution.Unassigned(GraphOf(voc, raw), voc.bases);
            missing != [] ==>
              r == Err(Slot(BaselSlots.MissingRequired("missing required slots: " + Join(Resolution.NamesOf(voc, missing), ", "))))
    ensures Resolution.Unassigned(GraphOf(voc, raw), voc.bases) == [] && r.Err? ==>
              r.error.UndefinedSwatch? || (r.error.Slot? && r.error.slotError.CircularReference?)
    ensures r.Ok? ==> IndexMaps.Keys(r.value) == voc.table
    ensures r.Ok? ==> forall i :: 0 <= i < |r.value| ==>
                        Ok(r.value[i].1) == ResolveSlot(voc, raw, r.value[i].0, [])
  {
    var g := GraphOf(voc, raw);
    Resolution.ResolveAllNeverMissing(g, voc.bases, voc.table);
    match Resolution.ResolveAll(g, voc.bases, voc.table)
    case Err(e) =>
      if e.MissingBases? then
        Err(Slot(BaselSlots.MissingRequired("missing required slots: " + Join(Resolution.NamesOf(voc, e.names), ", "))))
      else
        Err(FailureError(voc, e.failure))
    case Ok(v) =>
      Ok(v)
  }
  /** Once every base slot is assigned, the slots resolve exactly when each slot
      resolves on its own, and otherwise the error is that of the first slot, in
      table order, whose resolution fails: the first error aborts. */
  lemma ResolveAllOutcome<R(!new)>(voc: Vocabulary<R>, raw: Raw<R>)
    requires Resolution.Coherent(voc)
    requires Resolution.Unassigned(GraphOf(voc, raw), voc.bases) == []
    ensures ResolveAll(voc, raw).Ok? <==>
              forall i :: 0 <= i < |voc.table| ==> ResolveSlot(voc, raw, voc.table[i], []).Ok?
    ensures ResolveAll(voc, raw).Err? ==>
              exists i :: 0 <= i < |voc.table| && ResolveSlot(voc, raw, voc.table[i], []) == Err(ResolveAll(voc, raw).error)
                          && forall j :: 0 <= j < i ==> ResolveSlot(voc, raw, voc.table[j], []).Ok?
  {
    var g := GraphOf(voc, raw);
    SlotsAgreeWithEngine(voc, raw, voc.table);
    match Resolution.ResolveAll(g, voc.bases, voc.table)
    case Err(e) =>
      assert e.Failed?;
      EngineFailureIsFirstSlot(voc, raw, e.failure);
    case Ok(_) =>
  }


  /** Every resolved slot names a palette entry and shows that entry's colour. */
  lemma ResolvedFromPalette<R(!new)>(voc: Vocabulary<R>, raw: Raw<R>)
    requires Resolution.Coherent(voc)
    ensures ResolveAll(voc, raw).Ok? ==>
            var v := ResolveAll(voc, raw).value;
            forall i :: 0 <= i < |v| ==>
              && v[i].1.swatchName in IndexMaps.Keys(raw.palette)
              && v[i].1.hex == Color.Display(IndexMaps.Get(raw.palette, v[i].1.swatchName).value)
  {
    if ResolveAll(voc, raw).Ok? {
      var v := ResolveAll(voc, raw).value;
      forall i | 0 <= i < |v|
        ensures && v[i].1.swatchName in IndexMaps.Keys(raw.palette)
                && v[i].1.hex == Color.Display(IndexMaps.Get(raw.palette, v[i].1.swatchName).value)
      {
        assert Ok(v[i].1) == ResolveSlot(voc, raw, v[i].0, []);
      }
    }
  }

  // ---------------------------------------------------------------------------
  // The loaded scheme

  /** A loaded scheme: its name, meta, palette, the slot assignments as written and
      every slot resolved. */
  datatype Scheme<R> = Scheme(
    name: string,
    meta: Meta,
    palette: IndexMaps.Entries<string, Color.Rgb>,
    slots: IndexMaps.Entries<R, Value<R>>,
    resolvedSlots: IndexMaps.Entries<R, ResolvedSlot>)

  /** `into_scheme`: the slots are resolved and the scheme takes the given name. */
  function IntoScheme<R(==, !new)>(voc: Vocabulary<R>, raw: Raw<R>, name: string): (r: Result<Scheme<R>, Error>)
    requires Resolution.Coherent(voc)
    ensures r.Ok? <==> ResolveAll(voc, raw).Ok?
    ensures r.Err? ==> r.error == ResolveAll(voc, raw).error
    ensures r.Ok? ==> r.value == Scheme(name, raw.meta, raw.palette, raw.slots, ResolveAll(voc, raw).value)
  {
    var resolved :- ResolveAll(voc, raw);
    Ok(Scheme(name, raw.meta, raw.palette, raw.slots, resolved))
  }

  // ---------------------------------------------------------------------------
  // Sections

  /** An optional string field of the `meta` table. */
  function MetaField(entries: seq<(string, Toml.Value)>, key: string, path: string): (r: Result<Option<string>, Error>)
    ensures Toml.Get(entries, key).None? ==> r == Ok(None)
    ensures Toml.Get(entries, key).Some? ==>
              r == (if Toml.Get(entries, key).value.TString? then Ok(Some(Toml.Get(entries, key).value.s))
                    else Err(Deserializing("meta", path)))
  {
    match Toml.Get(entries, key)
    case None => Ok(None)
    case Some(v) => if v.TString? then Ok(Some(v.s)) else Err(Deserializing("meta", path))
  }

  /** The `meta` section: absent means no meta; present, it must be a table whose
      `author`, `license` and `blurb` are strings when given (other keys are
      ignored). */
  function MetaSection(root: seq<(string, Toml.Value)>, path: string): (r: Result<Meta, Error>)
    ensures Toml.Get(root, "meta").None? ==> r == Ok(NO_META)
    ensures Toml.Get(root, "meta").Some? && !Toml.Get(root, "meta").value.TTable? ==>
              r == Err(Deserializing("meta", path))
    ensures r.Err? ==> r.error == Deserializing("meta", path)
    ensures r.Ok? && Toml.Get(root, "meta").Some? ==>
              var t := Toml.Get(root, "meta").value.entries;
              r.value.author.Some? <==> Toml.GetStr(t, "author").Some?
    ensures Toml.Get(root, "meta").Some? && Toml.Get(root, "meta").value.TTable? ==>
              var t := Toml.Get(root, "meta").value.entries;
              && (r.Ok? <==> Toml.OptionalStr(t, "author") && Toml.OptionalStr(t, "license") && Toml.OptionalStr(t, "blurb"))
              && (r.Ok? ==> r.value == Meta(Toml.GetStr(t, "author"), Toml.GetStr(t, "license"), Toml.GetStr(t, "blurb")))
  {
    match Toml.Get(root, "meta")
    case None => Ok(NO_META)
    case Some(v) =>
      if !v.TTable? then Err(Deserializing("meta", path))
      else
        var author :- MetaField(v.entries, "author", path);
        var license :- MetaField(v.entries, "license", path);
        var blurb :- MetaField(v.entries, "blurb", path);
        Ok(Meta(author, license, blurb))
  }

  /** One palette entry: its value must be colour text the parser accepts. */
  function ParseEntry(parseHex: Swatches.HexParser, path: string, p: (string, Toml.Value))
    : (r: Result<(string, Color.Rgb), Error>)
    ensures r.Ok? <==> p.1.TString? && parseHex(p.1.s).Some?
    ensures r.Ok? ==> r.value == (p.0, parseHex(p.1.s).value)
    ensures r.Err? ==> r.error == Deserializing("palette", path)
  {
    if p.1.TString? && parseHex(p.1.s).Some? then Ok((p.0, parseHex(p.1.s).value))
    else Err(Deserializing("palette", path))
  }

  function EntryParser(parseHex: Swatches.HexParser, path: string): ((string, Toml.Value)) -> Result<(string, Color.Rgb), Error> {
    (p: (string, Toml.Value)) => ParseEntry(parseHex, path, p)
  }

  /** The `palette` section, which must be present and be a table of colour
      strings; the empty swatch name is refused. */
  function PaletteSection(parseHex: Swatches.HexParser, root: seq<(string, Toml.Value)>, path: string)
    : (r: Result<IndexMaps.Entries<string, Color.Rgb>, Error>)
    ensures Toml.Get(root, "palette").None? ==> r == Err(Deserializing("palette", path))
    ensures r.Ok? ==> && IndexMaps.Valid(r.value)
                      && "" !in IndexMaps.Keys(r.value)
                      && Toml.Get(root, "palette").value.TTable?
                      && IndexMaps.Keys(r.value) == Collisions.Distinct(Toml.TableKeys(Toml.Get(root, "palette").value.entries))
    ensures r.Err? ==> r.error == Deserializing("palette", path) || r.error.InternalBug?
  {
    match Toml.Get(root, "palette")
    case None => Err(Deserializing("palette", path))
    case Some(v) =>
      if !v.TTable? then Err(Deserializing("palette", path))
      else
        var kvs :- Traverse(v.entries, EntryParser(parseHex, path));
        assert IndexMaps.Keys(kvs) == Toml.TableKeys(v.entries);
        var palette := IndexMaps.Collect(kvs);
        if "" in IndexMaps.Keys(palette) then Err(InternalBug("empty swatch name in `" + path + "`"))
        else Ok(palette)
  }

  /** The `slots` section, which must be present. */
  function SlotsSection<R(==)>(voc: Vocabulary<R>, root: seq<(string, Toml.Value)>, path: string)
    : (r: Result<IndexMaps.Entries<R, Value<R>>, Error>)
    ensures Toml.Get(root, "slots").None? ==> r == Err(Deserializing("slots", path))
    ensures Toml.Get(root, "slots").Some? ==> r == ParseSlots(voc, Toml.Get(root, "slots").value, path)
  {
    match Toml.Get(root, "slots")
    case None => Err(Deserializing("slots", path))
    case Some(v) => ParseSlots(voc, v, path)
  }

  /** The reading half of `load` on an already parsed file: `meta`, then `palette`
      (with the empty-name check), then `slots`. */
  function LoadRaw<R(==)>(voc: Vocabulary<R>, parseHex: Swatches.HexParser, path: string,
                          root: seq<(string, Toml.Value)>): (r: Result<Raw<R>, Error>)
    ensures r.Ok? ==> && IndexMaps.Valid(r.value.palette) && "" !in IndexMaps.Keys(r.value.palette)
                      && IndexMaps.Valid(r.value.slots)
    ensures r.Ok? ==> Toml.Get(root, "palette").Some? && Toml.Get(root, "slots").Some?
    ensures MetaSection(root, path).Ok? && Toml.Get(root, "palette").None? ==>
              r == Err(Deserializing("palette", path))
  {
    var meta :- MetaSection(root, path);
    var palette :- PaletteSection(parseHex, root, path);
    var slots :- SlotsSection(voc, root, path);
    Ok(Raw(meta, palette, slots))
  }

  /** `load`: the raw scheme is read and its slots resolved under the given name. */
  function Load<R(==, !new)>(voc: Vocabulary<R>, parseHex: Swatches.HexParser, name: string, path: string,
                             root: seq<(string, Toml.Value)>): (r: Result<Scheme<R>, Error>)
    requires Resolution.Coherent(voc)
    ensures r.Ok? <==> LoadRaw(voc, parseHex, path, root).Ok? && ResolveAll(voc, LoadRaw(voc, parseHex, path, root).value).Ok?
    ensures r.Ok? ==> r.value.name == name && IndexMaps.Keys(r.value.resolvedSlots) == voc.table
    ensures r.Ok? ==> "" !in IndexMaps.Keys(r.value.palette)
  {
    var raw :- LoadRaw(voc, parseHex, path, root);
    IntoScheme(voc, raw, name)
  }

  /** `load_all`: every `.toml` entry of the walk is loaded, in walk order, under its
      file stem; the first failure aborts, and a later file with the same stem
      replaces the earlier one's scheme in place. */
  function LoadAll<R(==, !new)>(voc: Vocabulary<R>, parseHex: Swatches.HexParser, walk: seq<Toml.FileEntry>)
    : (r: Result<IndexMaps.Entries<string, Scheme<R>>, Error>)
    requires Resolution.Coherent(voc)
    ensures r.Ok? ==> IndexMaps.Valid(r.value)
    ensures r.Ok? ==> forall i :: 0 <= i < |walk| && walk[i].isToml ==>
                        walk[i].stem.Some? && walk[i].stem.value in IndexMaps.Keys(r.value)
    ensures r.Ok? ==> forall i :: 0 <= i < |r.value| ==> r.value[i].1.name == r.value[i].0
  {
    if |walk| == 0 then Ok([])
    else
      var n := |walk| - 1;
      var e := walk[n];
      var m :- LoadAll(voc, parseHex, walk[..n]);
      assert forall i :: 0 <= i < n ==> walk[..n][i] == walk[i];
      if !e.isToml then Ok(m)
      else
        var stem :- e.stem.OkOr(InternalBug("attempted to load scheme with corrupted path `" + e.path + "`"));
        var root :- e.root.OkOr(ReadingFile(e.path));
        var scheme :- Load(voc, parseHex, stem, e.path, root);
        LoadAllStep(m, stem, scheme);
        Ok(IndexMaps.Insert(m, stem, scheme).0)
  }

  lemma LoadAllStep<R>(m: IndexMaps.Entries<string, Scheme<R>>, stem: string, scheme: Scheme<R>)
    requires IndexMaps.Valid(m)
    requires forall i :: 0 <= i < |m| ==> m[i].1.name == m[i].0
    requires scheme.name == stem
    ensures var m' := IndexMaps.Insert(m, stem, scheme).0;
            && IndexMaps.Valid(m')
            && stem in IndexMaps.Keys(m')
            && (forall k :: k in IndexMaps.Keys(m) ==> k in IndexMaps.Keys(m'))
            && forall i :: 0 <= i < |m'| ==> m'[i].1.name == m'[i].0
  {
    var m' := IndexMaps.Insert(m, stem, scheme).0;
    forall i | 0 <= i < |m'| ensures m'[i].1.name == m'[i].0 {
      IndexMaps.GetAt(m', i);
      IndexMaps.InsertGet(m, stem, scheme, m'[i].0);
    }
  }
}

=== FILE: sorting.dfy ===
/** `Vec<String>::sort`: strings ordered by their UTF-8 bytes, which is the same
    as ordering them by code points, lexicographically. */
module Sorting {

  /** `a` sorts strictly before `b`: at the first difference `a` has the smaller
      character, or `a` is a proper prefix of `b`. */
  predicate Less(a: string, b: string)
    decreases |a|
  {
    if |a| == 0 then |b| > 0
    else if |b| == 0 then false
    else a[0] < b[0] || (a[0] == b[0] && Less(a[1..], b[1..]))
  }

  lemma {:induction false} LessIrreflexive(a: string)
    decreases |a|
    ensures !Less(a, a)
  {
    if |a| > 0 {
      LessIrreflexive(a[1..]);
    }
  }

  lemma {:induction false} LessAsymmetric(a: string, b: string)
    decreases |a|
    ensures Less(a, b) ==> !Less(b, a)
  {
    if |a| > 0 && |b| > 0 {
      LessAsymmetric(a[1..], b[1..]);
    }
  }

  lemma {:induction false} LessTransitive(a: string, b: string, c: string)
    decreases |a|
    ensures Less(a, b) && Less(b, c) ==> Less(a, c)
  {
    if |a| > 0 && |b| > 0 && |c| > 0 {
      LessTransitive(a[1..], b[1..], c[1..]);
    }
  }

  lemma {:induction false} LessTotal(a: string, b: string)
    decreases |a|
    ensures a == b || Less(a, b) || Less(b, a)
  {
    if |a| > 0 && |b| > 0 {
      LessTotal(a[1..], b[1..]);
      if a[0] == b[0] && a[1..] == b[1..] {
        assert a == [a[0]] + a[1..] && b == [b[0]] + b[1..];
      }
    }
  }

  predicate StrictlySorted(s: seq<string>) {
    forall i, j :: 0 <= i < j < |s| ==> Less(s[i], s[j])
  }

  predicate NoDuplicates<T(==)>(s: seq<T>) {
    forall i, j :: 0 <= i < j < |s| ==> s[i] != s[j]
  }

  /** Inserts a new string into a strictly sorted sequence at its place. */
  function Insert(x: string, s: seq<string>): (r: seq<string>)
    requires StrictlySorted(s) && x !in s
    ensures StrictlySorted(r)
    ensures |r| == |s| + 1
    ensures forall y :: y in r <==> y == x || y in s
  {
    if |s| == 0 then [x]
    else if Less(x, s[0]) then
      forall j | 0 < j < |s| ensures Less(x, s[j]) {
        LessTransitive(x, s[0], s[j]);
      }
      [x] + s
    else
      var t := Insert(x, s[1..]);
      forall y | y in t ensures Less(s[0], y) {
        if y == x {
          LessTotal(x, s[0]);
        } else {
          var j :| 0 <= j < |s[1..]| && s[1..][j] == y;
          assert s[j + 1] == y;
        }
      }
      assert forall j :: 0 < j <= |t| ==> ([s[0]] + t)[j] == t[j - 1];
      [s[0]] + t
  }

  /** `sort` of a collection without repeated strings. */
  function Sort(xs: seq<string>): (r: seq<string>)
    requires NoDuplicates(xs)
    ensures StrictlySorted(r)
    ensures |r| == |xs|
    ensures forall y :: y in r <==> y in xs
  {
    if |xs| == 0 then []
    else
      var rest := Sort(xs[1..]);
      assert xs[0] !in xs[1..] by {
        forall j | 0 <= j < |xs[1..]| ensures xs[1..][j] != xs[0] {
          assert xs[1..][j] == xs[j + 1];
        }
      }
      Insert(xs[0], rest)
  }

  /** A strictly sorted sequence is determined by its elements: sorting does not
      depend on the order the strings were collected in. */
  lemma {:induction false} SortedUnique(a: seq<string>, b: seq<string>)
    requires StrictlySorted(a) && StrictlySorted(b)
    requires forall y :: y in a <==> y in b
    decreases |a|
    ensures a == b
  {
    if |a| > 0 {
      assert a[0] in b;
    }
    if |b| > 0 {
      assert b[0] in a;
    }
    if |a| > 0 {
      if a[0] != b[0] {
        assert b[0] in a;
        var i :| 0 <= i < |a| && a[i] == b[0];
        var j :| 0 <= j < |b| && b[j] == a[0];
        assert i > 0 && j > 0;
        LessAsymmetric(a[0], b[0]);
        assert false;
      }
      forall y ensures y in a[1..] <==> y in b[1..] {
        if y in a[1..] {
          var i :| 0 <= i < |a[1..]| && a[1..][i] == y;
          assert Less(a[0], a[i + 1]);
          LessIrreflexive(y);
          assert y in b;
        }
        if y in b[1..] {
          var j :| 0 <= j < |b[1..]| && b[1..][j] == y;
          assert Less(b[0], b[j + 1]);
          LessIrreflexive(y);
          assert y in a;
        }
      }
      SortedUnique(a[1..], b[1..]);
      assert a == [a[0]] + a[1..] && b == [b[0]] + b[1..];
    }
  }

  /** Sorting two collections of the same strings gives the same sequence. */
  lemma SortOrderIndependent(xs: seq<string>, ys: seq<string>)
    requires NoDuplicates(xs) && NoDuplicates(ys)
    requires forall y :: y in xs <==> y in ys
    ensures Sort(xs) == Sort(ys)
  {
    SortedUnique(Sort(xs), Sort(ys));
  }
}

=== FILE: srcroles.dfy ===
/** The role vocabulary of the earlier tool, declared with the `define_roles!` macro:
    plain role names, and group blocks `g { "k", ... }` that contribute the names
    `g.k`. A name's group is read back from its `g.` prefix. */
module SrcRoles {
  import opened Wrappers
  import opened Strings
  import opened Variants
  import Unicode
  import Names

  // The macro's input, as consecutive slices in declaration order.

  /** Plain roles `bg` to `select_alt`. */
  const ROOT_1: seq<string> := [
    "bg", "bg_alt", "fg", "fg_alt", "toolbar", "toolbar_popup", "toolbar_alt", "select",
    "select_2nd", "select_alt"
  ]

  /** Plain roles `accent` to `focus`. */
  const ROOT_2: seq<string> := [
    "accent", "accent_2nd", "accent_separator", "accent_popup", "accent_linenum",
    "inactive", "focus"
  ]

  /** Plain roles `guide` to `hint`. */
  const ROOT_3: seq<string> := [
    "guide", "guide_inlay", "guide_linenum", "guide_ruler", "guide_whitespace", "match",
    "error", "warning", "info", "hint"
  ]

  /** The `debug` block. */
  const DEBUG_KEYS: seq<string> := [
    "active", "breakpoint", "frameline"
  ]

  /** The `mode` block. */
  const MODE_KEYS: seq<string> := [
    "normal", "normal_2nd", "insert", "insert_2nd", "select", "select_2nd"
  ]

  /** The `syntax` block, `variable` to `variable_member`. */
  const SYNTAX_KEYS_1: seq<string> := [
    "variable", "variable_builtin", "variable_parameter", "variable_member"
  ]

  /** The `syntax` block, `keyword` to `keyword_storage`. */
  const SYNTAX_KEYS_2: seq<string> := [
    "keyword", "keyword_operator", "keyword_function", "keyword_conditional",
    "keyword_repeat", "keyword_import", "keyword_return", "keyword_exception",
    "keyword_directive", "keyword_storage"
  ]

  /** The `syntax` block, `type` to `function_macro`. */
  const SYNTAX_KEYS_3: seq<string> := [
    "type", "type_builtin", "type_variant", "function", "function_builtin",
    "function_method", "function_macro"
  ]

  /** The `syntax` block, `constant` to `namespace`. */
  const SYNTAX_KEYS_4: seq<string> := [
    "constant", "constant_builtin", "constant_boolean", "constant_number",
    "constant_character", "label", "constructor", "string", "attribute", "namespace"
  ]

  /** The `syntax` block, `tag` to `punctuation`. */
  const SYNTAX_KEYS_5: seq<string> := [
    "tag", "tag_builtin", "comment", "comment_doc", "operator", "punctuation"
  ]

  /** The `syntax` block, `special` to `special_punctuation`. */
  const SYNTAX_KEYS_6: seq<string> := [
    "special", "special_function", "special_character", "special_string",
    "special_punctuation"
  ]

  /** The `syntax` block. */
  const SYNTAX_KEYS: seq<string> :=
    SYNTAX_KEYS_1 + SYNTAX_KEYS_2 + SYNTAX_KEYS_3 + SYNTAX_KEYS_4 + SYNTAX_KEYS_5
    + SYNTAX_KEYS_6

  /** The `diff` block. */
  const DIFF_KEYS: seq<string> := [
    "plus", "minus", "delta", "delta_moved", "delta_conflict"
  ]

  /** The `markup` block, `heading` to `list_unchecked`. */
  const MARKUP_KEYS_1: seq<string> := [
    "heading", "heading_2nd", "heading_3rd", "heading_4th", "heading_5th", "heading_6th",
    "list", "list_numbered", "list_checked", "list_unchecked"
  ]

  /** The `markup` block, `link` to `raw`. */
  const MARKUP_KEYS_2: seq<string> := [
    "link", "link_text", "bold", "italic", "strikethrough", "quote", "raw"
  ]

  /** The `markup` block. */
  const MARKUP_KEYS: seq<string> :=
    MARKUP_KEYS_1 + MARKUP_KEYS_2

  /** The `ansi` block, `black` to `blue_bright`. */
  const ANSI_KEYS_1: seq<string> := [
    "black", "black_bright", "red", "red_bright", "green", "green_bright", "yellow",
    "yellow_bright", "blue", "blue_bright"
  ]

  /** The `ansi` block, `magenta` to `white_bright`. */
  const ANSI_KEYS_2: seq<string> := [
    "magenta", "magenta_bright", "cyan", "cyan_bright", "white", "white_bright"
  ]

  /** The `ansi` block. */
  const ANSI_KEYS: seq<string> :=
    ANSI_KEYS_1 + ANSI_KEYS_2

  /** One group block of the macro: `g { "k", ... }` stands for the names `g.k`, in
      the block's order. */
  function Qualify(group: string, keys: seq<string>): (names: seq<string>)
    ensures |names| == |keys|
    ensures forall i :: 0 <= i < |keys| ==> names[i] == group + "." + keys[i]
  {
    if |keys| == 0 then [] else [group + "." + keys[0]] + Qualify(group, keys[1..])
  }

  /** The declared groups, in declaration order. */
  const GROUPS: seq<string> := ["debug", "mode", "syntax", "diff", "markup", "ansi"]

  /** Every role name: the macro's expansion, in declaration order. */
  const ROLES: seq<string> :=
    ROOT_1 + ROOT_2 + ROOT_3 + Qualify("debug", DEBUG_KEYS) + Qualify("mode", MODE_KEYS)
    + Qualify("syntax", SYNTAX_KEYS) + Qualify("diff", DIFF_KEYS)
    + Qualify("markup", MARKUP_KEYS) + Qualify("ansi", ANSI_KEYS)

  /** A name that occurs in the table. */
  type Name = r: string | r in ROLES witness "bg"

  datatype Error =
    | Undefined(name: string)
    | CircularReference(chain: seq<string>)
    | MissingRequired(name: string)

  /** `Group`: the block a name was declared in, or `Root` for a plain name. */
  datatype Group = Root | Declared(name: string)

  /** `Kind`: a base role, or a variant carrying the base it falls back to. */
  datatype Kind = Base(name: Name) | Optional(base: Name)

  /** Prefixing a group keeps a name without `_` a base name. */
  lemma QualifiedPlain(group: string, key: string)
    requires VARIANT_SEPARATOR !in group && VARIANT_SEPARATOR !in key
    ensures IsBase(group + "." + key)
  {
    IsBaseIffNoSeparator(group + "." + key);
  }

  /** Prefixing a group does not move the cut: the base of `g.k` is `g.` followed by
      the base of `k`. */
  lemma QualifiedVariant(group: string, key: string)
    requires VARIANT_SEPARATOR in key
    ensures ExtractBase(group + "." + key) == group + "." + ExtractBase(key)
  {
    var prefix := group + ".";
    var b := ExtractBase(key);
    var suffix := key[|b| + 1..];
    assert key == b + [VARIANT_SEPARATOR] + suffix by {
      assert key == key[..|b|] + [key[|b|]] + key[|b| + 1..];
    }
    assert prefix + key == (prefix + b) + [VARIANT_SEPARATOR] + suffix;
    VariantBase(prefix + key, prefix + b, suffix);
  }

  /** Every block's names have their bases in the same block, once the group name
      holds no `_`. */
  lemma QualifyBasesPresent(group: string, keys: seq<string>)
    requires VARIANT_SEPARATOR !in group
    requires BasesPresent(keys)
    ensures BasesPresent(Qualify(group, keys))
  {
    var names := Qualify(group, keys);
    forall r | r in names && !IsBase(r)
      ensures ExtractBase(r) in names && IsBase(ExtractBase(r))
    {
      var i :| 0 <= i < |keys| && names[i] == r;
      var k := keys[i];
      IsBaseIffNoSeparator(k);
      if IsBase(k) {
        QualifiedPlain(group, k);
      }
      QualifiedVariant(group, k);
      var b := ExtractBase(k);
      var j :| 0 <= j < |keys| && keys[j] == b;
      IsBaseIffNoSeparator(b);
      QualifiedPlain(group, b);
      assert names[j] == group + "." + b;
    }
  }


  /** Entries 0 to 4 of `ROOT_1`. */
  lemma Root1BasesPresentFront()
    ensures forall i | 0 <= i < 5 :: BaseAt(ROOT_1, i)
  {
    forall i | 0 <= i < 5 ensures BaseAt(ROOT_1, i) {
      if i == 0 { Plain(ROOT_1[0]); }
      else if i == 1 { Variant(ROOT_1[1], ROOT_1[0], "alt"); }
      else if i == 2 { Plain(ROOT_1[2]); }
      else if i == 3 { Variant(ROOT_1[3], ROOT_1[2], "alt"); }
      else if i == 4 { Plain(ROOT_1[4]); }
    }
  }

  /** Entries 5 to 9 of `ROOT_1`. */
  lemma Root1BasesPresentBack()
    ensures forall i | 5 <= i < |ROOT_1| :: BaseAt(ROOT_1, i)
  {
    forall i | 5 <= i < |ROOT_1| ensures BaseAt(ROOT_1, i) {
      if i == 5 { Variant(ROOT_1[5], ROOT_1[4], "popup"); }
      else if i == 6 { Variant(ROOT_1[6], ROOT_1[4], "alt"); }
      else if i == 7 { Plain(ROOT_1[7]); }
      else if i == 8 { Variant(ROOT_1[8], ROOT_1[7], "2nd"); }
      else if i == 9 { Variant(ROOT_1[9], ROOT_1[7], "alt"); }
    }
  }

  /** Every variant in `ROOT_1` has its base in `ROOT_1`. */
  lemma Root1BasesPresent()
    ensures forall i | 0 <= i < |ROOT_1| :: BaseAt(ROOT_1, i)
  {
    Root1BasesPresentFront();
    Root1BasesPresentBack();
  }

  /** Entries 0 to 2 of `ROOT_2`. */
  lemma Root2BasesPresentFront()
    ensures forall i | 0 <= i < 3 :: BaseAt(ROOT_2, i)
  {
    forall i | 0 <= i < 3 ensures BaseAt(ROOT_2, i) {
      if i == 0 { Plain(ROOT_2[0]); }
      else if i == 1 { Variant(ROOT_2[1], ROOT_2[0], "2nd"); }
      else if i == 2 { Variant(ROOT_2[2], ROOT_2[0], "separator"); }
    }
  }

  /** Entries 3 to 6 of `ROOT_2`. */
  lemma Root2BasesPresentBack()
    ensures forall i | 3 <= i < |ROOT_2| :: BaseAt(ROOT_2, i)
  {
    forall i | 3 <= i < |ROOT_2| ensures BaseAt(ROOT_2, i) {
      if i == 3 { Variant(ROOT_2[3], ROOT_2[0], "popup"); }
      else if i == 4 { Variant(ROOT_2[4], ROOT_2[0], "linenum"); }
      else if i == 5 { Plain(ROOT_2[5]); }
      else if i == 6 { Plain(ROOT_2[6]); }
    }
  }

  /** Every variant in `ROOT_2` has its base in `ROOT_2`. */
  lemma Root2BasesPresent()
    ensures forall i | 0 <= i < |ROOT_2| :: BaseAt(ROOT_2, i)
  {
    Root2BasesPresentFront();
    Root2BasesPresentBack();
  }

  /** Entries 0 to 4 of `ROOT_3`. */
  lemma Root3BasesPresentFront()
    ensures forall i | 0 <= i < 5 :: BaseAt(ROOT_3, i)
  {
    forall i | 0 <= i < 5 ensures BaseAt(ROOT_3, i) {
      if i == 0 { Plain(ROOT_3[0]); }
      else if i == 1 { Variant(ROOT_3[1], ROOT_3[0], "inlay"); }
      else if i == 2 { Variant(ROOT_3[2], ROOT_3[0], "linenum"); }
      else if i == 3 { Variant(ROOT_3[3], ROOT_3[0], "ruler"); }
      else if i == 4 { Variant(ROOT_3[4], ROOT_3[0], "whitespace"); }
    }
  }

  /** Entries 5 to 9 of `ROOT_3`. */
  lemma Root3BasesPresentBack()
    ensures forall i | 5 <= i < |ROOT_3| :: BaseAt(ROOT_3, i)
  {
    forall i | 5 <= i < |ROOT_3| ensures BaseAt(ROOT_3, i) {
      if i == 5 { Plain(ROOT_3[5]); }
      else if i == 6 { Plain(ROOT_3[6]); }
      else if i == 7 { Plain(ROOT_3[7]); }
      else if i == 8 { Plain(ROOT_3[8]); }
      else if i == 9 { Plain(ROOT_3[9]); }
    }
  }

  /** Every variant in `ROOT_3` has its base in `ROOT_3`. */
  lemma Root3BasesPresent()
    ensures forall i | 0 <= i < |ROOT_3| :: BaseAt(ROOT_3, i)
  {
    Root3BasesPresentFront();
    Root3BasesPresentBack();
  }

  /** Every variant in `DEBUG_KEYS` has its base in `DEBUG_KEYS`. */
  lemma DebugKeysBasesPresent()
    ensures forall i | 0 <= i < |DEBUG_KEYS| :: BaseAt(DEBUG_KEYS, i)
  {
    forall i | 0 <= i < |DEBUG_KEYS| ensures BaseAt(DEBUG_KEYS, i) {
      if i == 0 { Plain(DEBUG_KEYS[0]); }
      else if i == 1 { Plain(DEBUG_KEYS[1]); }
      else if i == 2 { Plain(DEBUG_KEYS[2]); }
    }
  }

  /** Every variant in `MODE_KEYS` has its base in `MODE_KEYS`. */
  lemma ModeKeysBasesPresent()
    ensures forall i | 0 <= i < |MODE_KEYS| :: BaseAt(MODE_KEYS, i)
  {
    forall i | 0 <= i < |MODE_KEYS| ensures BaseAt(MODE_KEYS, i) {
      if i == 0 { Plain(MODE_KEYS[0]); }
      else if i == 1 { Variant(MODE_KEYS[1], MODE_KEYS[0], "2nd"); }
      else if i == 2 { Plain(MODE_KEYS[2]); }
      else if i == 3 { Variant(MODE_KEYS[3], MODE_KEYS[2], "2nd"); }
      else if i == 4 { Plain(MODE_KEYS[4]); }
      else if i == 5 { Variant(MODE_KEYS[5], MODE_KEYS[4], "2nd"); }
    }
  }

  /** Every variant in `SYNTAX_KEYS_1` has its base in `SYNTAX_KEYS_1`. */
  lemma SyntaxKeys1BasesPresent()
    ensures forall i | 0 <= i < |SYNTAX_KEYS_1| :: BaseAt(SYNTAX_KEYS_1, i)
  {
    forall i | 0 <= i < |SYNTAX_KEYS_1| ensures BaseAt(SYNTAX_KEYS_1, i) {
      if i == 0 { Plain(SYNTAX_KEYS_1[0]); }
      else if i == 1 { Variant(SYNTAX_KEYS_1[1], SYNTAX_KEYS_1[0], "builtin"); }
      else if i == 2 { Variant(SYNTAX_KEYS_1[2], SYNTAX_KEYS_1[0], "parameter"); }
      else if i == 3 { Variant(SYNTAX_KEYS_1[3], SYNTAX_KEYS_1[0], "member"); }
    }
  }

  /** Entries 0 to 4 of `SYNTAX_KEYS_2`. */
  lemma SyntaxKeys2BasesPresentFront()
    ensures forall i | 0 <= i < 5 :: BaseAt(SYNTAX_KEYS_2, i)
  {
    forall i | 0 <= i < 5 ensures BaseAt(SYNTAX_KEYS_2, i) {
      if i == 0 { Plain(SYNTAX_KEYS_2[0]); }
      else if i == 1 { Variant(SYNTAX_KEYS_2[1], SYNTAX_KEYS_2[0], "operator"); }
      else if i == 2 { Variant(SYNTAX_KEYS_2[2], SYNTAX_KEYS_2[0], "function"); }
      else if i == 3 { Variant(SYNTAX_KEYS_2[3], SYNTAX_KEYS_2[0], "conditional"); }
      else if i == 4 { Variant(SYNTAX_KEYS_2[4], SYNTAX_KEYS_2[0], "repeat"); }
    }
  }

  /** Entries 5 to 9 of `SYNTAX_KEYS_2`. */
  lemma SyntaxKeys2BasesPresentBack()
    ensures forall i | 5 <= i < |SYNTAX_KEYS_2| :: BaseAt(SYNTAX_KEYS_2, i)
  {
    forall i | 5 <= i < |SYNTAX_KEYS_2| ensures BaseAt(SYNTAX_KEYS_2, i) {
      if i == 5 { Variant(SYNTAX_KEYS_2[5], SYNTAX_KEYS_2[0], "import"); }
      else if i == 6 { Variant(SYNTAX_KEYS_2[6], SYNTAX_KEYS_2[0], "return"); }
      else if i == 7 { Variant(SYNTAX_KEYS_2[7], SYNTAX_KEYS_2[0], "exception"); }
      else if i == 8 { Variant(SYNTAX_KEYS_2[8], SYNTAX_KEYS_2[0], "directive"); }
      else if i == 9 { Variant(SYNTAX_KEYS_2[9], SYNTAX_KEYS_2[0], "storage"); }
    }
  }

  /** Every variant in `SYNTAX_KEYS_2` has its base in `SYNTAX_KEYS_2`. */
  lemma SyntaxKeys2BasesPresent()
    ensures forall i | 0 <= i < |SYNTAX_KEYS_2| :: BaseAt(SYNTAX_KEYS_2, i)
  {
    SyntaxKeys2BasesPresentFront();
    SyntaxKeys2BasesPresentBack();
  }

  /** Entries 0 to 2 of `SYNTAX_KEYS_3`. */
  lemma SyntaxKeys3BasesPresentFront()
    ensures forall i | 0 <= i < 3 :: BaseAt(SYNTAX_KEYS_3, i)
  {
    forall i | 0 <= i < 3 ensures BaseAt(SYNTAX_KEYS_3, i) {
      if i == 0 { Plain(SYNTAX_KEYS_3[0]); }
      else if i == 1 { Variant(SYNTAX_KEYS_3[1], SYNTAX_KEYS_3[0], "builtin"); }
      else if i == 2 { Variant(SYNTAX_KEYS_3[2], SYNTAX_KEYS_3[0], "variant"); }
    }
  }

  /** Entries 3 to 6 of `SYNTAX_KEYS_3`. */
  lemma SyntaxKeys3BasesPresentBack()
    ensures forall i | 3 <= i < |SYNTAX_KEYS_3| :: BaseAt(SYNTAX_KEYS_3, i)
  {
    forall i | 3 <= i < |SYNTAX_KEYS_3| ensures BaseAt(SYNTAX_KEYS_3, i) {
      if i == 3 { Plain(SYNTAX_KEYS_3[3]); }
      else if i == 4 { Variant(SYNTAX_KEYS_3[4], SYNTAX_KEYS_3[3], "builtin"); }
      else if i == 5 { Variant(SYNTAX_KEYS_3[5], SYNTAX_KEYS_3[3], "method"); }
      else if i == 6 { Variant(SYNTAX_KEYS_3[6], SYNTAX_KEYS_3[3], "macro"); }
    }
  }

  /** Every variant in `SYNTAX_KEYS_3` has its base in `SYNTAX_KEYS_3`. */
  lemma SyntaxKeys3BasesPresent()
    ensures forall i | 0 <= i < |SYNTAX_KEYS_3| :: BaseAt(SYNTAX_KEYS_3, i)
  {
    SyntaxKeys3BasesPresentFront();
    SyntaxKeys3BasesPresentBack();
  }

  /** Entries 0 to 4 of `SYNTAX_KEYS_4`. */
  lemma SyntaxKeys4BasesPresentFront()
    ensures forall i | 0 <= i < 5 :: BaseAt(SYNTAX_KEYS_4, i)
  {
    forall i | 0 <= i < 5 ensures BaseAt(SYNTAX_KEYS_4, i) {
      if i == 0 { Plain(SYNTAX_KEYS_4[0]); }
      else if i == 1 { Variant(SYNTAX_KEYS_4[1], SYNTAX_KEYS_4[0], "builtin"); }
      else if i == 2 { Variant(SYNTAX_KEYS_4[2], SYNTAX_KEYS_4[0], "boolean"); }
      else if i == 3 { Variant(SYNTAX_KEYS_4[3], SYNTAX_KEYS_4[0], "number"); }
      else if i == 4 { Variant(SYNTAX_KEYS_4[4], SYNTAX_KEYS_4[0], "character"); }
    }
  }

  /** Entries 5 to 9 of `SYNTAX_KEYS_4`. */
  lemma SyntaxKeys4BasesPresentBack()
    ensures forall i | 5 <= i < |SYNTAX_KEYS_4| :: BaseAt(SYNTAX_KEYS_4, i)
  {
    forall i | 5 <= i < |SYNTAX_KEYS_4| ensures BaseAt(SYNTAX_KEYS_4, i) {
      if i == 5 { Plain(SYNTAX_KEYS_4[5]); }
      else if i == 6 { Plain(SYNTAX_KEYS_4[6]); }
      else if i == 7 { Plain(SYNTAX_KEYS_4[7]); }
      else if i == 8 { Plain(SYNTAX_KEYS_4[8]); }
      else if i == 9 { Plain(SYNTAX_KEYS_4[9]); }
    }
  }

  /** Every variant in `SYNTAX_KEYS_4` has its base in `SYNTAX_KEYS_4`. */
  lemma SyntaxKeys4BasesPresent()
    ensures forall i | 0 <= i < |SYNTAX_KEYS_4| :: BaseAt(SYNTAX_KEYS_4, i)
  {
    SyntaxKeys4BasesPresentFront();
    SyntaxKeys4BasesPresentBack();
  }

  /** Every variant in `SYNTAX_KEYS_5` has its base in `SYNTAX_KEYS_5`. */
  lemma SyntaxKeys5BasesPresent()
    ensures forall i | 0 <= i < |SYNTAX_KEYS_5| :: BaseAt(SYNTAX_KEYS_5, i)
  {
    forall i | 0 <= i < |SYNTAX_KEYS_5| ensures BaseAt(SYNTAX_KEYS_5, i) {
      if i == 0 { Plain(SYNTAX_KEYS_5[0]); }
      else if i == 1 { Variant(SYNTAX_KEYS_5[1], SYNTAX_KEYS_5[0], "builtin"); }
      else if i == 2 { Plain(SYNTAX_KEYS_5[2]); }
      else if i == 3 { Variant(SYNTAX_KEYS_5[3], SYNTAX_KEYS_5[2], "doc"); }
      else if i == 4 { Plain(SYNTAX_KEYS_5[4]); }
      else if i == 5 { Plain(SYNTAX_KEYS_5[5]); }
    }
  }

  /** Every variant in `SYNTAX_KEYS_6` has its base in `SYNTAX_KEYS_6`. */
  lemma SyntaxKeys6BasesPresent()
    ensures forall i | 0 <= i < |SYNTAX_KEYS_6| :: BaseAt(SYNTAX_KEYS_6, i)
  {
    forall i | 0 <= i < |SYNTAX_KEYS_6| ensures BaseAt(SYNTAX_KEYS_6, i) {
      if i == 0 { Plain(SYNTAX_KEYS_6[0]); }
      else if i == 1 { Variant(SYNTAX_KEYS_6[1], SYNTAX_KEYS_6[0], "function"); }
      else if i == 2 { Variant(SYNTAX_KEYS_6[2], SYNTAX_KEYS_6[0], "character"); }
      else if i == 3 { Variant(SYNTAX_KEYS_6[3], SYNTAX_KEYS_6[0], "string"); }
      else if i == 4 { Variant(SYNTAX_KEYS_6[4], SYNTAX_KEYS_6[0], "punctuation"); }
    }
  }

  /** Every variant in `DIFF_KEYS` has its base in `DIFF_KEYS`. */
  lemma DiffKeysBasesPresent()
    ensures forall i | 0 <= i < |DIFF_KEYS| :: BaseAt(DIFF_KEYS, i)
  {
    forall i | 0 <= i < |DIFF_KEYS| ensures BaseAt(DIFF_KEYS, i) {
      if i == 0 { Plain(DIFF_KEYS[0]); }
      else if i == 1 { Plain(DIFF_KEYS[1]); }
      else if i == 2 { Plain(DIFF_KEYS[2]); }
      else if i == 3 { Variant(DIFF_KEYS[3], DIFF_KEYS[2], "moved"); }
      else if i == 4 { Variant(DIFF_KEYS[4], DIFF_KEYS[2], "conflict"); }
    }
  }

  /** Entries 0 to 4 of `MARKUP_KEYS_1`. */
  lemma MarkupKeys1BasesPresentFront()
    ensures forall i | 0 <= i < 5 :: BaseAt(MARKUP_KEYS_1, i)
  {
    forall i | 0 <= i < 5 ensures BaseAt(MARKUP_KEYS_1, i) {
      if i == 0 { Plain(MARKUP_KEYS_1[0]); }
      else if i == 1 { Variant(MARKUP_KEYS_1[1], MARKUP_KEYS_1[0], "2nd"); }
      else if i == 2 { Variant(MARKUP_KEYS_1[2], MARKUP_KEYS_1[0], "3rd"); }
      else if i == 3 { Variant(MARKUP_KEYS_1[3], MARKUP_KEYS_1[0], "4th"); }
      else if i == 4 { Variant(MARKUP_KEYS_1[4], MARKUP_KEYS_1[0], "5th"); }
    }
  }

  /** Entries 5 to 9 of `MARKUP_KEYS_1`. */
  lemma MarkupKeys1BasesPresentBack()
    ensures forall i | 5 <= i < |MARKUP_KEYS_1| :: BaseAt(MARKUP_KEYS_1, i)
  {
    forall i | 5 <= i < |MARKUP_KEYS_1| ensures BaseAt(MARKUP_KEYS_1, i) {
      if i == 5 { Variant(MARKUP_KEYS_1[5], MARKUP_KEYS_1[0], "6th"); }
      else if i == 6 { Plain(MARKUP_KEYS_1[6]); }
      else if i == 7 { Variant(MARKUP_KEYS_1[7], MARKUP_KEYS_1[6], "numbered"); }
      else if i == 8 { Variant(MARKUP_KEYS_1[8], MARKUP_KEYS_1[6], "checked"); }
      else if i == 9 { Variant(MARKUP_KEYS_1[9], MARKUP_KEYS_1[6], "unchecked"); }
    }
  }

  /** Every variant in `MARKUP_KEYS_1` has its base in `MARKUP_KEYS_1`. */
  lemma MarkupKeys1BasesPresent()
    ensures forall i | 0 <= i < |MARKUP_KEYS_1| :: BaseAt(MARKUP_KEYS_1, i)
  {
    MarkupKeys1BasesPresentFront();
    MarkupKeys1BasesPresentBack();
  }

  /** Entries 0 to 2 of `MARKUP_KEYS_2`. */
  lemma MarkupKeys2BasesPresentFront()
    ensures forall i | 0 <= i < 3 :: BaseAt(MARKUP_KEYS_2, i)
  {
    forall i | 0 <= i < 3 ensures BaseAt(MARKUP_KEYS_2, i) {
      if i == 0 { Plain(MARKUP_KEYS_2[0]); }
      else if i == 1 { Variant(MARKUP_KEYS_2[1], MARKUP_KEYS_2[0], "text"); }
      else if i == 2 { Plain(MARKUP_KEYS_2[2]); }
    }
  }

  /** Entries 3 to 6 of `MARKUP_KEYS_2`. */
  lemma MarkupKeys2BasesPresentBack()
    ensures forall i | 3 <= i < |MARKUP_KEYS_2| :: BaseAt(MARKUP_KEYS_2, i)
  {
    forall i | 3 <= i < |MARKUP_KEYS_2| ensures BaseAt(MARKUP_KEYS_2, i) {
      if i == 3 { Plain(MARKUP_KEYS_2[3]); }
      else if i == 4 { Plain(MARKUP_KEYS_2[4]); }
      else if i == 5 { Plain(MARKUP_KEYS_2[5]); }
      else if i == 6 { Plain(MARKUP_KEYS_2[6]); }
    }
  }

  /** Every variant in `MARKUP_KEYS_2` has its base in `MARKUP_KEYS_2`. */
  lemma MarkupKeys2BasesPresent()
    ensures forall i | 0 <= i < |MARKUP_KEYS_2| :: BaseAt(MARKUP_KEYS_2, i)
  {
    MarkupKeys2BasesPresentFront();
    MarkupKeys2BasesPresentBack();
  }

  /** Entries 0 to 4 of `ANSI_KEYS_1`. */
  lemma AnsiKeys1BasesPresentFront()
    ensures forall i | 0 <= i < 5 :: BaseAt(ANSI_KEYS_1, i)
  {
    forall i | 0 <= i < 5 ensures BaseAt(ANSI_KEYS_1, i) {
      if i == 0 { Plain(ANSI_KEYS_1[0]); }
      else if i == 1 { Variant(ANSI_KEYS_1[1], ANSI_KEYS_1[0], "bright"); }
      else if i == 2 { Plain(ANSI_KEYS_1[2]); }
      else if i == 3 { Variant(ANSI_KEYS_1[3], ANSI_KEYS_1[2], "bright"); }
      else if i == 4 { Plain(ANSI_KEYS_1[4]); }
    }
  }

  /** Entries 5 to 9 of `ANSI_KEYS_1`. */
  lemma AnsiKeys1BasesPresentBack()
    ensures forall i | 5 <= i < |ANSI_KEYS_1| :: BaseAt(ANSI_KEYS_1, i)
  {
    forall i | 5 <= i < |ANSI_KEYS_1| ensures BaseAt(ANSI_KEYS_1, i) {
      if i == 5 { Variant(ANSI_KEYS_1[5], ANSI_KEYS_1[4], "bright"); }
      else if i == 6 { Plain(ANSI_KEYS_1[6]); }
      else if i == 7 { Variant(ANSI_KEYS_1[7], ANSI_KEYS_1[6], "bright"); }
      else if i == 8 { Plain(ANSI_KEYS_1[8]); }
      else if i == 9 { Variant(ANSI_KEYS_1[9], ANSI_KEYS_1[8], "bright"); }
    }
  }

  /** Every variant in `ANSI_KEYS_1` has its base in `ANSI_KEYS_1`. */
  lemma AnsiKeys1BasesPresent()
    ensures forall i | 0 <= i < |ANSI_KEYS_1| :: BaseAt(ANSI_KEYS_1, i)
  {
    AnsiKeys1BasesPresentFront();
    AnsiKeys1BasesPresentBack();
  }

  /** Every variant in `ANSI_KEYS_2` has its base in `ANSI_KEYS_2`. */
  lemma AnsiKeys2BasesPresent()
    ensures forall i | 0 <= i < |ANSI_KEYS_2| :: BaseAt(ANSI_KEYS_2, i)
  {
    forall i | 0 <= i < |ANSI_KEYS_2| ensures BaseAt(ANSI_KEYS_2, i) {
      if i == 0 { Plain(ANSI_KEYS_2[0]); }
      else if i == 1 { Variant(ANSI_KEYS_2[1], ANSI_KEYS_2[0], "bright"); }
      else if i == 2 { Plain(ANSI_KEYS_2[2]); }
      else if i == 3 { Variant(ANSI_KEYS_2[3], ANSI_KEYS_2[2], "bright"); }
      else if i == 4 { Plain(ANSI_KEYS_2[4]); }
      else if i == 5 { Variant(ANSI_KEYS_2[5], ANSI_KEYS_2[4], "bright"); }
    }
  }

  /** The plain roles are closed under taking bases. */
  lemma RootBasesPresent()
    ensures BasesPresent(ROOT_1 + ROOT_2 + ROOT_3)
  {
    Root1BasesPresent();
    BasesPresentFromEntries(ROOT_1);
    Root2BasesPresent();
    BasesPresentFromEntries(ROOT_2);
    Root3BasesPresent();
    BasesPresentFromEntries(ROOT_3);
    var acc := ROOT_1;
    BasesPresentAppend(acc, ROOT_2);
    acc := acc + ROOT_2;
    BasesPresentAppend(acc, ROOT_3);
    acc := acc + ROOT_3;
  }

  /** The `debug` block is closed under taking bases. */
  lemma DebugGroupBasesPresent()
    ensures BasesPresent(Qualify("debug", DEBUG_KEYS))
  {
    DebugKeysBasesPresent();
    BasesPresentFromEntries(DEBUG_KEYS);
    QualifyBasesPresent("debug", DEBUG_KEYS);
  }

  /** The `mode` block is closed under taking bases. */
  lemma ModeGroupBasesPresent()
    ensures BasesPresent(Qualify("mode", MODE_KEYS))
  {
    ModeKeysBasesPresent();
    BasesPresentFromEntries(MODE_KEYS);
    QualifyBasesPresent("mode", MODE_KEYS);
  }

  /** The `syntax` block is closed under taking bases. */
  lemma SyntaxGroupBasesPresent()
    ensures BasesPresent(Qualify("syntax", SYNTAX_KEYS))
  {
    SyntaxKeys1BasesPresent();
    BasesPresentFromEntries(SYNTAX_KEYS_1);
    SyntaxKeys2BasesPresent();
    BasesPresentFromEntries(SYNTAX_KEYS_2);
    SyntaxKeys3BasesPresent();
    BasesPresentFromEntries(SYNTAX_KEYS_3);
    SyntaxKeys4BasesPresent();
    BasesPresentFromEntries(SYNTAX_KEYS_4);
    SyntaxKeys5BasesPresent();
    BasesPresentFromEntries(SYNTAX_KEYS_5);
    SyntaxKeys6BasesPresent();
    BasesPresentFromEntries(SYNTAX_KEYS_6);
    var acc := SYNTAX_KEYS_1;
    BasesPresentAppend(acc, SYNTAX_KEYS_2);
    acc := acc + SYNTAX_KEYS_2;
    BasesPresentAppend(acc, SYNTAX_KEYS_3);
    acc := acc + SYNTAX_KEYS_3;
    BasesPresentAppend(acc, SYNTAX_KEYS_4);
    acc := acc + SYNTAX_KEYS_4;
    BasesPresentAppend(acc, SYNTAX_KEYS_5);
    acc := acc + SYNTAX_KEYS_5;
    BasesPresentAppend(acc, SYNTAX_KEYS_6);
    acc := acc + SYNTAX_KEYS_6;
    QualifyBasesPresent("syntax", SYNTAX_KEYS);
  }

  /** The `diff` block is closed under taking bases. */
  lemma DiffGroupBasesPresent()
    ensures BasesPresent(Qualify("diff", DIFF_KEYS))
  {
    DiffKeysBasesPresent();
    BasesPresentFromEntries(DIFF_KEYS);
    QualifyBasesPresent("diff", DIFF_KEYS);
  }

  /** The `markup` block is closed under taking bases. */
  lemma MarkupGroupBasesPresent()
    ensures BasesPresent(Qualify("markup", MARKUP_KEYS))
  {
    MarkupKeys1BasesPresent();
    BasesPresentFromEntries(MARKUP_KEYS_1);
    MarkupKeys2BasesPresent();
    BasesPresentFromEntries(MARKUP_KEYS_2);
    var acc := MARKUP_KEYS_1;
    BasesPresentAppend(acc, MARKUP_KEYS_2);
    acc := acc + MARKUP_KEYS_2;
    QualifyBasesPresent("markup", MARKUP_KEYS);
  }

  /** The `ansi` block is closed under taking bases. */
  lemma AnsiGroupBasesPresent()
    ensures BasesPresent(Qualify("ansi", ANSI_KEYS))
  {
    AnsiKeys1BasesPresent();
    BasesPresentFromEntries(ANSI_KEYS_1);
    AnsiKeys2BasesPresent();
    BasesPresentFromEntries(ANSI_KEYS_2);
    var acc := ANSI_KEYS_1;
    BasesPresentAppend(acc, ANSI_KEYS_2);
    acc := acc + ANSI_KEYS_2;
    QualifyBasesPresent("ansi", ANSI_KEYS);
  }

  /** The design rule `classify` relies on: the base of every variant in the table is
      itself in the table, and is a base role. */
  lemma TableBasesPresent()
    ensures BasesPresent(ROLES)
  {
    RootBasesPresent();
    DebugGroupBasesPresent();
    ModeGroupBasesPresent();
    SyntaxGroupBasesPresent();
    DiffGroupBasesPresent();
    MarkupGroupBasesPresent();
    AnsiGroupBasesPresent();
    var acc := ROOT_1 + ROOT_2 + ROOT_3;
    BasesPresentAppend(acc, Qualify("debug", DEBUG_KEYS));
    acc := acc + Qualify("debug", DEBUG_KEYS);
    BasesPresentAppend(acc, Qualify("mode", MODE_KEYS));
    acc := acc + Qualify("mode", MODE_KEYS);
    BasesPresentAppend(acc, Qualify("syntax", SYNTAX_KEYS));
    acc := acc + Qualify("syntax", SYNTAX_KEYS);
    BasesPresentAppend(acc, Qualify("diff", DIFF_KEYS));
    acc := acc + Qualify("diff", DIFF_KEYS);
    BasesPresentAppend(acc, Qualify("markup", MARKUP_KEYS));
    acc := acc + Qualify("markup", MARKUP_KEYS);
    BasesPresentAppend(acc, Qualify("ansi", ANSI_KEYS));
    acc := acc + Qualify("ansi", ANSI_KEYS);
  }

  /** `Name::from_str`: the table entry equal to `s`. */
  function Parse(s: string): (r: Result<Name, Error>)
    ensures r.Ok? <==> s in ROLES
    ensures r.Ok? ==> r.value == s
    ensures r.Err? ==> r.error == Undefined(s)
  {
    if s in ROLES then Ok(s) else Err(Undefined(s))
  }

  /** The first of `groups` whose name followed by `.` starts `s`. */
  function FirstGroup(groups: seq<string>, s: string): (g: Group)
    ensures g.Declared? ==> g.name in groups && IsPrefix(g.name + ".", s)
    ensures g.Root? <==> forall i :: 0 <= i < |groups| ==> !IsPrefix(groups[i] + ".", s)
    ensures g.Declared? ==>
              exists m :: 0 <= m < |groups| && groups[m] == g.name
                          && forall i :: 0 <= i < m ==> !IsPrefix(groups[i] + ".", s)
  {
    if |groups| == 0 then Root
    else if IsPrefix(groups[0] + ".", s) then Declared(groups[0])
    else
      var g := FirstGroup(groups[1..], s);
      assert forall i :: 1 <= i < |groups| ==> groups[i] == groups[1..][i - 1];
      if g.Declared? then
        var m :| 0 <= m < |groups[1..]| && groups[1..][m] == g.name
                 && forall i :: 0 <= i < m ==> !IsPrefix(groups[1..][i] + ".", s);
        assert groups[m + 1] == g.name;
        g
      else g
  }

  /** `Name::group`: the match arms test the declared groups' `g.` prefixes in
      declaration order; a name none of them starts is a root name. */
  function GroupOf(n: string): (g: Group) {
    FirstGroup(GROUPS, n)
  }

  /** No group name holds a `.` or a `_`, and no two group names are equal. */
  lemma GroupNames()
    ensures forall i :: 0 <= i < |GROUPS| ==> '.' !in GROUPS[i] && VARIANT_SEPARATOR !in GROUPS[i]
    ensures forall i, j :: 0 <= i < j < |GROUPS| ==> GROUPS[i] != GROUPS[j]
  {
  }

  /** A group prefix `g.` of `s` puts a `.` in `s` right after `g`. */
  lemma DotAfterPrefix(g: string, s: string)
    ensures IsPrefix(g + ".", s) ==> |g| < |s| && s[..|g|] == g && s[|g|] == '.'
  {
    if IsPrefix(g + ".", s) {
      assert (g + ".")[|g|] == '.';
      assert s[..|g|] == (g + ".")[..|g|];
    }
  }

  /** Two dot-terminated group prefixes of one name are the same prefix. */
  lemma DotPrefixUnique(g: string, h: string, s: string)
    requires '.' !in g && '.' !in h
    requires IsPrefix(g + ".", s) && IsPrefix(h + ".", s)
    ensures g == h
  {
    DotAfterPrefix(g, s);
    DotAfterPrefix(h, s);
    assert s[..|g|] == g && s[..|h|] == h;
  }

  /** A name declared in block `g` reports group `g`, whatever its key. */
  lemma QualifiedGroup(g: string, key: string)
    requires g in GROUPS
    ensures GroupOf(g + "." + key) == Declared(g)
  {
    var s := g + "." + key;
    GroupNames();
    assert IsPrefix(g + ".", s) by {
      assert s[..|g| + 1] == g + ".";
    }
    var r := GroupOf(s);
    assert r.Declared?;
    DotPrefixUnique(r.name, g, s);
  }

  /** A name without `.` is a root name. */
  lemma UndottedIsRoot(s: string)
    requires '.' !in s
    ensures GroupOf(s) == Root
  {
    forall i | 0 <= i < |GROUPS| ensures !IsPrefix(GROUPS[i] + ".", s) {
      DotAfterPrefix(GROUPS[i], s);
    }
  }

  /** Every name of a block reports that block as its group. */
  lemma QualifyGroups(g: string, keys: seq<string>)
    requires g in GROUPS
    ensures forall i :: 0 <= i < |keys| ==> GroupOf(Qualify(g, keys)[i]) == Declared(g)
  {
    forall i | 0 <= i < |keys| ensures GroupOf(Qualify(g, keys)[i]) == Declared(g) {
      QualifiedGroup(g, keys[i]);
    }
  }

  /** `Kind::base`: the name itself for a base role, the fallback for a variant. */
  function KindBase(k: Kind): Name {
    match k
    case Base(name) => name
    case Optional(base) => base
  }

  /** `Name::classify`: a name without `_` is a base role; any other name is a
      variant of the table entry before its last `_`. The base is always a base role
      of the table, and the name is that base, a `_`, and a suffix without `_`. */
  function Classify(r: Name): (k: Kind)
    ensures k.Base? <==> VARIANT_SEPARATOR !in r
    ensures k.Base? ==> k.name == r
    ensures VARIANT_SEPARATOR !in KindBase(k)
    ensures k.Optional? ==>
              && |KindBase(k)| < |r| && r[..|KindBase(k)|] == KindBase(k)
              && r[|KindBase(k)|] == VARIANT_SEPARATOR
              && VARIANT_SEPARATOR !in r[|KindBase(k)| + 1..]
  {
    IsBaseIffNoSeparator(r);
    if IsBase(r) then Base(r)
    else
      TableBasesPresent();
      IsBaseIffNoSeparator(ExtractBase(r));
      Optional(ExtractBase(r))
  }

  /** A classified name falls back to what `extract_base` cuts off, and a variant's
      base classifies as a base role. */
  lemma ClassifyAgreesWithExtractBase(r: Name)
    ensures KindBase(Classify(r)) == ExtractBase(r)
    ensures Classify(KindBase(Classify(r))) == Base(KindBase(Classify(r)))
  {
    IsBaseIffNoSeparator(r);
  }

  /** `iter()`: every role, in declaration order. */
  function Iter(): seq<Name> {
    ROLES
  }

  /** `base()`: `iter()` filtered by `is_base`. */
  function BaseRoles(): seq<Name> {
    Bases(ROLES)
  }

  /** `base()` yields exactly the roles without `_`. */
  lemma BaseRolesAreBases()
    ensures forall r :: r in BaseRoles() ==> r in ROLES && VARIANT_SEPARATOR !in r
    ensures forall r :: r in ROLES && VARIANT_SEPARATOR !in r ==> r in BaseRoles()
  {
    forall r ensures IsBase(r) <==> VARIANT_SEPARATOR !in r {
      IsBaseIffNoSeparator(r);
    }
  }

  /** Every name `iter()` yields parses back to itself (the `roles_are_valid` test). */
  lemma IterParses()
    ensures forall i | 0 <= i < |Iter()| :: Parse(Iter()[i]) == Ok(Iter()[i])
  {
  }

  /** What a scheme may assign to a role. */
  datatype Value = Swatch(name: Names.Validated) | Role(role: Name)

  /** The domain of swatch names. */
  const SWATCH_DOMAIN: string := "swatch"

  /** `Value::parse`: `$name` refers to a swatch whose name must validate as a Unicode
      swatch name, and any other value must be a role name. */
  function ParseValue(u: Unicode.Services, val: string): (r: Result<Value, Error>)
    ensures |val| > 0 && val[0] == '$' ==>
              && (r.Ok? <==> Names.ValidName(u, Names.WholeName, u.nfc(val[1..])))
              && (r.Ok? ==> r.value == Swatch(Names.Validated(SWATCH_DOMAIN, Names.UnicodeText, u.nfc(val[1..]))))
              && (r.Err? ==> r.error == Undefined("invalid swatch reference: `$" + val[1..] + "`"))
    ensures !(|val| > 0 && val[0] == '$') ==>
              && (r.Ok? <==> val in ROLES)
              && (r.Ok? ==> r.value == Role(val))
              && (r.Err? ==> r.error == Undefined(val))
  {
    if |val| > 0 && val[0] == '$' then
      var rest := val[1..];
      match Names.ParseValidated(u, SWATCH_DOMAIN, Names.UnicodeText, rest)
      case Ok(name) => Ok(Swatch(name))
      case Err(_) => Err(Undefined("invalid swatch reference: `$" + rest + "`"))
    else
      var role :- Parse(val);
      Ok(Role(role))
  }
}

=== FILE: strategy.dfy ===
/** The write-decision engine: given what the ledger knows about an output file and
    the write mode chosen on the command line, decide what to do with the file. */
module Strategy {

  /** How aggressively existing outputs may be replaced. */
  datatype Write = Smart | Skip | Force

  datatype Decision = Create | Recreate | Update | Overwrite | Skip | Conflict

  /** What the ledger and the file system say about one output path. */
  datatype FileStatus =
    | NotTracked
    | Tracked(fileExists: bool, userModified: bool, templateChanged: bool, schemeChanged: bool)

  /** The file is tracked and still on disk. */
  predicate Present(status: FileStatus) {
    status.Tracked? && status.fileExists
  }

  /** The file is tracked, on disk, and was edited since it was generated. */
  predicate UserEdited(status: FileStatus) {
    Present(status) && status.userModified
  }

  /** Some input the file was rendered from has changed. */
  predicate InputsChanged(status: FileStatus)
    requires status.Tracked?
  {
    status.templateChanged || status.schemeChanged
  }

  /** Whether the decision leads to the file being written. */
  function ShouldWrite(d: Decision): (w: bool)
    ensures w <==> d in {Create, Recreate, Update, Overwrite}
    ensures !w <==> d in {Decision.Skip, Conflict}
  {
    match d
    case Create | Recreate | Update | Overwrite => true
    case Skip | Conflict => false
  }

  /** The verb logged for each decision. */
  function LogAction(d: Decision): (s: string)
    ensures |s| > 0
  {
    match d
    case Create => "creating"
    case Recreate => "recreating"
    case Update => "updating"
    case Overwrite => "overwriting"
    case Skip => "skipped"
    case Conflict => "conflict"
  }

  /** The decision table, arms in the source's priority order. Each outcome is
      characterised independently of that order by one if-and-only-if. */
  function Decide(status: FileStatus, mode: Write): (d: Decision)
    ensures d == Create <==> status.NotTracked?
    ensures d == Recreate <==> status.Tracked? && !status.fileExists
    ensures d == Overwrite <==> UserEdited(status) && mode == Force
    ensures d == Conflict <==> UserEdited(status) && mode == Smart
    ensures d == Update <==>
              Present(status) && !status.userModified && InputsChanged(status) && mode != Write.Skip
    ensures d == Decision.Skip <==>
              Present(status) && ((!status.userModified && !InputsChanged(status)) || mode == Write.Skip)
  {
    match (status, mode)
    case (NotTracked, _) => Create
    case (Tracked(false, _, _, _), _) => Recreate
    case (Tracked(_, true, _, _), Force) => Overwrite
    case (Tracked(_, true, _, _), Smart) => Conflict
    case (Tracked(_, false, false, false), _) => Decision.Skip
    case (Tracked(_, _, _, _), Skip) => Decision.Skip
    case (Tracked(_, false, _, _), _) => Update
  }

  /** Every decision is logged with its own verb. */
  lemma LogActionDistinct(a: Decision, b: Decision)
    ensures LogAction(a) == LogAction(b) <==> a == b
  {
    if a != b {
      assert LogAction(a)[1] != LogAction(b)[1];
    }
  }

  /** An untracked path is created whatever the mode. */
  lemma NotTrackedCreates(mode: Write)
    ensures Decide(NotTracked, mode) == Create
  {
  }

  /** A tracked file that disappeared is recreated whatever its flags and the mode. */
  lemma MissingFileRecreated(um: bool, tc: bool, sc: bool, mode: Write)
    ensures Decide(Tracked(false, um, tc, sc), mode) == Recreate
  {
  }

  /** A user-edited file: Force overwrites, Smart reports a conflict, Skip skips. */
  lemma UserEditOutcomes(tc: bool, sc: bool)
    ensures Decide(Tracked(true, true, tc, sc), Force) == Overwrite
    ensures Decide(Tracked(true, true, tc, sc), Smart) == Conflict
    ensures Decide(Tracked(true, true, tc, sc), Write.Skip) == Decision.Skip
  {
  }

  /** Nothing to do when nothing changed on either side. */
  lemma UnchangedSkipped(mode: Write)
    ensures Decide(Tracked(true, false, false, false), mode) == Decision.Skip
  {
  }

  /** Skip mode only ever creates what is missing. */
  lemma SkipModeOnlyFillsGaps(status: FileStatus)
    ensures Decide(status, Write.Skip) in {Create, Recreate, Decision.Skip}
    ensures ShouldWrite(Decide(status, Write.Skip)) <==> !Present(status)
  {
  }

  /** Safety of the incremental renderer: an edited file is written only under Force,
      and Force never reports a conflict. */
  lemma EditsClobberedOnlyByForce(status: FileStatus, mode: Write)
    requires UserEdited(status)
    ensures ShouldWrite(Decide(status, mode)) <==> mode == Force
    ensures mode == Force ==> Decide(status, mode) != Conflict
  {
  }

  /** Changed inputs are picked up under Smart and Force when the user did not edit. */
  lemma ChangedInputsUpdate(tc: bool, sc: bool, mode: Write)
    requires tc || sc
    requires mode != Write.Skip
    ensures Decide(Tracked(true, false, tc, sc), mode) == Update
  {
  }
}

=== FILE: strings.dfy ===
/** The slice of Rust's `str` API the tool relies on, written over `seq<char>`.
    Every function here follows the standard library's documented behaviour:
    `replace` rewrites non-overlapping matches left to right, `split` on a char
    yields one more piece than there are separators, `trim` strips characters with
    the Unicode White_Space property, and `lines` strips one `\r` only from lines
    that were ended by `\n`. */
module Strings {
  import opened Wrappers

  // ---------------------------------------------------------------------------
  // Prefixes, suffixes, occurrences

  predicate IsPrefix(p: string, s: string) {
    |p| <= |s| && s[..|p|] == p
  }

  predicate IsSuffix(p: string, s: string) {
    |p| <= |s| && s[|s| - |p|..] == p
  }

  /** `p` occurs in `s` starting at index `i`. */
  predicate OccursAt(s: string, p: string, i: nat) {
    i + |p| <= |s| && s[i..i + |p|] == p
  }

  /** Rust's `str::contains` with a string pattern. */
  predicate Contains(s: string, p: string) {
    exists i: nat | i <= |s| :: OccursAt(s, p, i)
  }

  /** First occurrence of `p` in `s` at or after `i`. */
  function FindFrom(s: string, p: string, i: nat): (r: Option<nat>)
    decreases |s| - i
    ensures r.Some? ==> i <= r.value && OccursAt(s, p, r.value)
    ensures r.Some? ==> forall j: nat :: i <= j < r.value ==> !OccursAt(s, p, j)
    ensures r.None? ==> forall j: nat :: i <= j ==> !OccursAt(s, p, j)
  {
    if i + |p| > |s| then None
    else if OccursAt(s, p, i) then Some(i)
    else FindFrom(s, p, i + 1)
  }

  /** Rust's `str::find` with a string pattern: the first occurrence. */
  function Find(s: string, p: string): (r: Option<nat>)
    ensures r.Some? ==> OccursAt(s, p, r.value)
    ensures r.Some? ==> forall j: nat :: j < r.value ==> !OccursAt(s, p, j)
    ensures r.None? <==> !Contains(s, p)
  {
    FindFrom(s, p, 0)
  }

  lemma ContainsSelf(s: string)
    ensures Contains(s, s)
  {
    assert OccursAt(s, s, 0);
  }

  lemma ContainsAppend(a: string, p: string, b: string)
    requires Contains(a, p) || Contains(b, p)
    ensures Contains(a + b, p)
  {
    if Contains(a, p) {
      var i: nat :| i <= |a| && OccursAt(a, p, i);
      assert (a + b)[i..i + |p|] == a[i..i + |p|];
      assert OccursAt(a + b, p, i);
    } else {
      var i: nat :| i <= |b| && OccursAt(b, p, i);
      assert (a + b)[|a| + i..|a| + i + |p|] == b[i..i + |p|];
      assert OccursAt(a + b, p, |a| + i);
    }
  }

  lemma ContainsInfix(a: string, p: string, b: string)
    ensures Contains(a + p + b, p)
  {
    assert (a + p + b)[|a|..|a| + |p|] == p;
    assert OccursAt(a + p + b, p, |a|);
  }

  /** Rust's `str::replace` for a non-empty pattern: every non-overlapping match,
      scanning left to right, is replaced by `rep`. */
  function Replace(s: string, pat: string, rep: string): (r: string)
    requires |pat| > 0
    decreases |s|
    ensures !Contains(s, pat) ==> r == s
  {
    if |s| < |pat| then
      assert !Contains(s, pat) by {
        forall i: nat ensures !OccursAt(s, pat, i) { }
      }
      s
    else if s[..|pat|] == pat then
      assert OccursAt(s, pat, 0);
      rep + Replace(s[|pat|..], pat, rep)
    else
      var rest := Replace(s[1..], pat, rep);
      assert !Contains(s, pat) ==> !Contains(s[1..], pat) by {
        if Contains(s[1..], pat) {
          var i: nat :| i <= |s[1..]| && OccursAt(s[1..], pat, i);
          assert s[i + 1..i + 1 + |pat|] == s[1..][i..i + |pat|];
          assert OccursAt(s, pat, i + 1);
        }
      }
      [s[0]] + rest
  }

  /** A character that neither the text nor the replacement holds is not in the
      result: replacement only ever writes `rep` or copies `s`. */
  lemma {:induction false} ReplaceAvoids(s: string, pat: string, rep: string, c: char)
    requires |pat| > 0
    ensures c !in s && c !in rep ==> c !in Replace(s, pat, rep)
    decreases |s|
  {
    if |s| < |pat| {
    } else if s[..|pat|] == pat {
      ReplaceAvoids(s[|pat|..], pat, rep, c);
    } else {
      ReplaceAvoids(s[1..], pat, rep, c);
    }
  }

  /** Replacing every occurrence of a one-character pattern by text without that
      character leaves none of it. */
  lemma {:induction false} ReplaceRemoves(s: string, c: char, rep: string)
    requires c !in rep
    ensures c !in Replace(s, [c], rep)
    decreases |s|
  {
    if |s| < 1 {
    } else if s[..1] == [c] {
      ReplaceRemoves(s[1..], c, rep);
    } else {
      assert s[0] != c by {
        assert s[..1][0] == s[0];
      }
      ReplaceRemoves(s[1..], c, rep);
    }
  }

  // ---------------------------------------------------------------------------
  // Characters in strings

  /** First index of `c` in `s`. */
  function IndexOf(s: string, c: char): (i: nat)
    requires c in s
    ensures i < |s| && s[i] == c && c !in s[..i]
  {
    if s[0] == c then 0 else 1 + IndexOf(s[1..], c)
  }

  /** Last index of `c` in `s`. */
  function LastIndexOf(s: string, c: char): (i: nat)
    requires c in s
    ensures i < |s| && s[i] == c && c !in s[i + 1..]
  {
    if s[|s| - 1] == c then |s| - 1
    else
      assert c in s[..|s| - 1] by {
        var k :| 0 <= k < |s| && s[k] == c;
        assert s[..|s| - 1][k] == c;
      }
      LastIndexOf(s[..|s| - 1], c)
  }

  /** Rust's `str::split_once(c)`: the text around the first `c`. */
  function SplitOnce(s: string, c: char): (r: Option<(string, string)>)
    ensures r.None? <==> c !in s
    ensures r.Some? ==> s == r.value.0 + [c] + r.value.1 && c !in r.value.0
  {
    if c in s then
      var i := IndexOf(s, c);
      assert s == s[..i] + [c] + s[i + 1..];
      Some((s[..i], s[i + 1..]))
    else None
  }

  /** Rust's `str::rsplit_once(c)`: the text around the last `c`. */
  function RSplitOnce(s: string, c: char): (r: Option<(string, string)>)
    ensures r.None? <==> c !in s
    ensures r.Some? ==> s == r.value.0 + [c] + r.value.1 && c !in r.value.1
  {
    if c in s then
      var i := LastIndexOf(s, c);
      assert s == s[..i] + [c] + s[i + 1..];
      Some((s[..i], s[i + 1..]))
    else None
  }

  /** The last `c` is the one before a `c`-free tail. */
  lemma {:induction false} LastIndexOfAt(a: string, b: string, c: char)
    requires c !in b
    decreases |b|
    ensures LastIndexOf(a + [c] + b, c) == |a|
  {
    var s := a + [c] + b;
    if |b| > 0 {
      var m := |b| - 1;
      assert s[|s| - 1] == b[m];
      assert s[..|s| - 1] == a + [c] + b[..m];
      LastIndexOfAt(a, b[..m], c);
    }
  }

  /** Splitting at the last `c` recovers the parts around a `c`-free tail. */
  lemma RSplitOnceAt(a: string, b: string, c: char)
    requires c !in b
    ensures RSplitOnce(a + [c] + b, c) == Some((a, b))
  {
    var s := a + [c] + b;
    assert s[|a|] == c;
    LastIndexOfAt(a, b, c);
    assert s[..|a|] == a && s[|a| + 1..] == b;
  }

  /** Rust's `[String]::join(sep)`. */
  function Join(parts: seq<string>, sep: string): (r: string)
    decreases |parts|
  {
    if |parts| == 0 then ""
    else if |parts| == 1 then parts[0]
    else parts[0] + sep + Join(parts[1..], sep)
  }

  /** Rust's `str::split(c)`: the pieces between occurrences of `c`; joining them
      back with `c` gives the original string. */
  function Split(s: string, c: char): (r: seq<string>)
    decreases |s|
    ensures |r| >= 1
    ensures forall k :: 0 <= k < |r| ==> c !in r[k]
    ensures Join(r, [c]) == s
  {
    if c in s then
      var i := IndexOf(s, c);
      var rest := Split(s[i + 1..], c);
      assert s == s[..i] + [c] + s[i + 1..];
      [s[..i]] + rest
    else [s]
  }

  /** The separator's first occurrence ends the first piece. */
  lemma SplitAfter(a: string, c: char, b: string)
    requires c !in a
    ensures Split(a + [c] + b, c) == [a] + Split(b, c)
  {
    var s := a + [c] + b;
    assert s[|a|] == c;
    assert s[..|a|] == a && s[|a| + 1..] == b;
  }

  /** A character of a joined string comes from a part or from the separator. */
  lemma {:induction false} JoinChars(parts: seq<string>, sep: string, c: char)
    decreases |parts|
    ensures c in Join(parts, sep) ==> c in sep || exists k :: 0 <= k < |parts| && c in parts[k]
  {
    if |parts| > 1 {
      JoinChars(parts[1..], sep, c);
      if c in Join(parts[1..], sep) && c !in sep {
        var k :| 0 <= k < |parts[1..]| && c in parts[1..][k];
        assert parts[k + 1] == parts[1..][k];
      }
    }
  }

  /** Every character of every part is in the joined string. */
  lemma {:induction false} JoinKeeps(parts: seq<string>, sep: string, k: nat, c: char)
    requires k < |parts| && c in parts[k]
    decreases |parts|
    ensures c in Join(parts, sep)
  {
    if |parts| > 1 && k > 0 {
      assert parts[1..][k - 1] == parts[k];
      JoinKeeps(parts[1..], sep, k - 1, c);
    }
  }

  /** Number of occurrences of `c` in `s`. */
  function CountChar(s: string, c: char): (n: nat)
    ensures n <= |s|
    ensures n == 0 <==> c !in s
  {
    if |s| == 0 then 0
    else (if s[0] == c then 1 else 0) + CountChar(s[1..], c)
  }

  // ---------------------------------------------------------------------------
  // Whitespace, trimming and lines

  /** Rust's `char::is_whitespace`: the Unicode White_Space property. */
  predicate IsWhitespace(c: char) {
    ('\t' <= c <= '\r') || c == ' ' || c == '\U{0085}' || c == '\U{00A0}' || c == '\U{1680}'
    || ('\U{2000}' <= c <= '\U{200A}') || c == '\U{2028}' || c == '\U{2029}'
    || c == '\U{202F}' || c == '\U{205F}' || c == '\U{3000}'
  }

  predicate IsBlank(s: string) {
    forall k :: 0 <= k < |s| ==> IsWhitespace(s[k])
  }

  /** Rust's `str::trim_start`. */
  function TrimStart(s: string): (r: string)
    ensures IsSuffix(r, s)
    ensures IsBlank(s[..|s| - |r|])
    ensures r == [] || !IsWhitespace(r[0])
  {
    if |s| > 0 && IsWhitespace(s[0]) then
      var r := TrimStart(s[1..]);
      assert s[..|s| - |r|] == [s[0]] + s[1..][..|s| - 1 - |r|];
      r
    else s
  }

  /** Rust's `str::trim_end`. */
  function TrimEnd(s: string): (r: string)
    ensures IsPrefix(r, s)
    ensures IsBlank(s[|r|..])
    ensures r == [] || !IsWhitespace(r[|r| - 1])
  {
    if |s| > 0 && IsWhitespace(s[|s| - 1]) then
      var r := TrimEnd(s[..|s| - 1]);
      assert s[|r|..] == s[..|s| - 1][|r|..] + [s[|s| - 1]];
      r
    else s
  }

  /** Rust's `str::trim`. */
  function Trim(s: string): (r: string)
    ensures r == [] <==> IsBlank(s)
  {
    var t := TrimStart(s);
    var r := TrimEnd(t);
    r
  }

  /** A trimmed string starts and ends with a non-whitespace character. */
  lemma TrimmedEnds(s: string)
    ensures Trim(s) == [] || (!IsWhitespace(Trim(s)[0]) && !IsWhitespace(Trim(s)[|Trim(s)| - 1]))
  {
  }

  lemma TrimOfTrimmed(s: string)
    requires s == [] || (!IsWhitespace(s[0]) && !IsWhitespace(s[|s| - 1]))
    ensures Trim(s) == s
  {
  }

  lemma {:induction false} TrimStartBlank(a: string, u: string)
    requires IsBlank(a)
    decreases |a|
    ensures TrimStart(a + u) == TrimStart(u)
  {
    if |a| == 0 {
      assert a + u == u;
    } else {
      assert (a + u)[0] == a[0] && (a + u)[1..] == a[1..] + u;
      TrimStartBlank(a[1..], u);
    }
  }

  lemma {:induction false} TrimEndBlank(u: string, b: string)
    requires IsBlank(b)
    decreases |b|
    ensures TrimEnd(u + b) == TrimEnd(u)
  {
    if |b| == 0 {
      assert u + b == u;
    } else {
      assert (u + b)[|u + b| - 1] == b[|b| - 1];
      assert (u + b)[..|u + b| - 1] == u + b[..|b| - 1];
      TrimEndBlank(u, b[..|b| - 1]);
    }
  }

  /** Trimming removes exactly the whitespace padding around a trimmed text. */
  lemma TrimPadded(a: string, t: string, b: string)
    requires IsBlank(a) && IsBlank(b)
    requires t == [] || (!IsWhitespace(t[0]) && !IsWhitespace(t[|t| - 1]))
    ensures Trim(a + t + b) == t
  {
    assert a + t + b == a + (t + b);
    TrimStartBlank(a, t + b);
    if t == [] {
      assert t + b == b + [];
      TrimStartBlank(b, []);
    } else {
      assert (t + b)[0] == t[0];
    }
    TrimEndBlank(t, b);
  }

  /** Trimming keeps every character that is not whitespace, and adds none. */
  lemma TrimChars(s: string, c: char)
    ensures c in Trim(s) ==> c in s
    ensures !IsWhitespace(c) ==> (c in Trim(s) <==> c in s)
  {
    var t := TrimStart(s);
    var r := TrimEnd(t);
    var front := s[..|s| - |t|];
    var back := t[|r|..];
    assert s == front + t;
    assert t == r + back;
    BlankMember(front, c);
    BlankMember(back, c);
    MemberOfThree(front, r, back, c);
  }

  lemma MemberOfThree<T>(a: seq<T>, b: seq<T>, d: seq<T>, x: T)
    ensures x in a + (b + d) <==> x in a || x in b || x in d
  {
  }

  /** A blank string holds only whitespace. */
  lemma BlankMember(s: string, c: char)
    requires IsBlank(s)
    ensures c in s ==> IsWhitespace(c)
  {
  }

  /** Removes one trailing `\r`. */
  function StripCr(line: string): (r: string)
    ensures '\n' !in line ==> '\n' !in r
    ensures IsPrefix(r, line)
  {
    if |line| > 0 && line[|line| - 1] == '\r' then line[..|line| - 1] else line
  }

  /** Rust's `str::lines`: split after each `\n`, strip that `\n` and then one `\r`
      before it; a final line without `\n` keeps any trailing `\r`, and there is no
      empty line after a final `\n`. */
  function Lines(s: string): (r: seq<string>)
    decreases |s|
    ensures forall k :: 0 <= k < |r| ==> '\n' !in r[k]
    ensures s == [] <==> r == []
  {
    if s == [] then []
    else if '\n' in s then
      var i := IndexOf(s, '\n');
      [StripCr(s[..i])] + Lines(s[i + 1..])
    else [s]
  }

  // ---------------------------------------------------------------------------
  // ASCII

  predicate IsAsciiChar(c: char) {
    c as int < 128
  }

  predicate IsAscii(s: string) {
    forall k :: 0 <= k < |s| ==> IsAsciiChar(s[k])
  }

  /** Rust's `char::is_ascii_alphanumeric`. */
  predicate IsAsciiAlphanumeric(c: char) {
    ('a' <= c <= 'z') || ('A' <= c <= 'Z') || ('0' <= c <= '9')
  }

  function AsciiLowerChar(c: char): (r: char)
    ensures IsAsciiChar(c) <==> IsAsciiChar(r)
    ensures !('A' <= r <= 'Z')
  {
    if 'A' <= c <= 'Z' then (c as int + 32) as char else c
  }

  function AsciiUpperChar(c: char): (r: char)
    ensures IsAsciiChar(c) <==> IsAsciiChar(r)
    ensures !('a' <= r <= 'z')
  {
    if 'a' <= c <= 'z' then (c as int - 32) as char else c
  }

  function AsciiUpper(s: string): (r: string)
    ensures |r| == |s|
    ensures forall k :: 0 <= k < |s| ==> r[k] == AsciiUpperChar(s[k])
  {
    seq(|s|, k requires 0 <= k < |s| => AsciiUpperChar(s[k]))
  }

  /** Rust's `str::eq_ignore_ascii_case`. */
  predicate EqIgnoreAsciiCase(a: string, b: string) {
    |a| == |b| && forall k :: 0 <= k < |a| ==> AsciiLowerChar(a[k]) == AsciiLowerChar(b[k])
  }

  // ---------------------------------------------------------------------------
  // UTF-8 length

  /** Bytes the UTF-8 encoding of `c` takes (RFC 3629, section 3). */
  function Utf8Width(c: char): (n: nat)
    ensures 1 <= n <= 4
    ensures n == 1 <==> IsAsciiChar(c)
  {
    if c as int < 0x80 then 1
    else if c as int < 0x800 then 2
    else if c as int < 0x1_0000 then 3
    else 4
  }

  /** Rust's `str::len`: the length in UTF-8 bytes. */
  function ByteLen(s: string): (n: nat)
    ensures |s| <= n <= 4 * |s|
    ensures IsAscii(s) ==> n == |s|
  {
    if |s| == 0 then 0 else Utf8Width(s[0]) + ByteLen(s[1..])
  }
}

=== FILE: swatches.dfy ===
/** Palette swatches: a validated display name, a colour, and an ASCII name that is
    either given explicitly or generated from the display name. Three snapshots
    parse swatches the same way and differ only in which reserved-name rule their
    name validator applies. A palette is an insertion-ordered set of swatches in
    which two swatches are the same when their display names are. */
module Swatches {
  import opened Wrappers
  import opened Strings
  import opened Unicode
  import Names
  import Toml
  import opened Color
  import Collisions

  datatype Swatch = Swatch(name: string, color: Rgb, ascii: string)

  /** Why a swatch's TOML value was rejected. */
  datatype StructureReason = MissingHex | NotStringOrTable

  datatype Error =
    | Name(nameError: Names.Error)
    | ParsingHex(text: string)
    | InvalidTomlStructure(key: string, reason: StructureReason)
    | CollidingAsciiNames(asciiName: string, displayNames: seq<string>)
    | CollidingNameCases(names: seq<string>)
    | PaletteNotTable

  /** The colour parser of the `hex_color` crate. */
  type HexParser = string -> Option<Rgb>

  const CONTEXT: string := "swatch"

  function ParseColor(parseHex: HexParser, text: string): (r: Result<Rgb, Error>)
    ensures r.Ok? <==> parseHex(text).Some?
    ensures r.Ok? ==> r.value == parseHex(text).value
    ensures r.Err? ==> r.error == ParsingHex(text)
  {
    match parseHex(text)
    case Some(c) => Ok(c)
    case None => Err(ParsingHex(text))
  }

  function NameResult<T>(r: Result<T, Names.Error>): (r': Result<T, Error>)
    ensures r'.Ok? <==> r.Ok?
    ensures r.Ok? ==> r'.value == r.value
    ensures r.Err? ==> r'.error == Name(r.error)
  {
    match r
    case Ok(v) => Ok(v)
    case Err(e) => Err(Name(e))
  }

  /** The ASCII name a table value asks for: its `ascii` string, if it has one. */
  function ExplicitAscii(val: Toml.Value): Option<string> {
    if val.TTable? then Toml.GetStr(val.entries, "ascii") else None
  }

  /** `Swatch::parse`. The display name is validated before the value is looked at.
      A string value is the colour and the ASCII name is generated; a table must
      hold a string `hex` and may hold a string `ascii` that replaces the generated
      name; any other value is rejected. */
  function ParseSwatch(u: Services, rule: Names.ReservedRule, parseHex: HexParser, key: string, val: Toml.Value)
    : (r: Result<Swatch, Error>)
    ensures Names.ParseDisplay(u, rule, key, CONTEXT).Err? ==>
              r == Err(Name(Names.ParseDisplay(u, rule, key, CONTEXT).error))
    ensures Names.ParseDisplay(u, rule, key, CONTEXT).Ok? && !val.TString? && !val.TTable? ==>
              r == Err(InvalidTomlStructure(key, NotStringOrTable))
    ensures Names.ParseDisplay(u, rule, key, CONTEXT).Ok? && val.TTable?
            && Toml.GetStr(val.entries, "hex").None? ==>
              r == Err(InvalidTomlStructure(key, MissingHex))
    ensures r.Err? ==> r.error.Name? || r.error.ParsingHex? || r.error.InvalidTomlStructure?
    ensures r.Ok? ==> r.value.name == u.nfc(key) && Names.ValidName(u, rule, r.value.name)
    ensures r.Ok? && val.TString? ==> parseHex(val.s) == Some(r.value.color)
    ensures r.Ok? && val.TTable? ==> parseHex(Toml.GetStr(val.entries, "hex").value) == Some(r.value.color)
    ensures r.Ok? && ExplicitAscii(val).Some? ==>
              Names.ParseAscii(u, rule, ExplicitAscii(val).value, CONTEXT) == Ok(r.value.ascii)
    ensures r.Ok? && ExplicitAscii(val).None? ==>
              Names.ToAscii(u, rule, r.value.name, CONTEXT) == Ok(r.value.ascii)
  {
    var name :- NameResult(Names.ParseDisplay(u, rule, key, CONTEXT));
    match val
    case TString(hexText) =>
      var color :- ParseColor(parseHex, hexText);
      var ascii :- NameResult(Names.ToAscii(u, rule, name, CONTEXT));
      Ok(Swatch(name, color, ascii))
    case TTable(entries) =>
      var hexText :- match Toml.GetStr(entries, "hex")
                      case Some(h) => Ok(h)
                      case None => Err(InvalidTomlStructure(key, MissingHex));
      var color :- ParseColor(parseHex, hexText);
      var ascii :- match Toml.GetStr(entries, "ascii")
                   case Some(a) => NameResult(Names.ParseAscii(u, rule, a, CONTEXT))
                   case None => NameResult(Names.ToAscii(u, rule, name, CONTEXT));
      Ok(Swatch(name, color, ascii))
    case _ => Err(InvalidTomlStructure(key, NotStringOrTable))
  }

  /** Every parsed swatch carries a valid ASCII name, whichever way it was obtained. */
  lemma ParsedAsciiIsValid(u: Services, rule: Names.ReservedRule, parseHex: HexParser, key: string, val: Toml.Value)
    requires AsciiStable(u)
    ensures ParseSwatch(u, rule, parseHex, key, val).Ok? ==>
            var a := ParseSwatch(u, rule, parseHex, key, val).value.ascii;
            Names.ValidName(u, rule, a) && IsAscii(a)
  {
    if ParseSwatch(u, rule, parseHex, key, val).Ok? {
      var s := ParseSwatch(u, rule, parseHex, key, val).value;
      if ExplicitAscii(val).None? {
        Names.ToAsciiParsesAsAscii(u, rule, s.name, CONTEXT);
        Names.CleanIsAscii(s.ascii);
        assert u.nfc(s.ascii) == s.ascii;
      } else {
        var given := ExplicitAscii(val).value;
        assert Names.ParseAscii(u, rule, given, CONTEXT) == Ok(s.ascii);
        assert s.ascii == u.nfc(given);
      }
    }
  }

  // ---------------------------------------------------------------------------
  // Palettes

  function Names_(p: seq<Swatch>): (ns: seq<string>)
    ensures |ns| == |p|
    ensures forall i :: 0 <= i < |p| ==> ns[i] == p[i].name
  {
    seq(|p|, i requires 0 <= i < |p| => p[i].name)
  }

  /** `IndexSet<Swatch>` lookup by name (`Borrow<str>`): swatches are keyed by their
      display name alone. */
  function Lookup(p: seq<Swatch>, name: string): (r: Option<Swatch>)
    ensures r.None? <==> name !in Names_(p)
    ensures r.Some? ==> r.value in p && r.value.name == name
  {
    if |p| == 0 then None
    else if p[0].name == name then Some(p[0])
    else
      assert Names_(p) == [p[0].name] + Names_(p[1..]);
      Lookup(p[1..], name)
  }

  /** `IndexSet::insert`: a swatch whose name is already present is dropped and the
      swatch already there is kept. */
  function Insert(p: seq<Swatch>, s: Swatch): (r: seq<Swatch>)
    ensures s.name in Names_(p) ==> r == p
    ensures s.name !in Names_(p) ==> r == p + [s]
  {
    if s.name in Names_(p) then p else p + [s]
  }

  /** The palette loop over a table's entries, parsing each and inserting it. */
  function ParseEntries(u: Services, rule: Names.ReservedRule, parseHex: HexParser, entries: seq<(string, Toml.Value)>)
    : (r: Result<seq<Swatch>, Error>)
    ensures r.Ok? ==> Collisions.Injective(Names_(r.value))
    ensures r.Ok? ==> Names_(r.value) == Collisions.Distinct(NfcKeys(u, entries))
    ensures r.Err? ==> r.error.Name? || r.error.ParsingHex? || r.error.InvalidTomlStructure?
  {
    if |entries| == 0 then Ok([])
    else
      var n := |entries| - 1;
      var init := entries[..n];
      assert NfcKeys(u, init) == NfcKeys(u, entries)[..n];
      var p :- ParseEntries(u, rule, parseHex, init);
      var s :- ParseSwatch(u, rule, parseHex, entries[n].0, entries[n].1);
      InsertNames(p, s);
      Ok(Insert(p, s))
  }

  lemma InsertNames(p: seq<Swatch>, s: Swatch)
    ensures s.name in Names_(p) ==> Names_(Insert(p, s)) == Names_(p)
    ensures s.name !in Names_(p) ==> Names_(Insert(p, s)) == Names_(p) + [s.name]
  {
  }

  /** The display names the table's keys normalise to. */
  function NfcKeys(u: Services, entries: seq<(string, Toml.Value)>): (ks: seq<string>)
    ensures |ks| == |entries|
    ensures forall i :: 0 <= i < |entries| ==> ks[i] == u.nfc(entries[i].0)
  {
    seq(|entries|, i requires 0 <= i < |entries| => u.nfc(entries[i].0))
  }

  /** Pairs (key, display name) fed to a collision check. */
  function AsciiPairs(p: seq<Swatch>): (ps: seq<(string, string)>)
    ensures |ps| == |p|
    ensures forall i :: 0 <= i < |p| ==> ps[i] == (p[i].ascii, p[i].name)
  {
    seq(|p|, i requires 0 <= i < |p| => (p[i].ascii, p[i].name))
  }

  function LowerPairs(u: Services, p: seq<Swatch>): (ps: seq<(string, string)>)
    ensures |ps| == |p|
    ensures forall i :: 0 <= i < |p| ==> ps[i] == (u.toLowercase(p[i].name), p[i].name)
  {
    seq(|p|, i requires 0 <= i < |p| => (u.toLowercase(p[i].name), p[i].name))
  }

  /** The ASCII group reported is the first repeated ASCII name in palette order. */
  lemma AsciiFirstRepeat(p: seq<Swatch>)
    ensures Collisions.FirstCollision(AsciiPairs(p)).Some? ==>
              exists m :: 0 <= m < |p| && p[m].ascii == Collisions.FirstCollision(AsciiPairs(p)).value.0
                          && forall i, j :: 0 <= i < m && 0 <= j < |p| && j != i ==> p[j].ascii != p[i].ascii
  {
    Collisions.FirstCollisionIsFirstRepeat(AsciiPairs(p));
  }

  /** The lower-cased group reported is the first repeated lower-cased name in
      palette order. */
  lemma LowerFirstRepeat(u: Services, p: seq<Swatch>)
    ensures Collisions.FirstCollision(LowerPairs(u, p)).Some? ==>
              exists m :: 0 <= m < |p|
                          && Collisions.Members(LowerPairs(u, p), u.toLowercase(p[m].name))
                             == Collisions.FirstCollision(LowerPairs(u, p)).value.1
                          && forall i, j :: 0 <= i < m && 0 <= j < |p| && j != i ==>
                                              u.toLowercase(p[j].name) != u.toLowercase(p[i].name)
  {
    var pairs := LowerPairs(u, p);
    if Collisions.FirstCollision(pairs).None? { return; }
    Collisions.FirstCollisionIsFirstRepeat(pairs);
    var m :| 0 <= m < |pairs| && pairs[m].0 == Collisions.FirstCollision(pairs).value.0
             && forall i, j :: 0 <= i < m && 0 <= j < |pairs| && j != i ==> pairs[j].0 != pairs[i].0;
    assert u.toLowercase(p[m].name) == Collisions.FirstCollision(pairs).value.0;
    forall i, j | 0 <= i < m && 0 <= j < |p| && j != i
      ensures u.toLowercase(p[j].name) != u.toLowercase(p[i].name)
    {
      assert pairs[j].0 != pairs[i].0;
    }
  }

  /** `check_ascii_collisions`: fails exactly when two swatches share an ASCII name,
      reporting every display name of the first such group. */
  function CheckAsciiCollisions(p: seq<Swatch>): (r: Result<(), Error>)
    ensures r.Ok? <==> forall i, j :: 0 <= i < j < |p| ==> p[i].ascii != p[j].ascii
    ensures r.Err? ==> r.error.CollidingAsciiNames? && |r.error.displayNames| > 1
                       && r.error.displayNames == Collisions.Members(AsciiPairs(p), r.error.asciiName)
    ensures r.Err? ==> Collisions.FirstCollision(AsciiPairs(p)) == Some((r.error.asciiName, r.error.displayNames))
    ensures r.Err? ==> exists m :: 0 <= m < |p| && p[m].ascii == r.error.asciiName
                                   && forall i, j :: 0 <= i < m && 0 <= j < |p| && j != i ==> p[j].ascii != p[i].ascii
  {
    var pairs := AsciiPairs(p);
    var ks := Collisions.Keys(pairs);
    assert forall i :: 0 <= i < |p| ==> ks[i] == p[i].ascii;
    match Collisions.FirstCollision(pairs)
    case None => Ok(())
    case Some((a, names)) =>
      AsciiFirstRepeat(p);
      Err(CollidingAsciiNames(a, names))
  }

  /** `check_case_collisions`: fails exactly when two swatch names lower-case alike,
      reporting every name of the first such group. */
  function CheckCaseCollisions(u: Services, p: seq<Swatch>): (r: Result<(), Error>)
    ensures r.Ok? <==> forall i, j :: 0 <= i < j < |p| ==>
                         u.toLowercase(p[i].name) != u.toLowercase(p[j].name)
    ensures r.Err? ==> r.error.CollidingNameCases? && |r.error.names| > 1
                       && exists k :: r.error.names == Collisions.Members(LowerPairs(u, p), k)
    ensures r.Err? ==> Collisions.FirstCollision(LowerPairs(u, p)).Some?
                       && Collisions.FirstCollision(LowerPairs(u, p)).value.1 == r.error.names
    ensures r.Err? ==> exists m :: 0 <= m < |p| && Collisions.Members(LowerPairs(u, p), u.toLowercase(p[m].name)) == r.error.names
                                   && forall i, j :: 0 <= i < m && 0 <= j < |p| && j != i ==>
                                                       u.toLowercase(p[j].name) != u.toLowercase(p[i].name)
  {
    var pairs := LowerPairs(u, p);
    var ks := Collisions.Keys(pairs);
    assert forall i :: 0 <= i < |p| ==> ks[i] == u.toLowercase(p[i].name);
    match Collisions.FirstCollision(pairs)
    case None => Ok(())
    case Some((_, names)) =>
      LowerFirstRepeat(u, p);
      Err(CollidingNameCases(names))
  }

  /** `parse_palette`: the value must be a table; its swatches are parsed and
      inserted in order, then the ASCII check runs before the case check. */
  function ParsePalette(u: Services, rule: Names.ReservedRule, parseHex: HexParser, val: Toml.Value)
    : (r: Result<seq<Swatch>, Error>)
    ensures !val.TTable? ==> r == Err(PaletteNotTable)
    ensures r.Ok? ==> val.TTable? && Names_(r.value) == Collisions.Distinct(NfcKeys(u, val.entries))
    ensures r.Ok? ==> forall i, j :: 0 <= i < j < |r.value| ==>
                        r.value[i].name != r.value[j].name
                        && r.value[i].ascii != r.value[j].ascii
                        && u.toLowercase(r.value[i].name) != u.toLowercase(r.value[j].name)
    ensures r.Err? && r.error.CollidingNameCases? ==>
              var p := ParseEntries(u, rule, parseHex, val.entries);
              p.Ok? && CheckAsciiCollisions(p.value).Ok?
  {
    if !val.TTable? then Err(PaletteNotTable)
    else
      var p :- ParseEntries(u, rule, parseHex, val.entries);
      var _ :- CheckAsciiCollisions(p);
      var _ :- CheckCaseCollisions(u, p);
      assert forall i :: 0 <= i < |p| ==> Names_(p)[i] == p[i].name;
      Ok(p)
  }

  /** A swatch whose key normalises to a name already in the palette does not
      replace the earlier swatch: the palette holds, for each name, the swatch
      parsed from the first key with that name. */
  lemma FirstKeyWins(u: Services, rule: Names.ReservedRule, parseHex: HexParser,
                      entries: seq<(string, Toml.Value)>, i: nat)
    requires i < |entries|
    requires forall j :: 0 <= j < i ==> u.nfc(entries[j].0) != u.nfc(entries[i].0)
    ensures ParseEntries(u, rule, parseHex, entries).Ok? ==>
            var s := ParseSwatch(u, rule, parseHex, entries[i].0, entries[i].1);
            s.Ok? && Lookup(ParseEntries(u, rule, parseHex, entries).value, u.nfc(entries[i].0)) == Some(s.value)
  {
    if ParseEntries(u, rule, parseHex, entries).Ok? {
      ParsedFirstKeyWins(u, rule, parseHex, entries, i);
    }
  }

  /** `FirstKeyWins` for a palette that parsed, by induction on the entries. */
  lemma {:induction false} ParsedFirstKeyWins(u: Services, rule: Names.ReservedRule, parseHex: HexParser,
                                               entries: seq<(string, Toml.Value)>, i: nat)
    requires ParseEntries(u, rule, parseHex, entries).Ok?
    requires i < |entries|
    requires forall j :: 0 <= j < i ==> u.nfc(entries[j].0) != u.nfc(entries[i].0)
    ensures var s := ParseSwatch(u, rule, parseHex, entries[i].0, entries[i].1);
            s.Ok? && Lookup(ParseEntries(u, rule, parseHex, entries).value, u.nfc(entries[i].0)) == Some(s.value)
  {
    var n := |entries| - 1;
    var init := entries[..n];
    ParseEntriesStep(u, rule, parseHex, entries);
    var p := ParseEntries(u, rule, parseHex, init).value;
    var s := ParseSwatch(u, rule, parseHex, entries[n].0, entries[n].1).value;
    if i < n {
      FirstKeyInPrefix(u, entries, n, i);
      ParsedFirstKeyWins(u, rule, parseHex, init, i);
      assert init[i] == entries[i];
      LookupPrefix(p, Insert(p, s), u.nfc(entries[i].0));
    } else {
      assert i == n;
      SwatchName(u, rule, parseHex, entries[n].0, entries[n].1);
      NewKeyAbsent(u, init, entries, i);
      LookupNew(p, s, NfcKeys(u, init));
    }
  }

  /** A key that is the first of its name stays so in any prefix that holds it. */
  lemma FirstKeyInPrefix(u: Services, entries: seq<(string, Toml.Value)>, n: nat, i: nat)
    requires i < n <= |entries|
    requires forall j :: 0 <= j < i ==> u.nfc(entries[j].0) != u.nfc(entries[i].0)
    ensures forall j :: 0 <= j < i ==> u.nfc(entries[..n][j].0) != u.nfc(entries[..n][i].0)
  {
  }

  /** A parsed swatch is named by its key's normal form. */
  lemma SwatchName(u: Services, rule: Names.ReservedRule, parseHex: HexParser, key: string, val: Toml.Value)
    ensures ParseSwatch(u, rule, parseHex, key, val).Ok? ==> ParseSwatch(u, rule, parseHex, key, val).value.name == u.nfc(key)
  {
  }

  /** A key whose name no earlier key has is not among the earlier names. */
  lemma NewKeyAbsent(u: Services, init: seq<(string, Toml.Value)>, entries: seq<(string, Toml.Value)>, i: nat)
    requires i < |entries| && init == entries[..i]
    requires forall j :: 0 <= j < i ==> u.nfc(entries[j].0) != u.nfc(entries[i].0)
    ensures u.nfc(entries[i].0) !in NfcKeys(u, init)
  {
    var ks := NfcKeys(u, init);
    forall j | 0 <= j < |ks| ensures ks[j] != u.nfc(entries[i].0) {
      assert init[j] == entries[j];
    }
  }

  /** Inserting a swatch whose name the palette lacks makes it that name's entry. */
  lemma LookupNew(p: seq<Swatch>, s: Swatch, keys: seq<string>)
    requires Names_(p) == Collisions.Distinct(keys) && s.name !in keys
    ensures Lookup(Insert(p, s), s.name) == Some(s)
  {
    assert s.name !in Names_(p);
    LookupAppend(p, s);
  }

  /** One step of the palette loop, unfolded. */
  lemma ParseEntriesStep(u: Services, rule: Names.ReservedRule, parseHex: HexParser,
                         entries: seq<(string, Toml.Value)>)
    requires |entries| > 0
    requires ParseEntries(u, rule, parseHex, entries).Ok?
    ensures var n := |entries| - 1;
            && ParseEntries(u, rule, parseHex, entries[..n]).Ok?
            && ParseSwatch(u, rule, parseHex, entries[n].0, entries[n].1).Ok?
            && ParseEntries(u, rule, parseHex, entries).value
               == Insert(ParseEntries(u, rule, parseHex, entries[..n]).value,
                         ParseSwatch(u, rule, parseHex, entries[n].0, entries[n].1).value)
  {
  }

  lemma LookupPrefix(p: seq<Swatch>, q: seq<Swatch>, name: string)
    requires p <= q && Lookup(p, name).Some?
    ensures Lookup(q, name) == Lookup(p, name)
  {
    if p[0].name != name {
      LookupPrefix(p[1..], q[1..], name);
    }
  }

  lemma {:induction false} LookupAppend(p: seq<Swatch>, s: Swatch)
    requires s.name !in Names_(p)
    ensures Lookup(p + [s], s.name) == Some(s)
  {
    var q := p + [s];
    if |p| == 0 {
      assert q == [s];
    } else {
      assert q[0] == p[0] && q[1..] == p[1..] + [s];
      assert p[0].name != s.name by {
        assert Names_(p)[0] == p[0].name;
      }
      assert s.name !in Names_(p[1..]) by {
        forall k | 0 <= k < |p| - 1 ensures Names_(p[1..])[k] != s.name {
          assert Names_(p)[k + 1] == p[k + 1].name;
        }
      }
      LookupAppend(p[1..], s);
    }
  }
}

=== FILE: templates.dfy ===
/** The template loader (`basel/src/templates.rs`, `src/templates.rs`): the `set`
    test registered with the template engine, template naming, the walk that
    reads each Jinja file's directives and stores its filtered source, and the
    lookup that pairs every stored template with its directives. */
module Templates {
  import opened Wrappers
  import opened Strings
  import IndexMaps
  import Directives
  import Extensions

  const SET_TEST_OBJECT := "_set"
  const JINJA_TEMPLATE_SUFFIX := ".jinja"
  const SKIP_RENDERING_PREFIX := '_'

  // ---------------------------------------------------------------------------
  // The `set` test

  /** The template values the `set` test can meet: strings, sequences, and
      everything else (numbers, booleans, none), which cannot be iterated. */
  datatype Value = Str(s: string) | List(items: seq<Value>) | Scalar

  datatype JinjaErrorKind = InvalidOperation | UndefinedError

  /** `Value::try_iter`: a sequence yields its items, a string its characters. */
  function Items(v: Value): (r: Option<seq<Value>>)
    ensures r.None? <==> v.Scalar?
    ensures v.List? ==> r == Some(v.items)
    ensures v.Str? ==> r.Some? && |r.value| == |v.s|
  {
    match v
    case Str(s) => Some(seq(|s|, i requires 0 <= i < |s| => Str([s[i]])))
    case List(items) => Some(items)
    case Scalar => None
  }

  /** The loop of the test: some item is the string `name`. */
  function AnyNamed(items: seq<Value>, name: string): (b: bool)
    decreases |items|
    ensures b <==> exists i :: 0 <= i < |items| && items[i] == Str(name)
  {
    if |items| == 0 then false
    else if items[0] == Str(name) then true
    else
      var b := AnyNamed(items[1..], name);
      assert forall i :: 1 <= i < |items| ==> items[i] == items[1..][i - 1];
      assert b ==> exists i :: 0 <= i < |items| && items[i] == Str(name) by {
        if b {
          var j :| 0 <= j < |items[1..]| && items[1..][j] == Str(name);
          assert items[j + 1] == Str(name);
        }
      }
      b
  }

  /** `create_set_test`: `arg` must be a string; `_set` must be in the context;
      the test holds exactly when iterating `_set` meets that string. */
  function SetTest(arg: Value, lookup: Option<Value>): (r: Result<bool, JinjaErrorKind>)
    ensures !arg.Str? ==> r == Err(InvalidOperation)
    ensures arg.Str? && lookup.None? ==> r == Err(UndefinedError)
    ensures arg.Str? && lookup.Some? ==>
              r.Ok? && (r.value <==> Items(lookup.value).Some?
                                     && exists i :: 0 <= i < |Items(lookup.value).value| && Items(lookup.value).value[i] == Str(arg.s))
  {
    if !arg.Str? then Err(InvalidOperation)
    else
      match lookup
      case None => Err(UndefinedError)
      case Some(v) =>
        match Items(v)
        case None => Ok(false)
        case Some(items) => Ok(AnyNamed(items, arg.s))
  }

  /** The `_set` the context builders store: the names of the author-set roles. */
  function SetObject(names: seq<string>): (v: Value)
    ensures v.List? && |v.items| == |names|
  {
    List(seq(|names|, i requires 0 <= i < |names| => Str(names[i])))
  }

  /** Over the `_set` the context holds, the test is membership among the names. */
  lemma SetTestIsMembership(names: seq<string>, name: string)
    ensures SetTest(Str(name), Some(SetObject(names))) == Ok(name in names)
  {
    var items := SetObject(names).items;
    if name in names {
      var i :| 0 <= i < |names| && names[i] == name;
      assert items[i] == Str(name);
    }
  }

  /** A `_set` that cannot be iterated makes the test false for every string. */
  lemma ScalarSetIsFalse(name: string)
    ensures SetTest(Str(name), Some(Scalar)) == Ok(false)
  {
  }

  // ---------------------------------------------------------------------------
  // Template names

  /** A template's name: its path relative to the templates directory, with `\`
      replaced by `/`. */
  function TemplateName(relative: string): (r: string)
    ensures '\\' !in r
  {
    ReplaceRemoves(relative, '\\', "/");
    Replace(relative, "\\", "/")
  }

  /** A path already written with `/` is its own name. */
  lemma PortableNameUnchanged(relative: string)
    requires '\\' !in relative
    ensures TemplateName(relative) == relative
  {
    assert !Contains(relative, "\\") by {
      forall i: nat | i + 1 <= |relative| ensures !OccursAt(relative, "\\", i) {
        assert relative[i..i + 1][0] == relative[i];
      }
    }
  }

  // ---------------------------------------------------------------------------
  // Loading

  /** A file the walk meets: its full path, its path relative to the templates
      directory, and its text. */
  datatype Entry = Entry(path: string, relative: string, content: string)

  datatype Error =
    | ParsingDirective(directive: string, path: string)
    | Compiling(name: string)
    | InternalBug(name: string)

  /** What loading leaves behind: the engine's templates, name to source, and the
      directives, name to directives, both keyed by template name. */
  datatype Loaded<D> = Loaded(env: IndexMaps.Entries<string, string>, directives: IndexMaps.Entries<string, D>)

  /** The walk of `load_templates_and_directives`: every selected file is
      processed into its directives and filtered source, both stored under its
      name (a later file of the same name replaces an earlier one); the first
      file that fails to process or to compile aborts. */
  /** `err` is what a selected file reports when loading stops at it: the
      processing error, or a compile error under its template name. */
  predicate FailsWith<D>(e: Entry, process: Entry -> Result<(D, string), Error>, compiles: string -> bool, err: Error) {
    match process(e)
    case Err(x) => err == x
    case Ok(p) => !compiles(p.1) && err == Compiling(TemplateName(e.relative))
  }

  function LoadAll<D>(entries: seq<Entry>, select: Entry -> bool, process: Entry -> Result<(D, string), Error>,
                      compiles: string -> bool): (r: Result<Loaded<D>, Error>)
    decreases |entries|
    ensures r.Ok? ==> IndexMaps.Valid(r.value.directives) && IndexMaps.Valid(r.value.env)
    ensures r.Ok? ==> IndexMaps.Keys(r.value.env) == IndexMaps.Keys(r.value.directives)
    ensures r.Ok? ==> forall n :: n in IndexMaps.Keys(r.value.directives) <==>
                        exists k :: 0 <= k < |entries| && select(entries[k]) && TemplateName(entries[k].relative) == n
    ensures r.Err? ==> exists k :: 0 <= k < |entries| && select(entries[k]) && FailsWith(entries[k], process, compiles, r.error)
  {
    if |entries| == 0 then Ok(Loaded([], []))
    else
      var n := |entries| - 1;
      var loaded :- (var prefix := LoadAll(entries[..n], select, process, compiles);
                     assert prefix.Err? ==> exists k :: 0 <= k < |entries| && select(entries[k])
                                                       && FailsWith(entries[k], process, compiles, prefix.error) by {
                       if prefix.Err? {
                         var k :| 0 <= k < n && select(entries[..n][k]) && FailsWith(entries[..n][k], process, compiles, prefix.error);
                         assert entries[..n][k] == entries[k];
                       }
                     }
                     prefix);
      var e := entries[n];
      assert forall k :: 0 <= k < n ==> entries[..n][k] == entries[k];
      if !select(e) then Ok(loaded)
      else
        var processed :- process(e);
        var name := TemplateName(e.relative);
        var directives := IndexMaps.Insert(loaded.directives, name, processed.0).0;
        if !compiles(processed.1) then Err(Compiling(name))
        else
          var env := IndexMaps.Insert(loaded.env, name, processed.1).0;
          InsertKeys(loaded.env, loaded.directives, name, processed.1, processed.0);
          Ok(Loaded(env, directives))
  }

  /** Inserting one name into two maps with the same keys keeps their keys equal. */
  lemma InsertKeys<A, B>(a: IndexMaps.Entries<string, A>, b: IndexMaps.Entries<string, B>, name: string, x: A, y: B)
    requires IndexMaps.Keys(a) == IndexMaps.Keys(b)
    ensures IndexMaps.Keys(IndexMaps.Insert(a, name, x).0) == IndexMaps.Keys(IndexMaps.Insert(b, name, y).0)
    ensures forall n :: n in IndexMaps.Keys(IndexMaps.Insert(b, name, y).0) <==> n == name || n in IndexMaps.Keys(b)
  {
  }

  /** `templates_with_directives` / `with_directives`: every template in the
      engine paired with its directives; a template with none is an internal bug. */
  function WithDirectives<D>(names: seq<string>, directives: IndexMaps.Entries<string, D>)
    : (r: Result<seq<(string, D)>, Error>)
    ensures r.Ok? <==> forall k :: 0 <= k < |names| ==> names[k] in IndexMaps.Keys(directives)
    ensures r.Ok? ==> |r.value| == |names|
    ensures r.Ok? ==> forall k :: 0 <= k < |names| ==> r.value[k] == (names[k], IndexMaps.Get(directives, names[k]).value)
    ensures r.Err? ==> exists k :: 0 <= k < |names| && r.error == InternalBug(names[k]) && names[k] !in IndexMaps.Keys(directives)
  {
    Traverse(names, (n: string) => match IndexMaps.Get(directives, n)
                                   case Some(d) => Ok((n, d))
                                   case None => Err(InternalBug(n)))
  }

  /** After a successful load, every template the engine holds has its directives:
      the internal-bug error cannot arise. */
  lemma LoadedTemplatesHaveDirectives<D>(entries: seq<Entry>, select: Entry -> bool,
                                         process: Entry -> Result<(D, string), Error>, compiles: string -> bool)
    requires LoadAll(entries, select, process, compiles).Ok?
    ensures var loaded := LoadAll(entries, select, process, compiles).value;
            WithDirectives(IndexMaps.Keys(loaded.env), loaded.directives).Ok?
  {
  }

  // ---------------------------------------------------------------------------
  // The two loaders

  /** The files the renderer loads: those whose extension is `jinja`, in any
      ASCII case. */
  predicate SelectJinja(e: Entry) {
    Extensions.IsJinja(e.path)
  }

  /** Reading one template's directives; a directive error is reported against
      the template's name and path only. The directive parser's own error is
      dropped: the source's `ParsingDirective` carries only a fixed reason text. */
  function ProcessWith(dialect: Directives.Dialect, patterns: seq<seq<string>>, e: Entry)
    : (r: Result<(Directives.Directives, string), Error>)
    ensures r.Err? <==> Directives.FromTemplate(dialect, e.content, patterns, e.path).Err?
    ensures r.Err? ==> r.error == ParsingDirective(TemplateName(e.relative), e.path)
    ensures r.Ok? ==> r.value == Directives.FromTemplate(dialect, e.content, patterns, e.path).value
  {
    match Directives.FromTemplate(dialect, e.content, patterns, e.path)
    case Ok(v) => Ok(v)
    case Err(_) => Err(ParsingDirective(TemplateName(e.relative), e.path))
  }

  /** A file that stops the load with `ProcessWith` failed on its directives or on
      compiling its filtered source. */
  lemma ProcessWithFails(dialect: Directives.Dialect, patterns: seq<seq<string>>, compiles: string -> bool, e: Entry, err: Error)
    requires FailsWith(e, (x: Entry) => ProcessWith(dialect, patterns, x), compiles, err)
    ensures var d := Directives.FromTemplate(dialect, e.content, patterns, e.path);
            || (d.Err? && err == ParsingDirective(TemplateName(e.relative), e.path))
            || (d.Ok? && !compiles(d.value.1) && err == Compiling(TemplateName(e.relative)))
  {
  }

  /** `Loader::new` / `Loader::load` with a dialect of directive matching. A load
      that fails stops at a Jinja file whose directives do not parse, reported
      against its name and path, or whose filtered source does not compile. */
  function Load(dialect: Directives.Dialect, entries: seq<Entry>, patterns: seq<seq<string>>, compiles: string -> bool)
    : (r: Result<Loaded<Directives.Directives>, Error>)
    ensures r.Ok? ==> IndexMaps.Keys(r.value.env) == IndexMaps.Keys(r.value.directives)
    ensures r.Ok? ==> forall n :: n in IndexMaps.Keys(r.value.directives) <==>
                        exists k :: 0 <= k < |entries| && Extensions.IsJinja(entries[k].path) && TemplateName(entries[k].relative) == n
    ensures r.Err? ==> exists k :: 0 <= k < |entries| && Extensions.IsJinja(entries[k].path) &&
                         var d := Directives.FromTemplate(dialect, entries[k].content, patterns, entries[k].path);
                         || (d.Err? && r.error == ParsingDirective(TemplateName(entries[k].relative), entries[k].path))
                         || (d.Ok? && !compiles(d.value.1) && r.error == Compiling(TemplateName(entries[k].relative)))
  {
    var process := (e: Entry) => ProcessWith(dialect, patterns, e);
    var r := LoadAll(entries, SelectJinja, process, compiles);
    assert r.Err? ==> exists k :: 0 <= k < |entries| && Extensions.IsJinja(entries[k].path) &&
                        var d := Directives.FromTemplate(dialect, entries[k].content, patterns, entries[k].path);
                        || (d.Err? && r.error == ParsingDirective(TemplateName(entries[k].relative), entries[k].path))
                        || (d.Ok? && !compiles(d.value.1) && r.error == Compiling(TemplateName(entries[k].relative))) by {
      if r.Err? {
        var k :| 0 <= k < |entries| && SelectJinja(entries[k]) && FailsWith(entries[k], process, compiles, r.error);
        ProcessWithFails(dialect, patterns, compiles, entries[k], r.error);
      }
    }
    r
  }

  /** A file whose directives fail to parse aborts the load when no earlier file
      fails. */
  lemma {:induction false} DirectiveErrorAborts<D>(entries: seq<Entry>, select: Entry -> bool,
                                                   process: Entry -> Result<(D, string), Error>, compiles: string -> bool)
    requires |entries| > 0
    requires select(entries[|entries| - 1]) && process(entries[|entries| - 1]).Err?
    requires LoadAll(entries[..|entries| - 1], select, process, compiles).Ok?
    ensures LoadAll(entries, select, process, compiles) == Err(process(entries[|entries| - 1]).error)
  {
  }
}

=== FILE: templatesource.dfy ===
/** The earliest template loader (`src/template.rs`): `#basel:key=value` lines are
    read into a map without rejecting malformed ones, every directive line (also
    the `#:` tool lines) is dropped from the source, blank lines are trimmed at
    both ends, and a template without directives gets an empty map. */
module TemplateSource {
  import opened Wrappers
  import opened Strings
  import IndexMaps
  import Directives
  import Templates
  import Extensions
  import Render

  const TOOL_PREFIX := "#:"

  type DirectiveMap = IndexMaps.Entries<string, string>

  // ---------------------------------------------------------------------------
  // Reading directives

  /** The pair a line contributes to `parse_directives`: its trimmed text must
      start with `#basel:`, and the rest must hold an `=`. */
  function LinePair(line: string): (r: Option<(string, string)>)
    ensures r.Some? <==> IsPrefix(Directives.BASEL_PREFIX, Trim(line))
                         && '=' in Trim(line)[|Directives.BASEL_PREFIX|..]
  {
    var t := Trim(line);
    if IsPrefix(Directives.BASEL_PREFIX, t) then Directives.BaselPair(t[|Directives.BASEL_PREFIX|..]) else None
  }

  /** The present values of `f` over `xs`, in order: Rust's `filter_map`. */
  function Somes<X, Y>(xs: seq<X>, f: X -> Option<Y>): seq<Y>
    decreases |xs|
  {
    if |xs| == 0 then []
    else
      var n := |xs| - 1;
      match f(xs[n])
      case None => Somes(xs[..n], f)
      case Some(y) => Somes(xs[..n], f) + [y]
  }

  /** A value is among the present values exactly when `f` gives it for some element. */
  lemma {:induction false} SomesMember<X, Y>(xs: seq<X>, f: X -> Option<Y>, y: Y)
    decreases |xs|
    ensures y in Somes(xs, f) <==> exists k :: 0 <= k < |xs| && f(xs[k]) == Some(y)
  {
    if |xs| > 0 {
      var n := |xs| - 1;
      var p := xs[..n];
      SomesMember(p, f, y);
      assert forall k :: 0 <= k < n ==> p[k] == xs[k];
      if exists k :: 0 <= k < |xs| && f(xs[k]) == Some(y) {
        var k :| 0 <= k < |xs| && f(xs[k]) == Some(y);
        if k < n {
          assert f(p[k]) == Some(y);
        }
      }
    }
  }

  /** Where `f` gives nothing, nothing is present. */
  lemma {:induction false} SomesNone<X, Y>(xs: seq<X>, f: X -> Option<Y>)
    requires forall k :: 0 <= k < |xs| ==> f(xs[k]).None?
    decreases |xs|
    ensures Somes(xs, f) == []
  {
    if |xs| > 0 {
      var n := |xs| - 1;
      assert forall k :: 0 <= k < n ==> xs[..n][k] == xs[k];
      SomesNone(xs[..n], f);
    }
  }

  /** Among the pairs `f` picks out, the last with a key decides its value. */
  lemma {:induction false} SomesLastWins<X, V>(xs: seq<X>, f: X -> Option<(string, V)>, i: nat, key: string, val: V)
    requires i < |xs| && f(xs[i]) == Some((key, val))
    requires forall j :: i < j < |xs| ==> f(xs[j]).None? || f(xs[j]).value.0 != key
    decreases |xs|
    ensures IndexMaps.LastValue(Somes(xs, f), key) == Some(val)
  {
    if i < |xs| - 1 {
      LaterInPrefix(xs, f, i, key);
      SomesLastWins(xs[..|xs| - 1], f, i, key, val);
      SomesLastMiss(xs, f, key, Some(val));
    } else {
      SomesLastHit(xs, f, key, val);
    }
  }

  /** What holds after position `i` of `xs` holds after it in `xs` without its last element. */
  lemma LaterInPrefix<X, V>(xs: seq<X>, f: X -> Option<(string, V)>, i: nat, key: string)
    requires i < |xs| - 1
    requires forall j :: i < j < |xs| ==> f(xs[j]).None? || f(xs[j]).value.0 != key
    ensures var p := xs[..|xs| - 1];
            i < |p| && p[i] == xs[i] && forall j :: i < j < |p| ==> f(p[j]).None? || f(p[j]).value.0 != key
  {
    var p := xs[..|xs| - 1];
    assert forall k :: 0 <= k < |p| ==> p[k] == xs[k];
  }

  /** The last element of `xs` decides the key it picks out. */
  lemma SomesLastHit<X, V>(xs: seq<X>, f: X -> Option<(string, V)>, key: string, val: V)
    requires |xs| > 0 && f(xs[|xs| - 1]) == Some((key, val))
    ensures IndexMaps.LastValue(Somes(xs, f), key) == Some(val)
  {
    var n := |xs| - 1;
    IndexMaps.LastValueSnoc(Somes(xs[..n], f), (key, val), key);
  }

  /** A last element that does not pick out `key` leaves it to the elements before. */
  lemma SomesLastMiss<X, V>(xs: seq<X>, f: X -> Option<(string, V)>, key: string, before: Option<V>)
    requires |xs| > 0
    requires f(xs[|xs| - 1]).None? || f(xs[|xs| - 1]).value.0 != key
    requires IndexMaps.LastValue(Somes(xs[..|xs| - 1], f), key) == before
    ensures IndexMaps.LastValue(Somes(xs, f), key) == before
  {
    var n := |xs| - 1;
    match f(xs[n])
    case None =>
    case Some(p) =>
      IndexMaps.LastValueSnoc(Somes(xs[..n], f), p, key);
  }

  /** A key `f` never picks out is absent. */
  lemma SomesUnsetKey<X, V>(xs: seq<X>, f: X -> Option<(string, V)>, key: string)
    requires forall j :: 0 <= j < |xs| ==> f(xs[j]).None? || f(xs[j]).value.0 != key
    ensures IndexMaps.LastValue(Somes(xs, f), key).None?
  {
    var pairs := Somes(xs, f);
    forall m | 0 <= m < |pairs| ensures IndexMaps.Keys(pairs)[m] != key {
      SomesMember(xs, f, pairs[m]);
    }
  }

  /** `parse_directives`: the pairs of all lines, in order, collected into an
      insertion-ordered map. */
  function ParseDirectives(content: string): (r: DirectiveMap)
    ensures IndexMaps.Valid(r)
    ensures forall key :: IndexMaps.Get(r, key) == IndexMaps.LastValue(Somes(Lines(content), LinePair), key)
  {
    var pairs := Somes(Lines(content), LinePair);
    var m := IndexMaps.Collect(pairs);
    forall key ensures IndexMaps.Get(m, key) == IndexMaps.LastValue(pairs, key) {
      IndexMaps.CollectGet(pairs, key);
    }
    m
  }

  /** The last `#basel:` line with a key decides its value. */
  lemma ParseLastWins(content: string, i: nat, key: string, val: string)
    ensures i < |Lines(content)| && LinePair(Lines(content)[i]) == Some((key, val))
            && (forall j :: i < j < |Lines(content)| ==> LinePair(Lines(content)[j]).None? || LinePair(Lines(content)[j]).value.0 != key)
            ==> IndexMaps.Get(ParseDirectives(content), key) == Some(val)
  {
    if i < |Lines(content)| && LinePair(Lines(content)[i]) == Some((key, val))
       && (forall j :: i < j < |Lines(content)| ==> LinePair(Lines(content)[j]).None? || LinePair(Lines(content)[j]).value.0 != key)
    {
      SomesLastWins(Lines(content), LinePair, i, key, val);
    }
  }

  /** A key no line sets is absent. */
  lemma ParseUnsetKey(content: string, key: string)
    requires forall j :: 0 <= j < |Lines(content)| ==> LinePair(Lines(content)[j]).None? || LinePair(Lines(content)[j]).value.0 != key
    ensures IndexMaps.Get(ParseDirectives(content), key).None?
  {
    SomesUnsetKey(Lines(content), LinePair, key);
  }

  /** Where the later reader accepts a line as a `#basel` pair, this one reads the
      same pair; where the later reader rejects a line as incomplete, this one
      ignores it. */
  lemma AgreesWithClassify(dialect: Directives.Dialect, line: string, patterns: seq<seq<string>>, filePath: string)
    ensures Directives.ClassifyLine(dialect, line, patterns, filePath).Ok?
            && Directives.ClassifyLine(dialect, line, patterns, filePath).value.Basel? ==>
              LinePair(line) == Some((Directives.ClassifyLine(dialect, line, patterns, filePath).value.key,
                                      Directives.ClassifyLine(dialect, line, patterns, filePath).value.val))
    ensures Directives.ClassifyLine(dialect, line, patterns, filePath).Err? ==> LinePair(line).None?
  {
  }

  /** A template without any `#basel:` pair has no directives. */
  lemma NoPairsNoDirectives(content: string)
    requires forall k :: 0 <= k < |Lines(content)| ==> LinePair(Lines(content)[k]).None?
    ensures ParseDirectives(content) == []
  {
    SomesNone(Lines(content), LinePair);
  }

  // ---------------------------------------------------------------------------
  // Filtering the source

  /** `is_directive`: a `#basel:` or a `#:` line. */
  predicate IsDirective(line: string) {
    IsPrefix(Directives.BASEL_PREFIX, line) || IsPrefix(TOOL_PREFIX, line)
  }

  /** The lines `filter_directives` keeps: those whose trimmed text is not a
      directive. */
  predicate Kept(line: string) {
    !IsDirective(Trim(line))
  }

  /** Every line `parse_directives` reads is dropped from the source. */
  lemma PairLinesAreDropped(line: string)
    ensures LinePair(line).Some? ==> !Kept(line)
  {
  }

  /** `filter_directives`: the kept lines joined by `\n`. */
  function FilterDirectives(content: string): (r: string)
    ensures (forall k :: 0 <= k < |Lines(content)| ==> Kept(Lines(content)[k])) ==> r == Join(Lines(content), "\n")
  {
    var kept := Directives.Keep(Lines(content), Kept);
    assert (forall k :: 0 <= k < |Lines(content)| ==> Kept(Lines(content)[k])) ==> kept == Lines(content) by {
      if forall k :: 0 <= k < |Lines(content)| ==> Kept(Lines(content)[k]) {
        Directives.KeepAll(Lines(content), Kept);
      }
    }
    Join(kept, "\n")
  }

  /** The lines of the filtered source are exactly the kept ones. */
  lemma FilteredLines(content: string)
    ensures forall k :: 0 <= k < |Directives.Keep(Lines(content), Kept)| ==>
              Directives.Keep(Lines(content), Kept)[k] in Lines(content) && Kept(Directives.Keep(Lines(content), Kept)[k])
    ensures forall k :: 0 <= k < |Lines(content)| && Kept(Lines(content)[k]) ==>
              Lines(content)[k] in Directives.Keep(Lines(content), Kept)
  {
  }

  // ---------------------------------------------------------------------------
  // Trimming blank lines

  /** `trim_top_bottom`. When every line is blank, neither search finds a line,
      the range falls back to all lines, and the text is returned re-joined; the
      `start >= end` guard cannot fire. */
  function TrimTopBottom(content: string): (r: string)
    ensures Lines(content) == [] ==> r == ""
    ensures (exists k :: 0 <= k < |Lines(content)| && !Directives.BlankLine(Lines(content)[k])) ==>
              r == Directives.TrimEnds(Lines(content))
    ensures Lines(content) != [] && (forall k :: 0 <= k < |Lines(content)| ==> Directives.BlankLine(Lines(content)[k])) ==>
              r == Join(Lines(content), "\n")
  {
    var lines := Lines(content);
    if |lines| == 0 then ""
    else
      var start := Directives.FirstNonBlank(lines, 0).UnwrapOr(0);
      var end := Directives.LastNonBlank(lines).UnwrapOr(|lines| - 1) + 1;
      if start >= end then ""
      else
        assert lines[0..|lines|] == lines;
        Join(lines[start..end], "\n")
  }

  // ---------------------------------------------------------------------------
  // Loading

  /** `is_hidden` applied by the walk to every entry below the root: a component
      of the relative path that starts with `.` hides the file (a hidden directory
      is not entered). The root itself is tested too; see `Load`. */
  predicate Hidden(relative: string) {
    exists k :: 0 <= k < |Render.Components(relative)| && IsPrefix(".", Render.Components(relative)[k])
  }

  /** The files this loader reads: not hidden, with the extension exactly `jinja`. */
  predicate SelectSource(e: Templates.Entry) {
    !Hidden(e.relative) && Extensions.Extension(e.path) == Some("jinja")
  }

  /** Reading one file: its directives, and its source without directive lines
      and outer blank lines. Nothing here can fail. */
  function ProcessSource(e: Templates.Entry): (r: Result<(DirectiveMap, string), Templates.Error>)
    ensures r.Ok?
    ensures r.value.0 == ParseDirectives(e.content)
    ensures r.value.1 == TrimTopBottom(FilterDirectives(e.content))
  {
    Ok((ParseDirectives(e.content), TrimTopBottom(FilterDirectives(e.content))))
  }

  /** `Templates::new` / `load_templates_and_directives`. `rootName` is the name
      `is_hidden` sees for the walk root: its file name, or the whole path when it
      has none (as for `.`). A hidden root is not entered, so nothing is loaded. */
  function Load(rootName: string, entries: seq<Templates.Entry>, compiles: string -> bool)
    : (r: Result<Templates.Loaded<DirectiveMap>, Templates.Error>)
    ensures IsPrefix(".", rootName) ==> r == Ok(Templates.Loaded([], []))
    ensures !IsPrefix(".", rootName) ==> r == Templates.LoadAll(entries, SelectSource, ProcessSource, compiles)
    ensures r.Ok? ==> IndexMaps.Keys(r.value.env) == IndexMaps.Keys(r.value.directives)
    ensures r.Err? ==> r.error.Compiling?
  {
    if IsPrefix(".", rootName) then Ok(Templates.Loaded([], []))
    else
      LoadAllCompilingOnly(entries, compiles);
      Templates.LoadAll(entries, SelectSource, ProcessSource, compiles)
  }

  /** Only compilation can make this loader fail. */
  lemma {:induction false} LoadAllCompilingOnly(entries: seq<Templates.Entry>, compiles: string -> bool)
    decreases |entries|
    ensures Templates.LoadAll(entries, SelectSource, ProcessSource, compiles).Err? ==>
              Templates.LoadAll(entries, SelectSource, ProcessSource, compiles).error.Compiling?
  {
    if |entries| > 0 {
      LoadAllCompilingOnly(entries[..|entries| - 1], compiles);
    }
  }

  /** `templates_with_directives`: every template in the engine with its
      directives, an empty map when none were recorded under its name. */
  function WithDirectives(names: seq<string>, directives: IndexMaps.Entries<string, DirectiveMap>)
    : (r: seq<(string, DirectiveMap)>)
    ensures |r| == |names|
    ensures forall k :: 0 <= k < |names| ==> r[k].0 == names[k]
    ensures forall k :: 0 <= k < |names| && names[k] !in IndexMaps.Keys(directives) ==> r[k].1 == []
    ensures forall k :: 0 <= k < |names| && names[k] in IndexMaps.Keys(directives) ==>
              (names[k], r[k].1) in directives
  {
    seq(|names|, k requires 0 <= k < |names| => (names[k], IndexMaps.Get(directives, names[k]).UnwrapOr([])))
  }

  /** Every template that was loaded gets the directives read from its file; the
      empty fallback only serves names the loader never recorded. */
  lemma LoadedAgreesWithStrictLookup(rootName: string, entries: seq<Templates.Entry>, compiles: string -> bool)
    requires Load(rootName, entries, compiles).Ok?
    ensures var loaded := Load(rootName, entries, compiles).value;
            var names := IndexMaps.Keys(loaded.env);
            Templates.WithDirectives(names, loaded.directives).Ok?
            && Templates.WithDirectives(names, loaded.directives).value == WithDirectives(names, loaded.directives)
  {
  }
}

=== FILE: toml.dfy ===
/** The parsed TOML values the loaders inspect (the `toml` crate's `Value`). Parsing
    TOML text is foreign code and not modelled; a table is the sequence of its
    entries in the parser's iteration order, with distinct keys. */
module Toml {
  import opened Wrappers

  datatype Value =
    | TString(s: string)
    | TInteger(i: int)
    | TBoolean(b: bool)
    | TArray(items: seq<Value>)
    | TTable(entries: seq<(string, Value)>)
  {
    /** `Value::as_str`. */
    function AsStr(): (r: Option<string>)
      ensures r.Some? <==> TString?
      ensures r.Some? ==> r.value == s
    {
      if TString? then Some(s) else None
    }
  }

  /** A table's key column. */
  function TableKeys(entries: seq<(string, Value)>): (ks: seq<string>)
    ensures |ks| == |entries|
    ensures forall i :: 0 <= i < |entries| ==> ks[i] == entries[i].0
  {
    seq(|entries|, i requires 0 <= i < |entries| => entries[i].0)
  }

  /** `Table::get`: the value stored under `key`. */
  function Get(entries: seq<(string, Value)>, key: string): (r: Option<Value>)
    ensures r.None? <==> key !in TableKeys(entries)
    ensures r.Some? ==> exists i :: 0 <= i < |entries| && entries[i] == (key, r.value)
  {
    if |entries| == 0 then None
    else if entries[0].0 == key then Some(entries[0].1)
    else
      var r := Get(entries[1..], key);
      assert TableKeys(entries) == [entries[0].0] + TableKeys(entries[1..]);
      r
  }

  /** `table.get(key).and_then(|v| v.as_str())`: the string under `key`, if the key
      is present and holds a string. */
  function GetStr(entries: seq<(string, Value)>, key: string): (r: Option<string>)
    ensures r.Some? <==> Get(entries, key).Some? && Get(entries, key).value.TString?
    ensures r.Some? ==> Get(entries, key) == Some(TString(r.value))
  {
    match Get(entries, key)
    case Some(TString(s)) => Some(s)
    case _ => None
  }

  /** A key an optional string field accepts: absent, or holding a string. */
  predicate OptionalStr(entries: seq<(string, Value)>, key: string) {
    Get(entries, key).None? || Get(entries, key).value.TString?
  }

  /** The entries of a nested table under `key`, keyed `key.nested`. */
  function Nest(key: string, nested: seq<(string, Value)>): (r: seq<(string, Value)>)
    ensures |r| == |nested|
    ensures forall j :: 0 <= j < |nested| ==> r[j] == (key + "." + nested[j].0, nested[j].1)
  {
    if |nested| == 0 then [] else [(key + "." + nested[0].0, nested[0].1)] + Nest(key, nested[1..])
  }

  /** The loaders' reading of a two-level table: a top-level entry holding a nested
      table contributes that table's entries under dotted keys, any other entry
      contributes itself, in table order. */
  function Flatten(entries: seq<(string, Value)>): (r: seq<(string, Value)>)
    ensures forall p :: p in r ==>
              (p in entries && !p.1.TTable?)
              || exists i, j :: 0 <= i < |entries| && entries[i].1.TTable? && 0 <= j < |entries[i].1.entries|
                                && p == (entries[i].0 + "." + entries[i].1.entries[j].0, entries[i].1.entries[j].1)
    ensures forall i :: 0 <= i < |entries| && !entries[i].1.TTable? ==> entries[i] in r
    ensures forall i, j :: 0 <= i < |entries| && entries[i].1.TTable? && 0 <= j < |entries[i].1.entries| ==>
              (entries[i].0 + "." + entries[i].1.entries[j].0, entries[i].1.entries[j].1) in r
  {
    if |entries| == 0 then []
    else
      var head := if entries[0].1.TTable? then Nest(entries[0].0, entries[0].1.entries) else [entries[0]];
      var rest := Flatten(entries[1..]);
      assert forall i :: 1 <= i < |entries| ==> entries[i] == entries[1..][i - 1];
      head + rest
  }

  /** A scheme file the directory walk yields: its path, whether it is a `.toml`
      file, its file stem when that is valid UTF-8, and the file's parsed root table
      (`None` when it could not be read or parsed). */
  datatype FileEntry = FileEntry(path: string, isToml: bool, stem: Option<string>,
                                 root: Option<seq<(string, Value)>>)
}

=== FILE: unicode.dfy ===
/** The Unicode services the tool borrows from other crates: NFC normalisation
    (Unicode Standard Annex #15), `char::is_alphanumeric`, `str::to_uppercase`,
    `str::to_lowercase` and `deunicode` transliteration. They are not re-implemented
    here; every operation that needs them takes a `Services` value, and the lemmas
    that need facts about them assume `Lawful`, the handful of guarantees the
    Unicode Standard and those crates document. */
module Unicode {
  import opened Strings

  datatype Services = Services(
    nfc: string -> string,
    isAlphanumeric: char -> bool,
    toUppercase: string -> string,
    toLowercase: string -> string,
    deunicode: string -> string)

  /** NFC is idempotent (Unicode Standard Annex #15, section 1.2 on stability). */
  ghost predicate NfcIdempotent(u: Services) {
    forall s :: u.nfc(u.nfc(s)) == u.nfc(s)
  }

  /** An ASCII string is already in NFC, is transliterated to itself, and changes case
      as ASCII does; ASCII letters and digits are exactly the ASCII alphanumerics. */
  ghost predicate AsciiStable(u: Services) {
    (forall s :: IsAscii(s) ==> u.nfc(s) == s)
    && (forall s :: IsAscii(s) ==> u.deunicode(s) == s)
    && (forall s :: IsAscii(s) ==> u.toUppercase(s) == AsciiUpper(s))
    && (forall c :: IsAsciiChar(c) ==> (u.isAlphanumeric(c) <==> IsAsciiAlphanumeric(c)))
  }

  ghost predicate Lawful(u: Services) {
    NfcIdempotent(u) && AsciiStable(u)
  }
}

=== FILE: upstream.dfy ===
/** The string side of upstream links (`basel/src/output/upstream.rs`): the
    link pattern a forge host implies, the link a rendered file gets, and the
    repository base recovered from such a link. Discovering the repository,
    its remote and its default branch is git's work and not modelled: those
    arrive as a `GitInfo`. */
module Upstream {
  import opened Wrappers
  import opened Strings
  import opened Placeholders

  const GITHUB_STYLE := "{base}/blob/{branch}/{file}"
  const GITLAB_STYLE := "{base}/-/blob/{branch}/{file}"
  const GITEA_STYLE := "{base}/src/branch/{branch}/{file}"
  const BITBUCKET_STYLE := "{base}/src/{branch}/{file}"

  /** What git discovery yields for a rendered file's repository. */
  datatype GitInfo = GitInfo(root: string, remoteUrl: string, remoteHost: string, defaultBranch: string)

  // ---------------------------------------------------------------------------
  // Link patterns

  /** The four link layouts a forge may use. */
  datatype Style = GitHub | GitLab | Gitea | Bitbucket

  /** The text every layout puts between the repository base and the branch. */
  function Separator(style: Style): string {
    match style
    case GitHub => "/blob/"
    case GitLab => "/-/blob/"
    case Gitea => "/src/branch/"
    case Bitbucket => "/src/"
  }

  /** Every layout is `{base}`, its separator, `{branch}`, `/`, `{file}`. */
  function StylePieces(style: Style): (ps: seq<Piece>)
    ensures WellFormed(ps)
  {
    [Hole("base"), Lit(Separator(style)), Hole("branch"), Lit("/"), Hole("file")]
  }

  /** The pattern text of each layout. */
  function Pattern(style: Style): (r: string)
    ensures r == Spell(StylePieces(style))
  {
    StyleSpelling(style);
    PatternTexts();
    match style
    case GitHub => GITHUB_STYLE
    case GitLab => GITLAB_STYLE
    case Gitea => GITEA_STYLE
    case Bitbucket => BITBUCKET_STYLE
  }

  /** Each pattern constant is its layout's separator between `{base}` and
      `{branch}/{file}`. */
  lemma PatternTexts()
    ensures GITHUB_STYLE == "{base}" + (Separator(GitHub) + "{branch}/{file}")
    ensures GITLAB_STYLE == "{base}" + (Separator(GitLab) + "{branch}/{file}")
    ensures GITEA_STYLE == "{base}" + (Separator(Gitea) + "{branch}/{file}")
    ensures BITBUCKET_STYLE == "{base}" + (Separator(Bitbucket) + "{branch}/{file}")
  {
    GitHubText();
    GitLabText();
    GiteaText();
    BitbucketText();
  }

  lemma GitHubText() ensures GITHUB_STYLE == "{base}" + ("/blob/" + "{branch}/{file}") {}
  lemma GitLabText() ensures GITLAB_STYLE == "{base}" + ("/-/blob/" + "{branch}/{file}") {}
  lemma GiteaText() ensures GITEA_STYLE == "{base}" + ("/src/branch/" + "{branch}/{file}") {}
  lemma BitbucketText() ensures BITBUCKET_STYLE == "{base}" + ("/src/" + "{branch}/{file}") {}

  /** A layout's pattern spelled out. */
  lemma StyleSpelling(style: Style)
    ensures Spell(StylePieces(style)) == "{base}" + (Separator(style) + "{branch}/{file}")
  {
    SpellAround(Separator(style));
  }

  /** `{base}`, a literal separator, then `{branch}/{file}`, spelled out. */
  lemma SpellAround(sep: string)
    ensures Spell([Hole("base"), Lit(sep), Hole("branch"), Lit("/"), Hole("file")]) == "{base}" + (sep + "{branch}/{file}")
  {
    var ps := [Hole("base"), Lit(sep), Hole("branch"), Lit("/"), Hole("file")];
    SpellFive(ps);
    BranchFile();
  }

  lemma BranchFile()
    ensures Spelling(Hole("branch")) + (Spelling(Lit("/")) + Spelling(Hole("file"))) == "{branch}/{file}"
  {
  }

  /** The text of a five-piece pattern. */
  lemma SpellFive(ps: seq<Piece>)
    requires |ps| == 5
    ensures Spell(ps) == Spelling(ps[0]) + (Spelling(ps[1]) + (Spelling(ps[2]) + (Spelling(ps[3]) + Spelling(ps[4]))))
  {
    assert Spell(ps[4..]) == Spelling(ps[4]) + Spell(ps[5..]);
    assert Spelling(ps[4]) + "" == Spelling(ps[4]);
    assert Spell(ps[3..]) == Spelling(ps[3]) + Spell(ps[4..]);
    assert Spell(ps[2..]) == Spelling(ps[2]) + Spell(ps[3..]);
    assert Spell(ps[1..]) == Spelling(ps[1]) + Spell(ps[2..]);
    assert Spell(ps) == Spelling(ps[0]) + Spell(ps[1..]);
  }

  /** The layout `infer_url_pattern` picks for a remote host: the four hosted
      forges by name, then GitLab and Gitea instances recognised by their host
      names, and GitHub's layout for every other host. */
  function StyleOf(remote: string): Style {
    if remote == "github.com" then GitHub
    else if remote == "gitlab.com" then GitLab
    else if remote == "codeberg.org" then Gitea
    else if remote == "bitbucket.org" then Bitbucket
    else if IsSuffix(".gitlab.com", remote) || Contains(remote, "gitlab.") then GitLab
    else if Contains(remote, "gitea") then Gitea
    else GitHub
  }

  /** `infer_url_pattern`. */
  function InferUrlPattern(remote: string): (r: string)
    ensures r == Spell(StylePieces(StyleOf(remote)))
  {
    Pattern(StyleOf(remote))
  }

  /** Every subdomain of `gitlab.com` gets GitLab's layout. */
  lemma GitLabSubdomain(sub: string)
    ensures StyleOf(sub + ".gitlab.com") == GitLab
  {
    var host := sub + ".gitlab.com";
    assert host[|host| - 1] == 'm' && host[|host| - 4] == '.';
    assert "codeberg.org"[11] == 'g' && "bitbucket.org"[12] == 'g';
    assert host[|sub|..] == ".gitlab.com";
  }

  /** Any other host whose name holds `gitea` and nothing GitLab-like gets Gitea's
      layout; a host that names neither falls back to GitHub's. */
  lemma SelfHostedStyles(remote: string)
    requires remote !in ["github.com", "gitlab.com", "codeberg.org", "bitbucket.org"]
    requires !IsSuffix(".gitlab.com", remote) && !Contains(remote, "gitlab.")
    ensures StyleOf(remote) == (if Contains(remote, "gitea") then Gitea else GitHub)
  {
  }

  // ---------------------------------------------------------------------------
  // Building a link

  /** The relative path as it appears in a link: `\` becomes `/`. */
  function LinkPath(rel: string): (r: string)
    ensures '\\' !in r
    ensures '{' !in rel ==> '{' !in r
  {
    ReplaceRemoves(rel, '\\', "/");
    ReplaceAvoids(rel, "\\", "/", '{');
    Replace(rel, "\\", "/")
  }

  /** `{base}`, then `{branch}`, then `{file}` replaced, every occurrence, in
      that order. */
  function Substitute(pattern: string, base: string, branch: string, file: string): string {
    Replace(Replace(Replace(pattern, "{base}", base), "{branch}", branch), "{file}", file)
  }

  /** `build_url`: the override pattern, or the host's, filled with the remote
      URL, the override branch or the default one, and the link path. */
  function BuildUrl(info: GitInfo, relPath: string, patternOverride: Option<string>, branchOverride: Option<string>)
    : (r: string)
    ensures patternOverride.Some? ==>
              r == Substitute(patternOverride.value, info.remoteUrl, branchOverride.UnwrapOr(info.defaultBranch), LinkPath(relPath))
    ensures patternOverride.None? ==>
              r == Substitute(Spell(StylePieces(StyleOf(info.remoteHost))), info.remoteUrl,
                              branchOverride.UnwrapOr(info.defaultBranch), LinkPath(relPath))
  {
    var pattern := patternOverride.UnwrapOr(InferUrlPattern(info.remoteHost));
    Substitute(pattern, info.remoteUrl, branchOverride.UnwrapOr(info.defaultBranch), LinkPath(relPath))
  }

  /** A pattern's placeholders are filled in order, each hole by its value, as
      long as neither the pattern's literal text nor the values hold a `{`. */
  lemma SubstituteFills(ps: seq<Piece>, base: string, branch: string, file: string)
    requires WellFormed(ps)
    requires '{' !in base && '{' !in branch && '{' !in file
    ensures Substitute(Spell(ps), base, branch, file)
         == Spell(Fill(Fill(Fill(ps, "base", base), "branch", branch), "file", file))
  {
    assert "{" + "base" + "}" == "{base}" && "{" + "branch" + "}" == "{branch}" && "{" + "file" + "}" == "{file}";
    ReplaceFills(ps, "base", base);
    var p1 := Fill(ps, "base", base);
    ReplaceFills(p1, "branch", branch);
    var p2 := Fill(p1, "branch", branch);
    ReplaceFills(p2, "file", file);
  }

  /** Without a pattern override the link is the remote URL, the host's
      separator, the branch (the override beating the default), `/` and the link
      path. */
  lemma BuildUrlInferred(info: GitInfo, relPath: string, branchOverride: Option<string>)
    requires '{' !in info.remoteUrl && '{' !in branchOverride.UnwrapOr(info.defaultBranch) && '{' !in relPath
    ensures BuildUrl(info, relPath, None, branchOverride)
         == info.remoteUrl + (Separator(StyleOf(info.remoteHost)) + (branchOverride.UnwrapOr(info.defaultBranch) + ("/" + LinkPath(relPath))))
  {
    var ps := StylePieces(StyleOf(info.remoteHost));
    var branch := branchOverride.UnwrapOr(info.defaultBranch);
    SubstituteFills(ps, info.remoteUrl, branch, LinkPath(relPath));
    var filled := Fill(Fill(Fill(ps, "base", info.remoteUrl), "branch", branch), "file", LinkPath(relPath));
    assert filled == [Lit(info.remoteUrl), Lit(Separator(StyleOf(info.remoteHost))), Lit(branch), Lit("/"), Lit(LinkPath(relPath))];
    SpellFive(filled);
  }

  // ---------------------------------------------------------------------------
  // Recovering the repository base

  /** The separators `extract_base_url` tries, in its order. */
  const SEPARATORS: seq<string> := ["/blob/", "/-/blob/", "/src/", "/src/branch/"]

  /** The text before the first occurrence of the first separator, taken in
      list order, that occurs at all. */
  function ExtractWith(full: string, separators: seq<string>): (r: Option<string>)
    decreases |separators|
    ensures r.None? <==> forall k :: 0 <= k < |separators| ==> !Contains(full, separators[k])
    ensures r.Some? ==> exists k :: 0 <= k < |separators|
                           && (forall j :: 0 <= j < k ==> !Contains(full, separators[j]))
                           && Find(full, separators[k]).Some?
                           && r.value == full[..Find(full, separators[k]).value]
  {
    if |separators| == 0 then None
    else
      match Find(full, separators[0])
      case Some(pos) => Some(full[..pos])
      case None =>
        var r := ExtractWith(full, separators[1..]);
        assert forall k :: 1 <= k < |separators| ==> separators[k] == separators[1..][k - 1];
        assert r.Some? ==> exists k :: 0 <= k < |separators|
                              && (forall j :: 0 <= j < k ==> !Contains(full, separators[j]))
                              && Find(full, separators[k]).Some?
                              && r.value == full[..Find(full, separators[k]).value] by {
          if r.Some? {
            var k :| 0 <= k < |separators[1..]|
                     && (forall j :: 0 <= j < k ==> !Contains(full, separators[1..][j]))
                     && Find(full, separators[1..][k]).Some?
                     && r.value == full[..Find(full, separators[1..][k]).value];
            assert separators[k + 1] == separators[1..][k];
          }
        }
        r
  }

  /** `extract_base_url`. */
  function ExtractBaseUrl(full: string): (r: Option<string>)
    ensures r.Some? ==> IsPrefix(r.value, full)
    ensures r.None? <==> forall k :: 0 <= k < |SEPARATORS| ==> !Contains(full, SEPARATORS[k])
  {
    ExtractWith(full, SEPARATORS)
  }

  /** A separator written right after `pre` is found there, unless it already
      occurs in `pre` or straddles its end. */
  lemma FindAfter(pre: string, p: string, rest: string)
    requires |p| > 0 && !Contains(pre + p[..|p| - 1], p)
    ensures Find(pre + (p + rest), p) == Some(|pre|)
  {
    var s := pre + (p + rest);
    var t := pre + p[..|p| - 1];
    assert s[|pre|..|pre| + |p|] == p;
    assert OccursAt(s, p, |pre|);
    forall j: nat | j < |pre| ensures !OccursAt(s, p, j) {
      assert s[j..j + |p|] == t[j..j + |p|];
      assert !OccursAt(t, p, j);
    }
  }

  /** Text that holds `a + p` holds `p`. */
  lemma ContainsTail(s: string, a: string, p: string)
    ensures Contains(s, a + p) ==> Contains(s, p)
  {
    if Contains(s, a + p) {
      var i: nat :| i <= |s| && OccursAt(s, a + p, i);
      assert s[i + |a|..i + |a| + |p|] == (a + p)[|a|..];
      assert OccursAt(s, p, i + |a|);
    }
  }

  /** The first separator in the list that occurs decides. */
  lemma ExtractFirst(full: string, separators: seq<string>)
    requires |separators| > 0 && Find(full, separators[0]).Some?
    ensures ExtractWith(full, separators) == Some(full[..Find(full, separators[0]).value])
  {
  }

  /** A separator that does not occur is passed over. */
  lemma ExtractSkip(full: string, separators: seq<string>)
    requires |separators| > 0 && !Contains(full, separators[0])
    ensures ExtractWith(full, separators) == ExtractWith(full, separators[1..])
  {
  }

  /** A link whose base is unambiguous for its layout: nothing before the
      separator the layout writes looks like a separator tried earlier or like
      that separator itself. */
  predicate Unambiguous(style: Style, base: string, full: string) {
    match style
    case GitHub => !Contains(base + "/blob", "/blob/") && !Contains(full, "/-/blob/")
    case GitLab => !Contains(base + "/-/blob", "/blob/")
    case Gitea => !Contains(full, "/blob/") && !Contains(base + "/src", "/src/")
    case Bitbucket => !Contains(full, "/blob/") && !Contains(base + "/src", "/src/")
  }

  /** In a Gitea or Bitbucket link, `/src/` right after the base is found there. */
  lemma FindSrc(style: Style, base: string, rest: string)
    requires style == Gitea || style == Bitbucket
    requires !Contains(base + "/src", "/src/")
    ensures Find(base + (Separator(style) + rest), "/src/") == Some(|base|)
  {
    assert "/src/"[..4] == "/src";
    if style == Gitea {
      assert Separator(style) + rest == "/src/" + ("branch/" + rest);
      FindAfter(base, "/src/", "branch/" + rest);
    } else {
      FindAfter(base, "/src/", rest);
    }
  }

  /** What `extract_base_url` recovers from a link of each layout: the base for
      GitHub, Gitea and Bitbucket links, but the base followed by `/-` for GitLab
      links, because `/blob/` is tried before `/-/blob/`. */
  lemma ExtractAfterBuild(style: Style, base: string, rest: string)
    requires Unambiguous(style, base, base + (Separator(style) + rest))
    ensures ExtractBaseUrl(base + (Separator(style) + rest)) == Some(if style == GitLab then base + "/-" else base)
  {
    var full := base + (Separator(style) + rest);
    assert "/blob/"[..5] == "/blob";
    match style
    case GitHub =>
      FindAfter(base, "/blob/", rest);
      ExtractFirst(full, SEPARATORS);
    case GitLab =>
      assert full == (base + "/-") + ("/blob/" + rest);
      assert (base + "/-") + "/blob/"[..5] == base + "/-/blob";
      FindAfter(base + "/-", "/blob/", rest);
      ExtractFirst(full, SEPARATORS);
      assert full[..|base| + 2] == base + "/-";
    case _ =>
      ContainsTail(full, "/-", "/blob/");
      assert "/-" + "/blob/" == "/-/blob/";
      ExtractSkip(full, SEPARATORS);
      ExtractSkip(full, SEPARATORS[1..]);
      FindSrc(style, base, rest);
      ExtractFirst(full, SEPARATORS[2..]);
  }

  /** `/-/blob/` is never the separator that decides: any text holding it holds
      `/blob/`, which is tried first. Dropping it from the list changes nothing. */
  lemma GitLabSeparatorIsDead(full: string)
    ensures ExtractBaseUrl(full) == ExtractWith(full, ["/blob/", "/src/", "/src/branch/"])
  {
    var shorter := ["/blob/", "/src/", "/src/branch/"];
    if Find(full, "/blob/").Some? {
      ExtractFirst(full, SEPARATORS);
      ExtractFirst(full, shorter);
    } else {
      ContainsTail(full, "/-", "/blob/");
      assert "/-" + "/blob/" == "/-/blob/";
      ExtractSkip(full, SEPARATORS);
      ExtractSkip(full, SEPARATORS[1..]);
      ExtractSkip(full, shorter);
      assert SEPARATORS[2..] == shorter[1..];
    }
  }

  /** A concrete GitLab link whose recovered base keeps a trailing `/-`. */
  lemma GitLabBaseKeepsDash(full: string)
    requires full == "r" + ("/-/blob/" + "m/f")
    ensures ExtractBaseUrl(full) == Some("r" + "/-") && "r" + "/-" != "r"
  {
    NoBlobIn("r" + "/-/blob");
    ExtractAfterBuild(GitLab, "r", "m/f");
  }

  /** `r/-/blob` does not hold `/blob/`. */
  lemma NoBlobIn(t: string)
    requires t == "r" + "/-/blob"
    ensures !Contains(t, "/blob/")
  {
    forall i: nat | i <= |t| ensures !OccursAt(t, "/blob/", i) {
      if i + 6 <= |t| {
        assert t[i..i + 6][1] == t[i + 1];
        assert t[1] == '/' && t[2] == '-' && t[3] == '/';
      }
    }
  }

  /** The separators in the order that recovers the base of every layout: the
      GitLab separator before the GitHub one it contains. */
  const ORDERED_SEPARATORS: seq<string> := ["/-/blob/", "/blob/", "/src/", "/src/branch/"]

  /** `extract_base_url` with the GitLab separator tried first. */
  function ExtractBaseUrlOrdered(full: string): (r: Option<string>)
    ensures r.Some? ==> IsPrefix(r.value, full)
    ensures r.None? <==> forall k :: 0 <= k < |ORDERED_SEPARATORS| ==> !Contains(full, ORDERED_SEPARATORS[k])
  {
    ExtractWith(full, ORDERED_SEPARATORS)
  }

  /** With the GitLab separator first, every layout's link gives back its base. */
  lemma ExtractOrderedAfterBuild(style: Style, base: string, rest: string)
    requires Unambiguous(style, base, base + (Separator(style) + rest))
    ensures ExtractBaseUrlOrdered(base + (Separator(style) + rest)) == Some(base)
  {
    var full := base + (Separator(style) + rest);
    assert "/blob/"[..5] == "/blob";
    match style
    case GitHub =>
      FindAfter(base, "/blob/", rest);
      ExtractSkip(full, ORDERED_SEPARATORS);
      ExtractFirst(full, ORDERED_SEPARATORS[1..]);
    case GitLab =>
      ContainsTail(base + "/-/blob", "/-", "/blob/");
      assert "/-" + "/blob/" == "/-/blob/" && "/-/blob/"[..7] == "/-/blob";
      FindAfter(base, "/-/blob/", rest);
      ExtractFirst(full, ORDERED_SEPARATORS);
    case _ =>
      ContainsTail(full, "/-", "/blob/");
      assert "/-" + "/blob/" == "/-/blob/";
      ExtractSkip(full, ORDERED_SEPARATORS);
      ExtractSkip(full, ORDERED_SEPARATORS[1..]);
      FindSrc(style, base, rest);
      ExtractFirst(full, ORDERED_SEPARATORS[2..]);
  }

  // ---------------------------------------------------------------------------
  // The special fields of a render

  /** The links a template sees under `special`. */
  datatype Special = Special(upstreamFile: Option<string>, upstreamRepo: Option<string>)

  /** `build_upstream` (`basel/src/render.rs`): no repository gives no links;
      otherwise the file's link and the base `extract_base_url` recovers from it,
      with the separators in the source's order. */
  function BuildSpecial(repo: Option<(GitInfo, string)>, patternOverride: Option<string>, branchOverride: Option<string>)
    : (r: Special)
    ensures repo.None? ==> r == Special(None, None)
    ensures repo.Some? ==> r.upstreamFile == Some(BuildUrl(repo.value.0, repo.value.1, patternOverride, branchOverride))
    ensures r.upstreamRepo.Some? ==> r.upstreamFile.Some? && IsPrefix(r.upstreamRepo.value, r.upstreamFile.value)
  {
    match repo
    case None => Special(None, None)
    case Some((info, rel)) =>
      var url := BuildUrl(info, rel, patternOverride, branchOverride);
      Special(Some(url), ExtractBaseUrl(url))
  }

  /** Without overrides, a rendered file's repository link is the remote URL
      itself on GitHub, Gitea and Bitbucket layouts; on a GitLab layout it keeps
      a trailing `/-`, because `/blob/` is tried before `/-/blob/`. */
  lemma RepoLinkIsRemote(info: GitInfo, rel: string)
    requires '{' !in info.remoteUrl && '{' !in info.defaultBranch && '{' !in rel
    requires var style := StyleOf(info.remoteHost);
             Unambiguous(style, info.remoteUrl, info.remoteUrl + (Separator(style) + (info.defaultBranch + ("/" + LinkPath(rel)))))
    ensures StyleOf(info.remoteHost) != GitLab ==>
              BuildSpecial(Some((info, rel)), None, None).upstreamRepo == Some(info.remoteUrl)
    ensures StyleOf(info.remoteHost) == GitLab ==>
              BuildSpecial(Some((info, rel)), None, None).upstreamRepo == Some(info.remoteUrl + "/-")
  {
    BuildUrlInferred(info, rel, None);
    ExtractAfterBuild(StyleOf(info.remoteHost), info.remoteUrl, info.defaultBranch + ("/" + LinkPath(rel)));
  }

  /** `BuildSpecial` with the corrected separator order of `ExtractBaseUrlOrdered`. */
  function BuildSpecialOrdered(repo: Option<(GitInfo, string)>, patternOverride: Option<string>,
                               branchOverride: Option<string>): (r: Special)
    ensures repo.None? ==> r == Special(None, None)
    ensures repo.Some? ==> r.upstreamFile == Some(BuildUrl(repo.value.0, repo.value.1, patternOverride, branchOverride))
    ensures r.upstreamRepo.Some? ==> r.upstreamFile.Some? && IsPrefix(r.upstreamRepo.value, r.upstreamFile.value)
  {
    match repo
    case None => Special(None, None)
    case Some((info, rel)) =>
      var url := BuildUrl(info, rel, patternOverride, branchOverride);
      Special(Some(url), ExtractBaseUrlOrdered(url))
  }

  /** With the corrected order, the repository link is the remote URL itself,
      whatever forge layout the host uses. */
  lemma RepoLinkIsRemoteOrdered(info: GitInfo, rel: string)
    requires '{' !in info.remoteUrl && '{' !in info.defaultBranch && '{' !in rel
    requires var style := StyleOf(info.remoteHost);
             Unambiguous(style, info.remoteUrl, info.remoteUrl + (Separator(style) + (info.defaultBranch + ("/" + LinkPath(rel)))))
    ensures BuildSpecialOrdered(Some((info, rel)), None, None).upstreamRepo == Some(info.remoteUrl)
  {
    BuildUrlInferred(info, rel, None);
    ExtractOrderedAfterBuild(StyleOf(info.remoteHost), info.remoteUrl, info.defaultBranch + ("/" + LinkPath(rel)));
  }
}

=== FILE: variants.dfy ===
/** Variant naming shared by the role and slot vocabularies: a name such as
    `accent_popup` is a variant of the base name before its last `_`, and a name
    without `_` is a base name. */
module Variants {
  import opened Strings

  const VARIANT_SEPARATOR: char := '_'

  /** `rsplit_once('_')`, keeping the part before the separator; the whole name when
      there is no separator. */
  function ExtractBase(name: string): (b: string)
    ensures VARIANT_SEPARATOR !in name ==> b == name
    ensures VARIANT_SEPARATOR in name ==>
              && |b| < |name|
              && name[..|b|] == b
              && name[|b|] == VARIANT_SEPARATOR
              && VARIANT_SEPARATOR !in name[|b| + 1..]
  {
    match RSplitOnce(name, VARIANT_SEPARATOR)
    case Some((base, rest)) =>
      assert name[|base| + 1..] == rest;
      base
    case None => name
  }

  /** A base name is its own base. */
  predicate IsBase(name: string) {
    ExtractBase(name) == name
  }

  /** A name is a base name exactly when it holds no separator. */
  lemma IsBaseIffNoSeparator(name: string)
    ensures IsBase(name) <==> VARIANT_SEPARATOR !in name
  {
  }

  /** The base is determined by the cut at the last separator: for `b + "_" + s` with
      no separator in `s`, the base is `b`. */
  lemma VariantBase(name: string, base: string, suffix: string)
    requires name == base + [VARIANT_SEPARATOR] + suffix
    requires VARIANT_SEPARATOR !in suffix
    ensures ExtractBase(name) == base
  {
    assert name[|base|] == VARIANT_SEPARATOR;
    assert name[|base| + 1..] == suffix;
  }

  /** A table entry without a separator: a base name. */
  lemma Plain(name: string)
    requires VARIANT_SEPARATOR !in name
    ensures IsBase(name)
  {
  }

  /** A table entry `base_suffix` whose base holds no separator: it is not a base
      name, and its base is `base`, which is. */
  lemma Variant(name: string, base: string, suffix: string)
    requires name == base + "_" + suffix
    requires VARIANT_SEPARATOR !in base && VARIANT_SEPARATOR !in suffix
    ensures !IsBase(name) && ExtractBase(name) == base && IsBase(base)
  {
    VariantBase(name, base, suffix);
  }

  /** Every variant in `table` has its base in `table`, and that base is a base name. */
  predicate BasesPresent(table: seq<string>) {
    forall r :: r in table && !IsBase(r) ==> ExtractBase(r) in table && IsBase(ExtractBase(r))
  }

  /** Entry `i` of `table` is a base name, or its base is an entry that is one. */
  predicate BaseAt(table: seq<string>, i: nat)
    requires i < |table|
  {
    IsBase(table[i])
    || exists j :: 0 <= j < |table| && ExtractBase(table[i]) == table[j] && IsBase(table[j])
  }

  /** The table property follows from checking the entries one index at a time. */
  lemma BasesPresentFromEntries(table: seq<string>)
    requires forall i | 0 <= i < |table| :: BaseAt(table, i)
    ensures BasesPresent(table)
  {
    forall r | r in table && !IsBase(r)
      ensures ExtractBase(r) in table && IsBase(ExtractBase(r))
    {
      var i :| 0 <= i < |table| && table[i] == r;
      assert BaseAt(table, i);
    }
  }

  /** Two tables closed under taking bases stay closed when concatenated. */
  lemma BasesPresentAppend(a: seq<string>, b: seq<string>)
    requires BasesPresent(a) && BasesPresent(b)
    ensures BasesPresent(a + b)
  {
  }

  /** `table.iter().filter(is_base)`: the base names of `table`, in table order. */
  function Bases(table: seq<string>): (r: seq<string>)
    ensures |r| <= |table|
    ensures forall x :: x in r ==> x in table && IsBase(x)
    ensures forall x :: x in table && IsBase(x) ==> x in r
  {
    if |table| == 0 then []
    else (if IsBase(table[0]) then [table[0]] else []) + Bases(table[1..])
  }

  /** Filtering commutes with concatenation, so the table's order is kept. */
  lemma {:induction false} BasesAppend(a: seq<string>, b: seq<string>)
    ensures Bases(a + b) == Bases(a) + Bases(b)
  {
    if |a| > 0 {
      var head := if IsBase(a[0]) then [a[0]] else [];
      assert (a + b)[0] == a[0];
      assert (a + b)[1..] == a[1..] + b;
      BasesAppend(a[1..], b);
      assert Bases(a + b) == head + Bases(a[1..] + b);
      assert Bases(a) == head + Bases(a[1..]);
    } else {
      assert a + b == b;
    }
  }
}

=== FILE: wrappers.dfy ===
/** Option and Result, the two failure-carrying shapes the tool's Rust code returns
    everywhere (`Option<T>` and `Result<T, E>`). Both work with Dafny's `:-`. */
module Wrappers {

  datatype Option<+T> = None | Some(value: T) {
    predicate IsFailure() { None? }

    function PropagateFailure<U>(): Option<U>
      requires None?
    {
      None
    }

    function Extract(): T
      requires Some?
    {
      value
    }

    /** Rust's `Option::unwrap_or`. */
    function UnwrapOr(default: T): T {
      if Some? then value else default
    }

    /** Rust's `Option::or`: this value if present, else `other`. */
    function Or(other: Option<T>): Option<T> {
      if Some? then this else other
    }

    /** Rust's `Option::ok_or`: the value as `Ok`, or `Err(err)` when absent. */
    function OkOr<E>(err: E): Result<T, E> {
      if Some? then Ok(value) else Err(err)
    }
  }

  datatype Result<+T, +E> = Ok(value: T) | Err(error: E) {
    predicate IsFailure() { Err? }

    function PropagateFailure<U>(): Result<U, E>
      requires Err?
    {
      Err(error)
    }

    function Extract(): T
      requires Ok?
    {
      value
    }
  }

  /** Rust's `iter().map(f).collect::<Result<Vec<_>, _>>()`: every value in order,
      or the first error. */
  function Traverse<X, Y, E(==)>(xs: seq<X>, f: X -> Result<Y, E>): (r: Result<seq<Y>, E>)
    ensures r.Ok? <==> forall i :: 0 <= i < |xs| ==> f(xs[i]).Ok?
    ensures r.Ok? ==> |r.value| == |xs| && forall i :: 0 <= i < |xs| ==> r.value[i] == f(xs[i]).value
    ensures r.Err? ==> exists i :: 0 <= i < |xs| && f(xs[i]).Err? && f(xs[i]).error == r.error
                                   && forall j :: 0 <= j < i ==> f(xs[j]).Ok?
  {
    if |xs| == 0 then Ok([])
    else
      match f(xs[0])
      case Err(e) => Err(e)
      case Ok(y) =>
        var rest := Traverse(xs[1..], f);
        assert forall i :: 1 <= i < |xs| ==> xs[i] == xs[1..][i - 1];
        if rest.Err? then
          assert exists i :: 0 <= i < |xs| && f(xs[i]).Err? && f(xs[i]).error == rest.error
                             && forall j :: 0 <= j < i ==> f(xs[j]).Ok? by {
            var i :| 0 <= i < |xs[1..]| && f(xs[1..][i]).Err? && f(xs[1..][i]).error == rest.error
                     && forall j :: 0 <= j < i ==> f(xs[1..][j]).Ok?;
            assert xs[i + 1] == xs[1..][i];
          }
          Err(rest.error)
        else
          Ok([y] + rest.value)
  }

  /** The same success condition, stated over the members of `xs`. */
  lemma TraverseOkMembers<X, Y, E>(xs: seq<X>, f: X -> Result<Y, E>)
    ensures Traverse(xs, f).Ok? <==> forall x :: x in xs ==> f(x).Ok?
  {
    assert Traverse(xs, f).Ok? <== forall x :: x in xs ==> f(x).Ok?;
  }
}
